=== FILE: README.md ===
# dopamine-detox-backend: a verified model of the task, sync and subscription core

This project models, in Dafny, the decision logic of the dopamine-detox
backend: the cache-first daily task store and the worker that replays its
mutations into PostgreSQL, the task business rules (one high-priority task
per day, batch create and update, the day pills, the celebration message),
the RevenueCat subscription state machine with its endpoint guards and
nightly downgrade jobs, and the small rules around them (feature gating,
journal quota, fixed-window rate limiting, input validators, the audio
session store, journal pagination, cache keys and derived settings).

Redis, PostgreSQL and HTTP are plain Dafny state: a Redis hash is a
`map<string, Doc>`, a table is a `map` or `seq` of row values, a stream is a
`seq` of entries with a pending list, a counter is an `int`. Dates are
proleptic day ordinals (Python's `date.toordinal()`), timestamps are
integer milliseconds, UUIDs are opaque strings. Everything the source
reads from the clock (`date.today()`, `datetime.now()`, the monotonic
clock) is a parameter. Whether a backend call fails is a parameter or an
`online` field; the failure value the source returns is then specified.

Module layout follows the source files:

| module | models |
|---|---|
| `Wrappers`, `Json`, `Text`, `Sorting` | `Option`/`Result`, decoded JSON values with `dict.get`/`dict.update`, string helpers, Python's stable `list.sort` |
| `TaskModel` | app/models/task.py |
| `TaskCache`, `SyncStream` | app/services/task_cache.py |
| `SyncWorker` | app/services/sync_worker.py |
| `TaskService` | app/services/task_service.py |
| `Cache` | app/services/cache.py |
| `Subscriptions` | app/models/subscription.py |
| `RevenueCat` | app/services/revenuecat.py |
| `SubscriptionApi` | app/api/v1/subscription.py |
| `ScheduledJobs` | app/services/scheduled_jobs.py |
| `FeatureLimits`, `FeaturesApi` | app/core/feature_limits.py, app/api/v1/features.py |
| `RateLimit` | app/core/rate_limit.py |
| `Validators` | app/utils/validators.py |
| `AudioSessions` | app/services/audio_session_store.py |
| `Journal` | app/services/journal_service.py |
| `Config` | app/config.py |

Objects whose fields the source updates in place are classes with
`modifies` clauses: `TaskCache.TaskCacheService` (the data and meta
hashes and the sync stream), `SyncWorker.TaskSyncWorker` (stream, pending
list, dead-letter stream, table), `TaskService.TaskStore` (the tasks
table), `Subscriptions.SubscriptionStore` (subscriptions and their
history), `RateLimit.RateLimiter`, `Cache.CacheManager`,
`AudioSessions.AudioSession` and `AudioSessionStore`, and
`Journal.JournalEntry`. The loops of the source are methods with loop
invariants, each proved against a specification function whose properties
are lemmas: `TaskCache.PutEach` and `CountCompleted`, `SyncWorker.DeliverRange`,
`Sweep` and `TaskSyncWorker.Run`, `TaskService.BuildBatch`, `CountHighUpdates`,
`FindMissing`, `FindFirstHigh`, `ApplyEach`, `SplitDaily` and
`GroupByCategory`, `RevenueCat.HasActiveEntitlement` and `SelectProduct`,
`ScheduledJobs.DowngradeRows`, `Journal.MoodDistribution` and
`AudioSessions.AudioSessionStore.CleanupPass`.

Where the documentation and the code disagree the model follows the code.
The sync worker's module docstring (app/services/sync_worker.py:15-19) says a
failed message is retried on the next iteration and dead-lettered after
`MAX_RETRIES` deliveries. The loop only reads new messages (`">"`,
app/services/sync_worker.py:170-176), and `_reclaim_pending` only dead-letters
records whose count is already high, so a failed message stays pending with
one delivery and is never handled again. `SyncWorker.TaskSyncWorker.Run`
states this outcome.

## Model

| member | source | states |
|---|---|---|
| TaskModel.ParseCategory | app/models/task.py:38-44 | `TaskCategory(v)` finds the member whose value is `v`, and fails exactly when no member has that value |
| TaskModel.ParseStatus | app/models/task.py:47-52 | the same for the four statuses |
| TaskModel.ParsePriority | app/models/task.py:55-59 | the same for high, medium and low |
| TaskModel.ParseIcon | app/models/task.py:62-69 | the same for the six icon types |
| TaskModel.EnumNamesRoundTrip | app/models/task.py:38-69 | every enum member is found again from its own value, so the values are distinct |
| TaskModel.MarkComplete | app/models/task.py:255-257 | the status becomes completed and no other field changes |
| TaskModel.MarkIncomplete | app/models/task.py:259-261 | the status becomes pending and no other field changes |
| TaskModel.NewTask | app/models/task.py:195-222 | a new task carries the column defaults: category other, priority medium, 25 minutes, default icon, pending, order 0, no subtitle, description or due date |
| TaskModel.ToApiDict | app/models/task.py:263-286 | exactly the API keys; task_id becomes "id", due_date becomes "date" (null when absent), enums become their values; no "orderIndex" and no "description" key |
| TaskModel.CountCompleted | app/models/task.py:144-149 | the completed count is at most the task count, and equals it exactly when every task is completed |
| TaskModel.CompletionPercentage | app/models/task.py:143-149 | 0 for a plan without tasks, otherwise between 0 and 100, and 100 exactly when every task is completed |
| TaskModel.Weekday | app/services/task_cache.py:180 | Python's `date.weekday()` on an ordinal lies in 0..6 |
| TaskModel.SummaryFor | app/services/task_cache.py:177-190 | a day pill carries its date and counts; it is "Today" exactly on today's date, and completed exactly when it has tasks and all are completed |
| TaskModel.DaySummaries | app/services/task_cache.py:165-190 | `numDays` pills (none for a non-positive count), pill i dated ref − i and carrying that date's counts, 0 when unrecorded |
| TaskModel.SummaryEntryFacts | app/services/task_cache.py:176-190 | any single pill of the list has date ref − i, its day's total, the "Today" label iff its date is today and the completed flag iff total > 0 and all done |
| Json.Get | app/services/task_cache.py:96-97 | `d.get(key)`: the member when present, null otherwise |
| Json.Merge | app/services/task_cache.py:294 | `d.update(u)`: the keys of both, members of `u` winning, the others kept |
| Sorting.InsertBy | app/services/task_cache.py:94-99 | one insertion step of the sort: the input plus the element, one longer |
| Sorting.KeyLeTotal | app/services/task_cache.py:94-99 | the tuple order of (rank, orderIndex) keys is total |
| Sorting.KeyLeTrans | app/services/task_cache.py:94-99 | the key order is transitive |
| Sorting.KeyLeAntisym | app/services/task_cache.py:94-99 | two keys each at most the other are the same key |
| Sorting.TextLeTotal | app/services/task_cache.py:97-99 | Python's string order is total |
| Sorting.TextLeTrans | app/services/task_cache.py:97-99 | Python's string order is transitive |
| Sorting.TextLeAntisym | app/services/task_cache.py:97-99 | two strings each at most the other are equal |
| Sorting.WithKey | app/services/task_cache.py:94-99 | the elements of one key, taken from the list |
| Sorting.InsertBySorted | app/services/task_cache.py:94-99 | inserting into a sorted list keeps it sorted and adds only that element |
| Sorting.InsertByWithKey | app/services/task_cache.py:94-99 | into a sorted list an element goes after every element of its own key: each key's elements keep their order |
| Sorting.SortBy | app/services/task_cache.py:94-99 | Python's stable sort: a permutation of the input, sorted by the key, in which the elements of each key keep their input order |
| Sorting.AllTiedUnchanged | app/services/task_cache.py:94-99 | a list whose keys all tie comes back unchanged |
| TaskCache.Rank | app/services/task_cache.py:93-96 | the priority rank is 0 exactly for "high", 2 exactly for "low", and 1 for medium, any other value or a missing priority |
| TaskCache.DataKey | app/services/task_cache.py:43-44 | `_data_key` lies under "tasks:data:" |
| TaskCache.IdOf | app/services/task_cache.py:253 | a record's hash field is its "id" as the Redis client encodes a field name: a string as it is, an integer as its decimal text; a missing id, null or bool has none |
| TaskCache.MetaKey | app/services/task_cache.py:47-48 | `_meta_key` lies under "tasks:meta:" and is never a data key |
| TaskCache.OrderKey | app/services/task_cache.py:97 | `t.get("orderIndex", 0)`: 0 when absent, the integer, the text or null as stored, each in its own comparison group |
| TaskCache.Collect | app/services/task_cache.py:85-91 | the decoded records in the order the fields are listed, the sentinel and non-objects skipped: at most one per listed field |
| TaskCache.ReadTasks | app/services/task_cache.py:80-103 | None exactly when the hash is empty or two records of one rank hold orderIndex values Python cannot compare (the sort raises and the error is caught); otherwise a permutation of the stored records, sorted by rank and then orderIndex, with tied records in the order the backend lists them |
| TaskCache.Clash | app/services/task_cache.py:94-103 | the sort raises exactly when two records of one rank hold orderIndex values of different comparison groups |
| TaskCache.TiesKeepBackendOrder | app/services/task_cache.py:94-99 | records whose keys all tie, as cached records without orderIndex of one priority do, come back in the backend's order |
| TaskCache.CollectIsRecords | app/services/task_cache.py:85-91 | the records read are exactly the records of the hash, each once |
| TaskCache.CollectFromRecords | app/services/task_cache.py:85-91 | everything read is a stored record |
| TaskCache.HydratedEmptyReadsEmpty | app/services/task_cache.py:386-389 | a day hydrated with no tasks holds only the sentinel and reads as `[]`, not as a miss |
| TaskCache.FirstHigh | app/services/task_cache.py:140-146 | the first record, in backend order, whose priority is "high", or None when no record is high |
| TaskCache.PutAll | app/services/task_cache.py:252-253 | after storing each record under its id the hash holds the old fields plus every record id |
| TaskCache.CountCompletedRecords | app/services/task_cache.py:256 | the number of records with status "completed" is at most the number of records |
| TaskCache.HydrateHash | app/services/task_cache.py:373-389 | the data hash hydration leaves is the sentinel alone exactly when the list is empty |
| TaskCache.UpdatedRecord | app/services/task_cache.py:293-296 | the merged record has the keys of both plus "updatedAt"; updates win, other members are kept, "updatedAt" is now even when supplied |
| TaskCache.UpdateDeltaTracksCompletion | app/services/task_cache.py:302-306 | the completed counter moves by +1 exactly when the status enters "completed", by −1 when it leaves it, and 0 otherwise |
| TaskCache.RecordIdsPut | app/services/task_cache.py:220-221 | storing a record adds its id to the stored ids, and to the completed ids exactly when it is completed |
| TaskCache.RecordIdsRemove | app/services/task_cache.py:336 | removing a field removes it from the stored and completed ids |
| TaskCache.HydrateConsistent | app/services/task_cache.py:373-389 | hydration with distinct ids leaves exactly the given records keyed by id and counters that agree with them |
| TaskCache.PutOneConsistent | app/services/task_cache.py:220-224 | storing a new record counts it once in total and, if completed, once in completed |
| TaskCache.ReplaceConsistent | app/services/task_cache.py:299-306 | replacing a cached record moves the completed count by its change in completedness |
| TaskCache.UpdateKeepsConsistent | app/services/task_cache.py:288-306 | `update_task` on a cached record keeps the counters consistent with the records |
| TaskCache.SetFreshKeepsConsistent | app/services/task_cache.py:219-224 | `set_task` on an id not yet cached keeps the counters consistent |
| TaskCache.SetExistingBreaksTotal | app/services/task_cache.py:222 | `set_task` on an id already cached raises total anyway, so the counters no longer agree |
| TaskCache.DeletePresentKeepsConsistent | app/services/task_cache.py:336-339 | `delete_task` of a cached record, told its true completedness, keeps the counters consistent |
| TaskCache.PutEach | app/services/task_cache.py:252-253 | the pipeline loop stores every record under its id as the client encodes it (an integer as its decimal text); a record with a missing, null or bool id fails before anything is sent |
| TaskCache.CountCompleted | app/services/task_cache.py:381-383 | the counting loop returns the number of completed records |
| TaskCache.TaskCacheService.constructor | app/services/task_cache.py:55-61 | empty hashes and stream |
| TaskCache.TaskCacheService.GetTasksForDate | app/services/task_cache.py:65-103 | None exactly when the backend is down, the hash is empty or the sort raises; otherwise the stored records as a stable sorted permutation: sorted by rank then orderIndex, ties in backend order |
| TaskCache.TaskCacheService.GetTask | app/services/task_cache.py:105-121 | the value under the id, None when absent, null or the backend is down |
| TaskCache.TaskCacheService.GetHighPriorityTask | app/services/task_cache.py:123-149 | a returned record is high and stored; None on a reachable backend means no stored record is high |
| TaskCache.TaskCacheService.MetaCounts | app/services/task_cache.py:170-178 | the counters read for each day are that day's meta hash |
| TaskCache.TaskCacheService.GetDaySummaries | app/services/task_cache.py:151-195 | None exactly when the backend is down; otherwise `numDays` pills dated ref, ref − 1, … with their day's counters |
| TaskCache.TaskCacheService.IsHydrated | app/services/task_cache.py:399-415 | None when down; true exactly when the data hash is non-empty, and a non-hydrated day reads as a miss |
| TaskCache.TaskCacheService.SetTask | app/services/task_cache.py:199-231 | the record is stored and the sentinel dropped; total rises by 1 unconditionally and completed by 1 iff the record is completed; nothing else changes |
| TaskCache.TaskCacheService.SetTasksBatch | app/services/task_cache.py:233-266 | every record stored under its id, sentinel dropped, total raised by the count and completed by the completed count; a record whose id is missing, null or a bool changes nothing |
| TaskCache.TaskCacheService.UpdateTask | app/services/task_cache.py:268-314 | an absent id returns None and writes nothing; otherwise the merged record is returned and written, and completed moves by the status change while total is untouched |
| TaskCache.TaskCacheService.DeleteTask | app/services/task_cache.py:316-346 | the field is removed and total and (when told so) completed are lowered, whether the field was present or not |
| TaskCache.TaskCacheService.HydrateFromDb | app/services/task_cache.py:350-397 | both hashes are replaced: the records by id, string or integer (or the sentinel), and counters equal to the list's length and completed count |
| TaskCache.TaskCacheService.EnqueueSync | app/services/task_cache.py:419-448 | one entry, the op with its encoded payload, is appended to the stream; the hashes are untouched |
| Cache.UserAuth | app/services/cache.py:281-283 | the id follows the prefix "cache:user:auth:" and nothing else |
| Cache.Profile | app/services/cache.py:286-288 | the id follows the prefix "cache:profile:" and nothing else |
| Cache.Subscription | app/services/cache.py:291-293 | the id follows the prefix "cache:subscription:" and nothing else |
| Cache.SubscriptionStatus | app/services/cache.py:296-298 | the id follows the prefix "cache:subscription:status:" and nothing else |
| Cache.TasksToday | app/services/cache.py:301-303 | the id follows the prefix "cache:tasks:today:" and nothing else |
| Cache.DailyTasks | app/services/cache.py:306-308 | the user id and the date under "cache:tasks:daily:", the id followed by ":" and the date |
| Cache.TaskPlan | app/services/cache.py:311-313 | the id follows the prefix "cache:tasks:plan:" and nothing else |
| Cache.JournalRecent | app/services/cache.py:316-318 | the id follows the prefix "cache:journal:recent:" and nothing else |
| Cache.JournalEntry | app/services/cache.py:321-323 | the id follows the prefix "cache:journal:entry:" and nothing else |
| Cache.JournalList | app/services/cache.py:326-328 | a page key lies under the user's listing prefix, which the journal invalidation deletes |
| Cache.JournalListInjective | app/services/cache.py:326-328 | one user's listings of distinct pages or distinct filters have distinct keys |
| Cache.JournalLimit | app/services/cache.py:331-333 | the user id and the month under "cache:journal:limit:", the id followed by ":" and the month |
| Cache.Packages | app/services/cache.py:336-338 | the id follows the prefix "cache:subscription:packages:" and nothing else |
| Cache.TaskCompleteKeys | app/services/cache.py:366-369 | the two keys a task completion deletes, both present and distinct |
| Cache.ProfileUpdateKeys | app/services/cache.py:378-381 | the profile and user_auth keys, distinct |
| Cache.SubscriptionChangeKeys | app/services/cache.py:384-389 | the profile-update keys plus the subscription and status keys: four distinct keys for ids without ':' |
| Cache.TaskData | app/services/cache.py:343-345 | `task_data` builds the same key as the task cache's `_data_key` |
| Cache.TaskMeta | app/services/cache.py:348-350 | `task_meta` builds the same key as `_meta_key` |
| Cache.TaskSyncStream | app/services/cache.py:353-355 | `task_sync_stream` is the stream the cache appends to and the worker reads |
| Cache.TaskKeysApart | app/services/cache.py:301-308 | the legacy and the dated task listing keys never coincide, and the task hashes lie outside "cache:" |
| Cache.SubscriptionKeysApart | app/services/cache.py:291-298 | for user ids without ':' a subscription key is never a status key |
| Cache.CacheManager.constructor | app/services/cache.py:73-96 | an empty store |
| Cache.CacheManager.Get | app/services/cache.py:98-119 | the value, or None for a missing key or an unreachable backend |
| Cache.CacheManager.Set | app/services/cache.py:121-145 | true and stored when reachable; false and unchanged otherwise |
| Cache.CacheManager.Delete | app/services/cache.py:147-164 | true exactly when reachable and the key was present; afterwards the key reads as missing |
| Cache.CacheManager.DeletePrefix | app/services/cache.py:166-189 | removes exactly the keys with the prefix and returns how many; nothing when unreachable |
| Cache.OnTaskComplete | app/services/cache.py:366-369 | deletes exactly `tasks_today(u)` and `daily_tasks(u, d)` |
| Cache.OnJournalCreate | app/services/cache.py:372-375 | deletes the recent list and every cached page of the user's listing, nothing else |
| Cache.OnProfileUpdate | app/services/cache.py:378-381 | deletes exactly the profile and user_auth keys |
| Cache.OnSubscriptionChange | app/services/cache.py:384-389 | deletes exactly the subscription, subscription status, profile and user_auth keys |
| Cache.JournalCreateHidesListings | app/services/cache.py:372-375 | after a journal entry is created no cached page of the user's listing can be read |
| SyncWorker.MapKeys | app/services/sync_worker.py:66-92 | the column step for each listed key: fails exactly when a present value does not convert, else emits the present keys' values |
| SyncWorker.ApiToDbFields | app/services/sync_worker.py:64-93 | a column for exactly the API keys present (a null "date" dropped), holding the given value; raises exactly when an id, enum or date does not convert |
| SyncWorker.ApiDictConverts | app/services/sync_worker.py:64-93 | every value `to_api_dict` writes converts back without error |
| SyncWorker.ApiRoundTrip | app/services/sync_worker.py:64-93 | `_api_to_db_fields(to_api_dict(t))` recovers id, user, title, subtitle, enums, duration and (when set) due date, and never order_index or description |
| SyncWorker.Refusal | app/services/sync_worker.py:283-286 | the first column whose value the database refuses (wrong type, null in a NOT NULL column, an integer outside int4, a title or subtitle too long for VARCHAR(200)), None exactly when the row is storable |
| SyncWorker.InsertDefaults | app/models/task.py:195-222 | the defaults an INSERT fills in are storable and leave title, user and id to the caller |
| SyncWorker.Overlay | app/services/sync_worker.py:283 | the given columns replace the defaults, the rest kept |
| SyncWorker.BuildRow | app/services/sync_worker.py:283-286 | the inserted row is refused exactly when title or user is missing or a given value is of the wrong type, an integer outside int4 or a text over 200 characters that is not padded with spaces; otherwise it holds the given columns, as stored (cut to 200 characters), over the defaults |
| SyncWorker.OverlayStorable | app/services/sync_worker.py:283-286 | over accepted defaults the row is accepted exactly when every given non-id value is |
| SyncWorker.ApiColumnCopied | app/services/sync_worker.py:64-93 | each column of a converted API dict is present exactly when the task sets it, and holds the task's value |
| SyncWorker.ParseTimestamp | app/services/sync_worker.py:279-281 | `datetime.fromisoformat` accepts exactly ISO timestamp and date strings |
| SyncWorker.TimestampIfSet | app/services/sync_worker.py:278-281 | a timestamp key is read only when its value is truthy |
| SyncWorker.CreateFields | app/services/sync_worker.py:276-281 | the create columns are the mapped fields plus each truthy timestamp, and no timestamp column otherwise |
| SyncWorker.CreateRow | app/services/sync_worker.py:276-286 | an accepted row is storable, carries the payload's id (or a fresh one) and every mapped field given, as the column stores it |
| SyncWorker.CreateRowOkAnyTime | app/services/sync_worker.py:283-286 | whether a CREATE row is accepted depends on neither the time nor the generated id |
| SyncWorker.InsertOrIgnore | app/services/sync_worker.py:283-285 | `ON CONFLICT (task_id) DO NOTHING`: an existing row is kept, a new id gets the row |
| SyncWorker.SyncCreate | app/services/sync_worker.py:274-286 | the row is built and checked first; an accepted row is inserted or ignored by id |
| SyncWorker.UpdateColumns | app/services/sync_worker.py:301-309 | the UPDATE never sets task_id or user_id, sets exactly the other mapped columns present, and always sets updated_at |
| SyncWorker.UpdateTimestamp | app/services/sync_worker.py:306-309 | updated_at is the truthy "updatedAt" of the updates, else now; the `elif` always holds |
| SyncWorker.UpdatesOf | app/services/sync_worker.py:296-302 | the payload itself when "updates" is absent, the object when it is one, a failure for null, numbers and bools, and for a string or array holding a key |
| SyncWorker.TypeRefusal | app/services/sync_worker.py:309-319 | the first column whose value the driver cannot send, None exactly when every value is null or of its column's type, with integers for duration_mins and order_index inside int4 |
| SyncWorker.AcceptableSplit | app/services/sync_worker.py:309-319 | the database accepts a value exactly when the driver can send it, it is not a null in a NOT NULL column, and a title or subtitle fits VARCHAR(200) |
| SyncWorker.ColumnBounds | app/models/task.py:182-189 | a 201-character title not ending in spaces is refused and its first 200 characters accepted; 2^31 and -2^31-1 are refused for the int4 columns, 2^31-1 and -2^31 sent |
| SyncWorker.Fit | app/models/task.py:182-189 | the value a column stores: a title or subtitle over 200 characters cut to 200, dropping only spaces when the value is accepted; any other value kept as given |
| SyncWorker.FitRow | app/models/task.py:182-222 | each column of a row as stored; a storable row stays storable |
| SyncWorker.SyncUpdate | app/services/sync_worker.py:296-319 | no id is a no-op; the updates object comes from `payload.get("updates", payload)` and a non-object raises; a wrongly typed value or an integer outside int4 fails; no row with the id commits unchanged whatever nulls it carries; otherwise only that row changes, getting the update columns as stored, and a null in a NOT NULL column or a title or subtitle too long for VARCHAR(200) fails; the "no fields" return is unreachable |
| SyncWorker.WriteRow | app/services/sync_worker.py:314-319 | the UPDATE that reaches a row: it succeeds exactly when every value is storable (NOT NULL, VARCHAR(200)), a refusal names a column holding an unacceptable value, and on success only that row changes, to the old row overlaid with the new columns as stored |
| SyncWorker.NullTitleRefusedOnlyOnAHit | app/services/sync_worker.py:309-319 | a null title commits as a no-op when no row has the id and is refused when one does |
| SyncWorker.NonObjectUpdatesStampOnly | app/services/sync_worker.py:301-309 | updates given as a string or array naming no key set only updated_at |
| SyncWorker.SyncStatusUpdate | app/services/sync_worker.py:329-345 | no id or no status is a no-op; otherwise only the target row's status and updated_at change |
| SyncWorker.SyncDelete | app/services/sync_worker.py:347-353 | no id is a no-op; otherwise the row with that id is gone, present or not |
| SyncWorker.BatchCreate | app/services/sync_worker.py:288-294 | the elements one by one in one transaction; a non-object element fails the batch; a committed batch keeps every existing row |
| SyncWorker.BatchCreateCommitsAll | app/services/sync_worker.py:288-294 | a committed batch accepted every item and holds every given id |
| SyncWorker.BatchUpdate | app/services/sync_worker.py:321-327 | each element's UPDATE, with its own "updates", in one transaction; a non-object element fails; a committed batch keeps the ids and every row no element names; one element is exactly its UPDATE |
| SyncWorker.BatchUpdateSplit | app/services/sync_worker.py:321-327 | the batch is the left fold of the UPDATEs: the first part, then the rest on its result, stopping at the first failure |
| SyncWorker.BadItemFailsBatch | app/services/sync_worker.py:321-327 | one element that fails on every table fails the whole batch, so nothing of it commits |
| SyncWorker.Process | app/services/sync_worker.py:247-270 | dispatch by op: an unknown op commits nothing, a non-object payload fails every known op, each of the six ops is its handler on the payload, and a batch whose "tasks" cannot be looped over fails |
| SyncWorker.Handle | app/services/sync_worker.py:222-245 | undecodable JSON is acked and skipped; a committed message is acked with the new table; a failed one is rolled back and stays pending |
| SyncWorker.CreateReplayIsNoop | app/services/sync_worker.py:283-286 | replaying a committed CREATE that carries its id, at any later time, changes nothing |
| SyncWorker.DeleteTwiceIsDeleteOnce | app/services/sync_worker.py:347-353 | DELETE is idempotent |
| SyncWorker.BatchCreateOfPresentIds | app/services/sync_worker.py:288-294 | accepted CREATEs whose ids are all present leave the table unchanged |
| SyncWorker.BatchCreateReplayIsNoop | app/services/sync_worker.py:288-294 | replaying a committed BATCH_CREATE whose items carry ids changes nothing, so a redelivered batch makes no duplicates |
| SyncWorker.Reclaimable | app/services/sync_worker.py:192-202 | the moved records are among the examined pending records and at or above MAX_RETRIES |
| SyncWorker.Batch | app/services/sync_worker.py:170-176 | one read returns all available records or BATCH_SIZE of them, whichever is fewer |
| SyncWorker.Filter | app/services/sync_worker.py:198-202 | the split of the examined records keeps at most the examined ones |
| SyncWorker.FilterMembers | app/services/sync_worker.py:202 | each side of the reclaim split holds exactly the records on its side of MAX_RETRIES |
| SyncWorker.DeadLetters | app/services/sync_worker.py:205-210 | one dead letter per moved record |
| SyncWorker.DeadLettersElements | app/services/sync_worker.py:207-210 | each dead letter holds the message's fields plus "original_id" and "retries" |
| SyncWorker.ReclaimIdleBelowBound | app/services/sync_worker.py:202 | while every delivery count is below the bound the reclaim pass moves nothing |
| SyncWorker.FilterOrdered | app/services/sync_worker.py:198-218 | filtering keeps the pending list in stream order |
| SyncWorker.OrderedAfterReclaim | app/services/sync_worker.py:198-218 | the reclaim pass keeps the pending list ordered and adds no record to it |
| SyncWorker.HandleRange | app/services/sync_worker.py:180-182 | the handling loop reports only positions of the range as unacknowledged |
| SyncWorker.HandleRangeAscending | app/services/sync_worker.py:180-182 | unacknowledged positions come out in stream order |
| SyncWorker.FirstDeliveries | app/services/sync_worker.py:170-176 | each message read once has one delivery |
| SyncWorker.FirstDeliveriesOrdered | app/services/sync_worker.py:170-182 | newly pending messages come after the older pending ones |
| SyncWorker.DeliverRange | app/services/sync_worker.py:180-182 | the read loop handles the range in order and appends a one-delivery record for each message left unacked |
| SyncWorker.Sweep | app/services/sync_worker.py:198-218 | the reclaim loop appends a dead letter for each record at or above the bound and keeps the others |
| SyncWorker.TaskSyncWorker.constructor | app/services/sync_worker.py:109-124 | a consumer group at the head of the stream: nothing delivered, pending or dead |
| SyncWorker.TaskSyncWorker.ReadAndProcess | app/services/sync_worker.py:167-182 | the next BATCH_SIZE undelivered messages are delivered once and handled in order; unacked ones join the pending list with one delivery |
| SyncWorker.TaskSyncWorker.ReclaimPending | app/services/sync_worker.py:184-218 | of the first BATCH_SIZE pending records those delivered at least MAX_RETRIES times go to the dead-letter stream and are acked; below the bound nothing moves |
| SyncWorker.TaskSyncWorker.Run | app/services/sync_worker.py:144-165 | the loop only ever reads new messages: started below the retry bound it stays below it, every pending record is an old one or a new one with one delivery, and nothing reaches the dead-letter stream, so a failed message is never retried |
| TaskService.HighIds | app/services/task_service.py:421-425 | the ids of the user's high tasks on the date |
| TaskService.SingleHighBound | app/services/task_service.py:83 | under the one-high-task rule each date has at most one high task |
| TaskService.HighPriorityTask | app/services/task_service.py:415-427 | none or the one high task, or the error `scalar_one_or_none` raises on several |
| TaskService.HighLookupSucceeds | app/services/task_service.py:415-427 | while the rule holds the lookup never fails |
| TaskService.NewRow | app/services/task_service.py:98-108 | a new task is pending, dated the given date, with the request's fields; created_at and updated_at both take the server default, the transaction's now |
| TaskService.BatchHighCount | app/services/task_service.py:125 | the high count is 0 exactly when no item is high |
| TaskService.BatchRows | app/services/task_service.py:134-149 | one row per item in input order, row i with order_index i |
| TaskService.BuildBatch | app/services/task_service.py:134-149 | the creation loop builds exactly those rows |
| TaskService.AddOneKeepsSingleHigh | app/services/task_service.py:93-96 | adding a task keeps the rule when it is not high or its date has no high task |
| TaskService.BatchCreateKeepsSingleHigh | app/services/task_service.py:125-132 | the rows of an accepted batch keep the rule |
| TaskService.ValidateBatch | app/services/task_service.py:125-132 | several high items fail first; a single high item fails when the date has a high task; otherwise accepted |
| TaskService.ApplyItem | app/services/task_service.py:224-235 | each field the item carries is written, every other field kept |
| TaskService.ApplyItemIdempotent | app/services/task_service.py:222-236 | applying the same item twice is applying it once |
| TaskService.UpdateHighCount | app/services/task_service.py:179-181 | the high count is 0 exactly when no item sets high |
| TaskService.FirstMissing | app/services/task_service.py:198-201 | the first item whose id is not the user's task on that date, None when all are |
| TaskService.FirstHighId | app/services/task_service.py:205-209 | the id of the first item that sets high, None when none does |
| TaskService.Demote | app/services/task_service.py:211-218 | every other high task of the date becomes medium, all else unchanged |
| TaskService.ApplyAll | app/services/task_service.py:222-236 | the merges applied in order keep the table's ids |
| TaskService.ApplyAllKeeps | app/services/task_service.py:222-236 | a row no item names is left as it was |
| TaskService.ApplyAllOwner | app/services/task_service.py:224-235 | items never change a row's owner or date |
| TaskService.ApplyAllHigh | app/services/task_service.py:230-231 | a row ends high only if it was high or some item sets it high |
| TaskService.ApplyAllPriority | app/services/task_service.py:230-231 | the last item naming a row with a priority decides its priority |
| TaskService.Staged | app/services/task_service.py:211-218 | the demotion keeps every row's owner and date |
| TaskService.BatchUpdated | app/services/task_service.py:179-236 | several high items fail first, then the first missing id; success means every id was found |
| TaskService.StageBatch | app/services/task_service.py:179-236 | the checks, the demotion of the date's high task and the merge loops compute exactly `BatchUpdated` |
| TaskService.BatchUpdateFailures | app/services/task_service.py:179-201 | while the rule holds a batch update fails only on its own input |
| TaskService.BatchUpdateFrame | app/services/task_service.py:211-236 | tasks the request does not name keep their values, except the date's previous high task, demoted to medium when some item sets high |
| TaskService.BatchUpdatePriority | app/services/task_service.py:211-231 | the last item naming a task with a priority decides it, also for the task the demotion lowered, since the demotion comes first |
| TaskService.BatchUpdatedOk | app/services/task_service.py:203-236 | a successful batch update is the merges applied to the demoted table |
| TaskService.FinalHighSource | app/services/task_service.py:205-236 | a task high afterwards is the first task set high, or was high and is not on the updated date |
| TaskService.StagedHigh | app/services/task_service.py:211-218 | after the demotion a high task of the date is the kept one |
| TaskService.BatchUpdatePair | app/services/task_service.py:154-245 | two high tasks sharing a date afterwards are the same task |
| TaskService.BatchUpdateKeepsSingleHigh | app/services/task_service.py:154-245 | a successful batch update keeps one high task per date |
| TaskService.CountHighUpdates | app/services/task_service.py:179-181 | the counting loop returns the high count |
| TaskService.FindMissing | app/services/task_service.py:198-201 | the checking loop stops at the first missing id |
| TaskService.FindFirstHigh | app/services/task_service.py:205-209 | the loop stops at the first item setting high |
| TaskService.ApplyEach | app/services/task_service.py:222-236 | the merge loop computes the specified merges, repeated ids included |
| TaskService.DemoteOne | app/services/task_service.py:211-218 | demoting the looked-up high task, when it is another task, is the specified demotion |
| TaskService.Listed | app/services/task_service.py:221-245 | the result lists, in item order, each item's row as it is after all merges |
| TaskService.ApplyUpdate | app/services/task_service.py:253-272 | every field present in the update is assigned, absent ones kept; the assignments write no timestamp (the flush stamps updated_at, `Flushed`) |
| TaskService.Flushed | app/db/base.py:40-45 | a flushed row differs from the assigned one at most in updated_at; a row assigned its own values is not written; a changed row gets updated_at now |
| TaskService.FlushAll | app/db/base.py:40-45 | every loaded row of the table is flushed as `Flushed` says, new rows kept as they are; nothing assigned, nothing written |
| TaskService.FlushAllKeepsSingleHigh | app/db/base.py:40-45 | stamping updated_at keeps the one-high-task rule |
| TaskService.ApplyUpdateLaws | app/services/task_service.py:247-275 | an empty update changes nothing; an update applied twice is applied once |
| TaskService.UpdateTaskBypassesRule | app/services/task_service.py:261-262 | `update_task` does not check the one-high-task rule: it can leave two high tasks on a date |
| TaskService.PriorityRank | app/services/task_service.py:488 | the database orders priority high, medium, low, high first |
| TaskService.DayRows | app/services/task_service.py:477-487 | the query selects exactly the user's tasks of the date, without completed ones when asked |
| TaskService.TasksForDate | app/services/task_service.py:470-491 | the selected tasks, sorted by priority and then order index |
| TaskService.TasksForDateMembers | app/services/task_service.py:470-491 | over a full scan the list holds exactly the selected tasks |
| TaskService.FirstHighIndex | app/services/task_service.py:316-318 | the position of the first high task, None when none is high |
| TaskService.SplitPartition | app/services/task_service.py:312-320 | the priority task and the later tasks are together the list, the priority task is the first high one |
| TaskService.LaterHasNoHigh | app/services/task_service.py:316-320 | with at most one high task, no later task is high |
| TaskService.PriorityTaskIsHead | app/services/task_service.py:316-318 | in a list sorted by priority the priority task is the head |
| TaskService.SplitDaily | app/services/task_service.py:312-320 | the split loop computes the priority task and the later tasks |
| TaskService.OfCategory | app/services/task_service.py:506-507 | a category's group holds exactly the tasks of that category |
| TaskService.GroupSizes | app/services/task_service.py:502-507 | every task lands in exactly one group |
| TaskService.GroupByCategory | app/services/task_service.py:493-509 | a list for every category, each the tasks of that category in list order |
| TaskService.DateCounts | app/services/task_service.py:347-368 | a date's aggregate row: its task count and completed count |
| TaskService.BuildDaySummaries | app/services/task_service.py:330-386 | `numDays` pills dated ref − i, each with its date's counts |
| TaskService.DayPillCompleted | app/services/task_service.py:373-375 | a pill is completed exactly when its day has tasks and all are completed, and "today" exactly on today |
| TaskService.GenerateCelebration | app/services/task_service.py:563-609 | "All tasks complete!" exactly when completed = total > 0, otherwise one of the four cycle messages |
| TaskService.CelebrationCycle | app/services/task_service.py:597-598 | the messages cycle with period four; 0 completions gives the last message, 1 gives the first |
| TaskService.TaskStore.constructor | app/services/task_service.py:32-40 | an empty table |
| TaskService.TaskStore.CreateTaskV2 | app/services/task_service.py:75-111 | a high task is refused when the date (given or today) already has one, adding nothing; otherwise a pending row is added; the rule is kept |
| TaskService.TaskStore.BatchCreate | app/services/task_service.py:113-152 | several high items refused first, then a high item on a date with a high task; otherwise the rows are added in order; the rule is kept |
| TaskService.TaskStore.BatchUpdate | app/services/task_service.py:154-245 | on failure nothing changes; on success the table is the specified batch update, each changed row stamped with updated_at now at the flush, and the updated rows come back in item order; the rule is kept |
| TaskService.TaskStore.UpdateTask | app/services/task_service.py:247-275 | the present fields are written to the stored task and, when that changed a column, updated_at becomes now; no other row changes |
| TaskService.TaskStore.CompleteTask | app/services/task_service.py:433-462 | the task becomes completed, with updated_at now unless it already was, and the celebration is chosen from today's counts as read before the change |
| TaskService.TaskStore.UncompleteTask | app/services/task_service.py:464-468 | the task becomes pending, with updated_at now unless it already was |
| TaskService.TaskStore.GetDailyTasks | app/services/task_service.py:286-328 | the date's list split into priority task and later tasks, `hasTasks` iff non-empty, with seven day pills |
| TaskService.TaskStore.GetTasksByCategory | app/services/task_service.py:493-509 | the date's list grouped under every category |
| Subscriptions.ParseTier | app/models/subscription.py:33-37 | the tier whose value is given, none for any other value |
| Subscriptions.TierValueRoundTrip | app/models/subscription.py:33-37 | tier values are distinct |
| Subscriptions.ParseStatus | app/models/subscription.py:40-46 | the status whose value is given |
| Subscriptions.StatusValueRoundTrip | app/models/subscription.py:40-46 | status values are distinct |
| Subscriptions.NewSubscription | app/models/subscription.py:100-123 | a new row is free, active and not renewing, with no subscriber id or expiry |
| Subscriptions.IsPremium | app/models/subscription.py:208-210 | `is_premium` iff the tier is not free |
| Subscriptions.IsActive | app/models/subscription.py:213-215 | `is_active` iff the status is none of expired, cancelled and billing_issue |
| Subscriptions.PaidTiers | app/models/subscription.py:33-37 | the tiers other than free are monthly and annual |
| Subscriptions.GrantingStatuses | app/models/subscription.py:40-46 | the statuses other than expired, cancelled and billing_issue are active and trial |
| Subscriptions.FirstWhere | app/models/subscription.py:74-215 | the first row satisfying a condition, None when none does |
| Subscriptions.IndexOfUser | app/models/subscription.py:92-95 | the row of a user, None when the user has none |
| Subscriptions.IndexOfSubscriber | app/models/subscription.py:134-137 | the row with a RevenueCat subscriber id, None when none has it |
| Subscriptions.UniqueLookup | app/models/subscription.py:92-137 | under the unique constraints a lookup finds the one matching row |
| Subscriptions.ReplaceKeepsUnique | app/models/subscription.py:92-137 | replacing a row by one with the same user and subscriber id keeps the constraints |
| Subscriptions.AppendKeepsUnique | app/models/subscription.py:92-137 | inserting a row of a fresh user and subscriber id keeps the constraints |
| Subscriptions.SubscriptionStore.constructor | app/models/subscription.py:74-215 | empty subscriptions and history |
| RevenueCat.MapTier | app/services/revenuecat.py:127-137 | free exactly when no product or no "annual", "yearly" or "monthly" in it; monthly only when no year is named |
| RevenueCat.MapTierIgnoresCase | app/services/revenuecat.py:130 | the mapping ignores letter case |
| RevenueCat.AnnualBeforeMonthly | app/services/revenuecat.py:131-134 | an id naming a year and a month maps to annual |
| RevenueCat.ParsePlatform | app/services/revenuecat.py:898-909 | the store map's platform for the lower-cased store, None for an empty or unknown store |
| RevenueCat.PlatformIgnoresCase | app/services/revenuecat.py:898-909 | the lookup ignores letter case |
| RevenueCat.WebStores | app/services/revenuecat.py:898-909 | only Stripe maps to web |
| RevenueCat.AppleStores | app/services/revenuecat.py:898-909 | the App Store and Mac App Store map to iOS, nothing else does |
| RevenueCat.AndroidStores | app/services/revenuecat.py:898-909 | Play Store and Amazon map to Android, nothing else does |
| RevenueCat.TierRank | app/services/revenuecat.py:712-716 | the rank used for upgrades is at most 2 |
| RevenueCat.Get | app/services/revenuecat.py:542-544 | `event_data.get(k)`: the string for a present non-null member, None for an absent or null one |
| RevenueCat.GetOr | app/services/revenuecat.py:810-817 | `event_data.get(k, default)`: the default only for an absent member; a null stays null |
| RevenueCat.Purchased | app/services/revenuecat.py:571-612 | a purchase, renewal or trial conversion activates and renews; the tier and product change only when a product is given; identity, start, cancellation and platform are kept |
| RevenueCat.NonRenewing | app/services/revenuecat.py:627-650 | a non-renewing purchase activates without renewal; expiry, trial end, cancellation and transaction are kept |
| RevenueCat.HistoryFor | app/services/revenuecat.py:778-790 | the history entry carries the event, the user, the tiers and statuses before and after, and the transaction id |
| RevenueCat.ApplyEvent | app/services/revenuecat.py:565-794 | unknown or missing types leave the subscription untouched; handled ones keep user and subscriber and stamp the sync time |
| RevenueCat.PurchaseEvents | app/services/revenuecat.py:571-650 | purchase-type events activate; the tier comes from the product when given; only a renewing purchase renews automatically |
| RevenueCat.CancellationEvents | app/services/revenuecat.py:659-694 | CANCELLATION cancels keeping the tier, UNCANCELLATION reactivates clearing the cancellation, EXPIRATION drops to free |
| RevenueCat.QuietEvents | app/services/revenuecat.py:696-770 | BILLING_ISSUE changes only status, SUBSCRIPTION_PAUSED only auto-renew, TRANSFER no field |
| RevenueCat.ProductChangeDirection | app/services/revenuecat.py:707-728 | the tier comes from the new product; UPGRADE exactly when the rank rises, DOWNGRADE otherwise, equal ranks included |
| RevenueCat.CancelThenUncancel | app/services/revenuecat.py:659-680 | a cancellation then an uncancellation leaves an active, renewing subscription of the same tier and expiry |
| RevenueCat.FindSubscription | app/services/revenuecat.py:143-167 | by subscriber id first, then by the user id the string parses to; None when neither finds a row |
| RevenueCat.NewUserPurchase | app/services/revenuecat.py:800-895 | the user is the app user id when it parses, else the original id (absent read as ""); a null original id after a failed parse raises; neither parsing is ignored; the new row is active and renewing, stores an absent product id as "" and takes its tier from the product; its history is a purchase from free |
| RevenueCat.ProcessWebhookEvent | app/services/revenuecat.py:519-794 | no app user id is ignored; an existing row gets the event's transition; without a row only INITIAL_PURCHASE creates one, and its raise leaves the store unchanged for the endpoint to roll back (app/api/v1/webhooks.py:128-159); ignored, unchanged and refused events change nothing |
| RevenueCat.Names | app/services/revenuecat.py:454 | the entitlement names in order |
| RevenueCat.HasActiveEntitlement | app/services/revenuecat.py:460-469 | the loop finds whether some entitlement has no expiry or a future one |
| RevenueCat.FindProduct | app/services/revenuecat.py:475 | the product keyed by the id, None when absent |
| RevenueCat.Sync | app/services/revenuecat.py:425-513 | no document leaves the row as it was; identity is always kept |
| RevenueCat.SyncStatus | app/services/revenuecat.py:487-495 | billing issue first, then a lapse (expired and free), then an unsubscribe (cancelled), else active; only status and tier change |
| RevenueCat.SyncPrecedence | app/services/revenuecat.py:487-495 | with the product present: billing issue, then lapse (expired and free), then unsubscribe (cancelled), else active |
| RevenueCat.SyncWithoutProduct | app/services/revenuecat.py:499-501 | without the product only a lapse changes status and tier |
| RevenueCat.LatestIn | app/services/revenuecat.py:352-359 | the chosen product has a future expiry |
| RevenueCat.LatestIsLatest | app/services/revenuecat.py:352-359 | the choice is the first product with the latest future expiry, none only when no expiry is in the future |
| RevenueCat.SelectProduct | app/services/revenuecat.py:348-359 | the selection loop computes that choice and its expiry |
| RevenueCat.RestoredProduct | app/services/revenuecat.py:361 | the product a restore uses has a non-empty id and a future expiry |
| RevenueCat.Restore | app/services/revenuecat.py:315-419 | None exactly when there is no document or no active entitlement; otherwise an active row with the subscriber and platform and a REACTIVATION entry |
| RevenueCat.RestoreChoosesLatest | app/services/revenuecat.py:361-385 | the tier and expiry come from the latest product, monthly when none qualifies |
| RevenueCat.RestorePurchases | app/services/revenuecat.py:294-419 | finds or creates the user's row and writes the restore, or changes nothing |
| RevenueCat.ReassignKeepsUnique | app/models/subscription.py:134-137 | giving a row a subscriber id no other row has keeps the constraints |
| SubscriptionApi.FindPackage | app/api/v1/subscription.py:190-193 | the package with the id, None when no package has it |
| SubscriptionApi.MonthlyTierOf | app/services/revenuecat.py:127-137 | a lower-case id starting "monthly" with no 'a' after maps to monthly |
| SubscriptionApi.AnnualTierOf | app/services/revenuecat.py:127-137 | a lower-case id starting "annual" maps to annual |
| SubscriptionApi.PackageProductsMapToTheirTier | app/api/v1/subscription.py:38-108 | each paid package's product maps to its own tier; the free package has no product |
| SubscriptionApi.PurchaseGuard | app/api/v1/subscription.py:190-213 | an accepted purchase is of a listed, paid package |
| SubscriptionApi.PurchaseGuardCases | app/api/v1/subscription.py:190-213 | SUB_001 exactly for an unknown or free package; SUB_003 exactly for an active premium subscriber |
| SubscriptionApi.Cancel | app/api/v1/subscription.py:401-426 | SUB_004 exactly without a premium subscription, SUB_005 when already cancelled, else cancelled and not renewing |
| SubscriptionApi.CancelKeepsAccess | app/api/v1/subscription.py:420-426 | a cancel keeps tier and expiry; a second cancel is refused |
| SubscriptionApi.CancelSubscription | app/api/v1/subscription.py:389-438 | the user's row gets the cancel's outcome, no other row changes |
| SubscriptionApi.DaysRemaining | app/api/v1/subscription.py:435-438 | whole days to the expiry, never negative, 0 without an expiry |
| SubscriptionApi.DaysRemainingCountDown | app/api/v1/subscription.py:435-438 | the count drops by one a day until zero |
| SubscriptionApi.CurrentSubscriptionInfo | app/api/v1/subscription.py:155-171 | free/active/no expiry without a subscription, else its own tier, status and expiry |
| SubscriptionApi.Refreshed | app/api/v1/subscription.py:284-301 | the refresh keeps the user and keeps a missing subscription missing |
| SubscriptionApi.StatusResponse | app/api/v1/subscription.py:304-373 | the free view exactly for no or a free subscription; else trial and billing flags from the status and entitlements defaulting to `[]` |
| SubscriptionApi.FreeTierReadsActive | app/api/v1/subscription.py:304-321 | a free row reports "active" whatever its stored status |
| SubscriptionApi.RestoreSubscriberId | app/api/v1/subscription.py:496-504 | the stored subscriber id when set, else the user id |
| SubscriptionApi.RestoreRoute | app/api/v1/subscription.py:484-521 | SUB_006 exactly when there is nothing to restore, INTERNAL_ERROR when the subscriber id belongs to another row, otherwise the restored active row carrying the subscriber id the route asked about |
| ScheduledJobs.Downgraded | app/services/scheduled_jobs.py:68-70 | a downgraded row is free and expired, identity and expiry kept |
| ScheduledJobs.DowngradeAll | app/services/scheduled_jobs.py:61-87 | each selected row downgraded, every other row unchanged |
| ScheduledJobs.Entries | app/services/scheduled_jobs.py:73-85 | one history entry per selected row |
| ScheduledJobs.EntriesOfSelected | app/services/scheduled_jobs.py:73-85 | entries come from selected rows only, and every selected row has its entry |
| ScheduledJobs.DowngradeRows | app/services/scheduled_jobs.py:61-87 | the job loop downgrades the selected rows, logs their entries and counts them |
| ScheduledJobs.DowngradeSelected | app/services/scheduled_jobs.py:61-102 | the job writes exactly those rows and appends exactly those entries |
| ScheduledJobs.ExpiryEntry | app/services/scheduled_jobs.py:73-85 | an EXPIRATION entry recording the previous tier and status |
| ScheduledJobs.CheckExpiredSubscriptions | app/services/scheduled_jobs.py:34-102 | downgrades exactly the active or cancelled, expired, non-free rows and returns their number |
| ScheduledJobs.BillingEntry | app/services/scheduled_jobs.py:130-151 | an EXPIRATION entry from billing_issue |
| ScheduledJobs.CheckBillingIssues | app/services/scheduled_jobs.py:104-159 | downgrades exactly the billing-issue rows untouched for more than three days and returns their number |
| ScheduledJobs.ExpiryJobEffect | app/services/scheduled_jobs.py:46-87 | unselected rows unchanged; each selected row's entry is logged |
| ScheduledJobs.TrialUntouched | app/services/scheduled_jobs.py:46-56 | trial rows are never touched by either job |
| ScheduledJobs.DowngradedNotSelected | app/services/scheduled_jobs.py:46-56 | a downgraded row is selected by neither job again |
| ScheduledJobs.NoneSelected | app/services/scheduled_jobs.py:61-87 | with nothing selected nothing changes and nothing is logged |
| ScheduledJobs.ExpiryJobIdempotent | app/services/scheduled_jobs.py:34-102 | running the expiry job again changes and logs nothing |
| ScheduledJobs.BillingJobIdempotent | app/services/scheduled_jobs.py:104-159 | running the billing job again changes and logs nothing |
| ScheduledJobs.PrevMonth | app/services/scheduled_jobs.py:237-240 | the previous month is a valid month whose next month is the given one |
| ScheduledJobs.PrevMonthKey | app/services/scheduled_jobs.py:237-240 | its key is formatted as YYYY-MM |
| ScheduledJobs.PrevMonthKeyRollsBack | app/services/scheduled_jobs.py:237-240 | January gives December of the year before, other months keep the year; never the current key |
| FeatureLimits.TablesShareFeatures | app/core/feature_limits.py:15-49 | the three tier tables list the same features |
| FeatureLimits.GetFeatureLimits | app/core/feature_limits.py:52-54 | the tier's table, the free one for any other tier |
| FeatureLimits.HasFeature | app/core/feature_limits.py:57-60 | the table value, false for an unknown feature |
| FeatureLimits.RequiredTier | app/core/feature_limits.py:63-74 | one of the three tiers |
| FeatureLimits.JournalQuotaAlwaysTruthy | app/core/feature_limits.py:57-60 | the journal quota is truthy for every tier |
| FeatureLimits.MonthlyWithinAnnual | app/core/feature_limits.py:15-49 | every boolean feature monthly grants annual grants too |
| FeatureLimits.AdsOnlyOnFree | app/core/feature_limits.py:15-49 | ads are on exactly outside the paid tiers, so access is not monotone in tier |
| FeatureLimits.RequiredTierIsCheapest | app/core/feature_limits.py:63-74 | the cheapest tier granting the feature; an unknown feature reports annual |
| FeatureLimits.CurrentTier | app/core/feature_limits.py:98-100 | the subscription's tier, free without one |
| FeatureLimits.FeatureGate | app/core/feature_limits.py:93-113 | FEATURE_LOCKED exactly when the caller's tier lacks the feature, naming the required tier |
| FeatureLimits.GateMonotone | app/core/feature_limits.py:93-113 | paid subscribers pass every gate free users pass, except the ads flag |
| FeaturesApi.CheckFeatureAccess | app/api/v1/features.py:32-73 | the caller's tier, access iff the gate passes, and a required tier exactly when access is denied |
| FeaturesApi.NextMonth | app/api/v1/features.py:138-141 | the month after, as a valid month |
| FeaturesApi.JournalLimitFor | app/api/v1/features.py:80-158 | unlimited exactly for paid tiers; otherwise remaining = max(0, limit − count), limit reached iff count ≥ limit, can create iff not reached, reset on the first of next month |
| FeaturesApi.CanCreateIffRemaining | app/api/v1/features.py:134-152 | under the quota a user can create exactly when entries remain |
| FeaturesApi.ResetRollsOver | app/api/v1/features.py:138-141 | December rolls to January of the next year |
| RateLimit.EffectiveLimits | app/core/rate_limit.py:62-64 | the action's limits, the read limits for an unknown action, each replaced by a truthy override |
| RateLimit.DefaultLimitsPositive | app/core/rate_limit.py:30-35 | every default allows at least five requests a minute; unknown actions get 100 |
| RateLimit.Key | app/core/rate_limit.py:37-40 | keys live under "ratelimit:" |
| RateLimit.Decide | app/core/rate_limit.py:72-102 | no counter: allowed, count 1; at or over the limit: refused, remaining 0, count unchanged; else count + 1, remaining max − old − 1 |
| RateLimit.ResetIn | app/core/rate_limit.py:91-101 | the reset time is the counter's time to live when positive, else the window, so positive for a positive window |
| RateLimit.TtlOf | app/core/rate_limit.py:87-96 | `ttl` of a missing key is -2, else its time to live |
| RateLimit.WithinLimitStays | app/core/rate_limit.py:72-102 | a count within the limit stays within it and remaining is never negative |
| RateLimit.AllowedRun | app/core/rate_limit.py:72-102 | at most n of n checks are allowed |
| RateLimit.AllowedRunFrom | app/core/rate_limit.py:72-102 | from count c exactly min(n, max − c) further checks are allowed |
| RateLimit.AllowedInWindow | app/core/rate_limit.py:72-102 | in one window at most max requests are allowed: exactly min(n, max) |
| RateLimit.RateLimiter.constructor | app/core/rate_limit.py:16-35 | no counters |
| RateLimit.RateLimiter.CheckRateLimit | app/core/rate_limit.py:43-111 | the decision applied to the stored counter; a backend error fails open with remaining = max and no write |
| RateLimit.RateLimiter.Expire | app/core/rate_limit.py:78 | the window ending removes the counter |
| RateLimit.Identifier | app/core/rate_limit.py:153-160 | characters 7..19 of a bearer header, else the client host, else "unknown" |
| RateLimit.RateLimitDependency | app/core/rate_limit.py:138-177 | 429 exactly when refused, with limit, remaining and retry-after; a backend error lets the request through |
| Validators.ValidatePassword | app/utils/validators.py:38-81 | accepted iff at least 8 long with an upper-case letter, a lower-case letter and a digit, by the character classes given; each error exactly when the earlier checks pass and its own fails |
| Validators.AcceptedPasswordMixes | app/utils/validators.py:57-81 | with disjoint classes, an accepted password has three distinct positions holding the three kinds |
| Validators.AsciiClasses | app/utils/validators.py:57-81 | the ASCII classes are disjoint; "abcdefg1" lacks an upper-case letter and "Abcdefg1" is accepted; "Ébcdefg1", whose É Python's `isupper` accepts, is refused for want of one |
| Validators.Extension | app/utils/validators.py:103 | the text after the last '.', the whole name without one |
| Validators.ValidateAudioFormat | app/utils/validators.py:84-113 | empty names refused first; accepted iff the lower-cased extension is mp3, wav, m4a or ogg, which is returned |
| Validators.SplitLast | app/utils/validators.py:103 | the last piece of `split(".")` is a suffix that follows the last dot, the whole name without one |
| Validators.ExtensionAfterLastDot | app/utils/validators.py:103 | the extension of `prefix.ext` is `ext` whatever the prefix holds |
| Validators.AudioFormatOfName | app/utils/validators.py:84-113 | `prefix.ext` is accepted exactly when `ext` names a format in any case |
| Validators.ValidateFileSize | app/utils/validators.py:116-138 | refused iff strictly over max_mb · 1024 · 1024 |
| Validators.FileSizeMonotone | app/utils/validators.py:132-138 | the limit itself is accepted, one byte more is not, smaller sizes are accepted |
| Validators.ValidateDateNotFuture | app/utils/validators.py:167-187 | refused iff after today |
| Validators.FirstIndex | app/utils/validators.py:27 | the first position of a character |
| Validators.LastIndex | app/utils/validators.py:27 | the last position of a character |
| Validators.MatchesEmail | app/utils/validators.py:27-29 | a match has the address shape: a local part, '@', a domain and a dot with two or more letters after it |
| Validators.MatchesEmailIff | app/utils/validators.py:27 | the decision procedure agrees with the address pattern |
| Validators.ValidateEmail | app/utils/validators.py:14-35 | accepted iff the pattern matches the whole string or the string minus one trailing newline; returned lower-cased |
| Validators.TrailingNewlineAccepted | app/utils/validators.py:27-35 | as written, a valid address plus a newline is accepted; the exact check refuses it |
| Validators.ValidateEmailExact | app/utils/validators.py:14-35 | accepted iff the whole string matches the pattern; returned lower-cased |
| Validators.ExactEmailClean | app/utils/validators.py:27-35 | an exactly accepted address has one '@' and no newline |
| AudioSessions.ConcatLength | app/services/audio_session_store.py:41-47 | the byte count equals the length of the joined audio |
| AudioSessions.ConcatSnoc | app/services/audio_session_store.py:37-43 | appending a chunk appends its bytes |
| AudioSessions.AudioSession.constructor | app/services/audio_session_store.py:28-35 | an empty session, both clocks at now |
| AudioSessions.AudioSession.Append | app/services/audio_session_store.py:37-39 | the chunk goes at the end, the audio and byte count grow by it, last activity is now |
| AudioSessions.AudioSession.GetAudio | app/services/audio_session_store.py:41-43 | the joined audio is `total_bytes` long |
| AudioSessions.AudioSession.TotalBytes | app/services/audio_session_store.py:45-47 | the byte count is the length of the joined audio, 0 for no chunks |
| AudioSessions.AudioSessionStore.constructor | app/services/audio_session_store.py:54 | no sessions |
| AudioSessions.AudioSessionStore.CreateSession | app/services/audio_session_store.py:58-63 | a fresh empty session replaces any session with that id |
| AudioSessions.AudioSessionStore.GetSession | app/services/audio_session_store.py:66-68 | the session, None for an unknown id |
| AudioSessions.AudioSessionStore.RemoveSession | app/services/audio_session_store.py:71-80 | the session that was there, now removed, or None |
| AudioSessions.AudioSessionStore.StaleIds | app/services/audio_session_store.py:90-96 | the ids chosen for eviction are sessions of the store, and no session idle for 1800 seconds or less is among them |
| AudioSessions.AudioSessionStore.CleanupPass | app/services/audio_session_store.py:87-104 | evicts exactly the sessions idle for more than 1800 seconds, the rest unchanged |
| AudioSessions.RemoveTwice | app/services/audio_session_store.py:71-80 | a second remove returns None |
| Journal.MoodIcon | app/services/journal_service.py:208-212 | no icon without a mood, one emoji per mood |
| Journal.MoodIconInjective | app/services/journal_service.py:20-26 | different moods have different icons |
| Journal.JournalEntry.constructor | app/services/journal_service.py:93-105 | an entry with the given fields |
| Journal.Applied | app/services/journal_service.py:99-102 | each given field replaces the old one, the others kept |
| Journal.AppliedLaws | app/services/journal_service.py:99-102 | an empty update changes nothing; an update twice is once |
| Journal.AppliedNeverClears | app/services/journal_service.py:99-102 | an update can set fields but never clear them |
| Journal.UpdateEntry | app/services/journal_service.py:93-105 | the entry's content becomes the applied update |
| Journal.Filter | app/services/journal_service.py:127-134 | exactly the entries the filters select, in query order |
| Journal.PageInfo | app/services/journal_service.py:144-168 | at least one page; the page count is the least that holds every entry; one page when empty; previous iff page > 1 |
| Journal.CeilingBounds | app/services/journal_service.py:144 | the ceiling division bounds |
| Journal.Offset | app/services/journal_service.py:145 | the offset skips the earlier pages' entries |
| Journal.HasNextIffMore | app/services/journal_service.py:159-168 | a next page exactly when entries remain beyond this page |
| Journal.Window | app/services/journal_service.py:148-157 | at most `limit` rows from the offset, in order |
| Journal.FirstPagesArePrefix | app/services/journal_service.py:145-157 | pages 1..n in turn give a prefix of the rows without gaps or repeats |
| Journal.EntriesPaginated | app/services/journal_service.py:112-169 | the metadata of the match count and at most `limit` selected entries |
| Journal.AllPagesListEverything | app/services/journal_service.py:112-169 | reading every page lists every match once, in query order |
| Journal.PageWithinCountHasEntries | app/services/journal_service.py:112-169 | a page within the count is non-empty when anything matches; a page beyond it is empty |
| Journal.MoodDistribution | app/services/journal_service.py:263-266 | the loop computes the specified distribution |
| Journal.Distribution | app/services/journal_service.py:238-268 | the distribution has exactly one key per mood |
| Journal.DistributionOf | app/services/journal_service.py:238-268 | every mood has a key; 0 when no row names the mood; a mood only the last row names gets that row's count |
| Journal.MoodsComplete | app/models/journal.py:35-41 | every mood is in the list the distribution starts from |
| Journal.MoodValue | app/models/journal.py:35-41 | every mood's value is a key of the distribution the service starts from |
| Journal.MoodValueInjective | app/models/journal.py:35-41 | mood values are distinct |
| Journal.DaysInMonth | app/services/journal_service.py:198 | 28..31 days, February 29 exactly in leap years |
| Journal.MonthRange | app/services/journal_service.py:197-198 | valid first and last days in order |
| Journal.MonthRangeIsMonth | app/services/journal_service.py:187-206 | a date is in the range exactly when it is in the month |
| Config.StrippedPieces | app/config.py:86-89 | one piece per comma plus one, no commas, no surrounding blanks |
| Config.AllowedOriginsList | app/config.py:86-89 | the same for the origins setting |
| Config.AllowedAudioFormatsList | app/config.py:91-94 | the same for the audio formats setting |
| Config.OriginsRoundTrip | app/config.py:86-89 | trimmed comma-free origins joined with commas come back as they were |
| Config.OriginPair | app/config.py:86-89 | two trimmed comma-free origins joined by a comma come back as the pair |
| Config.DefaultOrigins | app/config.py:80 | the default is the two local front ends |
| Config.DatabaseUrlAsync | app/config.py:96-103 | empty exactly when no URL is set |
| Config.DatabaseUrlAsyncScheme | app/config.py:96-103 | a URL without the sync scheme is unchanged; one starting with it starts with the async scheme |
| Config.EnvironmentExclusive | app/config.py:105-113 | never both production and development, and letter case does not matter |
| Config.AuthDisabled | app/config.py:115-118 | only in development with the flag set, so never in production |
| Config.ValidateJwtSecret | app/config.py:120-126 | accepted iff at least 32 characters, returned unchanged |
| Config.IsProduction | app/config.py:106-108 | true exactly for "production" in any letter case |
| Config.IsDevelopment | app/config.py:111-113 | true exactly for "development" in any letter case, and then never production |
| Config.DefaultSecretAccepted | app/config.py:63 | the default secret is exactly 32 characters and passes |
| Text.Lower | app/config.py:108 | `lower()` keeps length and lowers each ASCII capital, other characters kept |
| Text.LowerIdempotent | app/config.py:108 | lowering twice is lowering once |
| Text.Strip | app/config.py:89 | a slice of the input without surrounding blanks |
| Text.Split | app/config.py:89 | at least one piece, none holding the separator |
| Text.SplitJoin | app/config.py:89 | one more piece than separators, and joining restores the string |
| Text.Join | app/config.py:89 | the inverse of `split`: parts free of the separator, joined, split back into themselves |
| Text.SplitNoSep | app/config.py:89 | a string without the separator splits into itself |
| Text.SplitAfter | app/config.py:89 | splitting at a first separator gives the part before it and the split of the rest |
| Text.ReplaceAbsent | app/config.py:102 | nothing to replace leaves the string |
| Text.ReplaceLeading | app/config.py:102 | a leading occurrence becomes a leading replacement |
| Text.ReplaceAll | app/config.py:100-102 | replacing by a text of the same length keeps the length |
| Text.NatToString | app/services/cache.py:326-328 | decimal digits, no leading zero |
| Text.NatToStringRoundTrip | app/services/cache.py:326-328 | the digits read back as the number |
| Text.IntToString | app/services/task_cache.py:253 | `str(n)`: a '-' exactly for a negative number, then decimal digits that read back as its magnitude |
| Text.Pad2 | app/api/v1/features.py:114 | `{:02d}` gives digits only, two of them below 100 |
| Text.PadValue | app/api/v1/features.py:114 | the padded month reads back as the month |
| Text.MonthKey | app/api/v1/features.py:113-114 | the year, a '-' and the month in two digits |
| Text.MonthKeyInjective | app/api/v1/features.py:113-114 | distinct months have distinct keys |

## Left out

- Redis and PostgreSQL themselves: key expiry (`_TTL_DAY`, the cache TTLs), approximate MAXLEN trimming of the streams, and the 5000-entry DLQ cap are not modelled; a counter never expires except through `RateLimit.RateLimiter.Expire`.
- Concurrency: the asyncio tasks (`TaskSyncWorker.start`/`stop`, the audio cleanup task's start and stop, `asyncio.gather` in `get_daily_tasks`) run as sequential steps; interleavings are not modelled.
- Errors from the network or the database other than those named (wrong types, nulls in NOT NULL columns, integers outside int4, text too long for VARCHAR(200)) are not modelled; a backend call either succeeds or fails as a whole (`online`, `backendUp`).
- UUID parsing is opaque: the sync worker accepts every string id, and RevenueCat lookups take the parse as a function parameter; `validate_uuid` and `validate_timezone` are not modelled.
- ISO date and timestamp formatting and parsing are opaque: dates are ordinals and timestamps milliseconds.
- `TaskCache.IdOf`: a record id that is a date or timestamp value (`SDate`, `STime`) is refused as a field name, although its ISO text is a string the client would accept; cached records carry string ids, so this does not arise from the task list.
- `TaskModel.CompletionPercentage`: integer division `(100 · c) / t` in place of `int((c / t) * 100)` on floats; the float expression can come out one lower (29 of 100 gives 28).
- `Text.Lower` lowers ASCII capitals only; Python's Unicode case mapping is not modelled. `Text.Strip` uses Python's Unicode whitespace set.
- `Validators.ValidatePassword`: Python's Unicode `isupper`, `islower` and `isdigit` are parameters of the validator; only `ASCII_CLASSES` is given as a concrete instance.
- `TaskCache.ReadTasks`: ISO date and timestamp texts in orderIndex are their own comparison groups, kept apart from other strings; cached JSON holds plain strings, so they do not arise from the cache.
- Nested values in sync payloads: a member of a payload or of a batch element is a scalar; nested objects or arrays other than "updates" and "tasks" are not modelled.
- `RevenueCat.WebhookEvent`: the identifiers are strings or null; a number or other non-string id (which `uuid.UUID` would refuse with a different error) is not modelled.
- `RevenueCat.HistoryFor` does not record `price_paid` and `currency` (app/services/revenuecat.py:786-787, 880-881) nor the raw event data; they are copied from the event and take part in no rule.
- `Cache.CacheManager.DeletePrefix` models only the patterns the code uses, a literal prefix followed by `*`; glob characters inside the prefix are not modelled. `exists`, `get_ttl`, `increment`, `set_with_check`, the TTL arguments and client set-up and shutdown are left out.
- `process_purchase` in app/services/revenuecat.py, the RevenueCat REST call (`get_subscriber`, its document is a parameter), webhook authorization and the cache invalidation calls of the routes are left out.
- The scheduled jobs' per-row exception handling and error list, their per-row `CacheInvalidator.on_subscription_change` calls (app/services/scheduled_jobs.py:85, 150), which `ScheduledJobs.CheckExpiredSubscriptions` and `ScheduledJobs.CheckBillingIssues` do not perform, and the journal limit reset's cache deletion, are left out.
- Journal listing: the rows are taken in the order the query returns them, date-descending sorting is not modelled; `add_insight`, `get_recent_entries` and the other database-only journal functions are left out.
- The other task service queries, `get_task_by_id`, `create_task`, `delete_task`, `_task_counts_for_date`, `get_today_task_stats`, `get_or_create_daily_plan` and `get_daily_plan`, are single reads or writes with no rule of their own and are left out.
- ORM aliasing: tasks and subscriptions are values in the store; assignment to a loaded object is the replacement of its entry.
- `TaskService.TaskStore.CompleteTask`: today's counts are a parameter, read before the status change is flushed, as autoflush is off; the stats query itself is not modelled.
- The rate-limit backend's time to live is a map beside the counters; `is_allowed` is not modelled.
- The journal entry listing routes' bounds (page ≥ 1, 1 ≤ limit ≤ 50, app/api/v1/journal.py:185-186) appear as the `requires` of `Journal.PageInfo`, `Journal.Offset` and `Journal.EntriesPaginated`.
- The sync worker is never started by the application (app/main.py:135-142 is commented out); it is modelled as written.

## Findings

| source | as written | input that shows it | evidently intended | confidence | as-written member | corrected member |
|---|---|---|---|---|---|---|
| app/utils/validators.py:27-35 | `re.match` with a pattern ending in `$` accepts a valid address followed by one newline and returns it with the newline | "a@b.cc\n" | refuse anything but the address itself | not executed | Validators.TrailingNewlineAccepted | Validators.ValidateEmailExact |

=== FILE: audio_sessions.dfy ===
/**
 * The in-memory store of audio buffers for streaming sessions.  The
 * monotonic clock is a parameter (`now`, in seconds); the background task
 * is one pass of its eviction rule, `CleanupPass`.
 */
module AudioSessions {
  import opened Wrappers

  type Bytes = seq<bv8>

  /** `b"".join(chunks)`. */
  function Concat(chunks: seq<Bytes>): (r: Bytes)
  {
    if chunks == [] then [] else Concat(chunks[..|chunks| - 1]) + chunks[|chunks| - 1]
  }

  /** `sum(len(c) for c in chunks)`. */
  function TotalLength(chunks: seq<Bytes>): (r: nat)
  {
    if chunks == [] then 0 else TotalLength(chunks[..|chunks| - 1]) + |chunks[|chunks| - 1]|
  }

  /** The byte count is the length of the joined audio. */
  lemma {:induction false} ConcatLength(chunks: seq<Bytes>)
    ensures |Concat(chunks)| == TotalLength(chunks)
  {
    if chunks != [] {
      ConcatLength(chunks[..|chunks| - 1]);
    }
  }

  /** Appending a chunk appends its bytes to the audio. */
  lemma ConcatSnoc(chunks: seq<Bytes>, chunk: Bytes)
    ensures Concat(chunks + [chunk]) == Concat(chunks) + chunk
    ensures TotalLength(chunks + [chunk]) == TotalLength(chunks) + |chunk|
  {
    assert (chunks + [chunk])[..|chunks|] == chunks;
  }

  /** Sessions idle for longer than this are evicted. */
  const SESSION_TTL_SECONDS: int := 60 * 30

  /** `AudioSession`. */
  class AudioSession {
    const sessionId: string
    var chunks: seq<Bytes>
    var createdAt: int
    var lastActivity: int

    /** A new, empty session; both clocks read `now`. */
    constructor (sessionId: string, now: int)
      ensures this.sessionId == sessionId && chunks == [] && createdAt == now && lastActivity == now
    {
      this.sessionId := sessionId;
      chunks := [];
      createdAt := now;
      lastActivity := now;
    }

    /** `append`: the chunk goes at the end and the session becomes active now. */
    method Append(chunk: Bytes, now: int)
      modifies this
      ensures chunks == old(chunks) + [chunk] && lastActivity == now && createdAt == old(createdAt)
      ensures GetAudio() == old(GetAudio()) + chunk && TotalBytes() == old(TotalBytes()) + |chunk|
    {
      ConcatSnoc(chunks, chunk);
      chunks := chunks + [chunk];
      lastActivity := now;
    }

    /** `get_audio`. */
    function GetAudio(): (r: Bytes)
      reads this
      ensures |r| == TotalBytes()
    {
      ConcatLength(chunks);
      Concat(chunks)
    }

    /** `total_bytes`: the length of the joined audio, nothing before the first chunk. */
    function TotalBytes(): (r: nat)
      reads this
      ensures r == |Concat(chunks)|
      ensures chunks == [] ==> r == 0
    {
      ConcatLength(chunks);
      TotalLength(chunks)
    }
  }

  /** A session idle for longer than the time to live. */
  predicate Stale(s: AudioSession, now: int)
    reads s
  {
    now - s.lastActivity > SESSION_TTL_SECONDS
  }

  /** The module-level `_sessions` dictionary. */
  class AudioSessionStore {
    var sessions: map<string, AudioSession>

    /** Every session is stored under its own id. */
    ghost predicate Valid()
      reads this
    {
      forall sid :: sid in sessions ==> sessions[sid].sessionId == sid
    }

    constructor ()
      ensures Valid() && sessions == map[]
    {
      sessions := map[];
    }

    /** `create_session`: a new empty session replaces any session with that id. */
    method CreateSession(sessionId: string, now: int) returns (s: AudioSession)
      requires Valid()
      modifies this
      ensures Valid()
      ensures fresh(s) && s.sessionId == sessionId && s.chunks == [] && s.lastActivity == now
      ensures sessions == old(sessions)[sessionId := s]
    {
      s := new AudioSession(sessionId, now);
      sessions := sessions[sessionId := s];
    }

    /** `get_session`. */
    function GetSession(sessionId: string): (r: Option<AudioSession>)
      reads this
      ensures r.Some? <==> sessionId in sessions
      ensures r.Some? ==> r.value == sessions[sessionId]
    {
      if sessionId in sessions then Some(sessions[sessionId]) else None
    }

    /** `remove_session`: the session, now gone from the store, or None. */
    method RemoveSession(sessionId: string) returns (r: Option<AudioSession>)
      requires Valid()
      modifies this
      ensures Valid()
      ensures r == old(GetSession(sessionId))
      ensures sessions == old(sessions) - {sessionId}
      ensures GetSession(sessionId).None?
    {
      r := GetSession(sessionId);
      sessions := sessions - {sessionId};
    }

    /** The ids a cleanup pass at `now` evicts. */
    ghost function StaleIds(now: int): (r: set<string>)
      reads this, sessions.Values
      ensures r <= sessions.Keys
      ensures forall sid :: sid in sessions && !Stale(sessions[sid], now) ==> sid !in r
    {
      set sid | sid in sessions && Stale(sessions[sid], now)
    }

    /** One pass of `_cleanup_loop`: evict exactly the stale sessions, keeping the rest as they were. */
    method CleanupPass(now: int) returns (evicted: set<string>)
      requires Valid()
      modifies this
      ensures Valid()
      ensures evicted == old(StaleIds(now))
      ensures sessions == map sid | sid in old(sessions) && sid !in evicted :: old(sessions)[sid]
      ensures forall sid :: sid in sessions ==> !Stale(sessions[sid], now)
    {
      var stale := set sid | sid in sessions && Stale(sessions[sid], now);
      evicted := stale;
      ghost var before := sessions;
      while stale != {}
        invariant stale <= evicted
        invariant sessions == map sid | sid in before && (sid !in evicted || sid in stale) :: before[sid]
        decreases |stale|
      {
        var sid :| sid in stale;
        sessions := sessions - {sid};
        stale := stale - {sid};
      }
    }
  }

  /** Removing twice: the second remove finds nothing. */
  method RemoveTwice(store: AudioSessionStore, sessionId: string) returns (first: Option<AudioSession>, second: Option<AudioSession>)
    requires store.Valid()
    modifies store
    ensures first.Some? <==> sessionId in old(store.sessions)
    ensures second.None?
  {
    first := store.RemoveSession(sessionId);
    second := store.RemoveSession(sessionId);
  }
}

=== FILE: cache_keys.dfy ===
/**
 * The general-purpose cache: its key builders, the manager's get, set and
 * delete over the key-value store, and the invalidation helpers that
 * delete the keys a change makes stale.  Values are held decoded; the
 * backend is reachable or not (`online`), and an unreachable backend makes
 * every call return its failure value.  Time to live is not modelled.
 */
module Cache {
  import opened Wrappers
  import opened Json
  import opened Text
  import SyncStream
  import TaskCache

  /** `key` is `prefix` followed by `id`: the id is read back from the key, so distinct ids give distinct keys. */
  predicate Under(key: string, prefix: string, id: string)
  {
    StartsWith(key, prefix) && key[|prefix|..] == id
  }

  function UserAuth(userId: string): (r: string)
    ensures Under(r, "cache:user:auth:", userId)
  {
    "cache:user:auth:" + userId
  }

  function Profile(userId: string): (r: string)
    ensures Under(r, "cache:profile:", userId)
  {
    "cache:profile:" + userId
  }

  function Subscription(userId: string): (r: string)
    ensures Under(r, "cache:subscription:", userId)
  {
    "cache:subscription:" + userId
  }

  function SubscriptionStatus(userId: string): (r: string)
    ensures Under(r, "cache:subscription:status:", userId)
  {
    "cache:subscription:status:" + userId
  }

  function TasksToday(userId: string): (r: string)
    ensures Under(r, "cache:tasks:today:", userId)
  {
    "cache:tasks:today:" + userId
  }

  function DailyTasks(userId: string, date: string): (r: string)
    ensures StartsWith(r, "cache:tasks:daily:")
    ensures Under(r, "cache:tasks:daily:" + userId + ":", date)
  {
    "cache:tasks:daily:" + userId + ":" + date
  }

  function TaskPlan(planId: string): (r: string)
    ensures Under(r, "cache:tasks:plan:", planId)
  {
    "cache:tasks:plan:" + planId
  }

  function JournalRecent(userId: string): (r: string)
    ensures Under(r, "cache:journal:recent:", userId)
  {
    "cache:journal:recent:" + userId
  }

  function JournalEntry(entryId: string): (r: string)
    ensures Under(r, "cache:journal:entry:", entryId)
  {
    "cache:journal:entry:" + entryId
  }

  function JournalLimit(userId: string, month: string): (r: string)
    ensures StartsWith(r, "cache:journal:limit:")
    ensures Under(r, "cache:journal:limit:" + userId + ":", month)
  {
    "cache:journal:limit:" + userId + ":" + month
  }

  function Packages(platform: string): (r: string)
    ensures Under(r, "cache:subscription:packages:", platform)
  {
    "cache:subscription:packages:" + platform
  }

  /**
   * `journal_list`; the page is at least 1 wherever a listing is cached.
   * Every listing of a user matches the pattern its invalidation deletes.
   */
  function JournalList(userId: string, page: nat, filters: string): (r: string)
    ensures StartsWith(r, JournalListPrefix(userId))
  {
    JournalListPrefix(userId) + "page:" + NatToString(page) + ":" + filters
  }

  /** Distinct pages or filters of one user give distinct listing keys. */
  lemma JournalListInjective(userId: string, p1: nat, f1: string, p2: nat, f2: string)
    requires JournalList(userId, p1, f1) == JournalList(userId, p2, f2)
    ensures p1 == p2 && f1 == f2
  {
    var pre := JournalListPrefix(userId) + "page:";
    var d1, d2 := NatToString(p1), NatToString(p2);
    assert JournalList(userId, p1, f1) == pre + (d1 + ":" + f1);
    assert JournalList(userId, p2, f2) == pre + (d2 + ":" + f2);
    assert (pre + (d1 + ":" + f1))[|pre|..] == d1 + ":" + f1;
    assert (pre + (d2 + ":" + f2))[|pre|..] == d2 + ":" + f2;
    DigitsBeforeColon(d1, f1, d2, f2);
    NatToStringRoundTrip(p1);
    NatToStringRoundTrip(p2);
  }

  /** A run of digits ends at the first ':', so the text splits back into digits and rest. */
  lemma DigitsBeforeColon(d1: string, s1: string, d2: string, s2: string)
    requires forall i :: 0 <= i < |d1| ==> IsDigit(d1[i])
    requires forall i :: 0 <= i < |d2| ==> IsDigit(d2[i])
    requires d1 + ":" + s1 == d2 + ":" + s2
    ensures d1 == d2 && s1 == s2
  {
    var a := d1 + ":" + s1;
    ColonAfterDigits(d1, s1);
    ColonAfterDigits(d2, s2);
    assert |d1| == |d2|;
    assert d1 == a[..|d1|] && d2 == a[..|d2|];
    assert s1 == a[|d1| + 1..] && s2 == a[|d2| + 1..];
  }

  /** In digits followed by ':', the first ':' is the one after the digits. */
  lemma ColonAfterDigits(d: string, s: string)
    requires forall i :: 0 <= i < |d| ==> IsDigit(d[i])
    ensures (d + ":" + s)[|d|] == ':'
    ensures forall i :: 0 <= i < |d| ==> (d + ":" + s)[i] != ':'
  {
    assert forall i :: 0 <= i < |d| ==> (d + ":" + s)[i] == d[i];
  }

  /** What `on_journal_create`'s pattern `cache:journal:list:{user}:*` matches: keys with this prefix. */
  function JournalListPrefix(userId: string): string { "cache:journal:list:" + userId + ":" }

  /** The cache-first task keys are the ones the task cache itself uses. */
  function TaskData(userId: string, date: string): (r: string)
    ensures r == TaskCache.DataKey(userId, date)
  {
    "tasks:data:" + userId + ":" + date
  }

  function TaskMeta(userId: string, date: string): (r: string)
    ensures r == TaskCache.MetaKey(userId, date)
  {
    "tasks:meta:" + userId + ":" + date
  }

  /** `task_sync_stream`: the stream the cache writes and the worker reads. */
  function TaskSyncStream(): (r: string)
    ensures r == SyncStream.SYNC_STREAM
  {
    "stream:tasks:sync"
  }

  /** Two keys that differ before either ends are different keys. */
  lemma DifferAt(a: string, b: string, i: nat)
    requires i < |a| && i < |b| && a[i] != b[i]
    ensures a != b
  {
  }

  /** The legacy and the dated task listings never share a key, and the task hashes sit outside "cache:". */
  lemma TaskKeysApart(u1: string, u2: string, date: string)
    ensures TasksToday(u1) != DailyTasks(u2, date)
    ensures !StartsWith(TaskData(u1, date), "cache:") && !StartsWith(TaskMeta(u1, date), "cache:")
  {
    DifferAt(TasksToday(u1), DailyTasks(u2, date), 12);
    assert TaskData(u1, date)[0] == 't';
    assert TaskMeta(u1, date)[0] == 't';
  }

  /** For user ids without ':' (UUIDs), a subscription key is never a status key. */
  lemma SubscriptionKeysApart(u1: string, u2: string)
    requires ':' !in u1
    ensures Subscription(u1) != SubscriptionStatus(u2)
  {
    var a := Subscription(u1);
    var b := SubscriptionStatus(u2);
    if |u1| >= 7 {
      assert a[19..26] == u1[..7];
      assert b[25] == ':';
      assert u1[6] in u1;
      DifferAt(a, b, 25);
    } else {
      assert |a| < 26 <= |b|;
    }
  }

  /** The keys `on_task_complete` deletes: two distinct keys. */
  function TaskCompleteKeys(userId: string, date: string): (r: set<string>)
    ensures TasksToday(userId) in r && DailyTasks(userId, date) in r && |r| == 2
  {
    TaskKeysApart(userId, userId, date);
    {TasksToday(userId), DailyTasks(userId, date)}
  }

  /** The keys `on_profile_update` deletes: two distinct keys. */
  function ProfileUpdateKeys(userId: string): (r: set<string>)
    ensures Profile(userId) in r && UserAuth(userId) in r && |r| == 2
  {
    DifferAt(Profile(userId), UserAuth(userId), 6);
    {Profile(userId), UserAuth(userId)}
  }

  /**
   * The keys `on_subscription_change` deletes: everything a profile update
   * does plus the subscription key, and four distinct keys for user ids
   * without ':' (UUIDs).
   */
  function SubscriptionChangeKeys(userId: string): (r: set<string>)
    ensures ProfileUpdateKeys(userId) < r
    ensures Subscription(userId) in r && SubscriptionStatus(userId) in r
    ensures ':' !in userId ==> |r| == 4
  {
    DifferAt(Subscription(userId), Profile(userId), 6);
    DifferAt(Subscription(userId), UserAuth(userId), 6);
    DifferAt(SubscriptionStatus(userId), Profile(userId), 6);
    DifferAt(SubscriptionStatus(userId), UserAuth(userId), 6);
    DifferAt(Profile(userId), UserAuth(userId), 6);
    assert ':' !in userId ==> Subscription(userId) != SubscriptionStatus(userId) by {
      if ':' !in userId {
        SubscriptionKeysApart(userId, userId);
      }
    }
    {Subscription(userId), SubscriptionStatus(userId), Profile(userId), UserAuth(userId)}
  }

  /** `CacheManager` over the key-value store. */
  class CacheManager {
    var entries: map<string, Doc>
    var online: bool

    constructor (online: bool)
      ensures entries == map[] && this.online == online
    {
      entries := map[];
      this.online := online;
    }

    /** `get`: the value, or None for a missing key or an unreachable backend. */
    function Get(key: string): (r: Option<Doc>)
      reads this
      ensures r.Some? <==> online && key in entries
      ensures r.Some? ==> r.value == entries[key]
    {
      if online && key in entries then Some(entries[key]) else None
    }

    /** `set`: true when stored. */
    method Set(key: string, value: Doc) returns (ok: bool)
      modifies this
      ensures ok == online
      ensures online == old(online)
      ensures entries == if ok then old(entries)[key := value] else old(entries)
      ensures ok ==> Get(key) == Some(value)
    {
      ok := online;
      if ok {
        entries := entries[key := value];
      }
    }

    /** `delete`: true exactly when a key was removed. */
    method Delete(key: string) returns (deleted: bool)
      modifies this
      ensures deleted <==> online && key in old(entries)
      ensures online == old(online)
      ensures entries == if online then old(entries) - {key} else old(entries)
      ensures Get(key).None?
    {
      deleted := online && key in entries;
      if online {
        entries := entries - {key};
      }
    }

    /** `delete_pattern` for a pattern `prefix*`: the number of keys removed. */
    method DeletePrefix(prefix: string) returns (count: nat)
      modifies this
      ensures online == old(online)
      ensures online ==> entries == (map k | k in old(entries) && !StartsWith(k, prefix) :: old(entries)[k])
      ensures online ==> count == |set k | k in old(entries) && StartsWith(k, prefix)|
      ensures !online ==> entries == old(entries) && count == 0
    {
      if !online {
        return 0;
      }
      var matched := set k | k in entries && StartsWith(k, prefix);
      count := |matched|;
      entries := map k | k in entries && k !in matched :: entries[k];
    }
  }

  /** `on_task_complete`. */
  method OnTaskComplete(cache: CacheManager, userId: string, date: string)
    modifies cache
    ensures cache.online == old(cache.online)
    ensures cache.entries == if cache.online then old(cache.entries) - TaskCompleteKeys(userId, date) else old(cache.entries)
  {
    var _ := cache.Delete(TasksToday(userId));
    var _ := cache.Delete(DailyTasks(userId, date));
  }

  /** `on_journal_create`: the recent list and every cached page of the user's listing. */
  method OnJournalCreate(cache: CacheManager, userId: string)
    modifies cache
    ensures cache.online == old(cache.online)
    ensures cache.online ==> (cache.entries == map k | k in old(cache.entries) && k != JournalRecent(userId) &&
                                                      !StartsWith(k, JournalListPrefix(userId)) :: old(cache.entries)[k])
    ensures !cache.online ==> cache.entries == old(cache.entries)
  {
    var _ := cache.Delete(JournalRecent(userId));
    var _ := cache.DeletePrefix(JournalListPrefix(userId));
  }

  /** `on_profile_update`. */
  method OnProfileUpdate(cache: CacheManager, userId: string)
    modifies cache
    ensures cache.online == old(cache.online)
    ensures cache.entries == if cache.online then old(cache.entries) - ProfileUpdateKeys(userId) else old(cache.entries)
  {
    var _ := cache.Delete(Profile(userId));
    var _ := cache.Delete(UserAuth(userId));
  }

  /** `on_subscription_change`. */
  method OnSubscriptionChange(cache: CacheManager, userId: string)
    modifies cache
    ensures cache.online == old(cache.online)
    ensures cache.entries == if cache.online then old(cache.entries) - SubscriptionChangeKeys(userId) else old(cache.entries)
  {
    var _ := cache.Delete(Subscription(userId));
    var _ := cache.Delete(SubscriptionStatus(userId));
    var _ := cache.Delete(Profile(userId));
    var _ := cache.Delete(UserAuth(userId));
  }

  /** After a journal entry is created no cached page of the user's listing can be read. */
  method JournalCreateHidesListings(cache: CacheManager, userId: string, page: nat, filters: string)
    returns (afterwards: Option<Doc>)
    modifies cache
    ensures afterwards.None?
  {
    OnJournalCreate(cache, userId);
    afterwards := cache.Get(JournalList(userId, page, filters));
  }
}

=== FILE: config.dfy ===
/**
 * The derived settings: the properties computed from the environment
 * strings and the JWT secret check.  Loading the environment is not part
 * of the model; a `Settings` value is what was loaded.
 */
module Config {
  import opened Wrappers
  import opened Text

  datatype Settings = Settings(environment: string, devAuthDisabled: bool, supabaseDatabaseUrl: string,
                               allowedOrigins: string, allowedAudioFormats: string, jwtSecret: string)

  const DEFAULT_JWT_SECRET: string := "change-this-secret-in-production"
  const DEFAULT_ALLOWED_ORIGINS: string := "http://localhost:3000,http://localhost:8000"
  const MIN_JWT_SECRET_LENGTH: nat := 32

  /** `[piece.strip() for piece in s.split(",")]`. */
  function StrippedPieces(s: string): (r: seq<string>)
    ensures |r| == Count(s, ',') + 1
    ensures forall k :: 0 <= k < |r| ==> ',' !in r[k] && (r[k] != [] ==> !IsSpace(r[k][0]) && !IsSpace(r[k][|r[k]| - 1]))
  {
    var pieces := Split(s, ',');
    SplitJoin(s, ',');
    var r := seq(|pieces|, k requires 0 <= k < |pieces| => Strip(pieces[k]));
    assert forall k :: 0 <= k < |r| ==> ',' !in r[k] by {
      forall k | 0 <= k < |r|
        ensures ',' !in r[k]
      {
        var i, j :| 0 <= i <= j <= |pieces[k]| && r[k] == pieces[k][i..j];
        assert forall c :: c in r[k] ==> c in pieces[k];
      }
    }
    r
  }

  /** A piece without surrounding blanks comes back as it was. */
  lemma {:induction false} StripKeepsTrimmed(s: string)
    requires s == [] || (!IsSpace(s[0]) && !IsSpace(s[|s| - 1]))
    ensures Strip(s) == s
  {
  }

  /** `allowed_origins_list`. */
  function AllowedOriginsList(s: Settings): (r: seq<string>)
    ensures |r| == Count(s.allowedOrigins, ',') + 1
    ensures forall k :: 0 <= k < |r| ==> ',' !in r[k]
  {
    StrippedPieces(s.allowedOrigins)
  }

  /** `allowed_audio_formats_list`. */
  function AllowedAudioFormatsList(s: Settings): (r: seq<string>)
    ensures |r| == Count(s.allowedAudioFormats, ',') + 1
    ensures forall k :: 0 <= k < |r| ==> ',' !in r[k]
  {
    StrippedPieces(s.allowedAudioFormats)
  }

  /** The origins that join back with commas come back as they were. */
  lemma OriginsRoundTrip(origins: seq<string>)
    requires |origins| >= 1
    requires forall k :: 0 <= k < |origins| ==> ',' !in origins[k]
    requires forall k :: 0 <= k < |origins| ==> origins[k] == [] || (!IsSpace(origins[k][0]) && !IsSpace(origins[k][|origins[k]| - 1]))
    ensures StrippedPieces(Join(origins, ',')) == origins
  {
    var r := StrippedPieces(Join(origins, ','));
    forall k | 0 <= k < |origins|
      ensures r[k] == origins[k]
    {
      StripKeepsTrimmed(origins[k]);
    }
  }

  /** Two trimmed comma-free origins joined by a comma come back as they were. */
  lemma OriginPair(a: string, b: string)
    requires ',' !in a && ',' !in b && a != [] && b != []
    requires !IsSpace(a[0]) && !IsSpace(a[|a| - 1]) && !IsSpace(b[0]) && !IsSpace(b[|b| - 1])
    ensures StrippedPieces(a + [','] + b) == [a, b]
  {
    assert [a, b][1..] == [b];
    assert Join([a, b], ',') == a + [','] + b;
    OriginsRoundTrip([a, b]);
  }

  /** The default origins are the two local front ends. */
  lemma DefaultOrigins()
    ensures StrippedPieces(DEFAULT_ALLOWED_ORIGINS) == ["http://localhost:3000", "http://localhost:8000"]
  {
    var a := "http://localhost:3000";
    var b := "http://localhost:8000";
    assert DEFAULT_ALLOWED_ORIGINS == a + [','] + b;
    OriginPair(a, b);
  }

  const SYNC_SCHEME: string := "postgresql://"
  const ASYNC_SCHEME: string := "postgresql+asyncpg://"

  /** `database_url_async`: empty exactly when no URL is set. */
  function DatabaseUrlAsync(s: Settings): (r: string)
    ensures r == [] <==> s.supabaseDatabaseUrl == []
  {
    var url := s.supabaseDatabaseUrl;
    if url == [] then ""
    else
      ReplaceNonEmpty(url, SYNC_SCHEME, ASYNC_SCHEME);
      ReplaceAll(url, SYNC_SCHEME, ASYNC_SCHEME)
  }

  /** A URL without the sync scheme is kept as it is; a URL that starts with it starts with the async one. */
  lemma DatabaseUrlAsyncScheme(s: Settings)
    ensures !Contains(s.supabaseDatabaseUrl, SYNC_SCHEME) ==> DatabaseUrlAsync(s) == s.supabaseDatabaseUrl
    ensures StartsWith(s.supabaseDatabaseUrl, SYNC_SCHEME) ==> StartsWith(DatabaseUrlAsync(s), ASYNC_SCHEME)
  {
    var url := s.supabaseDatabaseUrl;
    if !Contains(url, SYNC_SCHEME) {
      ReplaceAbsent(url, SYNC_SCHEME, ASYNC_SCHEME);
    }
    if StartsWith(url, SYNC_SCHEME) {
      ReplaceLeading(url, SYNC_SCHEME, ASYNC_SCHEME);
    }
  }

  /** Replacing with a non-empty string keeps a non-empty string non-empty. */
  lemma ReplaceNonEmpty(s: string, pat: string, rep: string)
    requires s != [] && pat != [] && rep != []
    ensures ReplaceAll(s, pat, rep) != []
  {
  }

  /** `is_production`: the environment spells "production" in any mix of case. */
  predicate IsProduction(s: Settings)
    ensures IsProduction(s) <==>
      |s.environment| == 10 && forall i :: 0 <= i < 10 ==> LowerChar(s.environment[i]) == "production"[i]
  {
    Lower(s.environment) == "production"
  }

  /** `is_development`: the environment spells "development" in any mix of case; never production as well. */
  predicate IsDevelopment(s: Settings)
    ensures IsDevelopment(s) <==>
      |s.environment| == 11 && forall i :: 0 <= i < 11 ==> LowerChar(s.environment[i]) == "development"[i]
    ensures IsDevelopment(s) ==> !IsProduction(s)
  {
    Lower(s.environment) == "development"
  }

  /** At most one environment holds, and case does not matter. */
  lemma EnvironmentExclusive(s: Settings)
    ensures !(IsProduction(s) && IsDevelopment(s))
    ensures IsProduction(s) == IsProduction(s.(environment := Lower(s.environment)))
    ensures IsDevelopment(s) == IsDevelopment(s.(environment := Lower(s.environment)))
  {
    LowerIdempotent(s.environment);
  }

  /** `auth_disabled`: only a development deployment can switch authentication off. */
  function AuthDisabled(s: Settings): (r: bool)
    ensures r <==> IsDevelopment(s) && s.devAuthDisabled
    ensures r ==> !IsProduction(s)
  {
    EnvironmentExclusive(s);
    IsDevelopment(s) && s.devAuthDisabled
  }

  /** `validate_jwt_secret`: the secret itself, or the error for one that is too short. */
  function ValidateJwtSecret(v: string): (r: Result<string, string>)
    ensures r.Ok? <==> |v| >= MIN_JWT_SECRET_LENGTH
    ensures r.Ok? ==> r.value == v
  {
    if |v| < 32 then Err("JWT_SECRET must be at least 32 characters long") else Ok(v)
  }

  /** The default secret is exactly as long as the check demands, so it passes. */
  lemma DefaultSecretAccepted()
    ensures |DEFAULT_JWT_SECRET| == MIN_JWT_SECRET_LENGTH
    ensures ValidateJwtSecret(DEFAULT_JWT_SECRET) == Ok(DEFAULT_JWT_SECRET)
  {
  }
}

=== FILE: feature_limits.dfy ===
/**
 * The per-tier feature table and the checks built on it.  Table values
 * are JSON scalars because `has_feature` hands back the raw value (the
 * journal quota is an integer, every other feature a boolean) and callers
 * test it for truthiness.
 */
module FeatureLimits {
  import opened Wrappers
  import opened Json
  import opened Subscriptions

  /** The features every tier lists. */
  const FEATURES: set<string> := {
    "journals_per_month", "ai_insights", "ai_analysis", "voice_transcription", "progress_reports",
    "unlimited_tasks", "ads_enabled", "advanced_analytics", "priority_support"}

  const FREE_LIMITS: Dict := map[
    "journals_per_month" := SInt(1),
    "ai_insights" := SBool(false),
    "ai_analysis" := SBool(false),
    "voice_transcription" := SBool(false),
    "progress_reports" := SBool(false),
    "unlimited_tasks" := SBool(true),
    "ads_enabled" := SBool(true),
    "advanced_analytics" := SBool(false),
    "priority_support" := SBool(false)]

  const MONTHLY_LIMITS: Dict := map[
    "journals_per_month" := SInt(-1),
    "ai_insights" := SBool(true),
    "ai_analysis" := SBool(true),
    "voice_transcription" := SBool(true),
    "progress_reports" := SBool(true),
    "unlimited_tasks" := SBool(true),
    "ads_enabled" := SBool(false),
    "advanced_analytics" := SBool(true),
    "priority_support" := SBool(false)]

  const ANNUAL_LIMITS: Dict := map[
    "journals_per_month" := SInt(-1),
    "ai_insights" := SBool(true),
    "ai_analysis" := SBool(true),
    "voice_transcription" := SBool(true),
    "progress_reports" := SBool(true),
    "unlimited_tasks" := SBool(true),
    "ads_enabled" := SBool(false),
    "advanced_analytics" := SBool(true),
    "priority_support" := SBool(true)]

  /** `FEATURE_LIMITS`, keyed by tier value. */
  const FEATURE_LIMITS: map<string, Dict> :=
    map["free" := FREE_LIMITS, "monthly" := MONTHLY_LIMITS, "annual" := ANNUAL_LIMITS]

  /** The three tables list the same features. */
  lemma TablesShareFeatures()
    ensures FREE_LIMITS.Keys == FEATURES && MONTHLY_LIMITS.Keys == FEATURES && ANNUAL_LIMITS.Keys == FEATURES
  {
  }

  /** `get_feature_limits`: the tier's table, the free one for an unknown tier. */
  function GetFeatureLimits(tier: string): (r: Dict)
    ensures r.Keys == FEATURES
    ensures tier in FEATURE_LIMITS ==> r == FEATURE_LIMITS[tier]
    ensures tier !in FEATURE_LIMITS ==> r == FREE_LIMITS
  {
    TablesShareFeatures();
    if tier in FEATURE_LIMITS then FEATURE_LIMITS[tier] else FREE_LIMITS
  }

  /** `has_feature`: the raw table value, false for an unknown feature. */
  function HasFeature(tier: string, feature: string): (r: Scalar)
    ensures feature !in FEATURES ==> r == SBool(false)
    ensures feature in FEATURES ==> r == GetFeatureLimits(tier)[feature]
  {
    var limits := GetFeatureLimits(tier);
    if feature in limits then limits[feature] else SBool(false)
  }

  /** `get_required_tier_for_feature`. */
  function RequiredTier(feature: string): (r: string)
    ensures r in FEATURE_LIMITS
  {
    if feature in FREE_LIMITS && Truthy(FREE_LIMITS[feature]) then "free"
    else if feature in MONTHLY_LIMITS && Truthy(MONTHLY_LIMITS[feature]) then "monthly"
    else "annual"
  }

  /** The journal quota is truthy for every tier, so `has_feature` grants it everywhere. */
  lemma JournalQuotaAlwaysTruthy(tier: string)
    ensures Truthy(HasFeature(tier, "journals_per_month"))
  {
  }

  /** Every boolean feature monthly grants, annual grants too. */
  lemma MonthlyWithinAnnual(feature: string)
    requires HasFeature("monthly", feature) == SBool(true)
    ensures HasFeature("annual", feature) == SBool(true)
  {
  }

  /** Ads are on exactly for tiers other than the two paid ones, so access is not monotone in tier. */
  lemma AdsOnlyOnFree(tier: string)
    ensures Truthy(HasFeature(tier, "ads_enabled")) <==> tier != "monthly" && tier != "annual"
    ensures Truthy(HasFeature("free", "ads_enabled")) && !Truthy(HasFeature("annual", "ads_enabled"))
  {
  }

  /**
   * The required tier is the cheapest tier granting the feature; it grants
   * it exactly when the feature is known, and an unknown feature is
   * reported as needing annual.
   */
  lemma RequiredTierIsCheapest(feature: string)
    ensures Truthy(HasFeature(RequiredTier(feature), feature)) <==> feature in FEATURES
    ensures RequiredTier(feature) != "free" ==> !Truthy(HasFeature("free", feature))
    ensures RequiredTier(feature) == "annual" ==> !Truthy(HasFeature("monthly", feature))
    ensures feature !in FEATURES ==> RequiredTier(feature) == "annual"
  {
  }

  /** The tier value the gates read: the subscription's, or free without one. */
  function CurrentTier(sub: Option<Subscription>): (r: string)
    ensures r in FEATURE_LIMITS
    ensures sub.None? ==> r == "free"
  {
    if sub.Some? then TierValue(sub.value.tier) else "free"
  }

  /** The FEATURE_LOCKED error's details. */
  datatype Locked = Locked(feature: string, requiredTier: string, currentTier: string)

  /** `FeatureGate.__call__`: None when the caller may proceed. */
  function FeatureGate(sub: Option<Subscription>, feature: string): (r: Option<Locked>)
    ensures r.None? <==> Truthy(HasFeature(CurrentTier(sub), feature))
    ensures r.Some? ==> r.value == Locked(feature, RequiredTier(feature), CurrentTier(sub))
  {
    var tier := CurrentTier(sub);
    if Truthy(HasFeature(tier, feature)) then None
    else Some(Locked(feature, RequiredTier(feature), tier))
  }

  /** Paid subscribers pass every gate free users pass, except the ads flag. */
  lemma GateMonotone(free: Option<Subscription>, paid: Subscription, feature: string)
    requires free.None? || free.value.tier == Free
    requires paid.tier != Free && feature != "ads_enabled"
    ensures FeatureGate(free, feature).None? ==> FeatureGate(Some(paid), feature).None?
  {
  }
}

=== FILE: features_api.dfy ===
/**
 * The feature endpoints: the access check and the monthly journal quota.
 * The month's journal count (from the cache, or counted in the database)
 * and today's date are parameters.
 */
module FeaturesApi {
  import opened Wrappers
  import opened Json
  import opened Text
  import opened Subscriptions
  import opened FeatureLimits

  /** The body of `check_feature_access`; `requiredTier` is present only on a refusal. */
  datatype Access = Access(feature: string, hasAccess: bool, currentTier: string, requiredTier: Option<string>)

  /** `check_feature_access`. */
  function CheckFeatureAccess(sub: Option<Subscription>, feature: string): (r: Access)
    ensures r.currentTier == CurrentTier(sub)
    ensures r.hasAccess <==> FeatureGate(sub, feature).None?
    ensures r.requiredTier.Some? <==> !r.hasAccess
    ensures r.requiredTier.Some? ==> r.requiredTier.value == FeatureGate(sub, feature).value.requiredTier
  {
    var tier := CurrentTier(sub);
    if Truthy(HasFeature(tier, feature)) then Access(feature, true, tier, None)
    else Access(feature, false, tier, Some(RequiredTier(feature)))
  }

  /** The month after (`year`, `month`). */
  function NextMonth(year: nat, month: nat): (r: (nat, nat))
    requires 1 <= month <= 12
    ensures 1 <= r.1 <= 12
    ensures r.0 * 12 + r.1 == year * 12 + month + 1
  {
    if month == 12 then (year + 1, 1) else (year, month + 1)
  }

  /** The body of `check_journal_limit`. */
  datatype JournalLimit =
    | Unlimited(tier: string)
    | Limited(tier: string, count: nat, limit: int, remaining: nat, limitReached: bool,
              canCreate: bool, resetYear: nat, resetMonth: nat, monthKey: string)

  /** `check_journal_limit` for a user of `sub` with `count` entries this month. */
  function JournalLimitFor(sub: Option<Subscription>, count: nat, year: nat, month: nat): (r: JournalLimit)
    requires 1 <= month <= 12
    ensures r.tier == CurrentTier(sub)
    ensures r.Unlimited? <==> sub.Some? && sub.value.tier != Free
    ensures r.Limited? ==> r.limit == 1 && r.monthKey == MonthKey(year, month)
    ensures r.Limited? ==> r.remaining == (if r.limit - count > 0 then r.limit - count else 0)
    ensures r.Limited? ==> (r.limitReached <==> count >= r.limit) && r.canCreate == !r.limitReached
    ensures r.Limited? ==> (r.resetYear, r.resetMonth) == NextMonth(year, month) && r.resetMonth >= 1
  {
    var tier := CurrentTier(sub);
    var limits := GetFeatureLimits(tier);
    var quota := limits["journals_per_month"];
    if quota == SInt(-1) then Unlimited(tier)
    else
      var limit := if quota.SInt? then quota.i else 1;
      var remaining := if limit - count > 0 then limit - count else 0;
      var reset := NextMonth(year, month);
      Limited(tier, count, limit, remaining, count >= limit, !(count >= limit), reset.0, reset.1, MonthKey(year, month))
  }

  /** Under a limited quota a user may create an entry exactly when some remain. */
  lemma CanCreateIffRemaining(sub: Option<Subscription>, count: nat, year: nat, month: nat)
    requires 1 <= month <= 12
    ensures var r := JournalLimitFor(sub, count, year, month);
      r.Limited? ==> (r.canCreate <==> r.remaining > 0) && r.remaining <= 1
    ensures JournalLimitFor(sub, count, year, month).Unlimited? ==> IsPremium(sub.value)
  {
  }

  /** The reset date rolls December over to January of the next year, and is the month right after. */
  lemma ResetRollsOver(year: nat, month: nat)
    requires 1 <= month <= 12
    ensures month == 12 ==> NextMonth(year, month) == (year + 1, 1)
    ensures month < 12 ==> NextMonth(year, month) == (year, month + 1)
    ensures NextMonth(year, month) != (year, month)
  {
  }
}

=== FILE: journal.dfy ===
/**
 * The journal service's own logic: the filters and page arithmetic of the
 * paginated listing, the partial update of an entry, the mood icons, the
 * mood distribution and the calendar range of a month.  The database is
 * the sequence of entries a query sees, in the order the query returns
 * them; the distribution starts from the rows its grouped query returns.
 */
module Journal {
  import opened Wrappers

  /** `MoodRating`. */
  datatype Mood = Great | Good | Calm | Stressed | Overwhelmed

  /** The stored string of a mood: one of the keys of the mood distribution. */
  function MoodValue(m: Mood): (r: string)
    ensures r in ZERO_DISTRIBUTION
  {
    match m
    case Great => "great"
    case Good => "good"
    case Calm => "calm"
    case Stressed => "stressed"
    case Overwhelmed => "overwhelmed"
  }

  /** Every mood, in declaration order. */
  const MOODS: seq<Mood> := [Great, Good, Calm, Stressed, Overwhelmed]

  lemma MoodsComplete(m: Mood)
    ensures m in MOODS
  {
  }

  /** `get_mood_icon`: no icon without a mood, one emoji per mood. */
  function MoodIcon(mood: Option<Mood>): (r: Option<string>)
    ensures r.None? <==> mood.None?
    ensures r.Some? ==> |r.value| == 1
  {
    match mood
    case None => None
    case Some(Great) => Some("\U{1F604}")
    case Some(Good) => Some("\U{1F60A}")
    case Some(Calm) => Some("\U{1F60C}")
    case Some(Stressed) => Some("\U{1F61F}")
    case Some(Overwhelmed) => Some("\U{1F630}")
  }

  /** Different moods have different icons. */
  lemma MoodIconInjective(a: Mood, b: Mood)
    requires MoodIcon(Some(a)) == MoodIcon(Some(b))
    ensures a == b
  {
  }

  /** `JournalEntry`: the fields an update may change are variables. */
  class JournalEntry {
    const entryId: string
    const userId: string
    const date: int
    var entryText: Option<string>
    var moodRating: Option<Mood>

    constructor (entryId: string, userId: string, date: int, entryText: Option<string>, moodRating: Option<Mood>)
      ensures this.entryId == entryId && this.userId == userId && this.date == date
      ensures this.entryText == entryText && this.moodRating == moodRating
    {
      this.entryId := entryId;
      this.userId := userId;
      this.date := date;
      this.entryText := entryText;
      this.moodRating := moodRating;
    }

    function Content(): EntryContent
      reads this
    {
      EntryContent(entryText, moodRating)
    }
  }

  /** What an update can change. */
  datatype EntryContent = EntryContent(entryText: Option<string>, moodRating: Option<Mood>)

  /** `JournalEntryUpdate`: a field left as None is not written. */
  datatype EntryUpdate = EntryUpdate(entryText: Option<string>, moodRating: Option<Mood>)

  /** The content after an update: each given field replaces the old one. */
  function Applied(c: EntryContent, u: EntryUpdate): (r: EntryContent)
    ensures u.entryText.None? ==> r.entryText == c.entryText
    ensures u.entryText.Some? ==> r.entryText == u.entryText
    ensures u.moodRating.None? ==> r.moodRating == c.moodRating
    ensures u.moodRating.Some? ==> r.moodRating == u.moodRating
  {
    EntryContent(if u.entryText.Some? then u.entryText else c.entryText,
                 if u.moodRating.Some? then u.moodRating else c.moodRating)
  }

  /** An empty update changes nothing, and applying an update twice is applying it once. */
  lemma AppliedLaws(c: EntryContent, u: EntryUpdate)
    ensures Applied(c, EntryUpdate(None, None)) == c
    ensures Applied(Applied(c, u), u) == Applied(c, u)
  {
  }

  /** An update can set fields but never clear them. */
  lemma AppliedNeverClears(c: EntryContent, u: EntryUpdate)
    ensures c.entryText.Some? ==> Applied(c, u).entryText.Some?
    ensures c.moodRating.Some? ==> Applied(c, u).moodRating.Some?
  {
  }

  /** `update_entry`. */
  method UpdateEntry(entry: JournalEntry, u: EntryUpdate)
    modifies entry
    ensures entry.Content() == Applied(old(entry.Content()), u)
  {
    if u.entryText.Some? {
      entry.entryText := u.entryText;
    }
    if u.moodRating.Some? {
      entry.moodRating := u.moodRating;
    }
  }

  /** The filters of `get_entries_paginated`. */
  datatype Filters = Filters(userId: string, fromDate: Option<int>, toDate: Option<int>, mood: Option<Mood>)

  /** An entry the listing's conditions select. */
  predicate Selected(e: JournalEntry, f: Filters)
    reads e
  {
    e.userId == f.userId &&
    (f.fromDate.Some? ==> e.date >= f.fromDate.value) &&
    (f.toDate.Some? ==> e.date <= f.toDate.value) &&
    (f.mood.Some? ==> e.moodRating == f.mood)
  }

  /** The selected entries, in query order. */
  function Filter(rows: seq<JournalEntry>, f: Filters): (r: seq<JournalEntry>)
    reads rows
    ensures |r| <= |rows|
    ensures forall i :: 0 <= i < |r| ==> r[i] in rows && Selected(r[i], f)
    ensures forall e :: e in rows && Selected(e, f) ==> e in r
  {
    if rows == [] then []
    else
      var rest := Filter(rows[..|rows| - 1], f);
      var e := rows[|rows| - 1];
      if Selected(e, f) then rest + [e] else rest
  }

  /** The page metadata of `get_entries_paginated`. */
  datatype Pagination = Pagination(currentPage: int, totalPages: int, totalEntries: nat, perPage: int,
                                   hasNext: bool, hasPrevious: bool)

  /** The page metadata for `total` matching entries. */
  function PageInfo(total: nat, page: int, limit: int): (r: Pagination)
    requires page >= 1 && limit >= 1
    ensures r.currentPage == page && r.totalEntries == total && r.perPage == limit
    ensures r.totalPages >= 1
    ensures total > 0 ==> (r.totalPages - 1) * limit < total <= r.totalPages * limit
    ensures total == 0 ==> r.totalPages == 1
    ensures r.hasPrevious <==> page > 1
  {
    var totalPages := if total > 0 then (total + limit - 1) / limit else 1;
    CeilingBounds(total, limit);
    Pagination(page, totalPages, total, limit, page < totalPages, page > 1)
  }

  /** ⌈total / limit⌉ is the least page count that holds every entry. */
  lemma CeilingBounds(total: nat, limit: int)
    requires limit >= 1
    ensures total > 0 ==> ((total + limit - 1) / limit - 1) * limit < total <= ((total + limit - 1) / limit) * limit
  {
    if total > 0 {
      var q := (total + limit - 1) / limit;
      var m := (total + limit - 1) % limit;
      assert q * limit + m == total + limit - 1;
      assert (q - 1) * limit == q * limit - limit;
    }
  }

  /** `offset`: the entries of the earlier pages are skipped. */
  function Offset(page: int, limit: int): (r: nat)
    requires page >= 1 && limit >= 1
    ensures r + limit == page * limit
  {
    MulMono(0, page - 1, limit);
    (page - 1) * limit
  }

  /** Multiplying by a positive page size keeps the order. */
  lemma {:induction false} MulMono(a: int, b: int, limit: int)
    requires a <= b && limit >= 1
    ensures a * limit <= b * limit
    decreases b - a
  {
    if a < b {
      MulMono(a + 1, b, limit);
      assert (a + 1) * limit == a * limit + limit;
    }
  }

  /** There is a next page exactly when entries remain beyond this page. */
  lemma HasNextIffMore(total: nat, page: int, limit: int)
    requires page >= 1 && limit >= 1
    ensures PageInfo(total, page, limit).hasNext <==> Offset(page, limit) + limit < total
  {
    var r := PageInfo(total, page, limit);
    if total > 0 {
      if page < r.totalPages {
        MulMono(page, r.totalPages - 1, limit);
      } else {
        MulMono(r.totalPages, page, limit);
      }
    }
  }

  /** The rows from `offset`, at most `limit` of them. */
  function Window(s: seq<JournalEntry>, offset: nat, limit: nat): (r: seq<JournalEntry>)
    ensures |r| <= limit
    ensures offset < |s| && limit > 0 ==> |r| >= 1
    ensures offset >= |s| ==> r == []
    ensures forall i :: 0 <= i < |r| ==> offset + i < |s| && r[i] == s[offset + i]
  {
    if offset >= |s| then [] else s[offset..if offset + limit < |s| then offset + limit else |s|]
  }

  /** The entries of pages 1 to `n`, each read with its own offset. */
  function FirstPages(s: seq<JournalEntry>, n: nat, limit: nat): seq<JournalEntry>
  {
    if n == 0 then [] else FirstPages(s, n - 1, limit) + Window(s, (n - 1) * limit, limit)
  }

  /** Reading pages 1 to `n` in turn gives a prefix of the rows without gaps or repeats. */
  lemma {:induction false} FirstPagesArePrefix(s: seq<JournalEntry>, n: nat, limit: nat)
    ensures FirstPages(s, n, limit) == s[..if n * limit < |s| then n * limit else |s|]
  {
    if n > 0 {
      FirstPagesArePrefix(s, n - 1, limit);
      assert (n - 1) * limit + limit == n * limit;
    }
  }

  /** The reply of `get_entries_paginated`. */
  datatype Listing = Listing(entries: seq<JournalEntry>, pagination: Pagination)

  /** `get_entries_paginated` over the rows the query sees. */
  function EntriesPaginated(rows: seq<JournalEntry>, f: Filters, page: int, limit: int): (r: Listing)
    requires page >= 1 && limit >= 1
    reads rows
    ensures r.pagination == PageInfo(|Filter(rows, f)|, page, limit)
    ensures |r.entries| <= limit
    ensures forall e :: e in r.entries ==> e in rows && Selected(e, f)
  {
    var matching := Filter(rows, f);
    var entries := Window(matching, Offset(page, limit), limit);
    assert forall i :: 0 <= i < |entries| ==> entries[i] in matching;
    Listing(entries, PageInfo(|matching|, page, limit))
  }

  /** Reading every page in turn lists every matching entry once, in query order. */
  lemma AllPagesListEverything(rows: seq<JournalEntry>, f: Filters, limit: int)
    requires limit >= 1
    ensures FirstPages(Filter(rows, f), PageInfo(|Filter(rows, f)|, 1, limit).totalPages, limit) == Filter(rows, f)
  {
    var matching := Filter(rows, f);
    var n := PageInfo(|matching|, 1, limit).totalPages;
    FirstPagesArePrefix(matching, n, limit);
  }

  /** A page within the page count is non-empty when anything matches; a page beyond it is empty. */
  lemma PageWithinCountHasEntries(rows: seq<JournalEntry>, f: Filters, page: int, limit: int)
    requires page >= 1 && limit >= 1
    ensures var r := EntriesPaginated(rows, f, page, limit);
      (r.pagination.totalEntries > 0 && page <= r.pagination.totalPages ==> r.entries != []) &&
      (page > r.pagination.totalPages ==> r.entries == [])
  {
    var matching := Filter(rows, f);
    var info := PageInfo(|matching|, page, limit);
    var offset := Offset(page, limit);
    if page <= info.totalPages {
      MulMono(page, info.totalPages, limit);
    } else {
      MulMono(info.totalPages, page - 1, limit);
    }
    assert EntriesPaginated(rows, f, page, limit).entries == Window(matching, offset, limit);
  }

  /** A grouped row of the distribution query. */
  datatype MoodCount = MoodCount(mood: Option<Mood>, count: int)

  /** Every mood's value mapped to 0. */
  const ZERO_DISTRIBUTION: map<string, int> :=
    map["great" := 0, "good" := 0, "calm" := 0, "stressed" := 0, "overwhelmed" := 0]

  /**
   * The distribution after the rows: each row with a mood overwrites that
   * mood's count.  It keeps exactly the keys of the starting one, one per
   * mood.
   */
  function Distribution(rows: seq<MoodCount>): (r: map<string, int>)
    ensures r.Keys == ZERO_DISTRIBUTION.Keys
  {
    if rows == [] then ZERO_DISTRIBUTION
    else
      var d := Distribution(rows[..|rows| - 1]);
      var row := rows[|rows| - 1];
      if row.mood.Some? then d[MoodValue(row.mood.value) := row.count] else d
  }

  /** `get_mood_distribution` over the grouped rows. */
  method MoodDistribution(rows: seq<MoodCount>) returns (distribution: map<string, int>)
    ensures distribution == Distribution(rows)
  {
    distribution := ZERO_DISTRIBUTION;
    var i := 0;
    while i < |rows|
      invariant 0 <= i <= |rows|
      invariant distribution == Distribution(rows[..i])
    {
      assert rows[..i + 1][..i] == rows[..i];
      var row := rows[i];
      if row.mood.Some? {
        distribution := distribution[MoodValue(row.mood.value) := row.count];
      }
      i := i + 1;
    }
    assert rows[..i] == rows;
  }

  /** A mood no row mentions counts 0; otherwise it counts what its last row says. */
  lemma {:induction false} DistributionOf(rows: seq<MoodCount>, m: Mood)
    ensures MoodValue(m) in Distribution(rows)
    ensures (forall i :: 0 <= i < |rows| ==> rows[i].mood != Some(m)) ==> Distribution(rows)[MoodValue(m)] == 0
    ensures (forall j :: 0 <= j < |rows| - 1 ==> rows[j].mood != Some(m)) && rows != [] && rows[|rows| - 1].mood == Some(m)
      ==> Distribution(rows)[MoodValue(m)] == rows[|rows| - 1].count
  {
    if rows != [] {
      var prefix := rows[..|rows| - 1];
      DistributionOf(prefix, m);
      var row := rows[|rows| - 1];
      if row.mood.Some? && row.mood.value != m {
        MoodValueInjective(row.mood.value, m);
      }
    }
  }

  lemma MoodValueInjective(a: Mood, b: Mood)
    requires a != b
    ensures MoodValue(a) != MoodValue(b)
  {
  }

  /** A calendar date. */
  datatype CalDate = CalDate(year: int, month: int, day: int)

  /** The Gregorian leap-year rule. */
  predicate IsLeap(year: int)
  {
    year % 4 == 0 && (year % 100 != 0 || year % 400 == 0)
  }

  /** `calendar.monthrange(year, month)[1]`. */
  function DaysInMonth(year: int, month: int): (r: int)
    requires 1 <= month <= 12
    ensures 28 <= r <= 31
    ensures month == 2 ==> (r == 29 <==> IsLeap(year))
  {
    if month == 2 then (if IsLeap(year) then 29 else 28)
    else if month == 4 || month == 6 || month == 9 || month == 11 then 30
    else 31
  }

  /** A real calendar date. */
  predicate ValidDate(d: CalDate)
  {
    1 <= d.month <= 12 && 1 <= d.day <= DaysInMonth(d.year, d.month)
  }

  /** Date order. */
  predicate NotAfter(a: CalDate, b: CalDate)
  {
    a.year < b.year || (a.year == b.year && (a.month < b.month || (a.month == b.month && a.day <= b.day)))
  }

  /** The first and last day `get_entry_count_for_month` counts between. */
  function MonthRange(year: int, month: int): (r: (CalDate, CalDate))
    requires 1 <= month <= 12
    ensures ValidDate(r.0) && ValidDate(r.1) && NotAfter(r.0, r.1)
  {
    (CalDate(year, month, 1), CalDate(year, month, DaysInMonth(year, month)))
  }

  /** A date lies in the range exactly when it is in that month. */
  lemma MonthRangeIsMonth(year: int, month: int, d: CalDate)
    requires 1 <= month <= 12 && ValidDate(d)
    ensures var r := MonthRange(year, month);
      (NotAfter(r.0, d) && NotAfter(d, r.1)) <==> (d.year == year && d.month == month)
  {
  }
}

=== FILE: json.dfy ===
/**
 * JSON values as the services store them: task records are flat objects
 * whose values are scalars.  ISO-formatted date and timestamp strings are
 * kept as their day number or millisecond value (SDate, STime): the
 * formatting and parsing libraries are not part of this model, so a plain
 * SStr standing where a date is expected counts as malformed.
 */
module Json {

  datatype Scalar =
    | SNull
    | SStr(s: string)
    | SInt(i: int)
    | SBool(b: bool)
    | SDate(day: int)     // an ISO "YYYY-MM-DD" string for day ordinal `day`
    | STime(ms: int)      // an ISO timestamp string for `ms` milliseconds since the epoch

  /** A JSON object whose members are scalars. */
  type Dict = map<string, Scalar>

  /** A decoded JSON document: an object or a bare scalar. */
  datatype Doc = DObj(fields: Dict) | DScalar(v: Scalar)

  /** Python truthiness of a decoded scalar. */
  predicate Truthy(v: Scalar)
  {
    match v
    case SNull => false
    case SStr(s) => s != ""
    case SInt(i) => i != 0
    case SBool(b) => b
    case SDate(_) => true
    case STime(_) => true
  }

  /** Python's `d.get(key)`: the member, or null when absent. */
  function Get(d: Dict, key: string): (r: Scalar)
    ensures key !in d ==> r == SNull
    ensures key in d ==> r == d[key]
  {
    if key in d then d[key] else SNull
  }

  /** Python's `d.update(u)`: members of `u` win, others are kept. */
  function Merge(d: Dict, u: Dict): (r: Dict)
    ensures r.Keys == d.Keys + u.Keys
    ensures forall k :: k in u ==> r[k] == u[k]
    ensures forall k :: k in d && k !in u ==> r[k] == d[k]
  {
    map k | k in d.Keys + u.Keys :: if k in u then u[k] else d[k]
  }
}

=== FILE: rate_limit.dfy ===
/**
 * The fixed-window request counter.  The key-value store is two maps:
 * each key's count and its remaining time to live in seconds.  A store
 * failure is a parameter (`backendUp`); the window running out is the
 * `Expire` method.
 */
module RateLimit {
  import opened Wrappers
  import opened Text

  datatype Limits = Limits(maxRequests: int, windowSeconds: int)

  /** `RateLimiter.LIMITS`. */
  const LIMITS: map<string, Limits> := map[
    "auth" := Limits(5, 60),
    "create" := Limits(30, 60),
    "read" := Limits(100, 60),
    "voice" := Limits(10, 60)]

  /** An optional override that Python's `or` keeps: present and non-zero. */
  predicate Given(o: Option<int>)
  {
    o.Some? && o.value != 0
  }

  /** The limits a check applies: the action's (the read limits for an unknown action), each replaced by a given override. */
  function EffectiveLimits(action: string, maxRequests: Option<int>, windowSeconds: Option<int>): (r: Limits)
    ensures var base := if action in LIMITS then LIMITS[action] else LIMITS["read"];
      r.maxRequests == (if Given(maxRequests) then maxRequests.value else base.maxRequests) &&
      r.windowSeconds == (if Given(windowSeconds) then windowSeconds.value else base.windowSeconds)
  {
    var base := if action in LIMITS then LIMITS[action] else LIMITS["read"];
    Limits(if Given(maxRequests) then maxRequests.value else base.maxRequests,
           if Given(windowSeconds) then windowSeconds.value else base.windowSeconds)
  }

  /** Without overrides every limit is at least one request over a positive window. */
  lemma DefaultLimitsPositive(action: string)
    ensures EffectiveLimits(action, None, None).maxRequests >= 5
    ensures EffectiveLimits(action, None, None).windowSeconds == 60
    ensures action !in LIMITS ==> EffectiveLimits(action, None, None) == Limits(100, 60)
  {
  }

  /** `_get_key`. */
  function Key(identifier: string, action: string): (r: string)
    ensures StartsWith(r, "ratelimit:")
  {
    "ratelimit:" + action + ":" + identifier
  }

  /** The reply of a check. */
  datatype Verdict = Verdict(allowed: bool, remaining: int, resetIn: int)

  /** The reset time reported: the key's time to live when positive, else the window. */
  function ResetIn(ttl: int, window: int): (r: int)
    ensures r == ttl || r == window
    ensures r > 0 <== window > 0
  {
    if ttl > 0 then ttl else window
  }

  /** One check against the stored count `current` (None when the key is absent): the verdict and the count afterwards. */
  function Decide(current: Option<int>, ttl: int, lim: Limits): (r: (Verdict, int))
    ensures r.0.allowed <==> current.None? || current.value < lim.maxRequests
    ensures r.0.allowed ==> r.1 == (if current.None? then 1 else current.value + 1) && r.0.remaining == lim.maxRequests - r.1
    ensures !r.0.allowed ==> r.1 == current.value && r.0.remaining == 0
    ensures r.0.resetIn == (if current.None? then lim.windowSeconds else ResetIn(ttl, lim.windowSeconds))
  {
    if current.None? then (Verdict(true, lim.maxRequests - 1, lim.windowSeconds), 1)
    else if current.value >= lim.maxRequests then (Verdict(false, 0, ResetIn(ttl, lim.windowSeconds)), current.value)
    else (Verdict(true, lim.maxRequests - current.value - 1, ResetIn(ttl, lim.windowSeconds)), current.value + 1)
  }

  /** With a limit of at least one, a count within the limit stays within it. */
  lemma WithinLimitStays(current: Option<int>, ttl: int, lim: Limits)
    requires lim.maxRequests >= 1
    requires current.Some? ==> 0 <= current.value <= lim.maxRequests
    ensures 1 <= Decide(current, ttl, lim).1 <= lim.maxRequests
    ensures Decide(current, ttl, lim).0.remaining >= 0
  {
  }

  /** How many of `n` successive checks in one window are allowed, starting from `current`. */
  function AllowedRun(n: nat, current: Option<int>, lim: Limits): (r: nat)
    ensures r <= n
  {
    if n == 0 then 0
    else
      var d := Decide(current, 0, lim);
      (if d.0.allowed then 1 else 0) + AllowedRun(n - 1, Some(d.1), lim)
  }

  /** From a count `c` within the limit, exactly min(n, max - c) further checks are allowed. */
  lemma {:induction false} AllowedRunFrom(n: nat, c: int, lim: Limits)
    requires 0 <= c <= lim.maxRequests
    ensures AllowedRun(n, Some(c), lim) == (if n < lim.maxRequests - c then n else lim.maxRequests - c)
  {
    if n > 0 {
      if c < lim.maxRequests {
        AllowedRunFrom(n - 1, c + 1, lim);
      } else {
        AllowedRunFrom(n - 1, c, lim);
      }
    }
  }

  /** In a fresh window at most `max` requests are allowed: exactly min(n, max) of n. */
  lemma AllowedInWindow(n: nat, lim: Limits)
    requires lim.maxRequests >= 1
    ensures AllowedRun(n, None, lim) == (if n < lim.maxRequests then n else lim.maxRequests)
  {
    if n > 0 {
      AllowedRunFrom(n - 1, 1, lim);
    }
  }

  /** The time to live the store reports: -2 for a missing key. */
  function TtlOf(ttls: map<string, int>, key: string): (r: int)
    ensures key !in ttls ==> r == -2
    ensures key in ttls ==> r == ttls[key]
  {
    if key in ttls then ttls[key] else -2
  }

  /** The request counters: one count and one time to live per key. */
  class RateLimiter {
    var counts: map<string, int>
    var ttls: map<string, int>

    /** A count is only ever written together with its time to live. */
    ghost predicate Valid()
      reads this
    {
      counts.Keys == ttls.Keys
    }

    constructor ()
      ensures Valid() && counts == map[] && ttls == map[]
    {
      counts := map[];
      ttls := map[];
    }

    /**
     * `check_rate_limit`.  A first request sets the count to 1 with the
     * window as its time to live; later ones increment it, keeping the
     * time to live; a refused one changes nothing; a store failure lets
     * the request through with the full limit remaining.
     */
    method CheckRateLimit(identifier: string, action: string, maxRequests: Option<int>, windowSeconds: Option<int>,
                          backendUp: bool) returns (v: Verdict)
      requires Valid()
      modifies this
      ensures Valid()
      ensures var lim := EffectiveLimits(action, maxRequests, windowSeconds);
        !backendUp ==> v == Verdict(true, lim.maxRequests, lim.windowSeconds) && counts == old(counts) && ttls == old(ttls)
      ensures var lim := EffectiveLimits(action, maxRequests, windowSeconds);
        var key := Key(identifier, action);
        var d := Decide(if key in old(counts) then Some(old(counts)[key]) else None, TtlOf(old(ttls), key), lim);
        backendUp ==>
          v == d.0 && counts == old(counts)[key := d.1] &&
          ttls == (if key in old(counts) then old(ttls) else old(ttls)[key := lim.windowSeconds])
    {
      var lim := EffectiveLimits(action, maxRequests, windowSeconds);
      var key := Key(identifier, action);
      if !backendUp {
        return Verdict(true, lim.maxRequests, lim.windowSeconds);
      }
      if key !in counts {
        counts := counts[key := 1];
        ttls := ttls[key := lim.windowSeconds];
        return Verdict(true, lim.maxRequests - 1, lim.windowSeconds);
      }
      var current := counts[key];
      if current >= lim.maxRequests {
        return Verdict(false, 0, ResetIn(ttls[key], lim.windowSeconds));
      }
      counts := counts[key := current + 1];
      v := Verdict(true, lim.maxRequests - current - 1, ResetIn(ttls[key], lim.windowSeconds));
    }

    /** The key's time to live runs out: the window ends and the next request starts a new one. */
    method Expire(key: string)
      requires Valid()
      modifies this
      ensures Valid()
      ensures counts == old(counts) - {key} && ttls == old(ttls) - {key}
    {
      counts := counts - {key};
      ttls := ttls - {key};
    }
  }

  /** `rate_limit_dependency`'s identifier: the client host, or part of a bearer token. */
  function Identifier(clientHost: Option<string>, authorization: Option<string>): (r: string)
    ensures authorization.Some? && StartsWith(authorization.value, "Bearer ") ==>
      var a := authorization.value;
      r == a[7..if |a| < 20 then |a| else 20] && |r| <= 13
    ensures !(authorization.Some? && StartsWith(authorization.value, "Bearer ")) ==>
      r == (if clientHost.Some? then clientHost.value else "unknown")
  {
    if authorization.Some? && authorization.value != "" && StartsWith(authorization.value, "Bearer ") then
      var a := authorization.value;
      a[7..if |a| < 20 then |a| else 20]
    else if clientHost.Some? then clientHost.value
    else "unknown"
  }

  /** The 429 reply's headers. */
  datatype TooMany = TooMany(limit: int, remaining: int, retryAfter: int)

  /** `rate_limit_dependency`: None lets the request through. */
  method RateLimitDependency(limiter: RateLimiter, clientHost: Option<string>, authorization: Option<string>,
                             action: string, backendUp: bool) returns (r: Option<TooMany>, v: Verdict)
    requires limiter.Valid()
    modifies limiter
    ensures limiter.Valid()
    ensures r.None? <==> v.allowed
    ensures r.Some? ==> r.value.remaining == v.remaining && r.value.retryAfter == v.resetIn
    ensures r.Some? ==> r.value.limit == (if action in LIMITS then LIMITS[action].maxRequests else 100)
    ensures var lim := EffectiveLimits(action, None, None);
      var key := Key(Identifier(clientHost, authorization), action);
      backendUp ==>
        v == Decide(if key in old(limiter.counts) then Some(old(limiter.counts)[key]) else None,
                    TtlOf(old(limiter.ttls), key), lim).0
    ensures !backendUp ==> v.allowed && r.None?
  {
    var identifier := Identifier(clientHost, authorization);
    v := limiter.CheckRateLimit(identifier, action, None, None, backendUp);
    if v.allowed {
      r := None;
    } else {
      r := Some(TooMany(if action in LIMITS then LIMITS[action].maxRequests else 100, v.remaining, v.resetIn));
    }
  }
}

=== FILE: revenuecat.dfy ===
/**
 * The RevenueCat integration: product → tier and store → platform
 * mapping, the webhook state machine, the force-sync status rules and the
 * restore-purchases selection.
 *
 * The RevenueCat REST call is not part of this model: the subscriber
 * document it returns is a parameter (`SubscriberData`, with ISO dates
 * already read as millisecond values), and so is UUID parsing (`uuidOf`,
 * which gives the canonical user id of a string that parses as a UUID).
 * Webhook millisecond fields are stored as they arrive.
 */
module RevenueCat {
  import opened Wrappers
  import opened Text
  import opened Subscriptions

  /** Python truthiness of an optional string field. */
  predicate Given(o: Option<string>)
  {
    o.Some? && o.value != ""
  }

  /** Python truthiness of an optional millisecond field. */
  predicate GivenMs(o: Option<int>)
  {
    o.Some? && o.value != 0
  }

  // ---------------------------------------------------------------------
  // Product and store mapping
  // ---------------------------------------------------------------------

  /** `word in product_id.lower()`. */
  predicate Mentions(productId: string, word: string)
  {
    Contains(Lower(productId), word)
  }

  /** `map_tier_from_product`. */
  function MapTier(productId: Option<string>): (r: Tier)
    ensures r == Free <==>
      !Given(productId) ||
      !(Mentions(productId.value, "annual") || Mentions(productId.value, "yearly") || Mentions(productId.value, "monthly"))
    ensures r == Monthly ==> !Mentions(productId.value, "annual") && !Mentions(productId.value, "yearly")
  {
    if !Given(productId) then Free
    else if Mentions(productId.value, "annual") || Mentions(productId.value, "yearly") then Annual
    else if Mentions(productId.value, "monthly") then Monthly
    else Free
  }

  /** The mapping ignores letter case. */
  lemma MapTierIgnoresCase(p: string)
    ensures MapTier(Some(Lower(p))) == MapTier(Some(p))
  {
    LowerIdempotent(p);
  }

  /** An id naming a year wins over one that also names a month. */
  lemma AnnualBeforeMonthly(p: string)
    requires Mentions(p, "monthly")
    ensures MapTier(Some(p)) == (if Mentions(p, "annual") || Mentions(p, "yearly") then Annual else Monthly)
  {
  }

  /** A string with a character `sub` has and `s` lacks does not contain `sub`. */
  lemma MissingChar(s: string, sub: string, c: char)
    requires c in sub && c !in s
    ensures !Contains(s, sub)
  {
  }

  /** `_parse_platform`'s table. */
  const STORE_MAP: map<string, Platform> :=
    map["app_store" := IOS, "play_store" := Android, "stripe" := Web, "mac_app_store" := IOS, "amazon" := Android]

  /** `_parse_platform`. */
  function ParsePlatform(store: Option<string>): (r: Option<Platform>)
    ensures r.Some? ==> Given(store) && Lower(store.value) in STORE_MAP && r.value == STORE_MAP[Lower(store.value)]
    ensures Given(store) && Lower(store.value) in STORE_MAP ==> r.Some?
  {
    if !Given(store) then None
    else
      var k := Lower(store.value);
      if k in STORE_MAP then Some(STORE_MAP[k]) else None
  }

  /** The lookup ignores letter case. */
  lemma PlatformIgnoresCase(store: string)
    ensures ParsePlatform(Some(Lower(store))) == ParsePlatform(Some(store))
  {
    LowerIdempotent(store);
  }

  /** Only Stripe is the web store. */
  lemma WebStores(store: string)
    ensures ParsePlatform(Some(store)) == Some(Web) <==> Lower(store) == "stripe"
  {
  }

  /** The two Apple stores are iOS. */
  lemma AppleStores(store: string)
    ensures ParsePlatform(Some(store)) == Some(IOS) <==> Lower(store) == "app_store" || Lower(store) == "mac_app_store"
  {
  }

  /** Google Play and Amazon are Android. */
  lemma AndroidStores(store: string)
    ensures ParsePlatform(Some(store)) == Some(Android) <==> Lower(store) == "play_store" || Lower(store) == "amazon"
  {
  }

  // ---------------------------------------------------------------------
  // Webhook events
  // ---------------------------------------------------------------------

  /**
   * The members of a webhook `event` object the handler reads.  For most
   * members an absent member and an explicit null are both None.  The
   * members some path reads with a default keep the difference: None is
   * absent, Some(None) is null.  These are `product_id` and
   * `original_app_user_id` (defaulting to "" on the new-user path) and
   * `new_product_id` (defaulting to `product_id`).  An absent
   * `entitlement_ids` is the empty list.
   */
  datatype WebhookEvent = WebhookEvent(
    eventType: Option<string>,
    appUserId: Option<string>,
    originalAppUserId: Option<Option<string>>,
    productId: Option<Option<string>>,
    newProductId: Option<Option<string>>,
    expirationAtMs: Option<int>,
    purchasedAtMs: Option<int>,
    isTrialConversion: bool,
    transactionId: Option<string>,
    originalTransactionId: Option<string>,
    entitlementIds: seq<string>,
    store: Option<string>)

  /** `event.get(name)`: an absent member and a null are both None. */
  function Get(m: Option<Option<string>>): (r: Option<string>)
    ensures r.Some? <==> m.Some? && m.value.Some?
    ensures r.Some? ==> r.value == m.value.value
  {
    if m.Some? then m.value else None
  }

  /** `event.get(name, default)`: only an absent member takes the default; a null stays None. */
  function GetOr(m: Option<Option<string>>, default: string): (r: Option<string>)
    ensures m.None? ==> r == Some(default)
    ensures m.Some? ==> r == m.value
  {
    if m.Some? then m.value else Some(default)
  }

  /** The event types the handler acts on; any other type is a no-op. */
  const HANDLED_TYPES: set<string> := {
    "INITIAL_PURCHASE", "RENEWAL", "NON_RENEWING_PURCHASE", "CANCELLATION", "UNCANCELLATION",
    "EXPIRATION", "BILLING_ISSUE", "PRODUCT_CHANGE", "SUBSCRIPTION_PAUSED", "TRANSFER"}

  /** The order used to tell an upgrade from a downgrade. */
  function TierRank(t: Tier): (r: nat)
    ensures r <= 2
  {
    match t
    case Free => 0
    case Monthly => 1
    case Annual => 2
  }

  /** The result of a handled event: the new row and the history event, or no change at all. */
  datatype Transition = Transition(sub: Subscription, event: EventType) | Untouched

  /** Every handled event stamps the sync time, and the write restamps `updated_at`. */
  function Stamp(s: Subscription, now: int): (r: Subscription)
    ensures r.lastSync == Some(now) && r.updatedAt == now
  {
    s.(lastSync := Some(now), updatedAt := now)
  }

  /**
   * The field updates of INITIAL_PURCHASE and RENEWAL: active and renewing,
   * the product's tier when a product is given, a trial end on a trial
   * conversion; the owner, the start and any cancellation are kept.
   */
  function Purchased(s: Subscription, e: WebhookEvent, now: int): (r: Subscription)
    ensures r.status == Active && r.autoRenew
    ensures r.userId == s.userId && r.subscriberId == s.subscriberId && r.startedAt == s.startedAt &&
            r.cancelledAt == s.cancelledAt && r.platform == s.platform
    ensures Given(Get(e.productId)) ==> r.tier == MapTier(Get(e.productId)) && r.productId == Get(e.productId)
    ensures !Given(Get(e.productId)) ==> r.tier == s.tier && r.productId == s.productId
    ensures r.trialEndDate == (if e.isTrialConversion then Some(now) else s.trialEndDate)
  {
    s.(status := Active,
       tier := if Given(Get(e.productId)) then MapTier(Get(e.productId)) else s.tier,
       expiresAt := if GivenMs(e.expirationAtMs) then e.expirationAtMs else s.expiresAt,
       latestPurchase := if GivenMs(e.purchasedAtMs) then e.purchasedAtMs else s.latestPurchase,
       productId := if Given(Get(e.productId)) then Get(e.productId) else s.productId,
       autoRenew := true,
       trialEndDate := if e.isTrialConversion then Some(now) else s.trialEndDate,
       transactionId := if Given(e.transactionId) then e.transactionId else s.transactionId,
       originalTransactionId := if Given(e.originalTransactionId) then e.originalTransactionId else s.originalTransactionId,
       entitlements := if e.entitlementIds != [] then Some(e.entitlementIds) else s.entitlements)
  }

  /**
   * The field updates of NON_RENEWING_PURCHASE: active but not renewing;
   * unlike a renewing purchase it keeps the expiry and the trial end.
   */
  function NonRenewing(s: Subscription, e: WebhookEvent): (r: Subscription)
    ensures r.status == Active && !r.autoRenew
    ensures r.userId == s.userId && r.expiresAt == s.expiresAt && r.trialEndDate == s.trialEndDate &&
            r.cancelledAt == s.cancelledAt && r.originalTransactionId == s.originalTransactionId
    ensures Given(Get(e.productId)) ==> r.tier == MapTier(Get(e.productId)) && r.productId == Get(e.productId)
    ensures !Given(Get(e.productId)) ==> r.tier == s.tier && r.productId == s.productId
  {
    s.(status := Active,
       tier := if Given(Get(e.productId)) then MapTier(Get(e.productId)) else s.tier,
       autoRenew := false,
       productId := if Given(Get(e.productId)) then Get(e.productId) else s.productId,
       latestPurchase := if GivenMs(e.purchasedAtMs) then e.purchasedAtMs else s.latestPurchase,
       transactionId := if Given(e.transactionId) then e.transactionId else s.transactionId,
       entitlements := if e.entitlementIds != [] then Some(e.entitlementIds) else s.entitlements)
  }

  /** PRODUCT_CHANGE's target: `event.get("new_product_id", product_id)`. */
  function NewProduct(e: WebhookEvent): Option<string>
  {
    if e.newProductId.Some? then e.newProductId.value else Get(e.productId)
  }

  /** The branch of `process_webhook_event` for an existing subscription. */
  function ApplyEvent(s: Subscription, e: WebhookEvent, now: int): (r: Transition)
    ensures r.Untouched? <==> e.eventType.None? || e.eventType.value !in HANDLED_TYPES
    ensures r.Transition? ==> r.sub.userId == s.userId && r.sub.subscriberId == s.subscriberId
    ensures r.Transition? ==> r.sub.lastSync == Some(now) && r.sub.updatedAt == now
  {
    var t := e.eventType.GetOr("");
    if t == "INITIAL_PURCHASE" || t == "RENEWAL" then
      Transition(Stamp(Purchased(s, e, now), now), if t == "RENEWAL" then Renewal else Purchase)
    else if t == "NON_RENEWING_PURCHASE" then
      Transition(Stamp(NonRenewing(s, e), now), NonRenewingPurchase)
    else if t == "CANCELLATION" then
      Transition(Stamp(s.(status := Cancelled, autoRenew := false, cancelledAt := Some(now)), now), Cancellation)
    else if t == "UNCANCELLATION" then
      Transition(Stamp(s.(status := Active, autoRenew := true, cancelledAt := None), now), Uncancellation)
    else if t == "EXPIRATION" then
      Transition(Stamp(s.(status := Expired, tier := Free, autoRenew := false), now), Expiration)
    else if t == "BILLING_ISSUE" then
      Transition(Stamp(s.(status := BillingIssue), now), BillingIssueEvent)
    else if t == "PRODUCT_CHANGE" then
      var np := NewProduct(e);
      var tier := MapTier(np);
      var moved := s.(tier := tier, productId := np,
                      expiresAt := if GivenMs(e.expirationAtMs) then e.expirationAtMs else s.expiresAt);
      Transition(Stamp(moved, now), if TierRank(tier) > TierRank(s.tier) then Upgrade else Downgrade)
    else if t == "SUBSCRIPTION_PAUSED" then
      Transition(Stamp(s.(autoRenew := false), now), SubscriptionPaused)
    else if t == "TRANSFER" then
      Transition(Stamp(s, now), Transfer)
    else
      Untouched
  }

  /** The history row written for a transition of `s` to `t`: the owner, both tiers and both statuses. */
  function HistoryFor(s: Subscription, t: Subscription, event: EventType, e: WebhookEvent): (r: HistoryEntry)
    ensures r.event == event && r.userId == s.userId
    ensures r.prevTier == Some(s.tier) && r.newTier == t.tier
    ensures r.prevStatus == Some(StatusValue(s.status)) && r.newStatus == StatusValue(t.status)
    ensures r.transactionId == e.transactionId
  {
    HistoryEntry(event, s.userId, Some(s.tier), t.tier, Some(StatusValue(s.status)), StatusValue(t.status), e.transactionId)
  }

  /** Purchase-type events activate the subscription; only a renewing purchase renews automatically. */
  lemma PurchaseEvents(s: Subscription, e: WebhookEvent, now: int)
    requires e.eventType.Some? && e.eventType.value in {"INITIAL_PURCHASE", "RENEWAL", "NON_RENEWING_PURCHASE"}
    ensures ApplyEvent(s, e, now).Transition?
    ensures var t := ApplyEvent(s, e, now).sub;
      t.status == Active && IsActive(t) &&
      t.tier == (if Given(Get(e.productId)) then MapTier(Get(e.productId)) else s.tier) &&
      t.autoRenew == (e.eventType.value != "NON_RENEWING_PURCHASE") &&
      t.cancelledAt == s.cancelledAt
    ensures ApplyEvent(s, e, now).event ==
      (if e.eventType.value == "RENEWAL" then Renewal
       else if e.eventType.value == "INITIAL_PURCHASE" then Purchase
       else NonRenewingPurchase)
  {
  }

  /** CANCELLATION keeps the tier, UNCANCELLATION clears the cancellation, EXPIRATION drops to free. */
  lemma CancellationEvents(s: Subscription, e: WebhookEvent, now: int)
    requires e.eventType.Some? && e.eventType.value in {"CANCELLATION", "UNCANCELLATION", "EXPIRATION"}
    ensures ApplyEvent(s, e, now).Transition?
    ensures var t := ApplyEvent(s, e, now).sub;
      (e.eventType.value == "CANCELLATION" ==>
         t.status == Cancelled && !t.autoRenew && t.tier == s.tier && t.cancelledAt == Some(now)) &&
      (e.eventType.value == "UNCANCELLATION" ==>
         t.status == Active && t.autoRenew && t.tier == s.tier && t.cancelledAt.None?) &&
      (e.eventType.value == "EXPIRATION" ==>
         t.status == Expired && t.tier == Free && !t.autoRenew && !IsPremium(t) && !IsActive(t))
  {
  }

  /** BILLING_ISSUE, SUBSCRIPTION_PAUSED and TRANSFER change one field or none besides the sync stamp. */
  lemma QuietEvents(s: Subscription, e: WebhookEvent, now: int)
    requires e.eventType.Some? && e.eventType.value in {"BILLING_ISSUE", "SUBSCRIPTION_PAUSED", "TRANSFER"}
    ensures ApplyEvent(s, e, now).Transition?
    ensures e.eventType.value == "BILLING_ISSUE" ==> ApplyEvent(s, e, now).sub == Stamp(s.(status := BillingIssue), now)
    ensures e.eventType.value == "SUBSCRIPTION_PAUSED" ==> ApplyEvent(s, e, now).sub == Stamp(s.(autoRenew := false), now)
    ensures e.eventType.value == "TRANSFER" ==> ApplyEvent(s, e, now).sub == Stamp(s, now)
  {
  }

  /** PRODUCT_CHANGE records an upgrade exactly when the rank rises; equal ranks count as a downgrade. */
  lemma ProductChangeDirection(s: Subscription, e: WebhookEvent, now: int)
    requires e.eventType == Some("PRODUCT_CHANGE")
    ensures ApplyEvent(s, e, now).Transition?
    ensures ApplyEvent(s, e, now).sub.tier == MapTier(NewProduct(e))
    ensures ApplyEvent(s, e, now).sub.productId == NewProduct(e)
    ensures ApplyEvent(s, e, now).sub.status == s.status
    ensures ApplyEvent(s, e, now).event == Upgrade <==> TierRank(MapTier(NewProduct(e))) > TierRank(s.tier)
    ensures ApplyEvent(s, e, now).event == Downgrade <==> TierRank(MapTier(NewProduct(e))) <= TierRank(s.tier)
  {
  }

  /** A cancellation followed by an uncancellation leaves an active, renewing subscription of the same tier and expiry. */
  lemma CancelThenUncancel(s: Subscription, c: WebhookEvent, u: WebhookEvent, now1: int, now2: int)
    requires c.eventType == Some("CANCELLATION") && u.eventType == Some("UNCANCELLATION")
    ensures ApplyEvent(s, c, now1).Transition?
    ensures var t := ApplyEvent(ApplyEvent(s, c, now1).sub, u, now2);
      t.Transition? && t.sub.status == Active && t.sub.autoRenew && t.sub.cancelledAt.None? &&
      t.sub.tier == s.tier && t.sub.expiresAt == s.expiresAt
  {
    CancellationEvents(s, c, now1);
    CancellationEvents(ApplyEvent(s, c, now1).sub, u, now2);
  }

  // ---------------------------------------------------------------------
  // Finding the subscription and the new-user path
  // ---------------------------------------------------------------------

  /** `_find_subscription`: by subscriber id first, then by the user id the string parses to. */
  function FindSubscription(subs: seq<Subscription>, appUserId: string, uuidOf: string -> Option<string>): (r: Option<nat>)
    ensures r.Some? ==> r.value < |subs|
    ensures r.Some? ==> subs[r.value].subscriberId == Some(appUserId) ||
                        (uuidOf(appUserId).Some? && subs[r.value].userId == uuidOf(appUserId).value)
    ensures r.None? ==> IndexOfSubscriber(subs, appUserId).None?
    ensures r.None? && uuidOf(appUserId).Some? ==> IndexOfUser(subs, uuidOf(appUserId).value).None?
  {
    var bySubscriber := IndexOfSubscriber(subs, appUserId);
    if bySubscriber.Some? then bySubscriber
    else if uuidOf(appUserId).None? then None
    else IndexOfUser(subs, uuidOf(appUserId).value)
  }

  /** What `_handle_initial_purchase_new_user` does. */
  datatype NewUser =
    | Unresolved                              // neither id parses: it returns None
    | Raises                                  // `uuid.UUID(None)` raises TypeError
    | NewRow(sub: Subscription, entry: HistoryEntry)

  /**
   * `_handle_initial_purchase_new_user`: a fresh ACTIVE row for the user the
   * ids name.  `original_app_user_id` is read with the default "", so an
   * absent one is parsed as "" and a null one makes `uuid.UUID` raise; the
   * product is read with the default "", so an absent one is stored as "".
   */
  function NewUserPurchase(e: WebhookEvent, now: int, uuidOf: string -> Option<string>): (r: NewUser)
    requires Given(e.appUserId)
    ensures r.Raises? <==> uuidOf(e.appUserId.value).None? && e.originalAppUserId == Some(None)
    ensures r.Unresolved? <==>
      uuidOf(e.appUserId.value).None? && e.originalAppUserId != Some(None) &&
      uuidOf(GetOr(e.originalAppUserId, "").value).None?
    ensures r.NewRow? ==>
      r.sub.userId ==
        (if uuidOf(e.appUserId.value).Some? then uuidOf(e.appUserId.value).value
         else uuidOf(GetOr(e.originalAppUserId, "").value).value)
    ensures r.NewRow? ==> r.sub.subscriberId == e.appUserId && r.sub.originalAppUserId == Get(e.originalAppUserId)
    ensures r.NewRow? ==> r.sub.productId == GetOr(e.productId, "") && r.sub.tier == MapTier(Get(e.productId))
    ensures r.NewRow? ==> r.sub.status == Active && r.sub.autoRenew
    ensures r.NewRow? ==> r.entry.event == Purchase && r.entry.prevTier == Some(Free) && r.entry.newTier == r.sub.tier
  {
    var app := e.appUserId.value;
    if uuidOf(app).None? && e.originalAppUserId == Some(None) then Raises
    else
      var user :=
        if uuidOf(app).Some? then uuidOf(app)
        else uuidOf(GetOr(e.originalAppUserId, "").value);
      if user.None? then Unresolved
      else
        var product := GetOr(e.productId, "");
        var tier := MapTier(product);
        var purchased := if GivenMs(e.purchasedAtMs) then e.purchasedAtMs else None;
        var sub := Subscription(
          user.value, tier, Active, now,
          if GivenMs(e.expirationAtMs) then e.expirationAtMs else None,
          true, None, None, Some(app), Get(e.originalAppUserId),
          if e.entitlementIds != [] then Some(e.entitlementIds) else None,
          Some(now), ParsePlatform(e.store), product, purchased, purchased,
          if Given(e.transactionId) then e.transactionId else None,
          if Given(e.originalTransactionId) then e.originalTransactionId else None,
          now);
        NewRow(sub, HistoryEntry(Purchase, user.value, Some(Free), tier, Some("active"), "active", e.transactionId))
  }

  /** What `process_webhook_event` did. */
  datatype WebhookOutcome =
    | Ignored                        // returned None
    | Unchanged(sub: Subscription)   // an unhandled type: the row is returned untouched
    | Updated(sub: Subscription)
    | Created(sub: Subscription)
    | DuplicateUser(userId: string)  // the insert violates the unique user_id
    | Raised                         // the handler raises: the endpoint rolls back

  /** `process_webhook_event` against the subscriptions table. */
  method ProcessWebhookEvent(store: SubscriptionStore, e: WebhookEvent, now: int, uuidOf: string -> Option<string>)
    returns (r: WebhookOutcome)
    requires store.Valid()
    modifies store
    ensures store.Valid()
    ensures !Given(e.appUserId) ==> r == Ignored
    ensures r.Ignored? || r.Unchanged? || r.DuplicateUser? || r.Raised? ==>
      store.subs == old(store.subs) && store.history == old(store.history)
    ensures Given(e.appUserId) && FindSubscription(old(store.subs), e.appUserId.value, uuidOf).Some? ==>
      var i := FindSubscription(old(store.subs), e.appUserId.value, uuidOf).value;
      var s := old(store.subs)[i];
      match ApplyEvent(s, e, now)
      case Untouched => r == Unchanged(s)
      case Transition(t, ev) =>
        r == Updated(t) && store.subs == old(store.subs)[i := t] &&
        store.history == old(store.history) + [HistoryFor(s, t, ev, e)]
    ensures Given(e.appUserId) && FindSubscription(old(store.subs), e.appUserId.value, uuidOf).None? ==>
      if e.eventType != Some("INITIAL_PURCHASE") then r == Ignored
      else match NewUserPurchase(e, now, uuidOf)
        case Unresolved => r == Ignored
        case Raises => r == Raised
        case NewRow(sub, entry) =>
          if IndexOfUser(old(store.subs), sub.userId).Some? then r == DuplicateUser(sub.userId)
          else r == Created(sub) && store.subs == old(store.subs) + [sub] &&
               store.history == old(store.history) + [entry]
  {
    if !Given(e.appUserId) {
      return Ignored;
    }
    var app := e.appUserId.value;
    var found := FindSubscription(store.subs, app, uuidOf);
    if found.None? {
      if e.eventType != Some("INITIAL_PURCHASE") {
        return Ignored;
      }
      var created := NewUserPurchase(e, now, uuidOf);
      if created.Unresolved? {
        return Ignored;
      } else if created.Raises? {
        return Raised;
      }
      var sub := created.sub;
      if IndexOfUser(store.subs, sub.userId).Some? {
        return DuplicateUser(sub.userId);
      }
      AppendKeepsUnique(store.subs, sub);
      store.subs := store.subs + [sub];
      store.history := store.history + [created.entry];
      return Created(sub);
    }
    var i := found.value;
    var s := store.subs[i];
    var t := ApplyEvent(s, e, now);
    if t.Untouched? {
      return Unchanged(s);
    }
    ReplaceKeepsUnique(store.subs, i, t.sub);
    store.subs := store.subs[i := t.sub];
    store.history := store.history + [HistoryFor(s, t.sub, t.event, e)];
    r := Updated(t.sub);
  }

  // ---------------------------------------------------------------------
  // Subscriber documents: force-sync and restore
  // ---------------------------------------------------------------------

  /** An entry of `subscriber.subscriptions`, keyed by product id. */
  datatype ProductInfo = ProductInfo(
    productId: string,
    expiresDate: Option<int>,
    purchaseDate: Option<int>,
    originalPurchaseDate: Option<int>,
    unsubscribeDetectedAt: Option<int>,
    billingIssuesDetectedAt: Option<int>,
    storeTransactionId: Option<string>)

  /** An entry of `subscriber.entitlements`, keyed by name. */
  datatype Entitlement = Entitlement(name: string, expiresDate: Option<int>)

  /** The subscriber document, its maps kept in their order. */
  datatype SubscriberData = SubscriberData(
    originalAppUserId: Option<string>,
    entitlements: seq<Entitlement>,
    products: seq<ProductInfo>)

  /** An entitlement without an expiry, or expiring after `now`. */
  predicate EntitlementActive(ent: Entitlement, now: int)
  {
    ent.expiresDate.None? || ent.expiresDate.value > now
  }

  predicate AnyActive(ents: seq<Entitlement>, now: int)
  {
    exists k :: 0 <= k < |ents| && EntitlementActive(ents[k], now)
  }

  /** `list(entitlements.keys())`. */
  function Names(ents: seq<Entitlement>): (r: seq<string>)
    ensures |r| == |ents| && forall k :: 0 <= k < |ents| ==> r[k] == ents[k].name
  {
    seq(|ents|, k requires 0 <= k < |ents| => ents[k].name)
  }

  /** The loop of `sync_subscription` that looks for an active entitlement. */
  method HasActiveEntitlement(ents: seq<Entitlement>, now: int) returns (b: bool)
    ensures b == AnyActive(ents, now)
  {
    b := false;
    var k := 0;
    while k < |ents|
      invariant 0 <= k <= |ents|
      invariant forall j :: 0 <= j < k ==> !EntitlementActive(ents[j], now)
    {
      var expires := ents[k].expiresDate;
      if expires.None? {
        b := true;
        break;
      }
      if expires.value > now {
        b := true;
        break;
      }
      k := k + 1;
    }
  }

  /** The product keyed `id`. */
  function FindProduct(ps: seq<ProductInfo>, id: string): (r: Option<nat>)
    ensures r.Some? ==> r.value < |ps| && ps[r.value].productId == id
    ensures r.None? ==> forall k :: 0 <= k < |ps| ==> ps[k].productId != id
  {
    if ps == [] then None
    else if ps[0].productId == id then Some(0)
    else
      var rest := FindProduct(ps[1..], id);
      if rest.Some? then Some(rest.value + 1) else None
  }

  /**
   * The status rules of `sync_subscription`, applied to the product in
   * force: billing trouble first, then a lapse (which also drops the tier
   * to free), then a cancellation, else active.  Only status and tier change.
   */
  function SyncStatus(s: Subscription, p: ProductInfo, active: bool): (r: Subscription)
    ensures r.status == BillingIssue <==> p.billingIssuesDetectedAt.Some?
    ensures r.status == Expired <==> p.billingIssuesDetectedAt.None? && !active
    ensures r.status == Cancelled <==> p.billingIssuesDetectedAt.None? && active && p.unsubscribeDetectedAt.Some?
    ensures r.status == Active <==> p.billingIssuesDetectedAt.None? && active && p.unsubscribeDetectedAt.None?
    ensures r.tier == (if r.status == Expired then Free else s.tier)
    ensures r == s.(status := r.status, tier := r.tier)
  {
    if p.billingIssuesDetectedAt.Some? then s.(status := BillingIssue)
    else if !active then s.(status := Expired, tier := Free)
    else if p.unsubscribeDetectedAt.Some? then s.(status := Cancelled)
    else s.(status := Active)
  }

  /**
   * `sync_subscription` given RevenueCat's subscriber document: None when it
   * returned nothing or an empty document `{}`, which is falsy as well.
   */
  function Sync(s: Subscription, data: Option<SubscriberData>, now: int): (r: Subscription)
    ensures r.userId == s.userId && r.subscriberId == s.subscriberId
    ensures data.None? ==> r == s
  {
    if data.None? then s
    else
      var d := data.value;
      var active := AnyActive(d.entitlements, now);
      var s1 := s.(entitlements := Some(Names(d.entitlements)), originalAppUserId := d.originalAppUserId);
      var found := if Given(s.productId) then FindProduct(d.products, s.productId.value) else None;
      var s2 :=
        if found.Some? then
          var p := d.products[found.value];
          var s3 := s1.(expiresAt := if p.expiresDate.Some? then p.expiresDate else s1.expiresAt,
                        autoRenew := p.unsubscribeDetectedAt.None?);
          var s4 := SyncStatus(s3, p, active);
          s4.(transactionId := if Given(p.storeTransactionId) then p.storeTransactionId else s4.transactionId)
        else if !active then s1.(status := Expired, tier := Free)
        else s1;
      Stamp(s2, now)
  }

  /** With the product in the document: billing trouble, then lapse, then cancellation, else active. */
  lemma SyncPrecedence(s: Subscription, d: SubscriberData, now: int)
    requires Given(s.productId) && FindProduct(d.products, s.productId.value).Some?
    ensures var p := d.products[FindProduct(d.products, s.productId.value).value];
      var active := AnyActive(d.entitlements, now);
      var r := Sync(s, Some(d), now);
      (r.status == BillingIssue <==> p.billingIssuesDetectedAt.Some?) &&
      (r.status == Expired <==> p.billingIssuesDetectedAt.None? && !active) &&
      (r.status == Cancelled <==> p.billingIssuesDetectedAt.None? && active && p.unsubscribeDetectedAt.Some?) &&
      (r.status == Active <==> p.billingIssuesDetectedAt.None? && active && p.unsubscribeDetectedAt.None?) &&
      r.tier == (if r.status == Expired then Free else s.tier) &&
      (r.status == Active ==> r.autoRenew) && (r.status == Cancelled ==> !r.autoRenew)
  {
  }

  /** Without the product in the document only a lapse changes status and tier. */
  lemma SyncWithoutProduct(s: Subscription, d: SubscriberData, now: int)
    requires !Given(s.productId) || FindProduct(d.products, s.productId.value).None?
    ensures var r := Sync(s, Some(d), now);
      if AnyActive(d.entitlements, now) then r.status == s.status && r.tier == s.tier && r.autoRenew == s.autoRenew
      else r.status == Expired && r.tier == Free
  {
  }

  /** The product has an expiry after `now`. */
  predicate Future(p: ProductInfo, now: int)
  {
    p.expiresDate.Some? && p.expiresDate.value > now
  }

  function Expiry(p: ProductInfo): int
    requires p.expiresDate.Some?
  {
    p.expiresDate.value
  }

  /** The restore loop's choice among the first `n` products: a later expiry replaces the current one. */
  function LatestIn(ps: seq<ProductInfo>, n: nat, now: int): (r: Option<nat>)
    requires n <= |ps|
    ensures r.Some? ==> r.value < n && Future(ps[r.value], now)
  {
    if n == 0 then None
    else
      var prev := LatestIn(ps, n - 1, now);
      if Future(ps[n - 1], now) && (prev.None? || Expiry(ps[n - 1]) > Expiry(ps[prev.value])) then Some(n - 1)
      else prev
  }

  /** The choice is the first product with the latest future expiry, and there is none only when no product is in the future. */
  lemma {:induction false} LatestIsLatest(ps: seq<ProductInfo>, n: nat, now: int)
    requires n <= |ps|
    ensures LatestIn(ps, n, now).None? <==> forall k :: 0 <= k < n ==> !Future(ps[k], now)
    ensures var r := LatestIn(ps, n, now);
      r.Some? ==> forall k :: 0 <= k < n && Future(ps[k], now) ==> Expiry(ps[k]) <= Expiry(ps[r.value])
    ensures var r := LatestIn(ps, n, now);
      r.Some? ==> forall k :: 0 <= k < r.value && Future(ps[k], now) ==> Expiry(ps[k]) < Expiry(ps[r.value])
  {
    if n > 0 {
      LatestIsLatest(ps, n - 1, now);
    }
  }

  /** The selection loop of `restore_purchases`. */
  method SelectProduct(ps: seq<ProductInfo>, now: int) returns (active: Option<nat>, latest: Option<int>)
    ensures active == LatestIn(ps, |ps|, now)
    ensures latest == (if active.Some? then ps[active.value].expiresDate else None)
  {
    active := None;
    latest := None;
    var k := 0;
    while k < |ps|
      invariant 0 <= k <= |ps|
      invariant active == LatestIn(ps, k, now)
      invariant latest == (if active.Some? then ps[active.value].expiresDate else None)
    {
      var expires := ps[k].expiresDate;
      if expires.Some? && expires.value > now {
        if latest.None? || expires.value > latest.value {
          latest := expires;
          active := Some(k);
        }
      }
      k := k + 1;
    }
  }

  /** The product `restore_purchases` takes its tier from: the chosen one, unless its id is empty. */
  function RestoredProduct(d: SubscriberData, now: int): (r: Option<ProductInfo>)
    ensures r.Some? ==> r.value.productId != "" && Future(r.value, now)
  {
    var pick := LatestIn(d.products, |d.products|, now);
    if pick.Some? && d.products[pick.value].productId != "" then Some(d.products[pick.value]) else None
  }

  /**
   * `restore_purchases` on the user's row (`existing`, None when the user
   * has none): the new row and its history entry, or None when there is
   * nothing to restore.
   */
  function Restore(existing: Option<Subscription>, userId: string, subscriberId: string, platform: Platform,
                   data: Option<SubscriberData>, now: int): (r: Option<(Subscription, HistoryEntry)>)
    requires existing.Some? ==> existing.value.userId == userId
    ensures r.None? <==> data.None? || !AnyActive(data.value.entitlements, now)
    ensures r.Some? ==> r.value.0.userId == userId && r.value.0.status == Active
    ensures r.Some? ==> r.value.0.subscriberId == Some(subscriberId) && r.value.0.platform == Some(platform)
    ensures r.Some? ==> r.value.1.event == Reactivation && r.value.1.newTier == r.value.0.tier
    ensures r.Some? ==> (r.value.1.prevTier.None? <==> existing.None?)
  {
    if data.None? || !AnyActive(data.value.entitlements, now) then None
    else
      var d := data.value;
      var s := if existing.Some? then existing.value else NewSubscription(userId, now);
      var chosen := RestoredProduct(d, now);
      var s1 :=
        if chosen.Some? then
          var p := chosen.value;
          s.(tier := MapTier(Some(p.productId)), productId := Some(p.productId), expiresAt := p.expiresDate,
             autoRenew := p.unsubscribeDetectedAt.None?,
             transactionId := if Given(p.storeTransactionId) then p.storeTransactionId else s.transactionId,
             originalPurchase := if p.originalPurchaseDate.Some? then p.originalPurchaseDate else s.originalPurchase,
             latestPurchase := if p.purchaseDate.Some? then p.purchaseDate else s.latestPurchase)
        else s.(tier := Monthly);
      var s2 := Stamp(s1.(status := Active, subscriberId := Some(subscriberId), originalAppUserId := d.originalAppUserId,
                          entitlements := Some(Names(d.entitlements)), platform := Some(platform)), now);
      var h := HistoryEntry(Reactivation, userId,
                            if existing.Some? then Some(existing.value.tier) else None, s2.tier,
                            if existing.Some? then Some(StatusValue(existing.value.status)) else None,
                            "active", None);
      Some((s2, h))
  }

  /**
   * A restore takes the tier of the product with the latest future expiry
   * and keeps that expiry, or falls back to monthly when no product with a
   * non-empty id expires in the future.
   */
  lemma RestoreChoosesLatest(existing: Option<Subscription>, userId: string, subscriberId: string,
                             platform: Platform, d: SubscriberData, now: int)
    requires existing.Some? ==> existing.value.userId == userId
    requires AnyActive(d.entitlements, now)
    ensures var r := Restore(existing, userId, subscriberId, platform, Some(d), now).value.0;
      (forall k :: 0 <= k < |d.products| ==> !Future(d.products[k], now)) ==> r.tier == Monthly
    ensures var r := Restore(existing, userId, subscriberId, platform, Some(d), now).value.0;
      RestoredProduct(d, now).Some? ==>
        r.tier == MapTier(Some(RestoredProduct(d, now).value.productId)) &&
        r.expiresAt.Some? && r.expiresAt.value > now &&
        forall k :: 0 <= k < |d.products| && Future(d.products[k], now) ==> Expiry(d.products[k]) <= r.expiresAt.value
  {
    LatestIsLatest(d.products, |d.products|, now);
  }

  /** What `restore_purchases` did. */
  datatype RestoreOutcome =
    | NothingToRestore               // returned None
    | Restored(sub: Subscription)
    | SubscriberTaken                // the subscriber id belongs to another user's row

  /** `restore_purchases` against the subscriptions table: find or create the user's row, then update it. */
  method RestorePurchases(store: SubscriptionStore, userId: string, subscriberId: string, platform: Platform,
                          data: Option<SubscriberData>, now: int) returns (r: RestoreOutcome)
    requires store.Valid()
    modifies store
    ensures store.Valid()
    ensures r.NothingToRestore? || r.SubscriberTaken? ==>
      store.subs == old(store.subs) && store.history == old(store.history)
    ensures var i := IndexOfUser(old(store.subs), userId);
      var existing := if i.Some? then Some(old(store.subs)[i.value]) else None;
      var owner := IndexOfSubscriber(old(store.subs), subscriberId);
      match Restore(existing, userId, subscriberId, platform, data, now)
      case None => r == NothingToRestore
      case Some(p) =>
        if owner.Some? && old(store.subs)[owner.value].userId != userId then r == SubscriberTaken
        else r == Restored(p.0) &&
             store.subs == (if i.Some? then old(store.subs)[i.value := p.0] else old(store.subs) + [p.0]) &&
             store.history == old(store.history) + [p.1]
  {
    var i := IndexOfUser(store.subs, userId);
    var existing := if i.Some? then Some(store.subs[i.value]) else None;
    var restored := Restore(existing, userId, subscriberId, platform, data, now);
    if restored.None? {
      return NothingToRestore;
    }
    var owner := IndexOfSubscriber(store.subs, subscriberId);
    if owner.Some? && store.subs[owner.value].userId != userId {
      return SubscriberTaken;
    }
    var sub := restored.value.0;
    if i.Some? {
      forall j | 0 <= j < |store.subs| && store.subs[j].subscriberId == Some(subscriberId)
        ensures j == i.value
      {
        UniqueLookup(store.subs, j);
        UniqueLookup(store.subs, i.value);
      }
      ReassignKeepsUnique(store.subs, i.value, sub);
      store.subs := store.subs[i.value := sub];
    } else {
      AppendKeepsUnique(store.subs, sub);
      store.subs := store.subs + [sub];
    }
    store.history := store.history + [restored.value.1];
    r := Restored(sub);
  }

  /** Giving a row a subscriber id no other row holds keeps the unique constraints. */
  lemma ReassignKeepsUnique(subs: seq<Subscription>, i: nat, s: Subscription)
    requires Unique(subs) && i < |subs| && s.userId == subs[i].userId
    requires forall j :: 0 <= j < |subs| && s.subscriberId.Some? && subs[j].subscriberId == s.subscriberId ==> j == i
    ensures Unique(subs[i := s])
  {
  }
}

=== FILE: scheduled_jobs.dfy ===
/**
 * The batch downgrade jobs and the previous-month key of the monthly
 * reset.  Both jobs select rows, then downgrade each selected row to
 * free/expired in the order the query returns them (table order here) and
 * log one EXPIRATION history entry per row.  `now` is a millisecond
 * timestamp.
 */
module ScheduledJobs {
  import opened Wrappers
  import opened Text
  import opened Subscriptions
  import opened FeaturesApi

  /** A row after a job's downgrade; the write restamps `updated_at`. */
  function Downgraded(s: Subscription, now: int): (r: Subscription)
    ensures r.tier == Free && r.status == Expired && r.updatedAt == now
    ensures r.userId == s.userId && r.subscriberId == s.subscriberId && r.expiresAt == s.expiresAt
  {
    s.(tier := Free, status := Expired, updatedAt := now)
  }

  /** A row after the job: downgraded if selected, untouched otherwise. */
  function Step(s: Subscription, selected: Subscription -> bool, now: int): Subscription
  {
    if selected(s) then Downgraded(s, now) else s
  }

  /** The table after downgrading every selected row; the others are untouched. */
  function DowngradeAll(subs: seq<Subscription>, selected: Subscription -> bool, now: int): (r: seq<Subscription>)
    ensures |r| == |subs|
    ensures forall i :: 0 <= i < |subs| ==> r[i] == Step(subs[i], selected, now)
  {
    if subs == [] then []
    else DowngradeAll(subs[..|subs| - 1], selected, now) + [Step(subs[|subs| - 1], selected, now)]
  }

  /** The history entries the job logs: one per selected row, in order. */
  function Entries(subs: seq<Subscription>, selected: Subscription -> bool, entry: Subscription -> HistoryEntry): (r: seq<HistoryEntry>)
    ensures |r| == Count(subs, selected)
  {
    if subs == [] then []
    else
      var last := subs[|subs| - 1];
      Entries(subs[..|subs| - 1], selected, entry) + (if selected(last) then [entry(last)] else [])
  }

  /** The number of selected rows. */
  function Count(subs: seq<Subscription>, selected: Subscription -> bool): (r: nat)
    ensures r <= |subs|
  {
    if subs == [] then 0
    else Count(subs[..|subs| - 1], selected) + (if selected(subs[|subs| - 1]) then 1 else 0)
  }

  /** Each selected row contributes its entry, and only selected rows do. */
  lemma {:induction false} EntriesOfSelected(subs: seq<Subscription>, selected: Subscription -> bool,
                                           entry: Subscription -> HistoryEntry)
    ensures forall h :: h in Entries(subs, selected, entry) ==>
      exists i :: 0 <= i < |subs| && selected(subs[i]) && h == entry(subs[i])
    ensures forall i :: 0 <= i < |subs| && selected(subs[i]) ==> entry(subs[i]) in Entries(subs, selected, entry)
  {
    if subs != [] {
      var init := subs[..|subs| - 1];
      EntriesOfSelected(init, selected, entry);
      forall h | h in Entries(subs, selected, entry)
        ensures exists i :: 0 <= i < |subs| && selected(subs[i]) && h == entry(subs[i])
      {
        if h in Entries(init, selected, entry) {
          var i :| 0 <= i < |init| && selected(init[i]) && h == entry(init[i]);
          assert subs[i] == init[i];
        } else {
          assert selected(subs[|subs| - 1]) && h == entry(subs[|subs| - 1]);
        }
      }
      forall i | 0 <= i < |subs| && selected(subs[i])
        ensures entry(subs[i]) in Entries(subs, selected, entry)
      {
        if i < |init| {
          assert subs[i] == init[i];
        }
      }
    }
  }

  /** Rows keep their user and subscriber ids, so the unique constraints survive. */
  lemma SameKeysKeepUnique(a: seq<Subscription>, b: seq<Subscription>)
    requires Unique(a) && |a| == |b|
    requires forall i :: 0 <= i < |a| ==> b[i].userId == a[i].userId && b[i].subscriberId == a[i].subscriberId
    ensures Unique(b)
  {
  }

  /** One more row: the specification functions extend by that row's effect. */
  lemma Snoc(subs: seq<Subscription>, i: nat, selected: Subscription -> bool,
             entry: Subscription -> HistoryEntry, now: int)
    requires i < |subs|
    ensures DowngradeAll(subs[..i + 1], selected, now) == DowngradeAll(subs[..i], selected, now) + [Step(subs[i], selected, now)]
    ensures Entries(subs[..i + 1], selected, entry) ==
      Entries(subs[..i], selected, entry) + (if selected(subs[i]) then [entry(subs[i])] else [])
    ensures Count(subs[..i + 1], selected) == Count(subs[..i], selected) + (if selected(subs[i]) then 1 else 0)
  {
    assert subs[..i + 1][..i] == subs[..i];
  }

  /**
   * The loop both jobs share, over the rows the query loaded: downgrade
   * each selected row and log its entry; `processed` counts the rows
   * handled.
   */
  method DowngradeRows(subs: seq<Subscription>, selected: Subscription -> bool,
                       entry: Subscription -> HistoryEntry, now: int)
    returns (rows: seq<Subscription>, logged: seq<HistoryEntry>, processed: nat)
    ensures rows == DowngradeAll(subs, selected, now)
    ensures logged == Entries(subs, selected, entry)
    ensures processed == Count(subs, selected)
  {
    rows, logged, processed := [], [], 0;
    var i := 0;
    while i < |subs|
      invariant 0 <= i <= |subs|
      invariant rows == DowngradeAll(subs[..i], selected, now)
      invariant logged == Entries(subs[..i], selected, entry)
      invariant processed == Count(subs[..i], selected)
    {
      Snoc(subs, i, selected, entry, now);
      var s := subs[i];
      if selected(s) {
        rows := rows + [Downgraded(s, now)];
        logged := logged + [entry(s)];
        processed := processed + 1;
      } else {
        rows := rows + [s];
      }
      i := i + 1;
    }
    assert subs[..i] == subs;
  }

  /** A job against the table: run the loop, then flush the changed rows and the new history entries. */
  method DowngradeSelected(store: SubscriptionStore, selected: Subscription -> bool,
                           entry: Subscription -> HistoryEntry, now: int) returns (processed: nat)
    requires store.Valid()
    modifies store
    ensures store.Valid()
    ensures store.subs == DowngradeAll(old(store.subs), selected, now)
    ensures store.history == old(store.history) + Entries(old(store.subs), selected, entry)
    ensures processed == Count(old(store.subs), selected)
  {
    var rows, logged;
    rows, logged, processed := DowngradeRows(store.subs, selected, entry, now);
    SameKeysKeepUnique(store.subs, rows);
    store.subs := rows;
    store.history := store.history + logged;
  }

  /** `check_expired_subscriptions`'s query: active or cancelled, expired before now, not free. */
  predicate ExpirySelected(now: int, s: Subscription)
  {
    (s.status == Active || s.status == Cancelled) && s.expiresAt.Some? && s.expiresAt.value < now && s.tier != Free
  }

  /** The EXPIRATION entry for a row the expiry job downgrades. */
  function ExpiryEntry(s: Subscription): (r: HistoryEntry)
    ensures r.event == Expiration && r.userId == s.userId
    ensures r.prevTier == Some(s.tier) && r.newTier == Free
    ensures r.prevStatus == Some(StatusValue(s.status)) && r.newStatus == StatusValue(Expired)
  {
    HistoryEntry(Expiration, s.userId, Some(s.tier), Free, Some(StatusValue(s.status)), "expired", None)
  }

  /** `check_expired_subscriptions`; the number processed is returned. */
  method CheckExpiredSubscriptions(store: SubscriptionStore, now: int) returns (processed: nat)
    requires store.Valid()
    modifies store
    ensures store.Valid()
    ensures store.subs == DowngradeAll(old(store.subs), (s: Subscription) => ExpirySelected(now, s), now)
    ensures store.history == old(store.history) + Entries(old(store.subs), (s: Subscription) => ExpirySelected(now, s), ExpiryEntry)
    ensures processed == Count(old(store.subs), (s: Subscription) => ExpirySelected(now, s))
  {
    processed := DowngradeSelected(store, (s: Subscription) => ExpirySelected(now, s), ExpiryEntry, now);
  }

  /** The three-day grace period, in milliseconds. */
  const GRACE_MS: int := 3 * 86_400_000

  /** `check_billing_issues`'s query: in billing trouble, last written more than the grace period ago. */
  predicate BillingSelected(now: int, s: Subscription)
  {
    s.status == BillingIssue && s.updatedAt < now - GRACE_MS
  }

  /** The EXPIRATION entry for a row the billing job downgrades. */
  function BillingEntry(s: Subscription): (r: HistoryEntry)
    ensures r.event == Expiration && r.userId == s.userId
    ensures r.prevTier == Some(s.tier) && r.newTier == Free
    ensures r.prevStatus == Some(StatusValue(BillingIssue)) && r.newStatus == StatusValue(Expired)
  {
    HistoryEntry(Expiration, s.userId, Some(s.tier), Free, Some("billing_issue"), "expired", None)
  }

  /** `check_billing_issues`; the number processed is returned. */
  method CheckBillingIssues(store: SubscriptionStore, now: int) returns (processed: nat)
    requires store.Valid()
    modifies store
    ensures store.Valid()
    ensures store.subs == DowngradeAll(old(store.subs), (s: Subscription) => BillingSelected(now, s), now)
    ensures store.history == old(store.history) + Entries(old(store.subs), (s: Subscription) => BillingSelected(now, s), BillingEntry)
    ensures processed == Count(old(store.subs), (s: Subscription) => BillingSelected(now, s))
  {
    processed := DowngradeSelected(store, (s: Subscription) => BillingSelected(now, s), BillingEntry, now);
  }

  /**
   * The expiry job leaves every row it does not select unchanged, and the
   * history records each selected row's previous tier and status.
   */
  lemma ExpiryJobEffect(subs: seq<Subscription>, now: int, i: nat)
    requires i < |subs|
    ensures var r := DowngradeAll(subs, (s: Subscription) => ExpirySelected(now, s), now);
      if ExpirySelected(now, subs[i]) then r[i].tier == Free && r[i].status == Expired && r[i].userId == subs[i].userId
      else r[i] == subs[i]
    ensures ExpirySelected(now, subs[i]) ==>
      ExpiryEntry(subs[i]) in Entries(subs, (s: Subscription) => ExpirySelected(now, s), ExpiryEntry)
  {
    EntriesOfSelected(subs, (s: Subscription) => ExpirySelected(now, s), ExpiryEntry);
  }

  /** Trial rows are never touched by either job. */
  lemma TrialUntouched(subs: seq<Subscription>, now: int, i: nat)
    requires i < |subs| && subs[i].status == Trial
    ensures DowngradeAll(subs, (s: Subscription) => ExpirySelected(now, s), now)[i] == subs[i]
    ensures DowngradeAll(subs, (s: Subscription) => BillingSelected(now, s), now)[i] == subs[i]
  {
  }

  /** A downgraded row is selected by neither job again. */
  lemma DowngradedNotSelected(s: Subscription, now: int, later: int)
    ensures !ExpirySelected(later, Downgraded(s, now))
    ensures !BillingSelected(later, Downgraded(s, now))
  {
  }

  /** No row is selected, so nothing changes and nothing is logged. */
  lemma {:induction false} NoneSelected(subs: seq<Subscription>, selected: Subscription -> bool,
                                      entry: Subscription -> HistoryEntry, now: int)
    requires forall i :: 0 <= i < |subs| ==> !selected(subs[i])
    ensures DowngradeAll(subs, selected, now) == subs
    ensures Entries(subs, selected, entry) == []
  {
    var r := DowngradeAll(subs, selected, now);
    assert forall i :: 0 <= i < |subs| ==> r[i] == subs[i];
    if subs != [] {
      var init := subs[..|subs| - 1];
      NoneSelected(init, selected, entry, now);
      assert !selected(subs[|subs| - 1]);
    }
  }

  /** Running the expiry job again at the same time changes nothing and logs nothing. */
  lemma ExpiryJobIdempotent(subs: seq<Subscription>, now: int)
    ensures var once := DowngradeAll(subs, (s: Subscription) => ExpirySelected(now, s), now);
      DowngradeAll(once, (s: Subscription) => ExpirySelected(now, s), now) == once &&
      Entries(once, (s: Subscription) => ExpirySelected(now, s), ExpiryEntry) == []
  {
    var once := DowngradeAll(subs, (s: Subscription) => ExpirySelected(now, s), now);
    NoneSelected(once, (s: Subscription) => ExpirySelected(now, s), ExpiryEntry, now);
  }

  /** Running the billing job again at the same time changes nothing and logs nothing. */
  lemma BillingJobIdempotent(subs: seq<Subscription>, now: int)
    ensures var once := DowngradeAll(subs, (s: Subscription) => BillingSelected(now, s), now);
      DowngradeAll(once, (s: Subscription) => BillingSelected(now, s), now) == once &&
      Entries(once, (s: Subscription) => BillingSelected(now, s), BillingEntry) == []
  {
    var once := DowngradeAll(subs, (s: Subscription) => BillingSelected(now, s), now);
    NoneSelected(once, (s: Subscription) => BillingSelected(now, s), BillingEntry, now);
  }

  /** The month before (`year`, `month`) in `reset_monthly_journal_limits`. */
  function PrevMonth(year: nat, month: nat): (r: (nat, nat))
    requires 1 <= year && 1 <= month <= 12
    ensures 1 <= r.1 <= 12
    ensures NextMonth(r.0, r.1) == (year, month)
  {
    if month == 1 then (year - 1, 12) else (year, month - 1)
  }

  /** The previous month's key, formatted as the job formats it. */
  function PrevMonthKey(year: nat, month: nat): (r: string)
    requires 1 <= year && 1 <= month <= 12
    ensures var p := PrevMonth(year, month); r == MonthKey(p.0, p.1)
  {
    Pad2Twelve();
    if month == 1 then NatToString(year - 1) + "-12"
    else NatToString(year) + "-" + Pad2(month - 1)
  }

  lemma Pad2Twelve()
    ensures Pad2(12) == "12"
  {
    assert NatToString(12) == "12";
  }

  /** The key of January names December of the year before; other months keep the year. */
  lemma PrevMonthKeyRollsBack(year: nat, month: nat)
    requires 1 <= year && 1 <= month <= 12
    ensures month == 1 ==> PrevMonthKey(year, month) == MonthKey(year - 1, 12)
    ensures month > 1 ==> PrevMonthKey(year, month) == MonthKey(year, month - 1)
    ensures PrevMonthKey(year, month) != MonthKey(year, month)
  {
    var p := PrevMonth(year, month);
    if PrevMonthKey(year, month) == MonthKey(year, month) {
      MonthKeyInjective(p.0, p.1, year, month);
    }
  }
}

=== FILE: sorting.dfy ===
/**
 * Python's stable `list.sort` by a two-level key (a rank, then a second
 * value), the order both the task cache and the task query put a day's
 * tasks in.  The second value keeps the Python type it came from, since
 * Python orders two values only within one group of types.
 */
module Sorting {

  /**
   * The second member of a sort key, by group: values of one group compare
   * with each other, values of two groups do not (`None < 0` raises).
   * `Day` and `Moment` stand for ISO date and timestamp texts.
   */
  datatype Second = Null | Num(n: int) | Text(s: string) | Day(d: int) | Moment(ms: int)

  type Key = (int, Second)

  /** Whether Python can compare the two values: they are of one group. */
  predicate Comparable(a: Second, b: Second)
  {
    (a.Null? && b.Null?) || (a.Num? && b.Num?) || (a.Text? && b.Text?) ||
    (a.Day? && b.Day?) || (a.Moment? && b.Moment?)
  }

  /** Python's string order: code point by code point, a proper prefix first. */
  predicate TextLe(a: string, b: string)
    decreases |a|
  {
    a == [] || (b != [] && (a[0] < b[0] || (a[0] == b[0] && TextLe(a[1..], b[1..]))))
  }

  /**
   * The order within a group as Python has it; between groups, which
   * Python refuses to compare, the fixed order Null, Num, Text, Day, Moment
   * makes the relation total.
   */
  predicate SecondLe(a: Second, b: Second)
  {
    match a
    case Null => true
    case Num(x) => (match b case Null => false case Num(y) => x <= y case _ => true)
    case Text(s) => (match b case Null => false case Num(_) => false case Text(t) => TextLe(s, t) case _ => true)
    case Day(d) => (match b case Day(e) => d <= e case Moment(_) => true case _ => false)
    case Moment(m) => (match b case Moment(n) => m <= n case _ => false)
  }

  /** Tuple comparison: the ranks first, the second values only on equal ranks. */
  predicate KeyLe(a: Key, b: Key)
  {
    a.0 < b.0 || (a.0 == b.0 && SecondLe(a.1, b.1))
  }

  lemma {:induction false} TextLeTotal(a: string, b: string)
    ensures TextLe(a, b) || TextLe(b, a)
    decreases |a|
  {
    if a != [] && b != [] && a[0] == b[0] {
      TextLeTotal(a[1..], b[1..]);
    }
  }

  lemma {:induction false} TextLeTrans(a: string, b: string, c: string)
    requires TextLe(a, b) && TextLe(b, c)
    ensures TextLe(a, c)
    decreases |a|
  {
    if a != [] && b != [] && c != [] && a[0] == b[0] && b[0] == c[0] {
      TextLeTrans(a[1..], b[1..], c[1..]);
    }
  }

  lemma {:induction false} TextLeAntisym(a: string, b: string)
    requires TextLe(a, b) && TextLe(b, a)
    ensures a == b
    decreases |a|
  {
    if a != [] {
      TextLeAntisym(a[1..], b[1..]);
      assert a == [a[0]] + a[1..] && b == [b[0]] + b[1..];
    }
  }

  /** The key order is total, transitive and antisymmetric: equal keys are the same key. */
  lemma KeyLeTotal(a: Key, b: Key)
    ensures KeyLe(a, b) || KeyLe(b, a)
  {
    if a.1.Text? && b.1.Text? {
      TextLeTotal(a.1.s, b.1.s);
    }
  }

  lemma KeyLeTrans(a: Key, b: Key, c: Key)
    requires KeyLe(a, b) && KeyLe(b, c)
    ensures KeyLe(a, c)
  {
    if a.1.Text? && b.1.Text? && c.1.Text? {
      if TextLe(a.1.s, b.1.s) && TextLe(b.1.s, c.1.s) {
        TextLeTrans(a.1.s, b.1.s, c.1.s);
      }
    }
  }

  lemma KeyLeAntisym(a: Key, b: Key)
    requires KeyLe(a, b) && KeyLe(b, a)
    ensures a == b
  {
    if a.1.Text? && b.1.Text? {
      TextLeAntisym(a.1.s, b.1.s);
    }
  }

  predicate SortedBy<T>(s: seq<T>, key: T -> Key)
  {
    forall i, j :: 0 <= i < j < |s| ==> KeyLe(key(s[i]), key(s[j]))
  }

  /** The elements whose key is `k`, in their order in `s`. */
  function WithKey<T>(s: seq<T>, key: T -> Key, k: Key): (r: seq<T>)
    ensures |r| <= |s|
    ensures forall y :: y in r ==> y in s && key(y) == k
  {
    if s == [] then []
    else (if key(s[0]) == k then [s[0]] else []) + WithKey(s[1..], key, k)
  }

  lemma {:induction false} WithKeyAppend<T>(a: seq<T>, b: seq<T>, key: T -> Key, k: Key)
    ensures WithKey(a + b, key, k) == WithKey(a, key, k) + WithKey(b, key, k)
    decreases |a|
  {
    if a == [] {
      assert a + b == b;
    } else {
      assert (a + b)[0] == a[0] && (a + b)[1..] == a[1..] + b;
      WithKeyAppend(a[1..], b, key, k);
    }
  }

  /** No element of key `k` leaves nothing to select. */
  lemma {:induction false} WithKeyNone<T>(s: seq<T>, key: T -> Key, k: Key)
    requires forall y :: y in s ==> key(y) != k
    ensures WithKey(s, key, k) == []
    decreases |s|
  {
    if s != [] {
      assert forall y :: y in s[1..] ==> y in s;
      WithKeyNone(s[1..], key, k);
    }
  }

  /** Every element of key `k` selects the whole sequence. */
  lemma {:induction false} WithKeyAll<T>(s: seq<T>, key: T -> Key, k: Key)
    requires forall y :: y in s ==> key(y) == k
    ensures WithKey(s, key, k) == s
    decreases |s|
  {
    if s != [] {
      assert forall y :: y in s[1..] ==> y in s;
      WithKeyAll(s[1..], key, k);
      assert s == [s[0]] + s[1..];
    }
  }

  /** Inserts `x` after every element whose key is at most its own. */
  function InsertBy<T>(x: T, s: seq<T>, key: T -> Key): (r: seq<T>)
    ensures multiset(r) == multiset(s) + multiset{x}
    ensures |r| == |s| + 1
  {
    if s == [] then [x]
    else if !KeyLe(key(s[0]), key(x)) then
      [x] + s
    else
      assert s == [s[0]] + s[1..];
      [s[0]] + InsertBy(x, s[1..], key)
  }

  lemma {:induction false} InsertBySorted<T>(x: T, s: seq<T>, key: T -> Key)
    requires SortedBy(s, key)
    ensures SortedBy(InsertBy(x, s, key), key)
    ensures forall y :: y in InsertBy(x, s, key) ==> y == x || y in s
    decreases |s|
  {
    if s == [] {
    } else if !KeyLe(key(s[0]), key(x)) {
      HeadBelowAll(s, key);
      KeyLeTotal(key(s[0]), key(x));
      forall y | y in s ensures KeyLe(key(x), key(y)) {
        KeyLeTrans(key(x), key(s[0]), key(y));
      }
      ConsSorted(x, s, key);
    } else {
      InsertBySorted(x, s[1..], key);
      var rest := InsertBy(x, s[1..], key);
      HeadBelowAll(s, key);
      assert forall y :: y in s[1..] ==> y in s;
      ConsSorted(s[0], rest, key);
      assert [s[0]] + rest == InsertBy(x, s, key);
    }
  }

  /**
   * Into a sorted sequence, `x` goes after every element of its own key:
   * the elements of each key keep their order, `x` last among its own.
   */
  lemma {:induction false} InsertByWithKey<T>(x: T, s: seq<T>, key: T -> Key, k: Key)
    requires SortedBy(s, key)
    ensures WithKey(InsertBy(x, s, key), key, k) == WithKey(s, key, k) + (if key(x) == k then [x] else [])
    decreases |s|
  {
    if s == [] {
      assert WithKey([x], key, k) == (if key(x) == k then [x] else []) + WithKey([x][1..], key, k);
    } else if !KeyLe(key(s[0]), key(x)) {
      InsertFrontWithKey(x, s, key, k);
    } else {
      TailSorted(s, key);
      InsertByWithKey(x, s[1..], key, k);
      var rest := InsertBy(x, s[1..], key);
      assert InsertBy(x, s, key) == [s[0]] + rest;
      assert s == [s[0]] + s[1..];
      WithKeyCons(s[0], rest, key, k);
      WithKeyCons(s[0], s[1..], key, k);
    }
  }

  /** `WithKey` of a sequence with a given head: the head if it has the key, then the rest's. */
  lemma WithKeyCons<T>(h: T, rest: seq<T>, key: T -> Key, k: Key)
    ensures WithKey([h] + rest, key, k) == (if key(h) == k then [h] else []) + WithKey(rest, key, k)
  {
    var r := [h] + rest;
    assert r[0] == h && r[1..] == rest;
  }

  /** `x` put in front of a sorted sequence whose head is above it is the only element of its key. */
  lemma InsertFrontWithKey<T>(x: T, s: seq<T>, key: T -> Key, k: Key)
    requires SortedBy(s, key) && s != [] && !KeyLe(key(s[0]), key(x))
    ensures WithKey([x] + s, key, k) == WithKey(s, key, k) + (if key(x) == k then [x] else [])
  {
    HeadBelowAll(s, key);
    if key(x) == k {
      WithKeyNone(s, key, k);
    }
    var r := [x] + s;
    assert r[0] == x && r[1..] == s;
  }

  lemma TailSorted<T>(s: seq<T>, key: T -> Key)
    requires SortedBy(s, key) && s != []
    ensures SortedBy(s[1..], key)
  {
    forall i, j | 0 <= i < j < |s[1..]| ensures KeyLe(key(s[1..][i]), key(s[1..][j])) {
      assert s[1..][i] == s[i + 1] && s[1..][j] == s[j + 1];
    }
  }

  /** The head of a sorted sequence is below every element. */
  lemma HeadBelowAll<T>(s: seq<T>, key: T -> Key)
    requires SortedBy(s, key) && |s| > 0
    ensures forall y :: y in s ==> KeyLe(key(s[0]), key(y))
  {
    forall y | y in s ensures KeyLe(key(s[0]), key(y)) {
      var j :| 0 <= j < |s| && s[j] == y;
      if j == 0 {
        KeyLeTotal(key(y), key(y));
      }
    }
  }

  /** An element below every element of a sorted sequence may be put in front of it. */
  lemma ConsSorted<T>(h: T, t: seq<T>, key: T -> Key)
    requires SortedBy(t, key)
    requires forall y :: y in t ==> KeyLe(key(h), key(y))
    ensures SortedBy([h] + t, key)
  {
    var r := [h] + t;
    forall i, j | 0 <= i < j < |r| ensures KeyLe(key(r[i]), key(r[j])) {
      assert r[j] == t[j - 1];
      if i > 0 {
        assert r[i] == t[i - 1];
      }
    }
  }

  /**
   * A sorted permutation of `s` in which the elements of every key keep
   * their order in `s`: the one result of a stable sort.
   */
  function SortBy<T>(s: seq<T>, key: T -> Key): (r: seq<T>)
    ensures multiset(r) == multiset(s)
    ensures |r| == |s|
    ensures SortedBy(r, key)
    ensures forall k :: WithKey(r, key, k) == WithKey(s, key, k)
    decreases |s|
  {
    if s == [] then []
    else
      var init := s[..|s| - 1];
      var x := s[|s| - 1];
      assert s == init + [x];
      var sorted := SortBy(init, key);
      InsertBySorted(x, sorted, key);
      StableStep(x, init, sorted, key);
      InsertBy(x, sorted, key)
  }

  lemma StableStep<T>(x: T, init: seq<T>, sorted: seq<T>, key: T -> Key)
    requires SortedBy(sorted, key)
    requires forall k :: WithKey(sorted, key, k) == WithKey(init, key, k)
    ensures forall k :: WithKey(InsertBy(x, sorted, key), key, k) == WithKey(init + [x], key, k)
  {
    forall k ensures WithKey(InsertBy(x, sorted, key), key, k) == WithKey(init + [x], key, k) {
      InsertByWithKey(x, sorted, key, k);
      WithKeyAppend(init, [x], key, k);
      assert WithKey([x], key, k) == (if key(x) == k then [x] else []) + WithKey([x][1..], key, k);
    }
  }

  /** A sort that finds every key equal leaves the sequence as it was. */
  lemma AllTiedUnchanged<T>(s: seq<T>, key: T -> Key, k: Key)
    requires forall y :: y in s ==> key(y) == k
    ensures SortBy(s, key) == s
  {
    var r := SortBy(s, key);
    assert forall y :: y in r ==> y in multiset(r);
    WithKeyAll(r, key, k);
    WithKeyAll(s, key, k);
  }
}

=== FILE: subscription.dfy ===
/**
 * Subscription records, their history entries, and the enumerations the
 * billing code switches on.  Timestamps are milliseconds since the epoch;
 * user ids are opaque strings (the canonical form of a UUID).
 *
 * The `subscriptions` and `subscription_history` tables are a
 * `SubscriptionStore`: a sequence of rows and an append-only history log.
 * The database enforces that `user_id` and `revenuecat_subscriber_id` are
 * unique; `Valid()` states that invariant and every operation keeps it.
 */
module Subscriptions {
  import opened Wrappers

  datatype Tier = Free | Monthly | Annual

  datatype SubStatus = Active | Trial | Expired | Cancelled | BillingIssue

  datatype EventType =
    | Purchase | Renewal | Cancellation | Uncancellation | Expiration
    | Reactivation | Upgrade | Downgrade | Refund | BillingIssueEvent
    | SubscriptionPaused | NonRenewingPurchase | Transfer | ProductChange

  datatype Platform = IOS | Android | Web

  /** The stored string of a tier. */
  function TierValue(t: Tier): string
  {
    match t
    case Free => "free"
    case Monthly => "monthly"
    case Annual => "annual"
  }

  /** `SubscriptionTier(v)`: the tier whose value is `v`, if any. */
  function ParseTier(v: string): (r: Option<Tier>)
    ensures r.Some? ==> TierValue(r.value) == v
    ensures r.None? ==> v != "free" && v != "monthly" && v != "annual"
  {
    if v == "free" then Some(Free)
    else if v == "monthly" then Some(Monthly)
    else if v == "annual" then Some(Annual)
    else None
  }

  /** Tier values are distinct: parsing a value gives back its tier. */
  lemma TierValueRoundTrip(t: Tier)
    ensures ParseTier(TierValue(t)) == Some(t)
  {
  }

  /** The stored string of a status. */
  function StatusValue(s: SubStatus): string
  {
    match s
    case Active => "active"
    case Trial => "trial"
    case Expired => "expired"
    case Cancelled => "cancelled"
    case BillingIssue => "billing_issue"
  }

  /** `SubscriptionStatus(v)`: the status whose value is `v`, if any. */
  function ParseStatus(v: string): (r: Option<SubStatus>)
    ensures r.Some? ==> StatusValue(r.value) == v
  {
    if v == "active" then Some(Active)
    else if v == "trial" then Some(Trial)
    else if v == "expired" then Some(Expired)
    else if v == "cancelled" then Some(Cancelled)
    else if v == "billing_issue" then Some(BillingIssue)
    else None
  }

  /** Status values are distinct: parsing a value gives back its status. */
  lemma StatusValueRoundTrip(s: SubStatus)
    ensures ParseStatus(StatusValue(s)) == Some(s)
  {
  }

  function PlatformValue(p: Platform): string
  {
    match p
    case IOS => "ios"
    case Android => "android"
    case Web => "web"
  }

  /** A row of `subscriptions`; `updatedAt` is restamped on every write. */
  datatype Subscription = Subscription(
    userId: string,
    tier: Tier,
    status: SubStatus,
    startedAt: int,
    expiresAt: Option<int>,
    autoRenew: bool,
    trialEndDate: Option<int>,
    cancelledAt: Option<int>,
    subscriberId: Option<string>,
    originalAppUserId: Option<string>,
    entitlements: Option<seq<string>>,
    lastSync: Option<int>,
    platform: Option<Platform>,
    productId: Option<string>,
    latestPurchase: Option<int>,
    originalPurchase: Option<int>,
    transactionId: Option<string>,
    originalTransactionId: Option<string>,
    updatedAt: int)

  /** `Subscription(user_id=...)` once inserted: the column defaults apply. */
  function NewSubscription(userId: string, now: int): (r: Subscription)
    ensures r.userId == userId
    ensures r.tier == Free && r.status == Active && !r.autoRenew
    ensures !IsPremium(r) && IsActive(r)
    ensures r.subscriberId.None? && r.expiresAt.None?
  {
    Subscription(userId, Free, Active, now, None, false, None, None, None, None, None,
                 None, None, None, None, None, None, None, now)
  }

  /** `is_premium`: a paid tier, that is, any tier but free. */
  predicate IsPremium(s: Subscription)
    ensures IsPremium(s) <==> s.tier != Free
  {
    PaidTiers(s.tier);
    s.tier in {Monthly, Annual}
  }

  lemma PaidTiers(t: Tier)
    ensures t in {Monthly, Annual} <==> t != Free
  {
    match t
    case Free =>
    case Monthly =>
    case Annual =>
  }

  /** `is_active`: a status that grants access, that is, none of expired, cancelled and billing trouble. */
  predicate IsActive(s: Subscription)
    ensures IsActive(s) <==> s.status !in {Expired, Cancelled, BillingIssue}
  {
    GrantingStatuses(s.status);
    s.status in {Active, Trial}
  }

  lemma GrantingStatuses(st: SubStatus)
    ensures st in {Active, Trial} <==> st !in {Expired, Cancelled, BillingIssue}
  {
    match st
    case Active =>
    case Trial =>
    case Expired =>
    case Cancelled =>
    case BillingIssue =>
  }

  /** A row of `subscription_history`; statuses are stored as their strings. */
  datatype HistoryEntry = HistoryEntry(
    event: EventType,
    userId: string,
    prevTier: Option<Tier>,
    newTier: Tier,
    prevStatus: Option<string>,
    newStatus: string,
    transactionId: Option<string>)

  /** The first row satisfying `p`. */
  function FirstWhere(subs: seq<Subscription>, p: Subscription -> bool): (r: Option<nat>)
    ensures r.Some? ==> r.value < |subs| && p(subs[r.value])
    ensures r.Some? ==> forall j :: 0 <= j < r.value ==> !p(subs[j])
    ensures r.None? ==> forall j :: 0 <= j < |subs| ==> !p(subs[j])
  {
    if subs == [] then None
    else if p(subs[0]) then Some(0)
    else
      var rest := FirstWhere(subs[1..], p);
      if rest.Some? then Some(rest.value + 1) else None
  }

  /** The row of user `u`. */
  function IndexOfUser(subs: seq<Subscription>, u: string): (r: Option<nat>)
    ensures r.Some? ==> r.value < |subs| && subs[r.value].userId == u
    ensures r.None? ==> forall j :: 0 <= j < |subs| ==> subs[j].userId != u
  {
    FirstWhere(subs, (s: Subscription) => s.userId == u)
  }

  /** The row whose RevenueCat subscriber id is `id`. */
  function IndexOfSubscriber(subs: seq<Subscription>, id: string): (r: Option<nat>)
    ensures r.Some? ==> r.value < |subs| && subs[r.value].subscriberId == Some(id)
    ensures r.None? ==> forall j :: 0 <= j < |subs| ==> subs[j].subscriberId != Some(id)
  {
    FirstWhere(subs, (s: Subscription) => s.subscriberId == Some(id))
  }

  /** The unique constraints on `user_id` and `revenuecat_subscriber_id`. */
  ghost predicate Unique(subs: seq<Subscription>)
  {
    forall i, j :: 0 <= i < j < |subs| ==>
      subs[i].userId != subs[j].userId &&
      (subs[i].subscriberId.Some? ==> subs[i].subscriberId != subs[j].subscriberId)
  }

  /** Under the unique constraints a lookup finds the one matching row. */
  lemma UniqueLookup(subs: seq<Subscription>, i: nat)
    requires Unique(subs) && i < |subs|
    ensures IndexOfUser(subs, subs[i].userId) == Some(i)
    ensures subs[i].subscriberId.Some? ==> IndexOfSubscriber(subs, subs[i].subscriberId.value) == Some(i)
  {
    var k := IndexOfUser(subs, subs[i].userId);
    assert k.Some?;
    if subs[i].subscriberId.Some? {
      var m := IndexOfSubscriber(subs, subs[i].subscriberId.value);
      assert m.Some?;
    }
  }

  /** Replacing a row with one of the same user and subscriber id keeps the constraints. */
  lemma ReplaceKeepsUnique(subs: seq<Subscription>, i: nat, s: Subscription)
    requires Unique(subs) && i < |subs|
    requires s.userId == subs[i].userId && s.subscriberId == subs[i].subscriberId
    ensures Unique(subs[i := s])
  {
  }

  /** Appending a row of a fresh user with a fresh subscriber id keeps the constraints. */
  lemma AppendKeepsUnique(subs: seq<Subscription>, s: Subscription)
    requires Unique(subs)
    requires IndexOfUser(subs, s.userId).None?
    requires s.subscriberId.None? || IndexOfSubscriber(subs, s.subscriberId.value).None?
    ensures Unique(subs + [s])
  {
    var t := subs + [s];
    forall i, j | 0 <= i < j < |t|
      ensures t[i].userId != t[j].userId
      ensures t[i].subscriberId.Some? ==> t[i].subscriberId != t[j].subscriberId
    {
      if j == |subs| {
        assert t[i] == subs[i];
      }
    }
  }

  /** The subscriptions table and the history log. */
  class SubscriptionStore {
    var subs: seq<Subscription>
    var history: seq<HistoryEntry>

    ghost predicate Valid()
      reads this
    {
      Unique(subs)
    }

    constructor ()
      ensures Valid() && subs == [] && history == []
    {
      subs := [];
      history := [];
    }
  }
}

=== FILE: subscription_api.dfy ===
/**
 * The subscription endpoints' own logic: the package list, the purchase
 * and cancel guards, the cancel transition, days remaining, the status
 * response and the restore route's choice of subscriber id.  Dates
 * (`today`) are Python day ordinals; timestamps are milliseconds.
 */
module SubscriptionApi {
  import opened Wrappers
  import opened Json
  import opened Text
  import opened Subscriptions
  import opened RevenueCat
  import opened FeatureLimits

  /** A package offered for sale. */
  datatype Package = Package(packageId: string, tier: string, productIdentifier: Option<string>)

  /** `PACKAGES`, without the display fields. */
  const PACKAGES: seq<Package> := [
    Package("free", "free", None),
    Package("monthly_premium", "monthly", Some("monthly_premium_800")),
    Package("annual_premium", "annual", Some("annual_premium_7000"))]

  /** The first package with the given id. */
  function FindPackage(packages: seq<Package>, id: string): (r: Option<Package>)
    ensures r.Some? ==> r.value in packages && r.value.packageId == id
    ensures r.None? ==> forall k :: 0 <= k < |packages| ==> packages[k].packageId != id
  {
    if packages == [] then None
    else if packages[0].packageId == id then Some(packages[0])
    else FindPackage(packages[1..], id)
  }

  /** A lower-case product id naming the month but no year maps to monthly. */
  lemma MonthlyTierOf(p: string)
    requires forall i :: 0 <= i < |p| ==> !IsUpper(p[i])
    requires OccursAt(p, "monthly", 0) && 'a' !in p
    ensures MapTier(Some(p)) == Monthly
  {
    LowerOfLower(p);
    MissingChar(p, "annual", 'a');
    MissingChar(p, "yearly", 'a');
  }

  /** A lower-case product id starting with "annual" maps to annual. */
  lemma AnnualTierOf(p: string)
    requires forall i :: 0 <= i < |p| ==> !IsUpper(p[i])
    requires OccursAt(p, "annual", 0)
    ensures MapTier(Some(p)) == Annual
  {
    LowerOfLower(p);
  }

  lemma MonthlyProductTier()
    ensures MapTier(Some("monthly_premium_800")) == Monthly
  {
    MonthlyTierOf("monthly_premium_800");
  }

  lemma AnnualProductTier()
    ensures MapTier(Some("annual_premium_7000")) == Annual
  {
    AnnualTierOf("annual_premium_7000");
  }

  /** Each paid package's product maps to the package's own tier; the free package has no product. */
  lemma PackageProductsMapToTheirTier()
    ensures TierValue(MapTier(PACKAGES[1].productIdentifier)) == PACKAGES[1].tier
    ensures TierValue(MapTier(PACKAGES[2].productIdentifier)) == PACKAGES[2].tier
    ensures PACKAGES[0].tier == "free" && PACKAGES[0].productIdentifier.None?
  {
    assert PACKAGES[1] == Package("monthly_premium", "monthly", Some("monthly_premium_800"));
    assert PACKAGES[2] == Package("annual_premium", "annual", Some("annual_premium_7000"));
    MonthlyProductTier();
    AnnualProductTier();
  }

  /** The error codes the endpoints raise. */
  datatype ApiError =
    | InvalidPackage | AlreadySubscribed | NothingToCancel | AlreadyCancelled | NoPurchases
    | InternalError  // an unhandled exception, such as a unique constraint failing at flush

  function Code(e: ApiError): string
  {
    match e
    case InvalidPackage => "SUB_001"
    case AlreadySubscribed => "SUB_003"
    case NothingToCancel => "SUB_004"
    case AlreadyCancelled => "SUB_005"
    case NoPurchases => "SUB_006"
    case InternalError => "INTERNAL_ERROR"
  }

  /** The checks of `purchase_subscription` before the purchase is processed. */
  function PurchaseGuard(packageId: string, current: Option<Subscription>): (r: Result<Package, ApiError>)
    ensures r.Ok? ==> r.value.packageId == packageId && r.value.tier != "free" && r.value in PACKAGES
  {
    var package := FindPackage(PACKAGES, packageId);
    if package.None? || package.value.tier == "free" then Err(InvalidPackage)
    else if current.Some? && IsPremium(current.value) && current.value.status == Active then Err(AlreadySubscribed)
    else Ok(package.value)
  }

  /**
   * Only the two paid packages can be bought, and only an active premium
   * subscription blocks a purchase: a cancelled, expired or trial premium
   * user may buy again.
   */
  lemma PurchaseGuardCases(packageId: string, current: Option<Subscription>)
    ensures PurchaseGuard(packageId, current) == Err(InvalidPackage) <==>
      packageId != "monthly_premium" && packageId != "annual_premium"
    ensures PurchaseGuard(packageId, current) == Err(AlreadySubscribed) <==>
      (packageId == "monthly_premium" || packageId == "annual_premium") &&
      current.Some? && current.value.tier != Free && current.value.status == Active
  {
  }

  /** `cancel_subscription`'s guards and field updates. */
  function Cancel(current: Option<Subscription>, now: int): (r: Result<Subscription, ApiError>)
    ensures r == Err(NothingToCancel) <==> current.None? || current.value.tier == Free
    ensures r == Err(AlreadyCancelled) <==> current.Some? && current.value.tier != Free && current.value.status == Cancelled
    ensures r.Ok? ==> r.value == current.value.(status := Cancelled, autoRenew := false, cancelledAt := Some(now), updatedAt := now)
  {
    if current.None? || current.value.tier == Free then Err(NothingToCancel)
    else if current.value.status == Cancelled then Err(AlreadyCancelled)
    else Ok(current.value.(status := Cancelled, autoRenew := false, cancelledAt := Some(now), updatedAt := now))
  }

  /** A successful cancel keeps the tier and expiry, so access continues until expiry; a second cancel is refused. */
  lemma CancelKeepsAccess(current: Option<Subscription>, now: int, later: int)
    requires Cancel(current, now).Ok?
    ensures var s := Cancel(current, now).value;
      s.tier == current.value.tier && IsPremium(s) && s.expiresAt == current.value.expiresAt && !s.autoRenew
    ensures Cancel(Some(Cancel(current, now).value), later) == Err(AlreadyCancelled)
  {
  }

  /** `cancel_subscription` against the subscriptions table. */
  method CancelSubscription(store: SubscriptionStore, userId: string, now: int) returns (r: Result<Subscription, ApiError>)
    requires store.Valid()
    modifies store
    ensures store.Valid() && store.history == old(store.history)
    ensures var i := IndexOfUser(old(store.subs), userId);
      r == Cancel(if i.Some? then Some(old(store.subs)[i.value]) else None, now) &&
      store.subs == (if r.Ok? then old(store.subs)[i.value := r.value] else old(store.subs))
  {
    var i := IndexOfUser(store.subs, userId);
    var current := if i.Some? then Some(store.subs[i.value]) else None;
    r := Cancel(current, now);
    if r.Ok? {
      ReplaceKeepsUnique(store.subs, i.value, r.value);
      store.subs := store.subs[i.value := r.value];
    }
  }

  /** Python's ordinal of 1970-01-01. */
  const EPOCH_ORDINAL: int := 719163

  const MS_PER_DAY: int := 86_400_000

  /** The UTC calendar day of a millisecond timestamp, as a day ordinal. */
  function DayOf(ms: int): int
  {
    EPOCH_ORDINAL + ms / MS_PER_DAY
  }

  /** `days_remaining`: whole days from today to the expiry date, never negative, 0 without an expiry. */
  function DaysRemaining(expiresAt: Option<int>, today: int): (r: nat)
    ensures expiresAt.None? ==> r == 0
    ensures expiresAt.Some? ==> r == (if DayOf(expiresAt.value) > today then DayOf(expiresAt.value) - today else 0)
  {
    if expiresAt.None? then 0
    else
      var delta := DayOf(expiresAt.value) - today;
      if delta > 0 then delta else 0
  }

  /** Days remaining count down by one a day until they reach zero. */
  lemma DaysRemainingCountDown(expiresAt: Option<int>, today: int)
    ensures DaysRemaining(expiresAt, today + 1) == (if DaysRemaining(expiresAt, today) > 0 then DaysRemaining(expiresAt, today) - 1 else 0)
    ensures expiresAt.Some? && DayOf(expiresAt.value) <= today ==> DaysRemaining(expiresAt, today) == 0
  {
  }

  /** `_get_current_subscription_info`. */
  datatype SubInfo = SubInfo(tier: string, status: string, expiresAt: Option<int>)

  function CurrentSubscriptionInfo(sub: Option<Subscription>): (r: SubInfo)
    ensures sub.None? ==> r == SubInfo("free", "active", None)
    ensures sub.Some? ==> ParseTier(r.tier) == Some(sub.value.tier) && ParseStatus(r.status) == Some(sub.value.status)
    ensures sub.Some? ==> r.expiresAt == sub.value.expiresAt
  {
    TierValueRoundTrip(if sub.Some? then sub.value.tier else Free);
    StatusValueRoundTrip(if sub.Some? then sub.value.status else Active);
    if sub.Some? then SubInfo(TierValue(sub.value.tier), StatusValue(sub.value.status), sub.value.expiresAt)
    else SubInfo("free", "active", None)
  }

  /**
   * The status response.  The free branch always reports status "active",
   * tier "free", no auto-renewal, no trial and an upgrade to annual; the
   * paid branch reports the row.
   */
  datatype StatusView =
    | FreeView(memberSince: Option<int>, limits: Dict)
    | PaidView(status: string, tier: string, startedAt: int, expiresAt: Option<int>, autoRenew: bool,
               isInTrial: bool, trialEndDate: Option<int>, cancelledAt: Option<int>,
               subscriberId: Option<string>, platform: Option<string>, productId: Option<string>,
               transactionId: Option<string>, billingIssues: bool, activeEntitlements: seq<string>, limits: Dict)

  /** The status string a view reports. */
  function ViewStatus(v: StatusView): string
  {
    if v.FreeView? then "active" else v.status
  }

  /** The subscription the status endpoint reports: synced first when a refresh is forced and a subscriber id is known. */
  function Refreshed(sub: Option<Subscription>, forceRefresh: bool, data: Option<SubscriberData>, now: int): (r: Option<Subscription>)
    ensures r.None? <==> sub.None?
    ensures r.Some? ==> r.value.userId == sub.value.userId
  {
    if forceRefresh && sub.Some? && Given(sub.value.subscriberId) then Some(Sync(sub.value, data, now)) else sub
  }

  /** The response body of `get_subscription_status`. */
  function StatusResponse(sub: Option<Subscription>, userCreatedAt: Option<int>): (r: StatusView)
    ensures r.FreeView? <==> sub.None? || sub.value.tier == Free
    ensures r.FreeView? ==> r.limits == FREE_LIMITS && r.memberSince == userCreatedAt
    ensures r.PaidView? ==> r.limits == GetFeatureLimits(TierValue(sub.value.tier))
    ensures r.PaidView? ==> (r.isInTrial <==> sub.value.status == Trial) && (r.billingIssues <==> sub.value.status == BillingIssue)
    ensures r.PaidView? ==> r.activeEntitlements == sub.value.entitlements.GetOr([])
    ensures r.PaidView? ==> ParseStatus(r.status) == Some(sub.value.status)
  {
    if sub.None? || sub.value.tier == Free then FreeView(userCreatedAt, GetFeatureLimits("free"))
    else
      var s := sub.value;
      StatusValueRoundTrip(s.status);
      PaidView(StatusValue(s.status), TierValue(s.tier), s.startedAt, s.expiresAt, s.autoRenew,
               s.status == Trial, s.trialEndDate, s.cancelledAt, s.subscriberId,
               if s.platform.Some? then Some(PlatformValue(s.platform.value)) else None,
               s.productId, s.transactionId, s.status == BillingIssue, s.entitlements.GetOr([]),
               GetFeatureLimits(TierValue(s.tier)))
  }

  /** A free-tier row reports "active" whatever its stored status, so an expired subscription reads as an active free one. */
  lemma FreeTierReadsActive(s: Subscription, userCreatedAt: Option<int>)
    requires s.tier == Free
    ensures ViewStatus(StatusResponse(Some(s), userCreatedAt)) == "active"
    ensures s.status == Expired ==> ViewStatus(StatusResponse(Some(s), userCreatedAt)) != StatusValue(s.status)
  {
  }

  /** The subscriber id the restore route asks RevenueCat about: the stored one if set, else the user id. */
  function RestoreSubscriberId(userId: string, current: Option<Subscription>): (r: string)
    ensures current.Some? && Given(current.value.subscriberId) ==> r == current.value.subscriberId.value
    ensures !(current.Some? && Given(current.value.subscriberId)) ==> r == userId
  {
    if current.Some? && Given(current.value.subscriberId) then current.value.subscriberId.value else userId
  }

  /** The restore route: SUB_006 when there is nothing to restore. */
  method RestoreRoute(store: SubscriptionStore, userId: string, platform: Platform, data: Option<SubscriberData>, now: int)
    returns (r: Result<Subscription, ApiError>, outcome: RestoreOutcome)
    requires store.Valid()
    modifies store
    ensures store.Valid()
    ensures outcome.NothingToRestore? <==> r == Err(NoPurchases)
    ensures outcome.Restored? <==> r.Ok?
    ensures outcome.SubscriberTaken? <==> r == Err(InternalError)
    ensures r.Ok? ==> r.value == outcome.sub && r.value.userId == userId && r.value.status == Active
    ensures r.Ok? ==>
      var i := IndexOfUser(old(store.subs), userId);
      r.value.subscriberId == Some(RestoreSubscriberId(userId, if i.Some? then Some(old(store.subs)[i.value]) else None))
  {
    var i := IndexOfUser(store.subs, userId);
    var current := if i.Some? then Some(store.subs[i.value]) else None;
    var subscriberId := RestoreSubscriberId(userId, current);
    outcome := RestorePurchases(store, userId, subscriberId, platform, data, now);
    match outcome
    case NothingToRestore => r := Err(NoPurchases);
    case Restored(sub) => r := Ok(sub);
    case SubscriberTaken => r := Err(InternalError);
  }
}

=== FILE: sync_stream.dfy ===
/**
 * The messages the task cache appends to the sync stream and the worker
 * consumes.  A stream entry has an "op" string and a JSON "payload" string;
 * the payload is kept here in decoded form, as far as the handlers look
 * into it.
 */
module SyncStream {
  import opened Wrappers
  import opened Json

  /**
   * The "updates" member of an update payload.  The handler looks keys up
   * with `key in v`: in an object that tests its members, in a string its
   * substrings, in an array its elements (of which only strings can equal
   * a key); in null, a number or a bool it raises.
   */
  datatype Updates =
    | NoUpdates                    // absent: the payload itself holds the updates
    | UpdatesObj(fields: Dict)
    | UpdatesText(s: string)
    | UpdatesArray(strings: set<string>)   // an array, by its string elements
    | UpdatesOther                 // null, a number or a bool

  /** An element of the "tasks" array: an object (its scalar members and its "updates" member) or another value. */
  datatype Item = Item(members: Dict, updates: Updates) | NonObjectItem

  /**
   * A decoded payload object: its scalar members, its "updates" member and
   * the elements a loop over its "tasks" member visits.  An absent "tasks"
   * member, an empty array, an empty string and an empty object all give
   * no elements; `None` stands for a value the loop raises on: null, a
   * number, a bool, or a non-empty string or object, whose elements
   * (characters, member names) are strings, which every handler refuses.
   */
  datatype Payload = Payload(members: Dict, updates: Updates, tasks: Option<seq<Item>>)

  /** What `json.loads` makes of the payload text. */
  datatype RawPayload =
    | BadJson            // the text is not JSON
    | NonObject          // valid JSON that is not an object
    | Obj(p: Payload)

  /** One stream entry: the "op" field ("" when missing) and the payload. */
  datatype Entry = Entry(op: string, payload: RawPayload)

  /** The stream the cache appends to and the worker reads. */
  const SYNC_STREAM: string := "stream:tasks:sync"

  const OpCreate := "CREATE"
  const OpBatchCreate := "BATCH_CREATE"
  const OpUpdate := "UPDATE"
  const OpBatchUpdate := "BATCH_UPDATE"
  const OpStatusUpdate := "STATUS_UPDATE"
  const OpDelete := "DELETE"
}

=== FILE: sync_worker.dfy ===
/**
 * The task sync worker (app/services/sync_worker.py): it drains the sync
 * stream into the relational task table.  The table is a map from task id
 * to row; a row maps columns to values.  Each stream entry is delivered
 * once to the consumer group, recorded in the pending list with its
 * delivery count, and removed from it when acknowledged.
 *
 * Task ids are compared as strings: any string is taken as valid UUID text
 * and any other JSON value in an id position fails.  The row values of
 * enum columns are their (validated) string values.
 */
module SyncWorker {
  import opened Wrappers
  import opened Json
  import opened SyncStream
  import TaskModel
  import Text

  const DLQ_STREAM: string := "stream:tasks:dlq"
  const CONSUMER_GROUP: string := "sync-workers"
  const MAX_RETRIES: nat := 5
  const BLOCK_MS: nat := 200
  const BATCH_SIZE: nat := 50

  datatype Column =
    | TaskIdCol | UserIdCol | TitleCol | SubtitleCol | CategoryCol | PriorityCol
    | DurationCol | IconCol | StatusCol | DueDateCol | OrderIndexCol
    | CreatedAtCol | UpdatedAtCol

  type Row = map<Column, Scalar>
  type Store = map<string, Row>

  /**
   * Why a handler raised: a value that does not convert, a value the
   * database refuses, a value looked into as an object that is not one, or
   * a "tasks" member that cannot be looped over.
   */
  datatype Failure = Unconvertible(key: string) | Refused(col: Column) | NotAnObject | NotIterable

  // ---------------------------------------------------------------------------
  // API record -> column values
  // ---------------------------------------------------------------------------

  /** The API key each column is read from. */
  function KeyOf(c: Column): string
  {
    match c
    case TaskIdCol => "id"
    case UserIdCol => "userId"
    case TitleCol => "title"
    case SubtitleCol => "subtitle"
    case CategoryCol => "category"
    case PriorityCol => "priority"
    case DurationCol => "durationMins"
    case IconCol => "iconType"
    case StatusCol => "status"
    case DueDateCol => "date"
    case OrderIndexCol => "orderIndex"
    case CreatedAtCol => "createdAt"
    case UpdatedAtCol => "updatedAt"
  }

  /** The columns `_api_to_db_fields` fills, in the order it visits them. */
  const ApiColumns: seq<Column> :=
    [TaskIdCol, UserIdCol, TitleCol, SubtitleCol, CategoryCol, PriorityCol,
     DurationCol, IconCol, StatusCol, DueDateCol, OrderIndexCol]

  /** Every column, in table order. */
  const AllColumns: seq<Column> := ApiColumns + [CreatedAtCol, UpdatedAtCol]

  /** The timestamps are the only columns the API conversion never fills. */
  predicate Mapped(c: Column)
  {
    c != CreatedAtCol && c != UpdatedAtCol
  }

  lemma ColumnsListed(c: Column)
    ensures Mapped(c) <==> c in ApiColumns
    ensures c in AllColumns
  {
    match c
    case TaskIdCol => assert ApiColumns[0] == c;
    case UserIdCol => assert ApiColumns[1] == c;
    case TitleCol => assert ApiColumns[2] == c;
    case SubtitleCol => assert ApiColumns[3] == c;
    case CategoryCol => assert ApiColumns[4] == c;
    case PriorityCol => assert ApiColumns[5] == c;
    case DurationCol => assert ApiColumns[6] == c;
    case IconCol => assert ApiColumns[7] == c;
    case StatusCol => assert ApiColumns[8] == c;
    case DueDateCol => assert ApiColumns[9] == c;
    case OrderIndexCol => assert ApiColumns[10] == c;
    case CreatedAtCol => assert AllColumns[11] == c;
    case UpdatedAtCol => assert AllColumns[12] == c;
  }

  /** Whether the conversion applied to the value under `c`'s key succeeds (UUID, enum, date). */
  predicate Converts(c: Column, v: Scalar)
  {
    match c
    case TaskIdCol => v.SStr?
    case UserIdCol => v.SStr?
    case CategoryCol => v.SStr? && TaskModel.ParseCategory(v.s).Some?
    case PriorityCol => v.SStr? && TaskModel.ParsePriority(v.s).Some?
    case IconCol => v.SStr? && TaskModel.ParseIcon(v.s).Some?
    case StatusCol => v.SStr? && TaskModel.ParseStatus(v.s).Some?
    case DueDateCol => v.SNull? || v.SDate?
    case _ => true
  }

  /** Whether column `c` is emitted for `task`: its key is present, and a null "date" is skipped. */
  predicate Emitted(task: Dict, c: Column)
  {
    KeyOf(c) in task && !(c == DueDateCol && task[KeyOf(c)] == SNull)
  }

  /** One `if key in task:` step, skipped once an earlier step has raised. */
  function MapKey(acc: Result<Row, Failure>, task: Dict, c: Column): Result<Row, Failure>
  {
    if acc.Err? || KeyOf(c) !in task then acc
    else if !Converts(c, task[KeyOf(c)]) then Err(Unconvertible(KeyOf(c)))
    else if c == DueDateCol && task[KeyOf(c)] == SNull then acc
    else Ok(acc.value[c := task[KeyOf(c)]])
  }

  /** The steps for `cols`, in order. */
  function MapKeys(task: Dict, cols: seq<Column>): (r: Result<Row, Failure>)
    ensures r.Err? <==> exists c :: c in cols && KeyOf(c) in task && !Converts(c, task[KeyOf(c)])
    ensures r.Ok? ==> forall c :: c in r.value <==> c in cols && Emitted(task, c)
    ensures r.Ok? ==> forall c :: c in r.value ==> KeyOf(c) in task && r.value[c] == task[KeyOf(c)]
  {
    if cols == [] then Ok(map[])
    else
      var r := MapKeys(task, cols[..|cols| - 1]);
      assert cols == cols[..|cols| - 1] + [cols[|cols| - 1]];
      MapKey(r, task, cols[|cols| - 1])
  }

  /**
   * `_api_to_db_fields`: a column for each API key present, renamed, with
   * a null "date" dropped; it raises when an id, enum or date value does
   * not convert.
   */
  function ApiToDbFields(task: Dict): (r: Result<Row, Failure>)
    ensures r.Err? <==> exists c :: Mapped(c) && KeyOf(c) in task && !Converts(c, task[KeyOf(c)])
    ensures r.Ok? ==> forall c :: c in r.value <==> Mapped(c) && Emitted(task, c)
    ensures r.Ok? ==> forall c :: c in r.value ==> KeyOf(c) in task && r.value[c] == task[KeyOf(c)]
  {
    forall c: Column ensures Mapped(c) <==> c in ApiColumns {
      ColumnsListed(c);
    }
    MapKeys(task, ApiColumns)
  }

  /** Every value `to_api_dict` writes converts back. */
  lemma ApiDictConverts(t: TaskModel.Task)
    ensures ApiToDbFields(TaskModel.ToApiDict(t)).Ok?
  {
    var d := TaskModel.ToApiDict(t);
    TaskModel.EnumNamesRoundTrip(t.category, t.status, t.priority, t.iconType);
    forall c | Mapped(c) && KeyOf(c) in d ensures Converts(c, d[KeyOf(c)]) {
    }
  }

  /** The value `to_api_dict` writes under each column's key (SNull for keys it does not write). */
  function ApiValue(t: TaskModel.Task, c: Column): Scalar
  {
    match c
    case TaskIdCol => SStr(t.taskId)
    case UserIdCol => SStr(t.userId)
    case TitleCol => SStr(t.title)
    case SubtitleCol => TaskModel.OptStr(t.subtitle)
    case CategoryCol => SStr(TaskModel.CategoryName(t.category))
    case PriorityCol => SStr(TaskModel.PriorityName(t.priority))
    case IconCol => SStr(TaskModel.IconName(t.iconType))
    case StatusCol => SStr(TaskModel.StatusName(t.status))
    case DurationCol => SInt(t.durationMins)
    case DueDateCol => if t.dueDate.Some? then SDate(t.dueDate.value) else SNull
    case _ => SNull
  }

  /**
   * A task serialised by `to_api_dict` converts back to a row holding its
   * id, user, title, subtitle, enum values, duration and (when set) due
   * date, each equal to the task's own; order_index is not carried (nor is
   * description, which has no column here).
   */
  lemma ApiRoundTrip(t: TaskModel.Task)
    ensures var r := ApiToDbFields(TaskModel.ToApiDict(t));
      r.Ok? &&
      (forall c :: c in r.value <==> Mapped(c) && c != OrderIndexCol && (c == DueDateCol ==> t.dueDate.Some?)) &&
      (forall c :: c in r.value ==> r.value[c] == ApiValue(t, c))
  {
    ApiDictConverts(t);
    var r := ApiToDbFields(TaskModel.ToApiDict(t)).value;
    forall c ensures (c in r <==> Mapped(c) && c != OrderIndexCol && (c == DueDateCol ==> t.dueDate.Some?))
                  && (c in r ==> r[c] == ApiValue(t, c))
    {
      ApiColumnCopied(t, c);
    }
  }

  lemma ApiColumnCopied(t: TaskModel.Task, c: Column)
    ensures var r := ApiToDbFields(TaskModel.ToApiDict(t));
      r.Ok? &&
      (c in r.value <==> Mapped(c) && c != OrderIndexCol && (c == DueDateCol ==> t.dueDate.Some?)) &&
      (c in r.value ==> r.value[c] == ApiValue(t, c))
  {
    ApiDictConverts(t);
    var d := TaskModel.ToApiDict(t);
    if Mapped(c) && c != OrderIndexCol && c != DueDateCol {
      assert Emitted(d, c);
    }
  }

  // ---------------------------------------------------------------------------
  // What the database accepts
  // ---------------------------------------------------------------------------

  /** The longest text a VARCHAR(200) column (title, subtitle) holds. */
  const VARCHAR_LEN: nat := 200

  /** The bounds of a PostgreSQL `integer` (int4), as asyncpg encodes it. */
  const INT4_MIN: int := -0x8000_0000
  const INT4_MAX: int := 0x7FFF_FFFF

  /** The value has the column's type; null only where the column is nullable. */
  predicate Typed(c: Column, v: Scalar)
  {
    match c
    case TaskIdCol => v.SStr?
    case UserIdCol => v.SStr?
    case TitleCol => v.SStr?
    case SubtitleCol => v.SStr? || v.SNull?
    case CategoryCol => v.SStr?
    case PriorityCol => v.SStr?
    case IconCol => v.SStr?
    case StatusCol => v.SStr?
    case DurationCol => v.SInt? || v.SBool?
    case OrderIndexCol => v.SInt? || v.SBool?
    case DueDateCol => v.SDate? || v.SNull?
    case CreatedAtCol => v.STime?
    case UpdatedAtCol => v.STime?
  }

  /** Whether the column is VARCHAR(200). */
  predicate Bounded(c: Column)
  {
    c == TitleCol || c == SubtitleCol
  }

  /** An integer for an int4 column lies in its range; asyncpg refuses any other. */
  predicate InInt4(c: Column, v: Scalar)
  {
    (c == DurationCol || c == OrderIndexCol) && v.SInt? ==> INT4_MIN <= v.i <= INT4_MAX
  }

  /**
   * A text for a VARCHAR(200) column fits: at most 200 characters, or the
   * characters past the 200th are all spaces, which PostgreSQL drops.
   */
  predicate FitsLength(c: Column, v: Scalar)
  {
    Bounded(c) && v.SStr? ==> |v.s| <= VARCHAR_LEN || forall i :: VARCHAR_LEN <= i < |v.s| ==> v.s[i] == ' '
  }

  /** The values the driver and the column constraints accept (types, NOT NULL, int4, VARCHAR(200)). */
  predicate Acceptable(c: Column, v: Scalar)
  {
    Typed(c, v) && InInt4(c, v) && FitsLength(c, v)
  }

  /** The value a column stores: an over-long VARCHAR(200) text is cut to 200 characters. */
  function Fit(c: Column, v: Scalar): (r: Scalar)
    ensures !(Bounded(c) && v.SStr? && |v.s| > VARCHAR_LEN) ==> r == v
    ensures Bounded(c) && v.SStr? ==> r.SStr? && |r.s| <= VARCHAR_LEN && r.s == v.s[..|r.s|]
    ensures Acceptable(c, v) ==> Acceptable(c, r)
    ensures Acceptable(c, v) && Bounded(c) && v.SStr? ==> forall i :: |r.s| <= i < |v.s| ==> v.s[i] == ' '
  {
    if Bounded(c) && v.SStr? && |v.s| > VARCHAR_LEN then SStr(v.s[..VARCHAR_LEN]) else v
  }

  /** Every column of the row as stored. */
  function FitRow(row: Row): (r: Row)
    ensures r.Keys == row.Keys
    ensures forall c :: c in row ==> r[c] == Fit(c, row[c])
    ensures Storable(row) ==> Storable(r)
  {
    map c | c in row :: Fit(c, row[c])
  }

  predicate Storable(row: Row)
  {
    forall c :: c in row ==> Acceptable(c, row[c])
  }

  /** The first column, in table order, whose value the database refuses. */
  function Refusal(row: Row): (r: Option<Column>)
    ensures r.None? <==> Storable(row)
    ensures r.Some? ==> r.value in row && !Acceptable(r.value, row[r.value])
  {
    forall c: Column ensures c in AllColumns {
      ColumnsListed(c);
    }
    FirstRefused(row, AllColumns)
  }

  /** Whether the column may hold null; every other column is NOT NULL. */
  predicate Nullable(c: Column)
  {
    c == SubtitleCol || c == DueDateCol
  }

  /**
   * The values the driver can send for the column: null, which it sends
   * for any column, or one of the column's type, an integer within int4.
   * The NOT NULL constraints and the VARCHAR(200) lengths are the rest of
   * what the database refuses, and they apply only to rows written.
   */
  predicate Encodable(c: Column, v: Scalar)
  {
    v.SNull? || (Typed(c, v) && InInt4(c, v))
  }

  /** The database accepts a value exactly when the driver sends it, NOT NULL holds and the text fits. */
  lemma AcceptableSplit(c: Column, v: Scalar)
    ensures Acceptable(c, v) <==> Encodable(c, v) && (v.SNull? ==> Nullable(c)) && FitsLength(c, v)
  {
  }

  /** The two bounds at work: the first text and the first integer past them. */
  lemma ColumnBounds(s: string)
    requires |s| == VARCHAR_LEN + 1 && s[VARCHAR_LEN] != ' '
    ensures !Acceptable(TitleCol, SStr(s)) && Acceptable(TitleCol, SStr(s[..VARCHAR_LEN]))
    ensures !Encodable(OrderIndexCol, SInt(0x8000_0000)) && Encodable(OrderIndexCol, SInt(0x7FFF_FFFF))
    ensures !Encodable(DurationCol, SInt(-0x8000_0001)) && Encodable(DurationCol, SInt(-0x8000_0000))
  {
  }

  /** The first column, in table order, whose value the driver cannot send. */
  function TypeRefusal(row: Row): (r: Option<Column>)
    ensures r.None? <==> forall c :: c in row ==> Encodable(c, row[c])
    ensures r.Some? ==> r.value in row && !Encodable(r.value, row[r.value])
  {
    forall c: Column ensures c in AllColumns {
      ColumnsListed(c);
    }
    FirstUnencodable(row, AllColumns)
  }

  function FirstUnencodable(row: Row, cols: seq<Column>): (r: Option<Column>)
    ensures r.None? <==> forall c :: c in cols && c in row ==> Encodable(c, row[c])
    ensures r.Some? ==> r.value in row && !Encodable(r.value, row[r.value])
  {
    if cols == [] then None
    else if cols[0] in row && !Encodable(cols[0], row[cols[0]]) then Some(cols[0])
    else
      assert cols == [cols[0]] + cols[1..];
      FirstUnencodable(row, cols[1..])
  }

  function FirstRefused(row: Row, cols: seq<Column>): (r: Option<Column>)
    ensures r.None? <==> forall c :: c in cols && c in row ==> Acceptable(c, row[c])
    ensures r.Some? ==> r.value in row && !Acceptable(r.value, row[r.value])
  {
    if cols == [] then None
    else if cols[0] in row && !Acceptable(cols[0], row[cols[0]]) then Some(cols[0])
    else
      assert cols == [cols[0]] + cols[1..];
      FirstRefused(row, cols[1..])
  }

  /** Column defaults an INSERT fills in (Python-side defaults and `now()`). */
  function InsertDefaults(now: int): (r: Row)
    ensures Storable(r)
    ensures TitleCol !in r && UserIdCol !in r && TaskIdCol !in r
    ensures forall c :: c in r ==> Fit(c, r[c]) == r[c]
  {
    map[CategoryCol := SStr("OTHER"), PriorityCol := SStr("medium"), DurationCol := SInt(25),
        IconCol := SStr("default"), StatusCol := SStr("pending"), OrderIndexCol := SInt(0),
        SubtitleCol := SNull, DueDateCol := SNull,
        CreatedAtCol := STime(now), UpdatedAtCol := STime(now)]
  }

  /** Columns of `top` replace those of `base`. */
  function Overlay(base: Row, top: Row): (r: Row)
    ensures r.Keys == base.Keys + top.Keys
    ensures forall c :: c in top ==> r[c] == top[c]
    ensures forall c :: c in base && c !in top ==> r[c] == base[c]
  {
    map c | c in base.Keys + top.Keys :: if c in top then top[c] else base[c]
  }

  /** The id an INSERT stores: the given one, or the column default `genId`. */
  function NewId(fields: Row, genId: string): string
  {
    if TaskIdCol in fields && fields[TaskIdCol].SStr? then fields[TaskIdCol].s else genId
  }

  /**
   * The row an INSERT of `fields` writes: defaults overlaid with the given
   * columns, an over-long title or subtitle cut to 200 characters.  It is
   * refused when title or user_id is missing (NOT NULL) or a given value is
   * of the wrong type, outside int4 or too long, whatever the table holds.
   */
  function BuildRow(fields: Row, genId: string, now: int): (r: Result<Row, Failure>)
    ensures r.Ok? <==> (TitleCol in fields && UserIdCol in fields &&
      forall c :: c in fields && c != TaskIdCol ==> Acceptable(c, fields[c]))
    ensures r.Ok? ==> Storable(r.value) && TaskIdCol in r.value && r.value[TaskIdCol] == SStr(NewId(fields, genId))
    ensures r.Ok? ==> forall c :: c in fields && c != TaskIdCol ==> c in r.value && r.value[c] == Fit(c, fields[c])
    ensures r.Ok? ==> forall c :: c in InsertDefaults(now) && c !in fields ==>
      c in r.value && r.value[c] == InsertDefaults(now)[c]
  {
    var row := Overlay(InsertDefaults(now), fields)[TaskIdCol := SStr(NewId(fields, genId))];
    OverlayStorable(InsertDefaults(now), fields, NewId(fields, genId));
    if TitleCol !in row then Err(Refused(TitleCol))
    else if UserIdCol !in row then Err(Refused(UserIdCol))
    else match Refusal(row)
      case Some(c) => Err(Refused(c))
      case None =>
        FitOverlay(InsertDefaults(now), fields, NewId(fields, genId));
        Ok(FitRow(row))
  }

  /** Where each column of a stored overlay comes from. */
  lemma FitOverlay(base: Row, top: Row, id: string)
    ensures var r := FitRow(Overlay(base, top)[TaskIdCol := SStr(id)]);
      TaskIdCol in r && r[TaskIdCol] == SStr(id) &&
      (forall c :: c in top && c != TaskIdCol ==> c in r && r[c] == Fit(c, top[c])) &&
      (forall c :: c in base && c !in top && c != TaskIdCol ==> c in r && r[c] == Fit(c, base[c]))
  {
  }

  /** Over accepted defaults, the row is accepted exactly when every given non-id value is. */
  lemma OverlayStorable(base: Row, top: Row, id: string)
    requires Storable(base)
    ensures Storable(Overlay(base, top)[TaskIdCol := SStr(id)]) <==>
      forall c :: c in top && c != TaskIdCol ==> Acceptable(c, top[c])
  {
    var row := Overlay(base, top)[TaskIdCol := SStr(id)];
    if forall c :: c in top && c != TaskIdCol ==> Acceptable(c, top[c]) {
      forall c | c in row ensures Acceptable(c, row[c]) {
        if c != TaskIdCol && c !in top {
          assert row[c] == base[c];
        }
      }
    } else {
      var c :| c in top && c != TaskIdCol && !Acceptable(c, top[c]);
      assert row[c] == top[c];
    }
  }

  // ---------------------------------------------------------------------------
  // Per-operation handlers
  // ---------------------------------------------------------------------------

  /** `datetime.fromisoformat` on a truthy value: an ISO timestamp or date string. */
  function ParseTimestamp(key: string, v: Scalar): (r: Result<Scalar, Failure>)
    ensures r.Ok? <==> v.STime? || v.SDate?
    ensures r.Ok? ==> r.value.STime?
    ensures v.STime? ==> r == Ok(v)
  {
    match v
    case STime(ms) => Ok(STime(ms))
    case SDate(d) => Ok(STime((d - 719163) * 86400000))
    case _ => Err(Unconvertible(key))
  }

  /** The timestamp under `key` when it is truthy; SNull when it is not. */
  function TimestampIfSet(p: Dict, key: string): (r: Result<Scalar, Failure>)
    ensures !Truthy(Get(p, key)) ==> r == Ok(SNull)
    ensures Truthy(Get(p, key)) ==> r == ParseTimestamp(key, p[key])
  {
    if key in p && Truthy(p[key]) then ParseTimestamp(key, p[key]) else Ok(SNull)
  }

  /** The id a CREATE payload stores. */
  function CreatedId(p: Dict, genId: string): string
  {
    if "id" in p && p["id"].SStr? then p["id"].s else genId
  }

  /** The columns `_sync_create` gives: the converted fields plus the payload's truthy timestamps. */
  function CreateFields(p: Dict): (r: Result<Row, Failure>)
    ensures r.Ok? ==> forall c :: Mapped(c) ==> (c in r.value <==> Emitted(p, c))
    ensures r.Ok? ==> forall c :: Mapped(c) && c in r.value ==> KeyOf(c) in p && r.value[c] == p[KeyOf(c)]
    ensures r.Ok? && Truthy(Get(p, "createdAt")) ==>
      CreatedAtCol in r.value && ParseTimestamp("createdAt", p["createdAt"]) == Ok(r.value[CreatedAtCol])
    ensures r.Ok? && Truthy(Get(p, "updatedAt")) ==>
      UpdatedAtCol in r.value && ParseTimestamp("updatedAt", p["updatedAt"]) == Ok(r.value[UpdatedAtCol])
    ensures r.Ok? && !Truthy(Get(p, "createdAt")) ==> CreatedAtCol !in r.value
    ensures r.Ok? && !Truthy(Get(p, "updatedAt")) ==> UpdatedAtCol !in r.value
  {
    match ApiToDbFields(p)
    case Err(e) => Err(e)
    case Ok(fields) =>
      match TimestampIfSet(p, "createdAt")
      case Err(e) => Err(e)
      case Ok(created) =>
        match TimestampIfSet(p, "updatedAt")
        case Err(e) => Err(e)
        case Ok(updated) =>
          var f1 := if created != SNull then fields[CreatedAtCol := created] else fields;
          Ok(if updated != SNull then f1[UpdatedAtCol := updated] else f1)
  }

  /** The row `_sync_create` inserts: given columns over the defaults, with its id. */
  function CreateRow(p: Dict, genId: string, now: int): (r: Result<Row, Failure>)
    ensures r.Ok? ==> Storable(r.value) && TaskIdCol in r.value && r.value[TaskIdCol] == SStr(CreatedId(p, genId))
    ensures r.Ok? ==> "title" in p && "userId" in p
    ensures r.Ok? ==> forall c :: Mapped(c) && c != TaskIdCol && Emitted(p, c) ==>
      c in r.value && r.value[c] == Fit(c, p[KeyOf(c)])
  {
    match CreateFields(p)
    case Err(e) => Err(e)
    case Ok(fields) =>
      assert Mapped(TaskIdCol) && Mapped(TitleCol) && Mapped(UserIdCol);
      assert NewId(fields, genId) == CreatedId(p, genId);
      BuildRow(fields, genId, now)
  }

  /** Whether the row a CREATE builds is accepted depends on neither the time nor the default id. */
  lemma CreateRowOkAnyTime(p: Dict, genId: string, now: int, genId2: string, now2: int)
    requires CreateRow(p, genId, now).Ok?
    ensures CreateRow(p, genId2, now2).Ok?
  {
  }

  /** `INSERT ... ON CONFLICT (task_id) DO NOTHING` of a built row. */
  function InsertOrIgnore(store: Store, id: string, row: Row): (r: Store)
    ensures r.Keys == store.Keys + {id}
    ensures forall k :: k in store ==> r[k] == store[k]
    ensures id !in store ==> r[id] == row
  {
    if id in store then store else store[id := row]
  }

  /**
   * `_sync_create`.  The row is built and checked first, so a refused row
   * fails even when its id exists; an id already present leaves the table
   * unchanged.
   */
  function SyncCreate(store: Store, p: Dict, genId: string, now: int): (r: Result<Store, Failure>)
    ensures r.Ok? <==> CreateRow(p, genId, now).Ok?
    ensures r.Ok? ==> r.value == InsertOrIgnore(store, CreatedId(p, genId), CreateRow(p, genId, now).value)
  {
    var built := CreateRow(p, genId, now);
    if built.Err? then Err(built.error)
    else Ok(InsertOrIgnore(store, CreatedId(p, genId), built.value))
  }

  /** `payload.get("task_id") or payload.get("id")` */
  function TargetId(p: Dict): Scalar
  {
    if Truthy(Get(p, "task_id")) then Get(p, "task_id") else Get(p, "id")
  }

  /** The columns an UPDATE sets: the converted updates without the identity columns, plus updated_at. */
  function UpdateColumns(updates: Dict, now: int): (r: Result<Row, Failure>)
    ensures r.Ok? ==> TaskIdCol !in r.value && UserIdCol !in r.value && UpdatedAtCol in r.value
    ensures r.Ok? ==> forall c :: c in r.value && c != UpdatedAtCol ==>
      Mapped(c) && Emitted(updates, c) && r.value[c] == updates[KeyOf(c)]
    ensures r.Ok? ==> forall c :: Mapped(c) && c != TaskIdCol && c != UserIdCol && Emitted(updates, c) ==> c in r.value
    ensures r.Ok? && Truthy(Get(updates, "updatedAt")) ==>
      ParseTimestamp("updatedAt", updates["updatedAt"]) == Ok(r.value[UpdatedAtCol])
    ensures r.Ok? && !Truthy(Get(updates, "updatedAt")) ==> r.value[UpdatedAtCol] == STime(now)
  {
    match ApiToDbFields(updates)
    case Err(e) => Err(e)
    case Ok(fields) =>
      match UpdateTimestamp(updates, now)
      case Err(e) => Err(e)
      case Ok(ts) => Ok((fields - {TaskIdCol, UserIdCol})[UpdatedAtCol := ts])
  }

  /**
   * The updated_at an UPDATE sets: the payload's truthy "updatedAt", else
   * the current time.  ("updatedAt" is never a column name, so
   * `_sync_update`'s second test, that the key is not already a column to
   * set, always passes.)
   */
  function UpdateTimestamp(updates: Dict, now: int): (r: Result<Scalar, Failure>)
    ensures Truthy(Get(updates, "updatedAt")) ==> r == ParseTimestamp("updatedAt", updates["updatedAt"])
    ensures !Truthy(Get(updates, "updatedAt")) ==> r == Ok(STime(now))
  {
    match TimestampIfSet(updates, "updatedAt")
    case Err(e) => Err(e)
    case Ok(ts) => if ts != SNull then Ok(ts) else Ok(STime(now))
  }

  /** The keys `_sync_update` looks up in its updates value: the API keys and "updatedAt". */
  const UpdateKeys: seq<string> :=
    ["id", "userId", "title", "subtitle", "category", "priority", "durationMins", "iconType",
     "status", "date", "orderIndex", "updatedAt"]

  /**
   * `payload.get("updates", payload)` as the conversion and the updatedAt
   * test read it: the object whose members they look up, or the failure of
   * a lookup.  A string or an array that holds none of the keys reads as an
   * object without members; one that holds a key is indexed by it and
   * raises.
   */
  function UpdatesOf(members: Dict, u: Updates): (r: Result<Dict, Failure>)
    ensures u.NoUpdates? ==> r == Ok(members)
    ensures u.UpdatesObj? ==> r == Ok(u.fields)
    ensures u.UpdatesOther? ==> r.Err?
    ensures u.UpdatesText? ==> (r.Ok? <==> forall k :: k in UpdateKeys ==> !Text.Contains(u.s, k))
    ensures u.UpdatesArray? ==> (r.Ok? <==> forall k :: k in UpdateKeys ==> k !in u.strings)
    ensures (u.UpdatesText? || u.UpdatesArray?) && r.Ok? ==> r.value == map[]
  {
    match u
    case NoUpdates => Ok(members)
    case UpdatesObj(d) => Ok(d)
    case UpdatesText(s) => if exists k :: k in UpdateKeys && Text.Contains(s, k) then Err(NotAnObject) else Ok(map[])
    case UpdatesArray(a) => if exists k :: k in UpdateKeys && k in a then Err(NotAnObject) else Ok(map[])
    case UpdatesOther => Err(NotAnObject)
  }

  /**
   * `_sync_update`: no id is a no-op.  Otherwise the update columns (never
   * task_id or user_id, always updated_at) are built, the driver refuses a
   * value of the wrong type, and the row with that id, if there is one,
   * gets them; only then can a null in a NOT NULL column be refused, so an
   * UPDATE that matches no row succeeds whatever nulls it carries.  Since
   * updated_at is always set, `_sync_update`'s early return when there
   * are no columns to set cannot happen.
   */
  function SyncUpdate(store: Store, p: Dict, u: Updates, now: int): (r: Result<Store, Failure>)
    ensures !Truthy(TargetId(p)) ==> r == Ok(store)
    ensures r.Ok? ==> r.value.Keys == store.Keys
    ensures r.Ok? && Truthy(TargetId(p)) ==>
      TargetId(p).SStr? && UpdatesOf(p, u).Ok? && UpdateColumns(UpdatesOf(p, u).value, now).Ok? &&
      TypeRefusal(UpdateColumns(UpdatesOf(p, u).value, now).value).None?
    ensures r.Ok? ==> forall id :: id in store && !(TargetId(p).SStr? && id == TargetId(p).s) ==> r.value[id] == store[id]
    ensures Truthy(TargetId(p)) && TargetId(p).SStr? && TargetId(p).s !in store ==>
      (r.Ok? <==> UpdatesOf(p, u).Ok? && UpdateColumns(UpdatesOf(p, u).value, now).Ok? &&
                  TypeRefusal(UpdateColumns(UpdatesOf(p, u).value, now).value).None?) &&
      (r.Ok? ==> r.value == store)
    ensures r.Ok? && Truthy(TargetId(p)) && TargetId(p).SStr? && TargetId(p).s in store ==>
      var cols := UpdateColumns(UpdatesOf(p, u).value, now).value;
      var row := r.value[TargetId(p).s];
      Storable(cols) &&
      row.Keys == store[TargetId(p).s].Keys + cols.Keys &&
      (forall c :: c in cols ==> row[c] == Fit(c, cols[c])) &&
      (forall c :: c in row && c !in cols ==> row[c] == store[TargetId(p).s][c])
  {
    var tid := TargetId(p);
    if !Truthy(tid) then Ok(store)
    else
      match UpdatesOf(p, u)
      case Err(e) => Err(e)
      case Ok(upd) =>
        match UpdateColumns(upd, now)
        case Err(e) => Err(e)
        case Ok(cols) =>
          if !tid.SStr? then Err(Unconvertible("id"))
          else match TypeRefusal(cols)
            case Some(c) => Err(Refused(c))
            case None =>
              if tid.s !in store then Ok(store)
              else WriteRow(store, tid.s, cols)
  }

  /**
   * The UPDATE reaching an existing row: a null in a NOT NULL column or a
   * title or subtitle too long is refused and nothing is written; otherwise
   * the row takes the new values, as stored.
   */
  function WriteRow(store: Store, id: string, cols: Row): (r: Result<Store, Failure>)
    requires id in store
    ensures r.Ok? <==> Storable(cols)
    ensures r.Err? ==> r.error.Refused? && r.error.col in cols && !Acceptable(r.error.col, cols[r.error.col])
    ensures r.Ok? ==> r.value.Keys == store.Keys && forall x :: x in store && x != id ==> r.value[x] == store[x]
    ensures r.Ok? ==> r.value[id] == Overlay(store[id], FitRow(cols))
  {
    match Refusal(cols)
    case Some(c) => Err(Refused(c))
    case None => Ok(store[id := Overlay(store[id], FitRow(cols))])
  }

  /**
   * A null title, which the NOT NULL constraint refuses on a row that
   * exists, commits as a no-op when no row has the id.
   */
  lemma NullTitleRefusedOnlyOnAHit(store: Store, id: string, now: int)
    requires id != ""
    ensures var p := map["id" := SStr(id), "title" := SNull];
      (id !in store ==> SyncUpdate(store, p, NoUpdates, now) == Ok(store)) &&
      (id in store ==> SyncUpdate(store, p, NoUpdates, now) == Err(Refused(TitleCol)))
  {
    var p := map["id" := SStr(id), "title" := SNull];
    assert TargetId(p) == SStr(id);
    NullTitleColumns(id, now);
    NullTitleRefusal(now);
  }

  lemma NullTitleColumns(id: string, now: int)
    ensures UpdateColumns(map["id" := SStr(id), "title" := SNull], now) ==
      Ok(map[TitleCol := SNull, UpdatedAtCol := STime(now)])
  {
    var p := map["id" := SStr(id), "title" := SNull];
    NullTitleFields(id);
    assert !Truthy(Get(p, "updatedAt"));
    var fields := map[TaskIdCol := SStr(id), TitleCol := SNull];
    assert fields - {TaskIdCol, UserIdCol} == map[TitleCol := SNull];
  }

  lemma NullTitleFields(id: string)
    ensures ApiToDbFields(map["id" := SStr(id), "title" := SNull]) == Ok(map[TaskIdCol := SStr(id), TitleCol := SNull])
  {
    var p := map["id" := SStr(id), "title" := SNull];
    forall c ensures KeyOf(c) in p <==> c == TaskIdCol || c == TitleCol {
      KeyOfIdTitle(c);
    }
    IdTitleFields(p, id);
  }

  /** A record holding only an id and a null title maps to exactly those two columns. */
  lemma IdTitleFields(p: Dict, id: string)
    requires forall c :: KeyOf(c) in p <==> c == TaskIdCol || c == TitleCol
    requires "id" in p && "title" in p && p["id"] == SStr(id) && p["title"] == SNull
    ensures ApiToDbFields(p) == Ok(map[TaskIdCol := SStr(id), TitleCol := SNull])
  {
    assert KeyOf(TaskIdCol) == "id" && KeyOf(TitleCol) == "title";
    forall c | KeyOf(c) in p ensures Converts(c, p[KeyOf(c)]) {
      if c == TaskIdCol {
        assert p[KeyOf(c)] == SStr(id);
      } else {
        assert c == TitleCol && p[KeyOf(c)] == SNull;
      }
    }
    assert ApiToDbFields(p).Ok?;
    var fields := ApiToDbFields(p).value;
    forall c ensures c in fields <==> c == TaskIdCol || c == TitleCol {
      assert Mapped(c) && Emitted(p, c) <==> c == TaskIdCol || c == TitleCol;
    }
    assert fields.Keys == {TaskIdCol, TitleCol};
    assert fields[TaskIdCol] == SStr(id) && fields[TitleCol] == SNull;
    assert fields == map[TaskIdCol := SStr(id), TitleCol := SNull];
  }

  lemma KeyOfIdTitle(c: Column)
    ensures KeyOf(c) == "id" <==> c == TaskIdCol
    ensures KeyOf(c) == "title" <==> c == TitleCol
  {
    match c
    case TaskIdCol =>
    case UserIdCol => assert KeyOf(c)[0] == 'u';
    case TitleCol =>
    case SubtitleCol => assert KeyOf(c)[0] == 's';
    case CategoryCol => assert KeyOf(c)[0] == 'c';
    case PriorityCol => assert KeyOf(c)[0] == 'p';
    case DurationCol => assert KeyOf(c)[0] == 'd';
    case IconCol => assert KeyOf(c)[1] == 'c';
    case StatusCol => assert KeyOf(c)[0] == 's';
    case DueDateCol => assert KeyOf(c)[0] == 'd';
    case OrderIndexCol => assert KeyOf(c)[0] == 'o';
    case CreatedAtCol => assert KeyOf(c)[0] == 'c';
    case UpdatedAtCol => assert KeyOf(c)[0] == 'u';
  }

  lemma NullTitleRefusal(now: int)
    ensures var cols := map[TitleCol := SNull, UpdatedAtCol := STime(now)];
      TypeRefusal(cols).None? && Refusal(cols) == Some(TitleCol)
  {
    var cols := map[TitleCol := SNull, UpdatedAtCol := STime(now)];
    assert Encodable(TitleCol, SNull) && Encodable(UpdatedAtCol, STime(now));
    assert forall c :: c in cols ==> c == TitleCol || c == UpdatedAtCol;
    assert AllColumns[0] == TaskIdCol && AllColumns[1] == UserIdCol && AllColumns[2] == TitleCol;
    assert FirstRefused(cols, AllColumns) == FirstRefused(cols, AllColumns[1..]);
    assert AllColumns[1..][0] == UserIdCol && AllColumns[1..][1..] == AllColumns[2..];
    assert FirstRefused(cols, AllColumns[1..]) == FirstRefused(cols, AllColumns[2..]);
    assert AllColumns[2..][0] == TitleCol;
  }

  /**
   * Updates given as a string or an array that holds none of the keys set
   * only updated_at on the row they name.
   */
  lemma NonObjectUpdatesStampOnly(store: Store, p: Dict, u: Updates, now: int)
    requires u.UpdatesText? || u.UpdatesArray?
    requires Truthy(TargetId(p)) && TargetId(p).SStr? && TargetId(p).s in store
    requires SyncUpdate(store, p, u, now).Ok?
    ensures SyncUpdate(store, p, u, now).value ==
      store[TargetId(p).s := store[TargetId(p).s][UpdatedAtCol := STime(now)]]
  {
    var id := TargetId(p).s;
    var r := SyncUpdate(store, p, u, now).value;
    assert UpdatesOf(p, u) == Ok(map[]);
    EmptyUpdateColumns(now);
    assert UpdateColumns(UpdatesOf(p, u).value, now).value == map[UpdatedAtCol := STime(now)];
    StampedOnly(store, r, id, now);
  }

  /** A table equal to `store` but for `id`'s row, which gained only a new updated_at. */
  lemma StampedOnly(store: Store, r: Store, id: string, now: int)
    requires id in store && r.Keys == store.Keys
    requires forall x :: x in store && x != id ==> r[x] == store[x]
    requires r[id].Keys == store[id].Keys + {UpdatedAtCol} && r[id][UpdatedAtCol] == STime(now)
    requires forall c :: c in r[id] && c != UpdatedAtCol ==> r[id][c] == store[id][c]
    ensures r == store[id := store[id][UpdatedAtCol := STime(now)]]
  {
    assert r[id] == store[id][UpdatedAtCol := STime(now)];
  }

  /** An UPDATE with no fields sets updated_at alone, to the current time. */
  lemma EmptyUpdateColumns(now: int)
    ensures UpdateColumns(map[], now) == Ok(map[UpdatedAtCol := STime(now)])
  {
    var cols := UpdateColumns(map[], now).value;
    assert cols == map[UpdatedAtCol := STime(now)];
  }

  /** `_sync_status_update`: only status and updated_at change; no id or no status is a no-op. */
  function SyncStatusUpdate(store: Store, p: Dict, now: int): (r: Result<Store, Failure>)
    ensures !Truthy(TargetId(p)) || !Truthy(Get(p, "status")) ==> r == Ok(store)
    ensures r.Ok? ==> r.value.Keys == store.Keys
    ensures r.Ok? ==> forall id :: id in store && !(TargetId(p).SStr? && id == TargetId(p).s) ==> r.value[id] == store[id]
    ensures r.Ok? && Truthy(TargetId(p)) && Truthy(Get(p, "status")) ==>
      TargetId(p).SStr? && Get(p, "status").SStr? && TaskModel.ParseStatus(Get(p, "status").s).Some?
    ensures r.Ok? && Truthy(TargetId(p)) && Truthy(Get(p, "status")) && TargetId(p).SStr? && TargetId(p).s in store ==>
      var row := r.value[TargetId(p).s];
      row.Keys == store[TargetId(p).s].Keys + {StatusCol, UpdatedAtCol} &&
      row[StatusCol] == Get(p, "status") && row[UpdatedAtCol].STime? &&
      forall c :: c in row && c != StatusCol && c != UpdatedAtCol ==> row[c] == store[TargetId(p).s][c]
  {
    var tid := TargetId(p);
    var st := Get(p, "status");
    if !Truthy(tid) || !Truthy(st) then Ok(store)
    else
      var ts := if Truthy(Get(p, "updatedAt")) then ParseTimestamp("updatedAt", Get(p, "updatedAt")) else Ok(STime(now));
      if ts.Err? then Err(ts.error)
      else if !(st.SStr? && TaskModel.ParseStatus(st.s).Some?) then Err(Unconvertible("status"))
      else if !tid.SStr? then Err(Unconvertible("id"))
      else if tid.s in store then Ok(store[tid.s := store[tid.s][StatusCol := st][UpdatedAtCol := ts.value]])
      else Ok(store)
  }

  /** `_sync_delete`: the row with that id is gone; no id, or no such row, is a no-op. */
  function SyncDelete(store: Store, p: Dict): (r: Result<Store, Failure>)
    ensures !Truthy(TargetId(p)) ==> r == Ok(store)
    ensures Truthy(TargetId(p)) && TargetId(p).SStr? ==> r == Ok(store - {TargetId(p).s})
    ensures Truthy(TargetId(p)) && !TargetId(p).SStr? ==> r.Err?
  {
    var tid := TargetId(p);
    if !Truthy(tid) then Ok(store)
    else if !tid.SStr? then Err(Unconvertible("id"))
    else Ok(store - {tid.s})
  }

  /** Each element of a BATCH_CREATE in order, in one transaction; element i draws `gen(from + i)`. */
  function BatchCreate(store: Store, items: seq<Item>, gen: nat -> string, now: int, from: nat): (r: Result<Store, Failure>)
    decreases |items|
    ensures r.Ok? ==> forall id :: id in store ==> id in r.value && r.value[id] == store[id]
    ensures r.Ok? ==> forall i :: 0 <= i < |items| ==> items[i].Item?
  {
    if items == [] then Ok(store)
    else match items[0]
      case NonObjectItem => Err(NotAnObject)
      case Item(m, _) =>
        match SyncCreate(store, m, gen(from), now)
        case Err(e) => Err(e)
        case Ok(s) =>
          var rest := BatchCreate(s, items[1..], gen, now, from + 1);
          assert rest.Ok? ==> forall i :: 0 <= i < |items| ==> items[i].Item? by {
            if rest.Ok? {
              forall i | 1 <= i < |items| ensures items[i].Item? {
                assert items[i] == items[1..][i - 1];
              }
            }
          }
          rest
  }

  /** The element is an object that names its task's id. */
  predicate HasId(it: Item)
  {
    it.Item? && "id" in it.members && it.members["id"].SStr?
  }

  /** The element is an object whose CREATE row is accepted (whatever the time and default id). */
  predicate Accepted(it: Item)
  {
    it.Item? && CreateRow(it.members, "", 0).Ok?
  }

  /** A committed batch accepted every element's row and holds every given id. */
  lemma {:induction false} BatchCreateCommitsAll(store: Store, items: seq<Item>, gen: nat -> string, now: int, from: nat)
    requires BatchCreate(store, items, gen, now, from).Ok?
    ensures forall i :: 0 <= i < |items| ==> Accepted(items[i])
    ensures forall i :: 0 <= i < |items| && HasId(items[i]) ==>
      items[i].members["id"].s in BatchCreate(store, items, gen, now, from).value
    decreases |items|
  {
    if items != [] {
      var s := SyncCreate(store, items[0].members, gen(from), now).value;
      var rest := BatchCreate(s, items[1..], gen, now, from + 1);
      assert BatchCreate(store, items, gen, now, from) == rest;
      BatchCreateCommitsAll(s, items[1..], gen, now, from + 1);
      CreateRowOkAnyTime(items[0].members, gen(from), now, "", 0);
      forall i | 0 <= i < |items|
        ensures Accepted(items[i]) && (HasId(items[i]) ==> items[i].members["id"].s in rest.value)
      {
        if i == 0 {
          assert HasId(items[0]) ==> items[0].members["id"].s in s;
        } else {
          assert items[1..][i - 1] == items[i];
        }
      }
    }
  }

  /** Each element of a BATCH_UPDATE in order, in one transaction: the UPDATE of each object element. */
  function BatchUpdate(store: Store, items: seq<Item>, now: int): (r: Result<Store, Failure>)
    decreases |items|
    ensures r.Ok? ==> r.value.Keys == store.Keys
    ensures r.Ok? ==> forall i :: 0 <= i < |items| ==> items[i].Item?
    ensures r.Ok? ==> forall id :: id in store && !Targeted(items, id) ==> r.value[id] == store[id]
    ensures |items| == 1 && items[0].Item? ==> r == SyncUpdate(store, items[0].members, items[0].updates, now)
  {
    if items == [] then Ok(store)
    else match items[0]
      case NonObjectItem => Err(NotAnObject)
      case Item(m, u) =>
        match SyncUpdate(store, m, u, now)
        case Err(e) => Err(e)
        case Ok(s) =>
          var r := BatchUpdate(s, items[1..], now);
          assert r.Ok? ==> forall i :: 1 <= i < |items| ==> items[1..][i - 1] == items[i];
          assert forall id :: Targeted(items[1..], id) ==> Targeted(items, id) by {
            forall id | Targeted(items[1..], id) ensures Targeted(items, id) {
              var i :| 0 <= i < |items[1..]| && TargetsRow(items[1..][i], id);
              assert items[i + 1] == items[1..][i];
            }
          }
          assert |items| == 1 ==> r == Ok(s);
          r
  }

  /** The element is an object whose id names the row. */
  predicate TargetsRow(it: Item, id: string)
  {
    it.Item? && Truthy(TargetId(it.members)) && TargetId(it.members) == SStr(id)
  }

  /** Some element of the batch names the row. */
  predicate Targeted(items: seq<Item>, id: string)
  {
    exists i :: 0 <= i < |items| && TargetsRow(items[i], id)
  }

  /** The batch of the first elements followed by the rest is the batch of both, failing at the first failure. */
  lemma {:induction false} BatchUpdateSplit(store: Store, a: seq<Item>, b: seq<Item>, now: int)
    ensures BatchUpdate(store, a + b, now) ==
      match BatchUpdate(store, a, now)
      case Err(e) => Err(e)
      case Ok(s) => BatchUpdate(s, b, now)
    decreases |a|
  {
    if a == [] {
      assert a + b == b;
    } else {
      assert (a + b)[0] == a[0] && (a + b)[1..] == a[1..] + b;
      if a[0].Item? {
        var s0 := SyncUpdate(store, a[0].members, a[0].updates, now);
        if s0.Ok? {
          BatchUpdateSplit(s0.value, a[1..], b, now);
        }
      }
    }
  }

  /**
   * The element fails on every table: it is not an object, or it names a
   * row and its updates do not convert or hold a value of the wrong type.
   */
  predicate AlwaysFails(it: Item, now: int)
  {
    it.NonObjectItem? ||
    (Truthy(TargetId(it.members)) &&
     (!TargetId(it.members).SStr? || UpdatesOf(it.members, it.updates).Err? ||
      UpdateColumns(UpdatesOf(it.members, it.updates).value, now).Err? ||
      TypeRefusal(UpdateColumns(UpdatesOf(it.members, it.updates).value, now).value).Some?))
  }

  /** One element that fails on every table fails the whole batch: nothing of it commits. */
  lemma {:induction false} BadItemFailsBatch(store: Store, items: seq<Item>, j: nat, now: int)
    requires j < |items| && AlwaysFails(items[j], now)
    ensures BatchUpdate(store, items, now).Err?
    decreases |items|
  {
    if j > 0 && items[0].Item? {
      var s0 := SyncUpdate(store, items[0].members, items[0].updates, now);
      if s0.Ok? {
        assert items[1..][j - 1] == items[j];
        BadItemFailsBatch(s0.value, items[1..], j - 1, now);
      }
    }
  }

  const KnownOps: set<string> := {OpCreate, OpBatchCreate, OpUpdate, OpBatchUpdate, OpStatusUpdate, OpDelete}

  /**
   * `_process_message`: the table after the committed transaction, or the
   * failure that rolled it back.  An unknown op commits nothing; a payload
   * that is not an object makes every known op raise, and so does a
   * "tasks" member a batch cannot loop over.
   */
  function Process(store: Store, op: string, raw: RawPayload, gen: nat -> string, now: int): (r: Result<Store, Failure>)
    requires !raw.BadJson?
    ensures op !in KnownOps ==> r == Ok(store)
    ensures raw.NonObject? && op in KnownOps ==> r.Err?
    ensures op == OpCreate && raw.Obj? ==> r == SyncCreate(store, raw.p.members, gen(0), now)
    ensures op == OpBatchCreate && raw.Obj? ==>
      r == (if raw.p.tasks.None? then Err(NotIterable) else BatchCreate(store, raw.p.tasks.value, gen, now, 0))
    ensures op == OpUpdate && raw.Obj? ==> r == SyncUpdate(store, raw.p.members, raw.p.updates, now)
    ensures op == OpBatchUpdate && raw.Obj? ==>
      r == (if raw.p.tasks.None? then Err(NotIterable) else BatchUpdate(store, raw.p.tasks.value, now))
    ensures op == OpStatusUpdate && raw.Obj? ==> r == SyncStatusUpdate(store, raw.p.members, now)
    ensures op == OpDelete && raw.Obj? ==> r == SyncDelete(store, raw.p.members)
  {
    if op !in KnownOps then Ok(store)
    else if raw.NonObject? then Err(NotAnObject)
    else
      var p := raw.p;
      if op == OpCreate then SyncCreate(store, p.members, gen(0), now)
      else if op == OpBatchCreate then
        (if p.tasks.None? then Err(NotIterable) else BatchCreate(store, p.tasks.value, gen, now, 0))
      else if op == OpUpdate then SyncUpdate(store, p.members, p.updates, now)
      else if op == OpBatchUpdate then
        (if p.tasks.None? then Err(NotIterable) else BatchUpdate(store, p.tasks.value, now))
      else if op == OpStatusUpdate then SyncStatusUpdate(store, p.members, now)
      else SyncDelete(store, p.members)
  }

  /**
   * `_handle_message`: undecodable JSON is acknowledged and skipped; a
   * committed message is acknowledged; a failed one is rolled back and
   * stays pending.
   */
  function Handle(store: Store, e: Entry, gen: nat -> string, now: int): (r: (Store, bool))
    ensures e.payload.BadJson? ==> r == (store, true)
    ensures !e.payload.BadJson? ==>
      (r.1 <==> Process(store, e.op, e.payload, gen, now).Ok?) &&
      (r.1 ==> r.0 == Process(store, e.op, e.payload, gen, now).value) &&
      (!r.1 ==> r.0 == store)
  {
    if e.payload.BadJson? then (store, true)
    else match Process(store, e.op, e.payload, gen, now)
      case Ok(s) => (s, true)
      case Err(_) => (store, false)
  }

  // ---------------------------------------------------------------------------
  // Properties of the handlers
  // ---------------------------------------------------------------------------

  /**
   * Replaying a committed CREATE, at any later time and with fresh default
   * ids, changes nothing when the payload carries its id.
   */
  lemma CreateReplayIsNoop(store: Store, p: Dict, genId: string, now: int, genId2: string, now2: int)
    requires "id" in p && p["id"].SStr?
    requires SyncCreate(store, p, genId, now).Ok?
    ensures var s1 := SyncCreate(store, p, genId, now).value;
      SyncCreate(s1, p, genId2, now2) == Ok(s1)
  {
    CreateRowOkAnyTime(p, genId, now, genId2, now2);
  }

  /** DELETE is idempotent. */
  lemma DeleteTwiceIsDeleteOnce(store: Store, p: Dict)
    requires SyncDelete(store, p).Ok?
    ensures SyncDelete(SyncDelete(store, p).value, p) == SyncDelete(store, p)
  {
    if Truthy(TargetId(p)) {
      var id := TargetId(p).s;
      assert store - {id} - {id} == store - {id};
    }
  }

  /** CREATEs whose rows are accepted and whose ids are all present leave the table unchanged. */
  lemma {:induction false} BatchCreateOfPresentIds(t: Store, items: seq<Item>, gen: nat -> string, now: int, from: nat)
    requires forall i :: 0 <= i < |items| ==> HasId(items[i]) && items[i].members["id"].s in t && Accepted(items[i])
    ensures BatchCreate(t, items, gen, now, from) == Ok(t)
    decreases |items|
  {
    if items != [] {
      CreateRowOkAnyTime(items[0].members, "", 0, gen(from), now);
      assert SyncCreate(t, items[0].members, gen(from), now) == Ok(t);
      forall i | 0 <= i < |items[1..]|
        ensures HasId(items[1..][i]) && items[1..][i].members["id"].s in t && Accepted(items[1..][i])
      {
        assert items[1..][i] == items[i + 1];
      }
      BatchCreateOfPresentIds(t, items[1..], gen, now, from + 1);
    }
  }

  /**
   * Replaying a committed BATCH_CREATE whose elements all carry ids, at any
   * later time and with fresh default ids, changes nothing: the stream may
   * deliver a batch twice without duplicating rows.
   */
  lemma BatchCreateReplayIsNoop(store: Store, items: seq<Item>, gen: nat -> string, now: int,
                                gen2: nat -> string, now2: int)
    requires forall i :: 0 <= i < |items| ==> HasId(items[i])
    requires BatchCreate(store, items, gen, now, 0).Ok?
    ensures var s1 := BatchCreate(store, items, gen, now, 0).value;
      BatchCreate(s1, items, gen2, now2, 0) == Ok(s1)
  {
    BatchCreateCommitsAll(store, items, gen, now, 0);
    BatchCreateOfPresentIds(BatchCreate(store, items, gen, now, 0).value, items, gen2, now2, 0);
  }

  // ---------------------------------------------------------------------------
  // Delivery, acknowledgement and the dead-letter pass
  // ---------------------------------------------------------------------------

  /** A pending-list record: a stream position and how many times it was delivered. */
  datatype Pending = Pending(id: nat, times: nat)

  /** A dead-letter entry: the original fields plus "original_id" and "retries". */
  datatype DeadLetter = DeadLetter(fields: Entry, originalId: nat, retries: nat)

  function IdAt(ps: seq<Pending>, i: nat): nat
    requires i < |ps|
  {
    ps[i].id
  }

  /** Pending ids strictly increase, as the pending list reports them. */
  predicate Ordered(pending: seq<Pending>)
  {
    forall i, j :: 0 <= i < j < |pending| ==> IdAt(pending, i) < IdAt(pending, j)
  }

  /** Every record names a position of the stream. */
  predicate IdsBelow(ps: seq<Pending>, n: nat)
  {
    forall q :: q in ps ==> q.id < n
  }

  /** The records the reclaim pass moves: those examined (the first BATCH_SIZE) at or above MAX_RETRIES. */
  function Reclaimable(pending: seq<Pending>): (r: seq<Pending>)
    ensures |r| <= |pending|
    ensures forall p :: p in r ==> p in pending && p.times >= MAX_RETRIES
  {
    var examined := pending[..Batch(|pending|)];
    FilterMembers(examined, true);
    assert forall q :: q in examined ==> q in pending;
    Filter(examined, true)
  }

  /** How many of `available` records one XPENDING or XREADGROUP call returns. */
  function Batch(available: nat): (n: nat)
    ensures n <= available && n <= BATCH_SIZE
    ensures n == available || n == BATCH_SIZE
  {
    if available < BATCH_SIZE then available else BATCH_SIZE
  }

  /** The records with (`atOrAbove`) or without a count at or above MAX_RETRIES, in order. */
  function Filter(ps: seq<Pending>, atOrAbove: bool): (r: seq<Pending>)
    ensures |r| <= |ps|
  {
    if ps == [] then []
    else
      var last := ps[|ps| - 1];
      Filter(ps[..|ps| - 1], atOrAbove) + (if (last.times >= MAX_RETRIES) == atOrAbove then [last] else [])
  }

  /** A filter keeps only records of the list, and only those on its side of the bound. */
  lemma {:induction false} FilterMembers(ps: seq<Pending>, atOrAbove: bool)
    ensures forall p :: p in Filter(ps, atOrAbove) ==> p in ps && (p.times >= MAX_RETRIES <==> atOrAbove)
  {
    if ps != [] {
      var init := ps[..|ps| - 1];
      FilterMembers(init, atOrAbove);
      assert forall q :: q in init ==> q in ps;
    }
  }

  /** The pending list after the reclaim pass: examined records below the bound and every unexamined one. */
  function AfterReclaim(pending: seq<Pending>): seq<Pending>
  {
    Filter(pending[..Batch(|pending|)], false) + pending[Batch(|pending|)..]
  }

  /** The dead-letter entries for the moved records, in order. */
  function DeadLetters(entries: seq<Entry>, moved: seq<Pending>): (r: seq<DeadLetter>)
    requires IdsBelow(moved, |entries|)
    ensures |r| == |moved|
  {
    if moved == [] then []
    else
      var init := moved[..|moved| - 1];
      var last := moved[|moved| - 1];
      assert forall q :: q in init ==> q in moved;
      DeadLetters(entries, init) + [DeadLetter(entries[last.id], last.id, last.times)]
  }

  /**
   * Each dead letter carries the moved message's own fields, its id as
   * "original_id" and its delivery count as "retries".
   */
  lemma {:induction false} DeadLettersElements(entries: seq<Entry>, moved: seq<Pending>)
    requires IdsBelow(moved, |entries|)
    ensures forall i :: 0 <= i < |moved| ==>
      DeadLetters(entries, moved)[i] == DeadLetter(entries[moved[i].id], moved[i].id, moved[i].times)
  {
    if moved != [] {
      var init := moved[..|moved| - 1];
      assert forall q :: q in init ==> q in moved;
      DeadLettersElements(entries, init);
      assert forall i :: 0 <= i < |init| ==> init[i] == moved[i];
    }
  }

  /** While every delivery count is below the bound, the reclaim pass moves nothing. */
  lemma ReclaimIdleBelowBound(pending: seq<Pending>)
    requires forall i :: 0 <= i < |pending| ==> pending[i].times < MAX_RETRIES
    ensures Reclaimable(pending) == []
    ensures AfterReclaim(pending) == pending
  {
    var n := Batch(|pending|);
    FilterAll(pending[..n]);
    assert pending[..n] + pending[n..] == pending;
  }

  lemma {:induction false} FilterAll(ps: seq<Pending>)
    requires forall i :: 0 <= i < |ps| ==> ps[i].times < MAX_RETRIES
    ensures Filter(ps, true) == [] && Filter(ps, false) == ps
  {
    if ps != [] {
      var init := ps[..|ps| - 1];
      var last := ps[|ps| - 1];
      FilterAll(init);
      assert Filter(ps, true) == Filter(init, true) + [];
      assert Filter(ps, false) == init + [last];
      assert init + [last] == ps;
    }
  }

  /** One more examined record extends exactly one of the two filters. */
  lemma FilterStep(ps: seq<Pending>, i: nat)
    requires i < |ps|
    ensures Filter(ps[..i + 1], true) ==
      Filter(ps[..i], true) + (if ps[i].times >= MAX_RETRIES then [ps[i]] else [])
    ensures Filter(ps[..i + 1], false) ==
      Filter(ps[..i], false) + (if ps[i].times >= MAX_RETRIES then [] else [ps[i]])
  {
    assert ps[..i + 1][..i] == ps[..i];
  }

  lemma DeadLettersSnoc(entries: seq<Entry>, moved: seq<Pending>, p: Pending)
    requires IdsBelow(moved, |entries|)
    requires p.id < |entries|
    ensures DeadLetters(entries, moved + [p]) ==
      DeadLetters(entries, moved) + [DeadLetter(entries[p.id], p.id, p.times)]
  {
    assert (moved + [p])[..|moved|] == moved;
  }

  /** Appending a record with a larger id than all keeps the order. */
  lemma OrderedSnoc(ps: seq<Pending>, p: Pending)
    requires Ordered(ps)
    requires forall i :: 0 <= i < |ps| ==> ps[i].id < p.id
    ensures Ordered(ps + [p])
  {
    var qs := ps + [p];
    forall i, j | 0 <= i < j < |qs| ensures IdAt(qs, i) < IdAt(qs, j) {
      assert qs[i] == ps[i];
      if j < |ps| {
        assert qs[j] == ps[j];
        assert IdAt(ps, i) < IdAt(ps, j);
      }
    }
  }

  /** Filtering keeps the ascending id order. */
  lemma {:induction false} FilterOrdered(ps: seq<Pending>)
    requires Ordered(ps)
    ensures Ordered(Filter(ps, false))
  {
    if ps != [] {
      var init := ps[..|ps| - 1];
      var last := ps[|ps| - 1];
      assert Ordered(init) by {
        forall i, j | 0 <= i < j < |init| ensures IdAt(init, i) < IdAt(init, j) {
          assert IdAt(ps, i) < IdAt(ps, j);
        }
      }
      FilterOrdered(init);
      var f := Filter(init, false);
      FilterMembers(init, false);
      forall k | 0 <= k < |f| ensures f[k].id < last.id {
        assert f[k] in init;
        var m :| 0 <= m < |init| && init[m] == f[k];
        assert IdAt(ps, m) < IdAt(ps, |ps| - 1);
      }
      if last.times < MAX_RETRIES {
        OrderedSnoc(f, last);
      } else {
        assert Filter(ps, false) == f + [];
        assert f + [] == f;
      }
    }
  }

  /** The reclaim pass keeps the pending list ordered and adds no record to it. */
  lemma OrderedAfterReclaim(pending: seq<Pending>, bound: nat)
    requires Ordered(pending) && IdsBelow(pending, bound)
    ensures Ordered(AfterReclaim(pending))
    ensures forall p :: p in AfterReclaim(pending) ==> p in pending
    ensures IdsBelow(AfterReclaim(pending), bound)
    ensures IdsBelow(pending[..Batch(|pending|)], bound)
  {
    var n := Batch(|pending|);
    forall q | q in pending[..n] ensures q in pending {
      var k :| 0 <= k < n && pending[..n][k] == q;
      assert pending[k] == q;
    }
    assert Ordered(pending[..n]) by {
      forall i, j | 0 <= i < j < n ensures IdAt(pending[..n], i) < IdAt(pending[..n], j) {
        assert IdAt(pending, i) < IdAt(pending, j);
      }
    }
    FilterOrdered(pending[..n]);
    var a := Filter(pending[..n], false);
    FilterMembers(pending[..n], false);
    var b := pending[n..];
    var ab: seq<Pending> := a + b;
    assert ab == AfterReclaim(pending);
    forall i, j | 0 <= i < j < |ab| ensures IdAt(ab, i) < IdAt(ab, j) {
      if j < |a| {
        assert IdAt(a, i) < IdAt(a, j);
        assert ab[i] == a[i] && ab[j] == a[j];
      } else if i < |a| {
        assert a[i] in pending[..n];
        var k :| 0 <= k < n && pending[k] == a[i];
        assert ab[j] == pending[n + (j - |a|)];
        assert IdAt(pending, k) < IdAt(pending, n + (j - |a|));
      } else {
        assert ab[i] == pending[n + (i - |a|)];
        assert ab[j] == pending[n + (j - |a|)];
        assert IdAt(pending, n + (i - |a|)) < IdAt(pending, n + (j - |a|));
      }
    }
    forall p | p in ab ensures p in pending {
      if p in a {
        assert p in pending[..n];
      } else {
        assert p in b;
      }
    }
  }

  /**
   * `_handle_message` for the entry at a given stream position: the new
   * table and whether the entry was acknowledged.
   */
  type Handler = (Store, Entry, nat) -> (Store, bool)

  /** `Handle` with the default ids drawn for position i from `gen(i)`, at time `now`. */
  function HandlerAt(gen: nat -> nat -> string, now: int): Handler
  {
    (s: Store, e: Entry, i: nat) => Handle(s, e, gen(i), now)
  }

  /**
   * The table after handling the entries at positions [lo, hi) in order,
   * and the positions of those left unacknowledged.
   */
  function HandleRange(store: Store, entries: seq<Entry>, lo: nat, hi: nat, handle: Handler): (r: (Store, seq<nat>))
    requires lo <= hi <= |entries|
    decreases hi
    ensures forall i :: 0 <= i < |r.1| ==> lo <= r.1[i] < hi
  {
    if hi == lo then (store, [])
    else
      var (s, failed) := HandleRange(store, entries, lo, hi - 1, handle);
      var (s', acked) := handle(s, entries[hi - 1], hi - 1);
      (s', if acked then failed else failed + [hi - 1])
  }

  /** A pending record with one delivery for each given position. */
  function FirstDeliveries(ids: seq<nat>): (r: seq<Pending>)
    ensures |r| == |ids|
    ensures forall i :: 0 <= i < |r| ==> r[i] == Pending(ids[i], 1)
  {
    if ids == [] then [] else FirstDeliveries(ids[..|ids| - 1]) + [Pending(ids[|ids| - 1], 1)]
  }

  lemma FirstDeliveriesSnoc(pending: seq<Pending>, ids: seq<nat>, id: nat)
    ensures pending + FirstDeliveries(ids + [id]) == pending + FirstDeliveries(ids) + [Pending(id, 1)]
  {
    assert (ids + [id])[..|ids|] == ids;
  }

  /** Handling one more entry: the table it leaves, and its position if unacknowledged. */
  lemma HandleRangeStep(store: Store, entries: seq<Entry>, lo: nat, hi: nat, handle: Handler)
    requires lo <= hi < |entries|
    ensures var (s, failed) := HandleRange(store, entries, lo, hi, handle);
      var (s', acked) := handle(s, entries[hi], hi);
      HandleRange(store, entries, lo, hi + 1, handle) == (s', if acked then failed else failed + [hi])
  {
  }

  /** Positions listed in strictly increasing order. */
  predicate Ascending(ids: seq<nat>)
  {
    forall i, j :: 0 <= i < j < |ids| ==> NatAt(ids, i) < NatAt(ids, j)
  }

  function NatAt(ids: seq<nat>, i: nat): nat
    requires i < |ids|
  {
    ids[i]
  }

  /** The unacknowledged positions of a range come out in stream order. */
  lemma {:induction false} HandleRangeAscending(store: Store, entries: seq<Entry>, lo: nat, hi: nat, handle: Handler)
    requires lo <= hi <= |entries|
    decreases hi
    ensures Ascending(HandleRange(store, entries, lo, hi, handle).1)
  {
    if hi > lo {
      HandleRangeAscending(store, entries, lo, hi - 1, handle);
      var failed := HandleRange(store, entries, lo, hi - 1, handle).1;
      var ids := failed + [hi - 1];
      forall i, j | 0 <= i < j < |ids| ensures NatAt(ids, i) < NatAt(ids, j) {
        assert ids[i] == failed[i];
        if j < |failed| {
          assert ids[j] == failed[j];
          assert NatAt(failed, i) < NatAt(failed, j);
        }
      }
    }
  }

  /** Appending first deliveries of later, ascending positions keeps the pending list ordered. */
  lemma {:induction false} FirstDeliveriesOrdered(pending: seq<Pending>, ids: seq<nat>, lo: nat, hi: nat)
    requires Ordered(pending) && IdsBelow(pending, lo) && lo <= hi
    requires Ascending(ids)
    requires forall i :: 0 <= i < |ids| ==> lo <= ids[i] < hi
    ensures Ordered(pending + FirstDeliveries(ids))
    ensures IdsBelow(pending + FirstDeliveries(ids), hi)
  {
    var f := FirstDeliveries(ids);
    var ps := pending + f;
    forall q | q in ps ensures q.id < hi {
      if q !in pending {
        var k :| 0 <= k < |f| && f[k] == q;
      }
    }
    forall i, j | 0 <= i < j < |ps| ensures IdAt(ps, i) < IdAt(ps, j) {
      if j < |pending| {
        assert ps[i] == pending[i] && ps[j] == pending[j];
        assert IdAt(pending, i) < IdAt(pending, j);
      } else if i < |pending| {
        assert ps[i] == pending[i] && pending[i] in pending;
        assert ps[j] == f[j - |pending|];
      } else {
        assert ps[i] == f[i - |pending|] && ps[j] == f[j - |pending|];
        assert NatAt(ids, i - |pending|) < NatAt(ids, j - |pending|);
      }
    }
  }

  /**
   * The loop of `_read_and_process`: handles the entries at [lo, hi) in
   * order, appending a one-delivery pending record for each one left
   * unacknowledged.
   */
  method DeliverRange(store: Store, entries: seq<Entry>, pending: seq<Pending>, lo: nat, hi: nat, handle: Handler)
    returns (st: Store, pend: seq<Pending>)
    requires lo <= hi <= |entries|
    ensures st == HandleRange(store, entries, lo, hi, handle).0
    ensures pend == pending + FirstDeliveries(HandleRange(store, entries, lo, hi, handle).1)
  {
    var id := lo;
    st := store;
    pend := pending;
    ghost var fails: seq<nat> := [];
    while id < hi
      invariant lo <= id <= hi
      invariant (st, fails) == HandleRange(store, entries, lo, id, handle)
      invariant pend == pending + FirstDeliveries(fails)
    {
      var next := handle(st, entries[id], id);
      HandleRangeStep(store, entries, lo, id, handle);
      st := next.0;
      if !next.1 {
        FirstDeliveriesSnoc(pending, fails, id);
        pend := pend + [Pending(id, 1)];
        fails := fails + [id];
      }
      id := id + 1;
    }
  }

  /** Moving one more examined record keeps the moved records within the stream. */
  lemma SweepIdsStep(entries: seq<Entry>, examined: seq<Pending>, i: nat)
    requires i < |examined| && IdsBelow(examined, |entries|)
    requires IdsBelow(Filter(examined[..i], true), |entries|)
    ensures IdsBelow(Filter(examined[..i + 1], true), |entries|)
  {
    FilterStep(examined, i);
    assert examined[i] in examined;
  }

  /** A record at or above the bound adds its dead letter after those already written. */
  lemma SweepLetterStep(entries: seq<Entry>, examined: seq<Pending>, i: nat, dlq: seq<DeadLetter>)
    requires i < |examined| && IdsBelow(examined, |entries|)
    requires IdsBelow(Filter(examined[..i], true), |entries|)
    requires examined[i].times >= MAX_RETRIES
    ensures IdsBelow(Filter(examined[..i + 1], true), |entries|)
    ensures dlq + DeadLetters(entries, Filter(examined[..i + 1], true)) ==
      dlq + DeadLetters(entries, Filter(examined[..i], true)) +
      [DeadLetter(entries[examined[i].id], examined[i].id, examined[i].times)]
  {
    SweepIdsStep(entries, examined, i);
    FilterStep(examined, i);
    var p := examined[i];
    var moved := Filter(examined[..i], true);
    assert Filter(examined[..i + 1], true) == moved + [p];
    assert p in examined;
    DeadLettersSnoc(entries, moved, p);
  }

  /**
   * The loop of `_reclaim_pending` over the examined records: those at or
   * above the bound are appended to the dead-letter stream, the others kept.
   */
  method Sweep(entries: seq<Entry>, examined: seq<Pending>, dlq: seq<DeadLetter>)
    returns (kept: seq<Pending>, dead: seq<DeadLetter>)
    requires IdsBelow(examined, |entries|)
    ensures kept == Filter(examined, false)
    ensures IdsBelow(Filter(examined, true), |entries|)
    ensures dead == dlq + DeadLetters(entries, Filter(examined, true))
  {
    kept := [];
    dead := dlq;
    var i := 0;
    while i < |examined|
      invariant 0 <= i <= |examined|
      invariant kept == Filter(examined[..i], false)
      invariant IdsBelow(Filter(examined[..i], true), |entries|)
      invariant dead == dlq + DeadLetters(entries, Filter(examined[..i], true))
    {
      var p := examined[i];
      FilterStep(examined, i);
      SweepIdsStep(entries, examined, i);
      if p.times >= MAX_RETRIES {
        SweepLetterStep(entries, examined, i, dlq);
        dead := dead + [DeadLetter(entries[p.id], p.id, p.times)];
      } else {
        var moved := Filter(examined[..i], true);
        assert Filter(examined[..i + 1], true) == moved + [];
        assert moved + [] == moved;
        kept := kept + [p];
      }
      i := i + 1;
    }
    assert examined[..i] == examined;
  }

  class TaskSyncWorker {
    /** The sync stream; an entry's id is its position. */
    var entries: seq<Entry>
    /** How many entries have been delivered to the consumer group (its ">" cursor). */
    var delivered: nat
    var pending: seq<Pending>
    var dlq: seq<DeadLetter>
    var store: Store

    predicate Valid()
      reads this
    {
      delivered <= |entries| && Ordered(pending) && IdsBelow(pending, delivered)
    }

    /** Every record of the pending list has been delivered fewer than MAX_RETRIES times. */
    predicate BelowRetryBound()
      reads this
    {
      forall i :: 0 <= i < |pending| ==> pending[i].times < MAX_RETRIES
    }

    /** `start`: a consumer group created at the head of the stream. */
    constructor(entries: seq<Entry>, store: Store)
      ensures Valid() && BelowRetryBound()
      ensures this.entries == entries && this.store == store
      ensures delivered == 0 && pending == [] && dlq == []
    {
      this.entries := entries;
      this.store := store;
      delivered := 0;
      pending := [];
      dlq := [];
    }

    /**
     * `_read_and_process`: the next (at most BATCH_SIZE) undelivered entries
     * are delivered once and handled in order; those not acknowledged join
     * the pending list with one delivery.  Nothing already pending is
     * delivered again.
     */
    method ReadAndProcess(handle: Handler)
      requires Valid()
      modifies this
      ensures Valid()
      ensures entries == old(entries) && dlq == old(dlq)
      ensures delivered == old(delivered) + Batch(|old(entries)| - old(delivered))
      ensures store == HandleRange(old(store), entries, old(delivered), delivered, handle).0
      ensures pending == old(pending) + FirstDeliveries(HandleRange(old(store), entries, old(delivered), delivered, handle).1)
      ensures old(BelowRetryBound()) ==> BelowRetryBound()
    {
      var stop := delivered + Batch(|entries| - delivered);
      var st, pend := DeliverRange(store, entries, pending, delivered, stop, handle);
      HandleRangeAscending(store, entries, delivered, stop, handle);
      FirstDeliveriesOrdered(pending, HandleRange(store, entries, delivered, stop, handle).1, delivered, stop);
      store := st;
      pending := pend;
      delivered := stop;
    }

    /**
     * `_reclaim_pending`: of the first BATCH_SIZE pending records, those
     * delivered at least MAX_RETRIES times are copied to the dead-letter
     * stream (with "original_id" and "retries") and acknowledged; all
     * others are left as they are.
     */
    method ReclaimPending()
      requires Valid()
      modifies this
      ensures Valid()
      ensures entries == old(entries) && delivered == old(delivered) && store == old(store)
      ensures pending == AfterReclaim(old(pending))
      ensures dlq == old(dlq) + DeadLetters(entries, Reclaimable(old(pending)))
      ensures old(BelowRetryBound()) ==> pending == old(pending) && dlq == old(dlq)
    {
      var n := Batch(|pending|);
      OrderedAfterReclaim(pending, delivered);
      var kept, dead := Sweep(entries, pending[..n], dlq);
      ghost var wasBelow := BelowRetryBound();
      ghost var before := pending;
      if wasBelow {
        ReclaimIdleBelowBound(pending);
      }
      pending := kept + pending[n..];
      dlq := dead;
      assert pending == AfterReclaim(before);
    }

    /**
     * `_process_loop` for a number of rounds (a reclaim pass, then a read),
     * followed by the final reclaim pass.  Because no pending record is ever
     * delivered a second time, a worker that starts below the retry bound
     * stays below it and never writes to the dead-letter stream: a failed
     * message stays pending with one delivery, unretried.
     */
    method Run(rounds: nat, gen: nat -> nat -> string, now: nat -> int)
      requires Valid()
      modifies this
      ensures Valid()
      ensures entries == old(entries)
      ensures old(BelowRetryBound()) ==> BelowRetryBound() && dlq == old(dlq)
      ensures old(BelowRetryBound()) ==> forall i :: 0 <= i < |pending| ==> pending[i].times == 1 || pending[i] in old(pending)
    {
      var k := 0;
      while k < rounds
        invariant Valid()
        invariant entries == old(entries)
        invariant old(BelowRetryBound()) ==> BelowRetryBound() && dlq == old(dlq)
        invariant old(BelowRetryBound()) ==> forall i :: 0 <= i < |pending| ==> pending[i].times == 1 || pending[i] in old(pending)
      {
        ReclaimPending();
        ReadAndProcess(HandlerAt(gen, now(k)));
        k := k + 1;
      }
      ReclaimPending();
    }
  }
}

=== FILE: task_cache.dfy ===
/**
 * The write-behind task cache (app/services/task_cache.py).  Per (user,
 * date) it keeps a data hash, task id -> JSON record, and a meta hash with
 * the "total" and "completed" counters; mutations are also appended to the
 * sync stream.  A day hydrated with no tasks holds only the "__empty__"
 * sentinel, so it is told apart from a day never loaded.
 *
 * The backend is reachable or not (`online`); when it is not, every
 * operation returns its failure value and nothing is promised about the
 * state, since the pipelines are not transactional.  Key expiry (24 hours)
 * is not modelled.
 */
module TaskCache {
  import opened Wrappers
  import opened Json
  import opened Sorting
  import opened SyncStream
  import TaskModel
  import Text

  const TTL_DAY: int := 86400
  const SYNC_MAXLEN: int := 10000

  /** The field that marks a day hydrated with no tasks. */
  const EMPTY: string := "__empty__"
  /** The sentinel's stored value "1", decoded. */
  const SENTINEL: Doc := DScalar(SInt(1))

  /** `_data_key`: a key under "tasks:data:". */
  function DataKey(user: string, dt: string): (r: string)
    ensures |r| > 11 && r[..11] == "tasks:data:"
  {
    "tasks:data:" + user + ":" + dt
  }

  /** `_meta_key`: a key under "tasks:meta:", never the data key of any day. */
  function MetaKey(user: string, dt: string): (r: string)
    ensures |r| > 11 && r[..11] == "tasks:meta:"
    ensures forall u, d :: r != DataKey(u, d)
  {
    var r := "tasks:meta:" + user + ":" + dt;
    assert forall u, d :: r[6] != DataKey(u, d)[6];
    r
  }

  /** A (user, date) pair; it stands for the pair of hash keys built from it. */
  datatype DayKey = DayKey(user: string, date: int)

  /** A data hash: field -> decoded JSON value. */
  type Hash = map<string, Doc>

  // ---------------------------------------------------------------------------
  // The record view of a data hash
  // ---------------------------------------------------------------------------

  /** The fields holding task records: every JSON object except the sentinel field. */
  function RecordIds(h: Hash): set<string>
  {
    set f | f in h && f != EMPTY && h[f].DObj?
  }

  predicate IsCompletedRecord(d: Dict)
  {
    Get(d, "status") == SStr("completed")
  }

  function CompletedIds(h: Hash): set<string>
  {
    set f | f in RecordIds(h) && IsCompletedRecord(h[f].fields)
  }

  /** The meta counters agree with the records actually cached. */
  predicate Consistent(h: Hash, c: TaskModel.Counts)
  {
    c.total == |RecordIds(h)| && c.completed == |CompletedIds(h)|
  }

  // ---------------------------------------------------------------------------
  // Reads
  // ---------------------------------------------------------------------------

  /** `order` lists every field of `h` exactly once: the order the backend returns them in. */
  predicate Enumerates(order: seq<string>, h: Hash)
  {
    (forall i, j :: 0 <= i < j < |order| ==> order[i] != order[j]) &&
    (forall f :: f in h ==> f in order) &&
    (forall i :: 0 <= i < |order| ==> order[i] in h)
  }

  /** The records of `h` in the listed order, skipping the sentinel and non-objects. */
  function Collect(order: seq<string>, h: Hash): (r: seq<Dict>)
    ensures |r| <= |order|
  {
    if order == [] then []
    else
      var f := order[0];
      (if f in h && f != EMPTY && h[f].DObj? then [h[f].fields] else []) + Collect(order[1..], h)
  }

  /** `_priority_order.get(t.get("priority", "medium"), 1)` */
  function Rank(d: Dict): (r: int)
    ensures Get(d, "priority") == SStr("high") <==> r == 0
    ensures Get(d, "priority") == SStr("low") <==> r == 2
    ensures r == 1 <==> Get(d, "priority") != SStr("high") && Get(d, "priority") != SStr("low")
  {
    var p := if "priority" in d then d["priority"] else SStr("medium");
    if p == SStr("high") then 0
    else if p == SStr("medium") then 1
    else if p == SStr("low") then 2
    else 1
  }

  /**
   * `t.get("orderIndex", 0)` as a sort value: a number (an int or a bool),
   * a text, null, or an ISO date or timestamp text.
   */
  function OrderKey(d: Dict): (r: Second)
    ensures "orderIndex" !in d ==> r == Num(0)
    ensures "orderIndex" in d && d["orderIndex"].SInt? ==> r == Num(d["orderIndex"].i)
    ensures "orderIndex" in d && d["orderIndex"].SStr? ==> r == Text(d["orderIndex"].s)
    ensures "orderIndex" in d && d["orderIndex"].SNull? ==> r == Null
  {
    if "orderIndex" !in d then Num(0)
    else match d["orderIndex"]
      case SNull => Null
      case SInt(i) => Num(i)
      case SBool(b) => Num(if b then 1 else 0)
      case SStr(s) => Text(s)
      case SDate(day) => Day(day)
      case STime(ms) => Moment(ms)
  }

  function SortKey(d: Dict): Key
  {
    (Rank(d), OrderKey(d))
  }

  /**
   * Two records of one rank whose orderIndex values Python cannot compare.
   * A sort of such records raises: to place the two groups of one rank
   * relative to each other it must compare a member of one with a member
   * of the other.
   */
  predicate Clash(recs: seq<Dict>)
  {
    exists i, j :: 0 <= i < |recs| && 0 <= j < |recs| && Rank(recs[i]) == Rank(recs[j]) &&
      !Comparable(OrderKey(recs[i]), OrderKey(recs[j]))
  }

  /**
   * `get_tasks_for_date` on a reachable backend: an empty hash is a miss;
   * otherwise the records, sentinel skipped, stably sorted by rank then
   * orderIndex, or None when the sort raises.
   */
  function ReadTasks(h: Hash, order: seq<string>): (r: Option<seq<Dict>>)
    requires Enumerates(order, h)
    ensures r.None? <==> h == map[] || Clash(Collect(order, h))
    ensures r.Some? ==> multiset(r.value) == multiset(Collect(order, h))
    ensures r.Some? ==> SortedBy(r.value, SortKey)
    ensures r.Some? ==> forall k :: WithKey(r.value, SortKey, k) == WithKey(Collect(order, h), SortKey, k)
  {
    if h == map[] then None
    else
      var recs := Collect(order, h);
      if Clash(recs) then None else Some(SortBy(recs, SortKey))
  }

  /** Records whose keys all tie come back in the order the backend lists them. */
  lemma TiesKeepBackendOrder(h: Hash, order: seq<string>, k: Key)
    requires Enumerates(order, h) && h != map[]
    requires forall d :: d in Collect(order, h) ==> SortKey(d) == k
    ensures ReadTasks(h, order) == Some(Collect(order, h))
  {
    var recs := Collect(order, h);
    AllTiedUnchanged(recs, SortKey, k);
  }

  /** The records listed in `order` are exactly the records of `h`, each once. */
  lemma {:induction false} CollectIsRecords(order: seq<string>, h: Hash)
    requires Enumerates(order, h)
    ensures |Collect(order, h)| == |RecordIds(h)|
    ensures forall f :: f in RecordIds(h) ==> h[f].fields in Collect(order, h)
  {
    var listed := set f | f in order;
    CollectCount(order, h, listed);
    CollectHas(order, h);
    assert RecordIds(h) * listed == RecordIds(h);
  }

  lemma {:induction false} CollectCount(order: seq<string>, h: Hash, listed: set<string>)
    requires forall i, j :: 0 <= i < j < |order| ==> order[i] != order[j]
    requires listed == set f | f in order
    ensures |Collect(order, h)| == |RecordIds(h) * listed|
    decreases |order|
  {
    if order == [] {
      assert RecordIds(h) * listed == {};
    } else {
      var rest := set g | g in order[1..];
      ListedCons(order);
      CollectCount(order[1..], h, rest);
      IntersectAdd(RecordIds(h), rest, order[0]);
      CollectLen(order, h);
    }
  }

  lemma CollectLen(order: seq<string>, h: Hash)
    requires order != []
    ensures |Collect(order, h)| == (if order[0] in RecordIds(h) then 1 else 0) + |Collect(order[1..], h)|
  {
  }

  /** The fields listed by a duplicate-free `order`: its head and, apart from it, its tail's. */
  lemma ListedCons(order: seq<string>)
    requires order != []
    requires forall i, j :: 0 <= i < j < |order| ==> order[i] != order[j]
    ensures (set f | f in order) == (set g | g in order[1..]) + {order[0]}
    ensures order[0] !in (set g | g in order[1..])
  {
    assert order == [order[0]] + order[1..];
  }

  lemma IntersectAdd(r: set<string>, rest: set<string>, f: string)
    requires f !in rest
    ensures |r * (rest + {f})| == |r * rest| + (if f in r then 1 else 0)
  {
    if f in r {
      assert r * (rest + {f}) == (r * rest) + {f};
    } else {
      assert r * (rest + {f}) == r * rest;
    }
  }

  /** Everything collected is the value of a record of `h`. */
  lemma {:induction false} CollectFromRecords(order: seq<string>, h: Hash)
    ensures forall d :: d in Collect(order, h) ==> exists f :: f in RecordIds(h) && h[f].fields == d
    decreases |order|
  {
    if order != [] {
      var g := order[0];
      CollectFromRecords(order[1..], h);
      var head := if g in h && g != EMPTY && h[g].DObj? then [h[g].fields] else [];
      assert Collect(order, h) == head + Collect(order[1..], h);
      if head != [] {
        assert g in RecordIds(h);
      }
    }
  }

  /** Every record whose field is listed is collected. */
  lemma {:induction false} CollectHas(order: seq<string>, h: Hash)
    ensures forall f :: f in RecordIds(h) && f in order ==> h[f].fields in Collect(order, h)
    decreases |order|
  {
    if order != [] {
      var g := order[0];
      CollectHas(order[1..], h);
      var head := if g in h && g != EMPTY && h[g].DObj? then [h[g].fields] else [];
      assert Collect(order, h) == head + Collect(order[1..], h);
      forall f | f in RecordIds(h) && f in order ensures h[f].fields in Collect(order, h) {
        if f != g {
          assert f in order[1..];
        }
      }
    }
  }

  /** A day hydrated with no tasks reads as an empty list, not as a miss. */
  lemma HydratedEmptyReadsEmpty(order: seq<string>)
    requires Enumerates(order, HydrateHash([]))
    ensures ReadTasks(HydrateHash([]), order) == Some([])
  {
    CollectIsRecords(order, HydrateHash([]));
    assert RecordIds(HydrateHash([])) == {};
    assert Collect(order, HydrateHash([])) == [];
    assert EMPTY in HydrateHash([]);
    assert SortBy([], SortKey) == [];
  }

  /** The first record, in the listed order, whose priority is "high". */
  function FirstHigh(recs: seq<Dict>): (r: Option<Dict>)
    ensures r.None? ==> forall i :: 0 <= i < |recs| ==> Get(recs[i], "priority") != SStr("high")
    ensures r.Some? ==> Get(r.value, "priority") == SStr("high")
    ensures r.Some? ==> exists i :: (0 <= i < |recs| && recs[i] == r.value &&
      forall j :: 0 <= j < i ==> Get(recs[j], "priority") != SStr("high"))
  {
    if recs == [] then None
    else if Get(recs[0], "priority") == SStr("high") then Some(recs[0])
    else
      var r := FirstHigh(recs[1..]);
      if r.Some? then
        ghost var i :| 0 <= i < |recs[1..]| && recs[1..][i] == r.value &&
          (forall j :: 0 <= j < i ==> Get(recs[1..][j], "priority") != SStr("high"));
        assert recs[i + 1] == r.value;
        r
      else r
  }

  // ---------------------------------------------------------------------------
  // Transitions of one day's hashes
  // ---------------------------------------------------------------------------

  /**
   * The hash field a record is stored under: its "id" member as the Redis
   * client encodes a field name, a string as it is and an integer as its
   * decimal text.  A missing id, null or a bool makes the write raise.
   */
  function IdOf(t: Dict): (r: Option<string>)
    ensures r.Some? <==> "id" in t && (t["id"].SStr? || t["id"].SInt?)
    ensures r.Some? && t["id"].SStr? ==> r.value == t["id"].s
    ensures r.Some? && t["id"].SInt? ==> r.value == Text.IntToString(t["id"].i)
  {
    if "id" !in t then None
    else match t["id"]
      case SStr(s) => Some(s)
      case SInt(i) => Some(Text.IntToString(i))
      case _ => None
  }

  predicate AllHaveIds(tasks: seq<Dict>)
  {
    forall i :: 0 <= i < |tasks| ==> IdOf(tasks[i]).Some?
  }

  /** `hset` of each record under its id, in order. */
  function PutAll(h: Hash, tasks: seq<Dict>): (r: Hash)
    requires AllHaveIds(tasks)
    ensures forall i :: 0 <= i < |tasks| ==> IdOf(tasks[i]).value in r
    ensures forall f :: f in r <==> f in h || exists i :: 0 <= i < |tasks| && IdOf(tasks[i]).value == f
    decreases |tasks|
  {
    if tasks == [] then h
    else
      var last := tasks[|tasks| - 1];
      var prev := PutAll(h, tasks[..|tasks| - 1]);
      assert forall i :: 0 <= i < |tasks| - 1 ==> tasks[..|tasks| - 1][i] == tasks[i];
      prev[IdOf(last).value := DObj(last)]
  }

  /** How many of the records have status "completed". */
  function CountCompletedRecords(tasks: seq<Dict>): (r: nat)
    ensures r <= |tasks|
  {
    if tasks == [] then 0
    else CountCompletedRecords(tasks[..|tasks| - 1]) + (if IsCompletedRecord(tasks[|tasks| - 1]) then 1 else 0)
  }

  /** `set_task`: store under the id, then drop the sentinel. */
  function SetRecord(h: Hash, id: string, rec: Dict): Hash
  {
    h[id := DObj(rec)] - {EMPTY}
  }

  /** The hash `hydrate_from_db` leaves: the records by id, or the sentinel alone. */
  function HydrateHash(tasks: seq<Dict>): (r: Hash)
    requires AllHaveIds(tasks)
    ensures tasks == [] <==> r == map[EMPTY := SENTINEL]
  {
    if tasks == [] then map[EMPTY := SENTINEL]
    else
      assert IdOf(tasks[0]).value in PutAll(map[], tasks);
      PutAll(map[], tasks)
  }

  /** `update_task`'s merge: updates win, other members kept, "updatedAt" always set to now. */
  function UpdatedRecord(rec: Dict, updates: Dict, now: int): (r: Dict)
    ensures r.Keys == rec.Keys + updates.Keys + {"updatedAt"}
    ensures r["updatedAt"] == STime(now)
    ensures forall f :: f in updates && f != "updatedAt" ==> r[f] == updates[f]
    ensures forall f :: f in rec && f !in updates && f != "updatedAt" ==> r[f] == rec[f]
  {
    Merge(rec, updates)["updatedAt" := STime(now)]
  }

  /** The change `update_task` makes to the completed counter. */
  function CompletedDelta(oldStatus: Scalar, newStatus: Scalar): int
  {
    if oldStatus != newStatus then
      if newStatus == SStr("completed") && oldStatus != SStr("completed") then 1
      else if oldStatus == SStr("completed") && newStatus != SStr("completed") then -1
      else 0
    else 0
  }

  /** The counter moves by exactly the change in the record's completedness. */
  lemma UpdateDeltaTracksCompletion(rec: Dict, updates: Dict, now: int)
    ensures var r := UpdatedRecord(rec, updates, now);
      CompletedDelta(Get(rec, "status"), Get(r, "status")) ==
        (if IsCompletedRecord(r) then 1 else 0) - (if IsCompletedRecord(rec) then 1 else 0)
  {
  }

  // ---------------------------------------------------------------------------
  // Counter consistency
  // ---------------------------------------------------------------------------

  predicate DistinctIds(tasks: seq<Dict>)
    requires AllHaveIds(tasks)
  {
    forall i, j :: 0 <= i < j < |tasks| ==> IdOf(tasks[i]) != IdOf(tasks[j])
  }

  /** Storing an object under a non-sentinel field adds that field to the records. */
  lemma RecordIdsPut(h: Hash, id: string, rec: Dict)
    requires id != EMPTY
    ensures RecordIds(h[id := DObj(rec)]) == RecordIds(h) + {id}
    ensures CompletedIds(h[id := DObj(rec)]) ==
      (CompletedIds(h) - {id}) + (if IsCompletedRecord(rec) then {id} else {})
  {
  }

  /** Removing a field removes it from the records. */
  lemma RecordIdsRemove(h: Hash, id: string)
    ensures RecordIds(h - {id}) == RecordIds(h) - {id}
    ensures CompletedIds(h - {id}) == CompletedIds(h) - {id}
  {
  }

  /**
   * Hydration with distinct ids other than the sentinel's leaves exactly the
   * given records, keyed by id, and counters that agree with them.
   */
  lemma {:induction false} HydrateConsistent(tasks: seq<Dict>)
    requires AllHaveIds(tasks) && DistinctIds(tasks)
    requires forall i :: 0 <= i < |tasks| ==> IdOf(tasks[i]).value != EMPTY
    ensures Consistent(HydrateHash(tasks), TaskModel.Counts(|tasks|, CountCompletedRecords(tasks)))
    ensures forall i :: 0 <= i < |tasks| ==> HydrateHash(tasks)[IdOf(tasks[i]).value] == DObj(tasks[i])
  {
    if tasks == [] {
      assert RecordIds(HydrateHash(tasks)) == {};
    } else {
      PutAllConsistent(tasks);
    }
  }

  lemma {:induction false} PutAllConsistent(tasks: seq<Dict>)
    requires AllHaveIds(tasks) && DistinctIds(tasks)
    requires forall i :: 0 <= i < |tasks| ==> IdOf(tasks[i]).value != EMPTY
    ensures Consistent(PutAll(map[], tasks), TaskModel.Counts(|tasks|, CountCompletedRecords(tasks)))
    ensures forall i :: 0 <= i < |tasks| ==> PutAll(map[], tasks)[IdOf(tasks[i]).value] == DObj(tasks[i])
    decreases |tasks|
  {
    if tasks == [] {
      assert RecordIds(PutAll(map[], tasks)) == {};
    } else {
      var n := |tasks| - 1;
      var init := tasks[..n];
      var id := IdOf(tasks[n]).value;
      LastIdFresh(tasks);
      PutAllConsistent(init);
      PutOneConsistent(PutAll(map[], init), TaskModel.Counts(n, CountCompletedRecords(init)), id, tasks[n]);
      PutAllValues(tasks);
    }
  }

  /** Storing a record under a field that holds none, other than the sentinel's, counts it once. */
  lemma PutOneConsistent(prev: Hash, c: TaskModel.Counts, id: string, rec: Dict)
    requires Consistent(prev, c) && id !in RecordIds(prev) && id != EMPTY
    ensures Consistent(prev[id := DObj(rec)],
      TaskModel.Counts(c.total + 1, c.completed + (if IsCompletedRecord(rec) then 1 else 0)))
  {
    RecordIdsPut(prev, id, rec);
    assert CompletedIds(prev) - {id} == CompletedIds(prev);
  }

  /** The last record's id is not among the ids stored before it. */
  lemma LastIdFresh(tasks: seq<Dict>)
    requires AllHaveIds(tasks) && DistinctIds(tasks) && tasks != []
    ensures AllHaveIds(tasks[..|tasks| - 1]) && DistinctIds(tasks[..|tasks| - 1])
    ensures forall i :: 0 <= i < |tasks| - 1 ==> IdOf(tasks[..|tasks| - 1][i]) == IdOf(tasks[i])
    ensures IdOf(tasks[|tasks| - 1]).value !in PutAll(map[], tasks[..|tasks| - 1])
    ensures PutAll(map[], tasks) ==
      PutAll(map[], tasks[..|tasks| - 1])[IdOf(tasks[|tasks| - 1]).value := DObj(tasks[|tasks| - 1])]
  {
    var n := |tasks| - 1;
    var init := tasks[..n];
    assert forall i :: 0 <= i < n ==> init[i] == tasks[i];
    var id := IdOf(tasks[n]).value;
  }

  /** With distinct ids every record is found under its own id. */
  lemma {:induction false} PutAllValues(tasks: seq<Dict>)
    requires AllHaveIds(tasks) && DistinctIds(tasks)
    ensures forall i :: 0 <= i < |tasks| ==> PutAll(map[], tasks)[IdOf(tasks[i]).value] == DObj(tasks[i])
    decreases |tasks|
  {
    if tasks != [] {
      var n := |tasks| - 1;
      var init := tasks[..n];
      assert forall i :: 0 <= i < n ==> init[i] == tasks[i];
      assert DistinctIds(init);
      PutAllValues(init);
      LastIdFresh(tasks);
      var prev := PutAll(map[], init);
      var h := PutAll(map[], tasks);
      forall i | 0 <= i < |tasks| ensures h[IdOf(tasks[i]).value] == DObj(tasks[i]) {
        if i < n {
          assert IdOf(tasks[i]) != IdOf(tasks[n]);
          assert prev[IdOf(init[i]).value] == DObj(init[i]);
        }
      }
    }
  }

  /** Replacing a cached record moves the completed count by the change in completedness. */
  lemma ReplaceConsistent(h: Hash, c: TaskModel.Counts, id: string, r: Dict)
    requires Consistent(h, c) && id in RecordIds(h)
    ensures Consistent(h[id := DObj(r)],
      TaskModel.Counts(c.total, c.completed + (if IsCompletedRecord(r) then 1 else 0)
                                            - (if IsCompletedRecord(h[id].fields) then 1 else 0)))
  {
    var was := IsCompletedRecord(h[id].fields);
    var c1 := TaskModel.Counts(c.total - 1, c.completed - (if was then 1 else 0));
    DeletePresentKeepsConsistent(h, c, id, was);
    PutOneConsistent(h - {id}, c1, id, r);
    assert (h - {id})[id := DObj(r)] == h[id := DObj(r)];
  }

  /** `update_task` on a cached record keeps the counters consistent. */
  lemma UpdateKeepsConsistent(h: Hash, c: TaskModel.Counts, id: string, updates: Dict, now: int)
    requires Consistent(h, c) && id in RecordIds(h)
    ensures var rec := h[id].fields;
      var r := UpdatedRecord(rec, updates, now);
      Consistent(h[id := DObj(r)],
                 TaskModel.Counts(c.total, c.completed + CompletedDelta(Get(rec, "status"), Get(r, "status"))))
  {
    var rec := h[id].fields;
    var r := UpdatedRecord(rec, updates, now);
    UpdateDeltaTracksCompletion(rec, updates, now);
    ReplaceConsistent(h, c, id, r);
  }

  /** `set_task` on an id not yet cached keeps the counters consistent. */
  lemma SetFreshKeepsConsistent(h: Hash, c: TaskModel.Counts, id: string, rec: Dict)
    requires Consistent(h, c) && id !in RecordIds(h) && id != EMPTY
    ensures Consistent(SetRecord(h, id, rec),
                       TaskModel.Counts(c.total + 1, c.completed + (if IsCompletedRecord(rec) then 1 else 0)))
  {
    PutOneConsistent(h, c, id, rec);
    RecordIdsRemove(h[id := DObj(rec)], EMPTY);
  }

  /** `set_task` on an id already cached counts it twice: the counters no longer agree. */
  lemma SetExistingBreaksTotal(h: Hash, c: TaskModel.Counts, id: string, rec: Dict)
    requires Consistent(h, c) && id in RecordIds(h)
    ensures !Consistent(SetRecord(h, id, rec),
                        TaskModel.Counts(c.total + 1, c.completed + (if IsCompletedRecord(rec) then 1 else 0)))
  {
    assert RecordIds(SetRecord(h, id, rec)) == RecordIds(h);
  }

  /** `delete_task` of a cached record, told its true completedness, keeps the counters consistent. */
  lemma DeletePresentKeepsConsistent(h: Hash, c: TaskModel.Counts, id: string, wasCompleted: bool)
    requires Consistent(h, c) && id in RecordIds(h)
    requires wasCompleted == IsCompletedRecord(h[id].fields)
    ensures Consistent(h - {id}, TaskModel.Counts(c.total - 1, c.completed - (if wasCompleted then 1 else 0)))
  {
    var h' := h - {id};
    assert RecordIds(h') == RecordIds(h) - {id};
    if wasCompleted {
      assert CompletedIds(h') == CompletedIds(h) - {id};
    } else {
      assert CompletedIds(h') == CompletedIds(h);
    }
  }

  /** Storing one more record extends the stored prefix by that record. */
  lemma PutAllSnoc(h: Hash, tasks: seq<Dict>, i: nat)
    requires i < |tasks| && AllHaveIds(tasks[..i]) && IdOf(tasks[i]).Some?
    ensures AllHaveIds(tasks[..i + 1])
    ensures PutAll(h, tasks[..i + 1]) == PutAll(h, tasks[..i])[IdOf(tasks[i]).value := DObj(tasks[i])]
  {
    var next := tasks[..i + 1];
    assert next[..i] == tasks[..i];
    forall j | 0 <= j < i + 1 ensures IdOf(next[j]).Some? {
      if j < i {
        assert next[j] == tasks[..i][j];
      }
    }
  }

  /**
   * The pipeline's `hset` loop: each record stored under its "id" in turn.
   * A record whose id is missing, null or a bool raises before anything
   * is sent (None).
   */
  method PutEach(h: Hash, tasks: seq<Dict>) returns (r: Option<Hash>)
    ensures r.Some? <==> AllHaveIds(tasks)
    ensures r.Some? ==> r.value == PutAll(h, tasks)
  {
    var acc := h;
    var i := 0;
    while i < |tasks|
      invariant 0 <= i <= |tasks|
      invariant AllHaveIds(tasks[..i])
      invariant acc == PutAll(h, tasks[..i])
    {
      var id := IdOf(tasks[i]);
      if id.None? {
        return None;
      }
      PutAllSnoc(h, tasks, i);
      acc := acc[id.value := DObj(tasks[i])];
      i := i + 1;
    }
    assert tasks[..i] == tasks;
    return Some(acc);
  }

  /** The `sum(1 for t in tasks if t.get("status") == "completed")` loop. */
  method CountCompleted(tasks: seq<Dict>) returns (n: nat)
    ensures n == CountCompletedRecords(tasks)
  {
    n := 0;
    var j := 0;
    while j < |tasks|
      invariant 0 <= j <= |tasks|
      invariant n == CountCompletedRecords(tasks[..j])
    {
      assert tasks[..j + 1][..j] == tasks[..j];
      if IsCompletedRecord(tasks[j]) {
        n := n + 1;
      }
      j := j + 1;
    }
    assert tasks[..j] == tasks;
  }

  // ---------------------------------------------------------------------------
  // The service
  // ---------------------------------------------------------------------------

  class TaskCacheService {
    /** Whether the backend answers; when it does not, only the failure results are specified. */
    var online: bool
    var data: map<DayKey, Hash>
    var meta: map<DayKey, TaskModel.Counts>
    var stream: seq<Entry>

    constructor(online: bool)
      ensures this.online == online && data == map[] && meta == map[] && stream == []
    {
      this.online := online;
      data := map[];
      meta := map[];
      stream := [];
    }

    /** A missing key reads as an empty hash. */
    function DataOf(k: DayKey): Hash
      reads this
    {
      if k in data then data[k] else map[]
    }

    /** Missing counters read as 0. */
    function MetaOf(k: DayKey): TaskModel.Counts
      reads this
    {
      if k in meta then meta[k] else TaskModel.Counts(0, 0)
    }

    // ---- reads ---------------------------------------------------------------

    /** `get_tasks_for_date`; `order` is the order the backend returns the fields in. */
    function GetTasksForDate(k: DayKey, order: seq<string>): (r: Option<seq<Dict>>)
      reads this
      requires Enumerates(order, DataOf(k))
      ensures !online ==> r.None?
      ensures online ==> r == ReadTasks(DataOf(k), order)
      ensures r.None? <==> !online || DataOf(k) == map[] || Clash(Collect(order, DataOf(k)))
      ensures r.Some? ==> multiset(r.value) == multiset(Collect(order, DataOf(k))) && SortedBy(r.value, SortKey)
      ensures r.Some? ==> forall key :: WithKey(r.value, SortKey, key) == WithKey(Collect(order, DataOf(k)), SortKey, key)
    {
      if online then ReadTasks(DataOf(k), order) else None
    }

    /** `get_task`: the decoded value under the id; a missing field (or a JSON null) is None. */
    function GetTask(k: DayKey, id: string): (r: Option<Doc>)
      reads this
      ensures r.Some? <==> online && id in DataOf(k) && DataOf(k)[id] != DScalar(SNull)
      ensures r.Some? ==> r.value == DataOf(k)[id]
    {
      if online && id in DataOf(k) && DataOf(k)[id] != DScalar(SNull) then Some(DataOf(k)[id]) else None
    }

    /** `get_high_priority_task`: the first record, in backend order, whose priority is "high". */
    function GetHighPriorityTask(k: DayKey, order: seq<string>): (r: Option<Dict>)
      reads this
      requires Enumerates(order, DataOf(k))
      ensures r.Some? ==> Get(r.value, "priority") == SStr("high") && r.value in Collect(order, DataOf(k))
      ensures online && r.None? ==>
        forall f :: f in RecordIds(DataOf(k)) ==> Get(DataOf(k)[f].fields, "priority") != SStr("high")
    {
      if !online || DataOf(k) == map[] then None
      else
        var recs := Collect(order, DataOf(k));
        CollectIsRecords(order, DataOf(k));
        FirstHigh(recs)
    }

    /** The counters of the user's days, by date. */
    function MetaCounts(user: string): (r: map<int, TaskModel.Counts>)
      reads this
      ensures forall d :: TaskModel.CountsOn(r, d) == MetaOf(DayKey(user, d))
    {
      map k | k in meta && k.user == user :: k.date := meta[k]
    }

    /**
     * `get_day_summaries`: `numDays` entries dated ref, ref - 1, ..., each
     * carrying that day's counters (0 when the meta hash is missing).
     */
    function GetDaySummaries(user: string, ref: int, numDays: int, today: int): (r: Option<seq<TaskModel.DaySummary>>)
      reads this
      ensures r.None? <==> !online
      ensures r.Some? ==> |r.value| == (if numDays > 0 then numDays else 0)
      ensures r.Some? ==> forall i :: 0 <= i < |r.value| ==>
        r.value[i].date == ref - i &&
        r.value[i].totalTasks == MetaOf(DayKey(user, ref - i)).total &&
        r.value[i].completedTasks == MetaOf(DayKey(user, ref - i)).completed &&
        (r.value[i].labelText == "Today" <==> ref - i == today) &&
        (r.value[i].isCompleted <==> r.value[i].totalTasks > 0 && r.value[i].completedTasks == r.value[i].totalTasks)
    {
      if online then Some(TaskModel.DaySummaries(ref, numDays, today, MetaCounts(user))) else None
    }

    /** `is_hydrated`: whether the data key exists, i.e. its hash is non-empty. */
    function IsHydrated(k: DayKey): (r: Option<bool>)
      reads this
      ensures r.None? <==> !online
      ensures r.Some? ==> (r.value <==> DataOf(k) != map[])
      ensures r == Some(false) ==> Enumerates([], DataOf(k)) && GetTasksForDate(k, []).None?
    {
      if online then Some(DataOf(k) != map[]) else None
    }

    // ---- writes --------------------------------------------------------------

    /** `set_task` */
    method SetTask(k: DayKey, id: string, rec: Dict) returns (ok: bool)
      modifies this
      ensures online == old(online) && ok == online
      ensures ok ==> data == old(data)[k := SetRecord(old(DataOf(k)), id, rec)]
      ensures ok ==> meta == old(meta)[k := TaskModel.Counts(
        old(MetaOf(k)).total + 1,
        old(MetaOf(k)).completed + (if IsCompletedRecord(rec) then 1 else 0))]
      ensures stream == old(stream)
    {
      if !online {
        return false;
      }
      var h := DataOf(k);
      h := h[id := DObj(rec)];
      h := h - {EMPTY};
      data := data[k := h];
      var c := MetaOf(k);
      c := c.(total := c.total + 1);
      if IsCompletedRecord(rec) {
        c := c.(completed := c.completed + 1);
      }
      meta := meta[k := c];
      return true;
    }

    /**
     * `set_tasks_batch`: every record stored under its id, the sentinel
     * dropped, total raised by the number of records and completed by the
     * number of completed ones.  A record whose id is missing, null or a
     * bool aborts the call before anything is sent.
     */
    method SetTasksBatch(k: DayKey, tasks: seq<Dict>) returns (ok: bool)
      modifies this
      ensures online == old(online)
      ensures ok <==> online && AllHaveIds(tasks)
      ensures ok ==> data == old(data)[k := PutAll(old(DataOf(k)), tasks) - {EMPTY}]
      ensures ok ==> meta == old(meta)[k := TaskModel.Counts(
        old(MetaOf(k)).total + |tasks|,
        old(MetaOf(k)).completed + CountCompletedRecords(tasks))]
      ensures online && !AllHaveIds(tasks) ==> data == old(data) && meta == old(meta)
      ensures stream == old(stream)
    {
      if !online {
        return false;
      }
      var c := MetaOf(k);
      var put := PutEach(DataOf(k), tasks);
      if put.None? {
        return false;
      }
      var completed := CountCompleted(tasks);
      ghost var counts := TaskModel.Counts(c.total + |tasks|, c.completed + completed);
      assert counts == TaskModel.Counts(
        old(MetaOf(k)).total + |tasks|, old(MetaOf(k)).completed + CountCompletedRecords(tasks));
      data := data[k := put.value - {EMPTY}];
      meta := meta[k := TaskModel.Counts(c.total + |tasks|, c.completed + completed)];
      return true;
    }

    /**
     * `update_task`: read, merge, stamp "updatedAt", write back, and move
     * the completed counter when the status enters or leaves "completed".
     * A missing field, or a stored value that is not an object, gives None
     * and writes nothing.
     */
    method UpdateTask(k: DayKey, id: string, updates: Dict, now: int) returns (r: Option<Dict>)
      modifies this
      ensures online == old(online) && stream == old(stream)
      ensures !online ==> r.None?
      ensures online && !(id in old(DataOf(k)) && old(DataOf(k))[id].DObj?) ==>
        r.None? && data == old(data) && meta == old(meta)
      ensures online && id in old(DataOf(k)) && old(DataOf(k))[id].DObj? ==>
        var rec := old(DataOf(k))[id].fields;
        var upd := UpdatedRecord(rec, updates, now);
        r == Some(upd) &&
        data == old(data)[k := old(DataOf(k))[id := DObj(upd)]] &&
        meta == old(meta)[k := old(MetaOf(k)).(completed :=
          old(MetaOf(k)).completed + CompletedDelta(Get(rec, "status"), Get(upd, "status")))]
    {
      if !online {
        return None;
      }
      var h := DataOf(k);
      if id !in h || !h[id].DObj? {
        return None;
      }
      var task := h[id].fields;
      var oldStatus := Get(task, "status");
      task := Merge(task, updates);
      task := task["updatedAt" := STime(now)];
      var newStatus := Get(task, "status");
      data := data[k := h[id := DObj(task)]];
      var c := MetaOf(k);
      if oldStatus != newStatus {
        if newStatus == SStr("completed") && oldStatus != SStr("completed") {
          c := c.(completed := c.completed + 1);
        } else if oldStatus == SStr("completed") && newStatus != SStr("completed") {
          c := c.(completed := c.completed - 1);
        }
      }
      meta := meta[k := c];
      return Some(task);
    }

    /** `delete_task`: the field is removed and the counters lowered, present or not. */
    method DeleteTask(k: DayKey, id: string, wasCompleted: bool) returns (ok: bool)
      modifies this
      ensures online == old(online) && ok == online && stream == old(stream)
      ensures ok ==> data == old(data)[k := old(DataOf(k)) - {id}]
      ensures ok ==> meta == old(meta)[k := TaskModel.Counts(
        old(MetaOf(k)).total - 1,
        old(MetaOf(k)).completed - (if wasCompleted then 1 else 0))]
    {
      if !online {
        return false;
      }
      data := data[k := DataOf(k) - {id}];
      var c := MetaOf(k);
      c := c.(total := c.total - 1);
      if wasCompleted {
        c := c.(completed := c.completed - 1);
      }
      meta := meta[k := c];
      return true;
    }

    /**
     * `hydrate_from_db`: both hashes replaced; the data hash holds the
     * records by id (the sentinel alone for an empty list) and the counters
     * are the list's length and completed count.
     */
    method HydrateFromDb(k: DayKey, tasks: seq<Dict>) returns (ok: bool)
      modifies this
      ensures online == old(online) && stream == old(stream)
      ensures ok <==> online && AllHaveIds(tasks)
      ensures ok ==> data == old(data)[k := HydrateHash(tasks)]
      ensures ok ==> meta == old(meta)[k := TaskModel.Counts(|tasks|, CountCompletedRecords(tasks))]
      ensures online && !AllHaveIds(tasks) ==> data == old(data) && meta == old(meta)
    {
      if !online {
        return false;
      }
      var put := PutEach(map[], tasks);
      if put.None? {
        return false;
      }
      var h := put.value;
      if tasks == [] {
        h := h[EMPTY := SENTINEL];
      }
      var completed := CountCompleted(tasks);
      data := data[k := h];
      meta := meta[k := TaskModel.Counts(|tasks|, completed)];
      return true;
    }

    /** `enqueue_sync`: one entry appended to the stream, its payload the encoded object. */
    method EnqueueSync(op: string, payload: Payload) returns (ok: bool)
      modifies this
      ensures online == old(online) && ok == online
      ensures data == old(data) && meta == old(meta)
      ensures ok ==> stream == old(stream) + [Entry(op, Obj(payload))]
    {
      if !online {
        return false;
      }
      stream := stream + [Entry(op, Obj(payload))];
      return true;
    }
  }
}

=== FILE: task_model.dfy ===
/**
 * The task record (app/models/task.py): its enumerations with their stored
 * string values, its defaults, the status setters, the API serialisation,
 * the plan completion percentage, and the day-selector summary shape that
 * both the cache and the database-backed service produce.
 *
 * Dates are day ordinals (0001-01-01 is day 1, as Python's toordinal);
 * timestamps are milliseconds since the Unix epoch.
 */
module TaskModel {
  import opened Wrappers
  import opened Json

  // ---------------------------------------------------------------------------
  // Enumerations and their string values
  // ---------------------------------------------------------------------------

  datatype Category = Work | Personal | Health | Learning | Other
  datatype Status = Pending | InProgress | Completed | Skipped
  datatype Priority = High | Medium | Low
  datatype IconType = Pages | Plant | Journal | Exercise | Code | DefaultIcon

  function CategoryName(c: Category): string
  {
    match c
    case Work => "WORK"
    case Personal => "PERSONAL"
    case Health => "HEALTH"
    case Learning => "LEARNING"
    case Other => "OTHER"
  }

  /** `TaskCategory(s)`: the member whose value is `s`, if any. */
  function ParseCategory(s: string): (r: Option<Category>)
    ensures r.Some? ==> CategoryName(r.value) == s
    ensures r.None? ==> forall c: Category :: CategoryName(c) != s
  {
    if s == "WORK" then Some(Work)
    else if s == "PERSONAL" then Some(Personal)
    else if s == "HEALTH" then Some(Health)
    else if s == "LEARNING" then Some(Learning)
    else if s == "OTHER" then Some(Other)
    else None
  }

  function StatusName(s: Status): string
  {
    match s
    case Pending => "pending"
    case InProgress => "in_progress"
    case Completed => "completed"
    case Skipped => "skipped"
  }

  function ParseStatus(s: string): (r: Option<Status>)
    ensures r.Some? ==> StatusName(r.value) == s
    ensures r.None? ==> forall st: Status :: StatusName(st) != s
  {
    if s == "pending" then Some(Pending)
    else if s == "in_progress" then Some(InProgress)
    else if s == "completed" then Some(Completed)
    else if s == "skipped" then Some(Skipped)
    else None
  }

  function PriorityName(p: Priority): string
  {
    match p
    case High => "high"
    case Medium => "medium"
    case Low => "low"
  }

  function ParsePriority(s: string): (r: Option<Priority>)
    ensures r.Some? ==> PriorityName(r.value) == s
    ensures r.None? ==> forall p: Priority :: PriorityName(p) != s
  {
    if s == "high" then Some(High)
    else if s == "medium" then Some(Medium)
    else if s == "low" then Some(Low)
    else None
  }

  function IconName(i: IconType): string
  {
    match i
    case Pages => "pages"
    case Plant => "plant"
    case Journal => "journal"
    case Exercise => "exercise"
    case Code => "code"
    case DefaultIcon => "default"
  }

  function ParseIcon(s: string): (r: Option<IconType>)
    ensures r.Some? ==> IconName(r.value) == s
    ensures r.None? ==> forall i: IconType :: IconName(i) != s
  {
    if s == "pages" then Some(Pages)
    else if s == "plant" then Some(Plant)
    else if s == "journal" then Some(Journal)
    else if s == "exercise" then Some(Exercise)
    else if s == "code" then Some(Code)
    else if s == "default" then Some(DefaultIcon)
    else None
  }

  /** Every member is found again from its own value, and values are distinct. */
  lemma EnumNamesRoundTrip(c: Category, s: Status, p: Priority, i: IconType)
    ensures ParseCategory(CategoryName(c)) == Some(c)
    ensures ParseStatus(StatusName(s)) == Some(s)
    ensures ParsePriority(PriorityName(p)) == Some(p)
    ensures ParseIcon(IconName(i)) == Some(i)
  {
  }

  // ---------------------------------------------------------------------------
  // The task record
  // ---------------------------------------------------------------------------

  datatype Task = Task(
    taskId: string,
    userId: string,
    title: string,
    subtitle: Option<string>,
    description: Option<string>,
    category: Category,
    priority: Priority,
    durationMins: int,
    iconType: IconType,
    status: Status,
    orderIndex: int,
    dueDate: Option<int>,
    createdAt: Option<int>,
    updatedAt: Option<int>)
  {
    /** `mark_complete`: the status becomes completed and nothing else changes. */
    function MarkComplete(): (r: Task)
      ensures r.status == Completed
      ensures r.(status := this.status) == this
    {
      this.(status := Completed)
    }

    /** `mark_incomplete`: the status becomes pending and nothing else changes. */
    function MarkIncomplete(): (r: Task)
      ensures r.status == Pending
      ensures r.(status := this.status) == this
    {
      this.(status := Pending)
    }
  }

  /** Column defaults applied when a task is created without the field. */
  const DefaultCategory: Category := Other
  const DefaultPriority: Priority := Medium
  const DefaultDuration: int := 25
  const DefaultIcon_: IconType := DefaultIcon
  const DefaultStatus: Status := Pending
  const DefaultOrderIndex: int := 0

  /** A task carrying every column default, for the given identity and title. */
  function NewTask(id: string, user: string, title: string): (r: Task)
    ensures r.taskId == id && r.userId == user && r.title == title
    ensures r.category == Other && r.priority == Medium && r.durationMins == 25
    ensures r.iconType == DefaultIcon && r.status == Pending && r.orderIndex == 0
    ensures r.subtitle.None? && r.description.None? && r.dueDate.None?
  {
    Task(id, user, title, None, None, DefaultCategory, DefaultPriority, DefaultDuration,
         DefaultIcon_, DefaultStatus, DefaultOrderIndex, None, None, None)
  }

  function OptStr(o: Option<string>): Scalar
  {
    if o.Some? then SStr(o.value) else SNull
  }

  /** The API response keys, in the order the serialiser writes them. */
  const ApiKeys: set<string> :=
    {"id", "userId", "title", "subtitle", "category", "priority", "durationMins",
     "iconType", "status", "date", "createdAt", "updatedAt"}

  /**
   * `to_api_dict`: task_id becomes "id", due_date becomes "date" (null when
   * absent), enums become their values.  There is no "orderIndex" and no
   * "description" member.
   */
  function ToApiDict(t: Task): (r: Dict)
    ensures r.Keys == ApiKeys
    ensures "orderIndex" !in r && "description" !in r
    ensures r["id"] == SStr(t.taskId) && r["userId"] == SStr(t.userId)
    ensures r["title"] == SStr(t.title) && r["subtitle"] == OptStr(t.subtitle)
    ensures r["category"] == SStr(CategoryName(t.category))
    ensures r["priority"] == SStr(PriorityName(t.priority))
    ensures r["status"] == SStr(StatusName(t.status))
    ensures r["iconType"] == SStr(IconName(t.iconType))
    ensures r["durationMins"] == SInt(t.durationMins)
    ensures r["date"] == (if t.dueDate.Some? then SDate(t.dueDate.value) else SNull)
  {
    map[
      "id" := SStr(t.taskId),
      "userId" := SStr(t.userId),
      "title" := SStr(t.title),
      "subtitle" := OptStr(t.subtitle),
      "category" := SStr(CategoryName(t.category)),
      "priority" := SStr(PriorityName(t.priority)),
      "durationMins" := SInt(t.durationMins),
      "iconType" := SStr(IconName(t.iconType)),
      "status" := SStr(StatusName(t.status)),
      "date" := if t.dueDate.Some? then SDate(t.dueDate.value) else SNull,
      "createdAt" := if t.createdAt.Some? then STime(t.createdAt.value) else SNull,
      "updatedAt" := if t.updatedAt.Some? then STime(t.updatedAt.value) else SNull
    ]
  }

  // ---------------------------------------------------------------------------
  // Plan completion percentage
  // ---------------------------------------------------------------------------

  function CountCompleted(tasks: seq<Task>): (r: nat)
    ensures r <= |tasks|
    ensures r == |tasks| <==> forall i :: 0 <= i < |tasks| ==> tasks[i].status == Completed
  {
    if tasks == [] then 0
    else (if tasks[0].status == Completed then 1 else 0) + CountCompleted(tasks[1..])
  }

  /**
   * `DailyPlan.completion_percentage` with integer division in place of the
   * float expression: 0 for an empty plan, between 0 and 100 otherwise, and
   * 100 exactly when every task is completed.
   */
  function CompletionPercentage(tasks: seq<Task>): (r: int)
    ensures tasks == [] ==> r == 0
    ensures 0 <= r <= 100
    ensures tasks != [] ==> (r == 100 <==> forall i :: 0 <= i < |tasks| ==> tasks[i].status == Completed)
  {
    if tasks == [] then 0
    else
      var c := CountCompleted(tasks);
      PercentBelow(c, |tasks|);
      (100 * c) / |tasks|
  }

  lemma PercentBelow(c: nat, n: nat)
    requires 0 < n && c <= n
    ensures (100 * c) / n <= 100
    ensures (100 * c) / n == 100 <==> c == n
  {
    if c < n {
      assert 100 * c < 100 * n;
      QuotientBelow(100 * c, n, 100);
    } else {
      ExactQuotient(100, n);
    }
  }

  /** (k * n) / n == k. */
  lemma ExactQuotient(k: nat, n: nat)
    requires 0 < n
    ensures (k * n) / n == k
  {
    var q := (k * n) / n;
    var r := (k * n) % n;
    assert q * n + r == k * n && 0 <= r < n;
    if q < k {
      MulMono(q + 1, k, n);
      assert false;
    } else if q > k {
      MulMono(k + 1, q, n);
      assert false;
    }
  }

  /** x < k * n means x / n < k. */
  lemma QuotientBelow(x: nat, n: nat, k: nat)
    requires 0 < n && x < k * n
    ensures x / n < k
  {
    var q := x / n;
    var r := x % n;
    assert q * n + r == x && 0 <= r;
    if q >= k {
      MulMono(k, q, n);
      assert false;
    }
  }

  lemma MulMono(a: int, b: int, n: nat)
    requires a <= b
    ensures a * n <= b * n
  {
  }

  // ---------------------------------------------------------------------------
  // Day-selector summaries
  // ---------------------------------------------------------------------------

  datatype Counts = Counts(total: int, completed: int)

  datatype DaySummary = DaySummary(
    date: int, labelText: string, isToday: bool, isCompleted: bool,
    totalTasks: int, completedTasks: int)

  const WeekdayLabels: seq<string> := ["Mon", "Tue", "Wed", "Thu", "Fri", "Sat", "Sun"]

  /** Python's `date.weekday()` on a day ordinal: day 1 (0001-01-01) is a Monday. */
  function Weekday(d: int): (r: int)
    ensures 0 <= r < 7
  {
    (d + 6) % 7
  }

  /** Counts of a date, (0, 0) when nothing is recorded for it. */
  function CountsOn(counts: map<int, Counts>, d: int): Counts
  {
    if d in counts then counts[d] else Counts(0, 0)
  }

  function SummaryFor(d: int, today: int, c: Counts): (r: DaySummary)
    ensures r.date == d && r.totalTasks == c.total && r.completedTasks == c.completed
    ensures r.isToday <==> d == today
    ensures r.labelText == "Today" <==> d == today
    ensures r.isCompleted <==> c.total > 0 && c.completed == c.total
  {
    var isToday := d == today;
    DaySummary(d, if isToday then "Today" else WeekdayLabels[Weekday(d)],
               isToday, c.total > 0 && c.completed == c.total, c.total, c.completed)
  }

  /**
   * The summaries for `numDays` days ending at `ref`, newest first: entry i
   * is dated ref - i and carries that date's counts (0 when unrecorded).
   */
  function DaySummaries(ref: int, numDays: int, today: int, counts: map<int, Counts>): (r: seq<DaySummary>)
    decreases numDays
    ensures |r| == if numDays > 0 then numDays else 0
    ensures forall i :: 0 <= i < |r| ==>
      r[i].date == ref - i && r[i] == SummaryFor(ref - i, today, CountsOn(counts, ref - i))
  {
    if numDays <= 0 then []
    else [SummaryFor(ref, today, CountsOn(counts, ref))] + DaySummaries(ref - 1, numDays - 1, today, counts)
  }

  /** The properties of one summary, read off any entry of the list. */
  lemma SummaryEntryFacts(ref: int, numDays: int, today: int, counts: map<int, Counts>, i: int)
    requires 0 <= i < numDays
    ensures var r := DaySummaries(ref, numDays, today, counts);
      i < |r| &&
      r[i].date == ref - i &&
      r[i].totalTasks == CountsOn(counts, ref - i).total &&
      (r[i].labelText == "Today" <==> ref - i == today) &&
      (r[i].isCompleted <==> r[i].totalTasks > 0 && r[i].completedTasks == r[i].totalTasks)
  {
  }
}

=== FILE: task_service.dfy ===
/**
 * The database-backed task service (app/services/task_service.py): task
 * creation with the one-high-priority-task-per-date rule, batch create and
 * batch update that validate before they write, the home-screen split into
 * a priority task and later tasks, grouping by category, the day-selector
 * summaries and the celebration message.
 *
 * The task table is a map from task id to row.  New ids (uuid4 values) are
 * given by the caller and assumed fresh; "today" is a parameter.
 */
module TaskService {
  import opened Wrappers
  import opened Sorting
  import opened TaskModel

  /** The exceptions the service raises. */
  datatype Failure =
    | HighPriorityConflict(date: int)      // HighPriorityConflictError
    | TaskNotFound(id: string, date: int)  // TaskNotFoundError
    | TooManyHigh                          // ValueError: several high items in one request
    | MultipleHighRows                     // scalar_one_or_none met several high rows

  /** The task table, keyed by task id. */
  type Rows = map<string, Task>

  /** Every row is stored under its own id. */
  predicate Keyed(rows: Rows)
  {
    forall id :: id in rows ==> rows[id].taskId == id
  }

  predicate IsHighOn(t: Task, user: string, date: int)
  {
    t.userId == user && t.dueDate == Some(date) && t.priority == High
  }

  /** The ids of the high-priority tasks of `user` on `date`. */
  function HighIds(rows: Rows, user: string, date: int): (r: set<string>)
    ensures forall id :: id in r <==> id in rows && IsHighOn(rows[id], user, date)
  {
    set id | id in rows && IsHighOn(rows[id], user, date)
  }

  /** Two tasks both high, of the same user, on the same date. */
  predicate SameHighSlot(x: Task, y: Task)
  {
    x.priority == High && y.priority == High && x.userId == y.userId &&
    x.dueDate == y.dueDate && x.dueDate.Some?
  }

  /** The rule the service maintains: at most one high-priority task per user and date. */
  predicate SingleHigh(rows: Rows)
  {
    forall a, b {:trigger SameHighSlot(rows[a], rows[b])} ::
      a in rows && b in rows && SameHighSlot(rows[a], rows[b]) ==> a == b
  }

  /** Under the rule, each date has at most one high task. */
  lemma SingleHighBound(rows: Rows, user: string, date: int)
    requires SingleHigh(rows)
    ensures |HighIds(rows, user, date)| <= 1
  {
    var s := HighIds(rows, user, date);
    if s != {} {
      var a :| a in s;
      forall b | b in s ensures b == a {
        assert SameHighSlot(rows[a], rows[b]);
      }
      assert s == {a};
    }
  }

  /**
   * `_get_high_priority_task`: the ids of the date's high task (none or
   * one), or the error `scalar_one_or_none` raises on several rows.
   */
  function HighPriorityTask(rows: Rows, user: string, date: int): (r: Result<set<string>, Failure>)
    ensures r.Ok? ==> |r.value| <= 1 && forall id :: id in r.value <==> id in rows && IsHighOn(rows[id], user, date)
    ensures r.Err? ==> r.error == MultipleHighRows && |HighIds(rows, user, date)| > 1
  {
    var s := HighIds(rows, user, date);
    if |s| <= 1 then Ok(s) else Err(MultipleHighRows)
  }

  /** While the rule holds the lookup never fails. */
  lemma HighLookupSucceeds(rows: Rows, user: string, date: int)
    requires SingleHigh(rows)
    ensures HighPriorityTask(rows, user, date).Ok?
  {
    SingleHighBound(rows, user, date);
  }

  // ---------------------------------------------------------------------------
  // Creation
  // ---------------------------------------------------------------------------

  /** `CreateTaskRequest`; `date` is the parsed ISO date when one was given. */
  datatype CreateRequest = CreateRequest(
    title: string, subtitle: Option<string>, category: Category, priority: Priority,
    durationMins: int, iconType: IconType, date: Option<int>)

  /** `BatchTaskItem`. */
  datatype BatchItem = BatchItem(
    title: string, subtitle: Option<string>, category: Category, priority: Priority,
    durationMins: int, iconType: IconType)

  /**
   * A new row: pending, dated `date`, at position `order`, no description;
   * both timestamps take their server default, the transaction's `now()`.
   */
  function NewRow(id: string, user: string, title: string, subtitle: Option<string>, category: Category,
                  priority: Priority, durationMins: int, iconType: IconType, date: int, order: int,
                  now: int): (r: Task)
    ensures r.taskId == id && r.userId == user && r.dueDate == Some(date) && r.orderIndex == order
    ensures r.status == Pending && r.priority == priority && r.description.None?
    ensures r.title == title && r.subtitle == subtitle && r.category == category
    ensures r.durationMins == durationMins && r.iconType == iconType
    ensures r.createdAt == Some(now) && r.updatedAt == Some(now)
  {
    Task(id, user, title, subtitle, None, category, priority, durationMins, iconType,
         Pending, order, Some(date), Some(now), Some(now))
  }

  /** The row `batch_create_tasks` builds for the item at position `i`. */
  function BatchRow(id: string, user: string, item: BatchItem, date: int, i: int, now: int): Task
  {
    NewRow(id, user, item.title, item.subtitle, item.category, item.priority,
           item.durationMins, item.iconType, date, i, now)
  }

  /** `sum(1 for t in task_items if t.priority == HIGH)` over batch items. */
  function BatchHighCount(items: seq<BatchItem>): (r: nat)
    ensures r <= |items|
    ensures r == 0 <==> forall i :: 0 <= i < |items| ==> items[i].priority != High
  {
    if items == [] then 0
    else BatchHighCount(items[..|items| - 1]) + (if items[|items| - 1].priority == High then 1 else 0)
  }

  /** With a high count of at most one, two high items are the same item. */
  lemma {:induction false} BatchHighUnique(items: seq<BatchItem>, i: nat, j: nat)
    requires BatchHighCount(items) <= 1
    requires i < |items| && j < |items| && items[i].priority == High && items[j].priority == High
    ensures i == j
    decreases |items|
  {
    var n := |items| - 1;
    var init := items[..n];
    if i < n && j < n {
      assert init[i] == items[i] && init[j] == items[j];
      BatchHighUnique(init, i, j);
    } else if i < n || j < n {
      assert false;
    }
  }

  /** `ids` holds distinct ids, none of them in `rows`. */
  predicate FreshIds(rows: Rows, ids: seq<string>)
  {
    (forall i, j :: 0 <= i < j < |ids| ==> ids[i] != ids[j]) &&
    (forall i :: 0 <= i < |ids| ==> ids[i] !in rows)
  }

  /** The ids of a sequence of rows. */
  function TaskIds(ts: seq<Task>): set<string>
  {
    set i | 0 <= i < |ts| :: ts[i].taskId
  }

  /** `rows` with each of `ts` added under its id, in order. */
  function AddRows(rows: Rows, ts: seq<Task>): (r: Rows)
    ensures r.Keys == rows.Keys + TaskIds(ts)
  {
    if ts == [] then rows
    else
      var n := |ts| - 1;
      var r := AddRows(rows, ts[..n]);
      assert forall i :: 0 <= i < n ==> ts[..n][i] == ts[i];
      r[ts[n].taskId := ts[n]]
  }

  /** After adding rows with distinct ids, each added id holds its row. */
  lemma {:induction false} AddRowsAt(rows: Rows, ts: seq<Task>)
    requires forall i, j :: 0 <= i < j < |ts| ==> ts[i].taskId != ts[j].taskId
    ensures forall i :: 0 <= i < |ts| ==> AddRows(rows, ts)[ts[i].taskId] == ts[i]
    decreases |ts|
  {
    if ts != [] {
      var n := |ts| - 1;
      var init := ts[..n];
      AddRowsAt(rows, init);
      forall i | 0 <= i < n
        ensures AddRows(rows, ts)[ts[i].taskId] == ts[i]
      {
        assert init[i] == ts[i];
      }
    }
  }

  /** Adding rows keeps every row whose id is not among them. */
  lemma {:induction false} AddRowsKeeps(rows: Rows, ts: seq<Task>, id: string)
    requires id in rows && id !in TaskIds(ts)
    ensures AddRows(rows, ts)[id] == rows[id]
    decreases |ts|
  {
    if ts != [] {
      var n := |ts| - 1;
      assert TaskIds(ts) == TaskIds(ts[..n]) + {ts[n].taskId};
      AddRowsKeeps(rows, ts[..n], id);
    }
  }

  /** The rows `batch_create_tasks` builds, in item order. */
  function BatchRows(ids: seq<string>, user: string, items: seq<BatchItem>, date: int, now: int): (r: seq<Task>)
    requires |ids| == |items|
    ensures |r| == |items|
    ensures forall i :: 0 <= i < |r| ==> r[i] == BatchRow(ids[i], user, items[i], date, i, now)
  {
    seq(|items|, i requires 0 <= i < |items| => BatchRow(ids[i], user, items[i], date, i, now))
  }

  /** The loop of `batch_create_tasks`: one pending row per item, at its position. */
  method BuildBatch(ids: seq<string>, user: string, items: seq<BatchItem>, date: int, now: int) returns (created: seq<Task>)
    requires |ids| == |items|
    ensures created == BatchRows(ids, user, items, date, now)
  {
    created := [];
    var i := 0;
    while i < |items|
      invariant 0 <= i <= |items| && |created| == i
      invariant forall k :: 0 <= k < i ==> created[k] == BatchRow(ids[k], user, items[k], date, k, now)
    {
      created := created + [BatchRow(ids[i], user, items[i], date, i, now)];
      i := i + 1;
    }
  }

  /** Adding one task keeps the rule when it is not high or its date has no high task yet. */
  lemma AddOneKeepsSingleHigh(rows: Rows, t: Task)
    requires SingleHigh(rows) && t.taskId !in rows && t.dueDate.Some?
    requires t.priority == High ==> HighIds(rows, t.userId, t.dueDate.value) == {}
    ensures SingleHigh(rows[t.taskId := t])
  {
    var r := rows[t.taskId := t];
    forall a, b | a in r && b in r && SameHighSlot(r[a], r[b])
      ensures a == b
    {
      if a != t.taskId && b != t.taskId {
        assert SameHighSlot(rows[a], rows[b]);
      }
    }
  }

  /** In an accepted batch, a high item means the date had no high task. */
  lemma HighItemClearsDate(rows: Rows, user: string, items: seq<BatchItem>, date: int, i: nat)
    requires BatchHighCount(items) <= 1
    requires BatchHighCount(items) == 1 ==> HighIds(rows, user, date) == {}
    requires i < |items| && items[i].priority == High
    ensures HighIds(rows, user, date) == {}
  {
  }

  /**
   * The rows of an accepted batch keep the rule: at most one item is high,
   * and a high item means the date had no high task.
   */
  lemma BatchCreateKeepsSingleHigh(rows: Rows, ids: seq<string>, user: string, items: seq<BatchItem>, date: int, now: int)
    requires SingleHigh(rows) && |ids| == |items| && FreshIds(rows, ids)
    requires BatchHighCount(items) <= 1
    requires BatchHighCount(items) == 1 ==> HighIds(rows, user, date) == {}
    ensures SingleHigh(AddRows(rows, BatchRows(ids, user, items, date, now)))
  {
    var ts := BatchRows(ids, user, items, date, now);
    AddRowsAt(rows, ts);
    var r := AddRows(rows, ts);
    forall a, b | a in r && b in r && SameHighSlot(r[a], r[b])
      ensures a == b
    {
      if a in TaskIds(ts) && b in TaskIds(ts) {
        var i :| 0 <= i < |ts| && ts[i].taskId == a;
        var j :| 0 <= j < |ts| && ts[j].taskId == b;
        BatchHighUnique(items, i, j);
      } else if a in TaskIds(ts) {
        var i :| 0 <= i < |ts| && ts[i].taskId == a;
        HighItemClearsDate(rows, user, items, date, i);
        AddRowsKeeps(rows, ts, b);
      } else if b in TaskIds(ts) {
        var j :| 0 <= j < |ts| && ts[j].taskId == b;
        HighItemClearsDate(rows, user, items, date, j);
        AddRowsKeeps(rows, ts, a);
      } else {
        AddRowsKeeps(rows, ts, a);
        AddRowsKeeps(rows, ts, b);
        assert SameHighSlot(rows[a], rows[b]);
      }
    }
  }

  /**
   * The checks of `batch_create_tasks`, in order: several high items, then
   * a high task already on the date (or several, which the lookup rejects).
   */
  method ValidateBatch(rows: Rows, user: string, items: seq<BatchItem>, date: int) returns (err: Option<Failure>)
    ensures BatchHighCount(items) > 1 ==> err == Some(TooManyHigh)
    ensures err.None? <==> BatchHighCount(items) == 0 || (BatchHighCount(items) == 1 && HighIds(rows, user, date) == {})
    ensures err.Some? && SingleHigh(rows) && BatchHighCount(items) <= 1 ==> err == Some(HighPriorityConflict(date))
  {
    var highs := BatchHighCount(items);
    if highs > 1 {
      return Some(TooManyHigh);
    }
    if highs == 1 {
      if SingleHigh(rows) {
        HighLookupSucceeds(rows, user, date);
      }
      var existing := HighPriorityTask(rows, user, date);
      if existing.Err? {
        return Some(existing.error);
      }
      if existing.value != {} {
        return Some(HighPriorityConflict(date));
      }
    }
    return None;
  }

  // ---------------------------------------------------------------------------
  // Batch update
  // ---------------------------------------------------------------------------

  /** `UpdateTaskItem`: the target id and the fields to write (None = omitted). */
  datatype UpdateItem = UpdateItem(
    id: string, title: Option<string>, subtitle: Option<string>, category: Option<Category>,
    priority: Option<Priority>, durationMins: Option<int>, iconType: Option<IconType>)

  /** One item's merge: each field the item carries is written, every other field is kept. */
  function ApplyItem(t: Task, item: UpdateItem): (r: Task)
    ensures r.title == item.title.GetOr(t.title)
    ensures r.subtitle == (if item.subtitle.Some? then item.subtitle else t.subtitle)
    ensures r.category == item.category.GetOr(t.category)
    ensures r.priority == item.priority.GetOr(t.priority)
    ensures r.durationMins == item.durationMins.GetOr(t.durationMins)
    ensures r.iconType == item.iconType.GetOr(t.iconType)
    ensures r.(title := t.title, subtitle := t.subtitle, category := t.category, priority := t.priority,
               durationMins := t.durationMins, iconType := t.iconType) == t
  {
    t.(title := item.title.GetOr(t.title),
       subtitle := if item.subtitle.Some? then item.subtitle else t.subtitle,
       category := item.category.GetOr(t.category),
       priority := item.priority.GetOr(t.priority),
       durationMins := item.durationMins.GetOr(t.durationMins),
       iconType := item.iconType.GetOr(t.iconType))
  }

  /** Applying the same item twice is applying it once. */
  lemma ApplyItemIdempotent(t: Task, item: UpdateItem)
    ensures ApplyItem(ApplyItem(t, item), item) == ApplyItem(t, item)
  {
  }

  /** `sum(1 for t in task_items if t.priority == HIGH)` over update items. */
  function UpdateHighCount(items: seq<UpdateItem>): (r: nat)
    ensures r <= |items|
    ensures r == 0 <==> forall i :: 0 <= i < |items| ==> items[i].priority != Some(High)
  {
    if items == [] then 0
    else UpdateHighCount(items[..|items| - 1]) + (if items[|items| - 1].priority == Some(High) then 1 else 0)
  }

  /** With a high count of at most one, two high items are the same item. */
  lemma {:induction false} UpdateHighUnique(items: seq<UpdateItem>, i: nat, j: nat)
    requires UpdateHighCount(items) <= 1
    requires i < |items| && j < |items| && items[i].priority == Some(High) && items[j].priority == Some(High)
    ensures i == j
    decreases |items|
  {
    var n := |items| - 1;
    var init := items[..n];
    if i < n && j < n {
      assert init[i] == items[i] && init[j] == items[j];
      UpdateHighUnique(init, i, j);
    } else if i < n || j < n {
      assert false;
    }
  }

  /** `id` is a task of `user` dated `date`: one the batch query loads. */
  predicate OnDate(rows: Rows, id: string, user: string, date: int)
  {
    id in rows && rows[id].userId == user && rows[id].dueDate == Some(date)
  }

  /** All item ids are tasks of `user` on `date`. */
  predicate AllOnDate(rows: Rows, user: string, date: int, items: seq<UpdateItem>)
  {
    forall i :: 0 <= i < |items| ==> OnDate(rows, items[i].id, user, date)
  }

  /** The position of the first item whose id the query did not load. */
  function FirstMissing(rows: Rows, user: string, date: int, items: seq<UpdateItem>, from: nat): (r: Option<nat>)
    requires from <= |items|
    requires forall i :: 0 <= i < from ==> OnDate(rows, items[i].id, user, date)
    ensures r.None? <==> AllOnDate(rows, user, date, items)
    ensures r.Some? ==> from <= r.value < |items| && !OnDate(rows, items[r.value].id, user, date)
    ensures r.Some? ==> forall i :: 0 <= i < r.value ==> OnDate(rows, items[i].id, user, date)
    decreases |items| - from
  {
    if from == |items| then None
    else if !OnDate(rows, items[from].id, user, date) then Some(from)
    else FirstMissing(rows, user, date, items, from + 1)
  }

  /** The id of the first item that sets priority high. */
  function FirstHighId(items: seq<UpdateItem>): (r: Option<string>)
    ensures r.None? <==> forall i :: 0 <= i < |items| ==> items[i].priority != Some(High)
    ensures r.Some? ==> exists i :: 0 <= i < |items| && items[i].priority == Some(High) && items[i].id == r.value
  {
    if items == [] then None
    else if items[0].priority == Some(High) then Some(items[0].id)
    else
      var r := FirstHighId(items[1..]);
      assert forall i :: 0 < i < |items| ==> items[i] == items[1..][i - 1];
      r
  }

  /** With one high item, it is the first high item. */
  lemma UpdateHighIsFirst(items: seq<UpdateItem>, k: nat)
    requires UpdateHighCount(items) <= 1 && k < |items| && items[k].priority == Some(High)
    ensures FirstHighId(items) == Some(items[k].id)
  {
    var i :| 0 <= i < |items| && items[i].priority == Some(High) && items[i].id == FirstHighId(items).value;
    UpdateHighUnique(items, i, k);
  }

  /** The demotion: every high task of the date other than `keep` becomes medium. */
  function Demote(rows: Rows, user: string, date: int, keep: string): (r: Rows)
    ensures r.Keys == rows.Keys
    ensures forall id :: id in rows && IsHighOn(rows[id], user, date) && id != keep ==>
      r[id] == rows[id].(priority := Medium)
    ensures forall id :: id in rows && !(IsHighOn(rows[id], user, date) && id != keep) ==> r[id] == rows[id]
  {
    map id | id in rows :: if IsHighOn(rows[id], user, date) && id != keep then rows[id].(priority := Medium) else rows[id]
  }

  /** Every item applied in order to the row with its id. */
  function ApplyAll(rows: Rows, items: seq<UpdateItem>): (r: Rows)
    requires forall i :: 0 <= i < |items| ==> items[i].id in rows
    ensures r.Keys == rows.Keys
  {
    if items == [] then rows
    else
      var n := |items| - 1;
      assert forall i :: 0 <= i < n ==> items[..n][i] == items[i];
      var prev := ApplyAll(rows, items[..n]);
      prev[items[n].id := ApplyItem(prev[items[n].id], items[n])]
  }

  /** A row no item names is left as it was. */
  lemma {:induction false} ApplyAllKeeps(rows: Rows, items: seq<UpdateItem>, id: string)
    requires forall i :: 0 <= i < |items| ==> items[i].id in rows
    requires id in rows && forall i :: 0 <= i < |items| ==> items[i].id != id
    ensures ApplyAll(rows, items)[id] == rows[id]
    decreases |items|
  {
    if items != [] {
      var n := |items| - 1;
      assert forall i :: 0 <= i < n ==> items[..n][i] == items[i];
      ApplyAllKeeps(rows, items[..n], id);
    }
  }

  /** Items never change a row's owner or date. */
  lemma {:induction false} ApplyAllOwner(rows: Rows, items: seq<UpdateItem>, id: string)
    requires forall i :: 0 <= i < |items| ==> items[i].id in rows
    requires id in rows
    ensures ApplyAll(rows, items)[id].userId == rows[id].userId
    ensures ApplyAll(rows, items)[id].dueDate == rows[id].dueDate
    decreases |items|
  {
    if items != [] {
      var n := |items| - 1;
      assert forall i :: 0 <= i < n ==> items[..n][i] == items[i];
      ApplyAllOwner(rows, items[..n], id);
    }
  }

  /** A row ends high only if it was high or some item sets it high. */
  lemma {:induction false} ApplyAllHigh(rows: Rows, items: seq<UpdateItem>, id: string)
    requires forall i :: 0 <= i < |items| ==> items[i].id in rows
    requires id in rows && ApplyAll(rows, items)[id].priority == High
    ensures rows[id].priority == High ||
      exists k :: 0 <= k < |items| && items[k].id == id && items[k].priority == Some(High)
    decreases |items|
  {
    if items != [] {
      var n := |items| - 1;
      var init := items[..n];
      assert forall i :: 0 <= i < n ==> init[i] == items[i];
      var prev := ApplyAll(rows, init);
      if items[n].id == id && items[n].priority == Some(High) {
      } else if prev[id].priority == High {
        ApplyAllHigh(rows, init, id);
        if rows[id].priority != High {
          var k :| 0 <= k < n && init[k].id == id && init[k].priority == Some(High);
          assert items[k] == init[k];
        }
      }
    }
  }

  /**
   * The last item that names a row and carries a priority decides that
   * row's priority.
   */
  lemma {:induction false} ApplyAllPriority(rows: Rows, items: seq<UpdateItem>, k: nat)
    requires forall i :: 0 <= i < |items| ==> items[i].id in rows
    requires k < |items| && items[k].priority.Some?
    requires forall j :: k < j < |items| && items[j].id == items[k].id ==> items[j].priority.None?
    ensures ApplyAll(rows, items)[items[k].id].priority == items[k].priority.value
    decreases |items|
  {
    var n := |items| - 1;
    var init := items[..n];
    assert forall i :: 0 <= i < n ==> init[i] == items[i];
    if k < n {
      ApplyAllPriority(rows, init, k);
    }
  }

  /**
   * The table the merges start from: when an item sets high, every other
   * high task of the date has been demoted to medium.
   */
  function Staged(rows: Rows, user: string, date: int, items: seq<UpdateItem>): (r: Rows)
    ensures r.Keys == rows.Keys
    ensures forall id :: id in rows ==> r[id].userId == rows[id].userId && r[id].dueDate == rows[id].dueDate
  {
    var newHigh := FirstHighId(items);
    if newHigh.None? then rows else Demote(rows, user, date, newHigh.value)
  }

  /**
   * `batch_update_tasks` on the table: the high-count check, then the
   * lookup of every item id for the user and date, then the demotion of the
   * date's other high task when an item sets high, then the merges in item
   * order.  Nothing is written unless every check passes.
   */
  function BatchUpdated(rows: Rows, user: string, date: int, items: seq<UpdateItem>): (r: Result<Rows, Failure>)
    ensures UpdateHighCount(items) > 1 ==> r == Err(TooManyHigh)
    ensures UpdateHighCount(items) <= 1 && !AllOnDate(rows, user, date, items) ==>
      r == Err(TaskNotFound(items[FirstMissing(rows, user, date, items, 0).value].id, date))
    ensures r.Ok? ==> AllOnDate(rows, user, date, items) && r.value.Keys == rows.Keys
  {
    if UpdateHighCount(items) > 1 then Err(TooManyHigh)
    else
      var missing := FirstMissing(rows, user, date, items, 0);
      if missing.Some? then Err(TaskNotFound(items[missing.value].id, date))
      else if FirstHighId(items).Some? && HighPriorityTask(rows, user, date).Err? then
        Err(HighPriorityTask(rows, user, date).error)
      else Ok(ApplyAll(Staged(rows, user, date, items), items))
  }

  /** While the rule holds, a batch update fails only on its own input. */
  lemma BatchUpdateFailures(rows: Rows, user: string, date: int, items: seq<UpdateItem>)
    requires SingleHigh(rows)
    ensures BatchUpdated(rows, user, date, items).Ok? <==>
      UpdateHighCount(items) <= 1 && AllOnDate(rows, user, date, items)
  {
    HighLookupSucceeds(rows, user, date);
  }

  /**
   * Tasks the request does not name keep their values, except the date's
   * previous high task, which is demoted to medium.
   */
  lemma BatchUpdateFrame(rows: Rows, user: string, date: int, items: seq<UpdateItem>, id: string)
    requires BatchUpdated(rows, user, date, items).Ok?
    requires id in rows && forall i :: 0 <= i < |items| ==> items[i].id != id
    ensures !IsHighOn(rows[id], user, date) ==> BatchUpdated(rows, user, date, items).value[id] == rows[id]
    ensures IsHighOn(rows[id], user, date) && FirstHighId(items).None? ==>
      BatchUpdated(rows, user, date, items).value[id] == rows[id]
    ensures IsHighOn(rows[id], user, date) && FirstHighId(items).Some? ==>
      BatchUpdated(rows, user, date, items).value[id] == rows[id].(priority := Medium)
  {
    BatchUpdatedOk(rows, user, date, items);
    var staged := Staged(rows, user, date, items);
    ApplyAllKeeps(staged, items, id);
    if FirstHighId(items).Some? {
      var k :| 0 <= k < |items| && items[k].priority == Some(High) && items[k].id == FirstHighId(items).value;
    }
  }

  /** The last item naming a task with a priority decides that task's priority. */
  lemma BatchUpdatePriority(rows: Rows, user: string, date: int, items: seq<UpdateItem>, k: nat)
    requires BatchUpdated(rows, user, date, items).Ok?
    requires k < |items| && items[k].priority.Some?
    requires forall j :: k < j < |items| && items[j].id == items[k].id ==> items[j].priority.None?
    ensures BatchUpdated(rows, user, date, items).value[items[k].id].priority == items[k].priority.value
  {
    BatchUpdatedOk(rows, user, date, items);
    ApplyAllPriority(Staged(rows, user, date, items), items, k);
  }

  /** A successful batch update is the merges applied to the staged table. */
  lemma BatchUpdatedOk(rows: Rows, user: string, date: int, items: seq<UpdateItem>)
    requires BatchUpdated(rows, user, date, items).Ok?
    ensures AllOnDate(rows, user, date, items)
    ensures BatchUpdated(rows, user, date, items).value == ApplyAll(Staged(rows, user, date, items), items)
  {
  }

  /**
   * A task high after a successful batch update is the first task the
   * request sets high, or a task that was high before and is not on the
   * updated date's slot when the request sets one high.
   */
  lemma FinalHighSource(rows: Rows, user: string, date: int, items: seq<UpdateItem>, x: string)
    requires UpdateHighCount(items) <= 1 && forall i :: 0 <= i < |items| ==> items[i].id in rows
    requires x in rows && ApplyAll(Staged(rows, user, date, items), items)[x].priority == High
    ensures FirstHighId(items) == Some(x) ||
      (rows[x].priority == High && !(FirstHighId(items).Some? && IsHighOn(rows[x], user, date)))
  {
    var staged := Staged(rows, user, date, items);
    ApplyAllHigh(staged, items, x);
    if exists k :: 0 <= k < |items| && items[k].id == x && items[k].priority == Some(High) {
      var k :| 0 <= k < |items| && items[k].id == x && items[k].priority == Some(High);
      UpdateHighIsFirst(items, k);
    } else {
      StagedHigh(rows, user, date, items, x);
    }
  }

  /** A task still high after staging was high, and is the kept task or off the date. */
  lemma StagedHigh(rows: Rows, user: string, date: int, items: seq<UpdateItem>, x: string)
    requires x in rows && Staged(rows, user, date, items)[x].priority == High
    ensures rows[x].priority == High
    ensures FirstHighId(items).Some? ==> x == FirstHighId(items).value || !IsHighOn(rows[x], user, date)
  {
  }

  /** Two high tasks sharing a date after a successful batch update are one task. */
  lemma BatchUpdatePair(rows: Rows, user: string, date: int, items: seq<UpdateItem>, a: string, b: string)
    requires SingleHigh(rows) && BatchUpdated(rows, user, date, items).Ok?
    requires a in rows && b in rows
    requires SameHighSlot(BatchUpdated(rows, user, date, items).value[a], BatchUpdated(rows, user, date, items).value[b])
    ensures a == b
  {
    BatchUpdatedOk(rows, user, date, items);
    var staged := Staged(rows, user, date, items);
    ApplyAllOwner(staged, items, a);
    ApplyAllOwner(staged, items, b);
    FinalHighSource(rows, user, date, items, a);
    FinalHighSource(rows, user, date, items, b);
    if FirstHighId(items).Some? {
      var i :| 0 <= i < |items| && items[i].priority == Some(High) && items[i].id == FirstHighId(items).value;
      assert OnDate(rows, items[i].id, user, date);
    }
    if FirstHighId(items) != Some(a) && FirstHighId(items) != Some(b) {
      assert SameHighSlot(rows[a], rows[b]);
    }
  }

  /** A successful batch update keeps one high task per date. */
  /** The same for the table as flushed, each changed row stamped. */
  lemma BatchUpdateFlushKeepsSingleHigh(rows: Rows, user: string, date: int, items: seq<UpdateItem>, now: int)
    requires SingleHigh(rows) && BatchUpdated(rows, user, date, items).Ok?
    ensures SingleHigh(FlushAll(rows, BatchUpdated(rows, user, date, items).value, now))
  {
    BatchUpdateKeepsSingleHigh(rows, user, date, items);
    FlushAllKeepsSingleHigh(rows, BatchUpdated(rows, user, date, items).value, now);
  }

  lemma BatchUpdateKeepsSingleHigh(rows: Rows, user: string, date: int, items: seq<UpdateItem>)
    requires SingleHigh(rows) && BatchUpdated(rows, user, date, items).Ok?
    ensures SingleHigh(BatchUpdated(rows, user, date, items).value)
  {
    var after := BatchUpdated(rows, user, date, items).value;
    forall a, b | a in after && b in after && SameHighSlot(after[a], after[b]) ensures a == b {
      BatchUpdatePair(rows, user, date, items, a, b);
    }
  }

  /** `high_count` over the update items. */
  method CountHighUpdates(items: seq<UpdateItem>) returns (n: nat)
    ensures n == UpdateHighCount(items)
  {
    n := 0;
    for i := 0 to |items|
      invariant n == UpdateHighCount(items[..i])
    {
      assert items[..i + 1][..i] == items[..i];
      if items[i].priority == Some(High) {
        n := n + 1;
      }
    }
    assert items[..|items|] == items;
  }

  /** The loop that raises on the first id the query did not load. */
  method FindMissing(rows: Rows, user: string, date: int, items: seq<UpdateItem>) returns (r: Option<nat>)
    ensures r == FirstMissing(rows, user, date, items, 0)
  {
    var i := 0;
    while i < |items|
      invariant i <= |items|
      invariant forall j :: 0 <= j < i ==> OnDate(rows, items[j].id, user, date)
      invariant FirstMissing(rows, user, date, items, 0) == FirstMissing(rows, user, date, items, i)
    {
      if !OnDate(rows, items[i].id, user, date) {
        return Some(i);
      }
      i := i + 1;
    }
    return None;
  }

  /** The loop that stops at the first item setting high. */
  method FindFirstHigh(items: seq<UpdateItem>) returns (r: Option<string>)
    ensures r == FirstHighId(items)
  {
    r := None;
    var i := 0;
    while i < |items|
      invariant i <= |items|
      invariant FirstHighId(items) == FirstHighId(items[i..])
    {
      assert items[i..][1..] == items[i + 1..];
      if items[i].priority == Some(High) {
        r := Some(items[i].id);
        break;
      }
      i := i + 1;
    }
    if i == |items| {
      assert items[i..] == [];
    }
  }

  /** The merge loop, item by item, on rows that may repeat. */
  method ApplyEach(rows: Rows, items: seq<UpdateItem>) returns (out: Rows)
    requires forall i :: 0 <= i < |items| ==> items[i].id in rows
    ensures out == ApplyAll(rows, items)
  {
    out := rows;
    for i := 0 to |items|
      invariant out == ApplyAll(rows, items[..i])
    {
      assert items[..i + 1][..i] == items[..i];
      out := out[items[i].id := ApplyItem(out[items[i].id], items[i])];
    }
    assert items[..|items|] == items;
  }

  /** The demotion as the code does it: the one looked-up high row, if it is another task. */
  lemma DemoteOne(rows: Rows, user: string, date: int, keep: string, s: set<string>)
    requires |s| <= 1 && forall id :: id in s <==> id in rows && IsHighOn(rows[id], user, date)
    ensures s == {} ==> Demote(rows, user, date, keep) == rows
    ensures forall e :: e in s && e != keep ==> Demote(rows, user, date, keep) == rows[e := rows[e].(priority := Medium)]
    ensures forall e :: e in s && e == keep ==> Demote(rows, user, date, keep) == rows
  {
    if s != {} {
      var e :| e in s;
      var rest := s - {e};
      assert s == rest + {e};
      assert rest == {};
      assert s == {e};
    }
  }

  /** The rows of a successful batch update, read back in item order. */
  function Listed(rows: Rows, items: seq<UpdateItem>): (r: seq<Task>)
    requires forall i :: 0 <= i < |items| ==> items[i].id in rows
    ensures |r| == |items| && forall i :: 0 <= i < |items| ==> r[i] == rows[items[i].id]
  {
    seq(|items|, i requires 0 <= i < |items| => rows[items[i].id])
  }

  // ---------------------------------------------------------------------------
  // Single-task update
  // ---------------------------------------------------------------------------

  /** `TaskUpdate`: every field optional; None leaves the column as it is. */
  datatype TaskUpdate = TaskUpdate(
    title: Option<string>, subtitle: Option<string>, description: Option<string>,
    category: Option<Category>, priority: Option<Priority>, durationMins: Option<int>,
    iconType: Option<IconType>, status: Option<Status>, dueDate: Option<int>, orderIndex: Option<int>)

  /**
   * `update_task`'s field-by-field write of the fields that are present, as
   * the assignments leave the object; the flush then stamps `updated_at`
   * (`Flushed`).
   */
  function ApplyUpdate(t: Task, u: TaskUpdate): (r: Task)
    ensures r.taskId == t.taskId && r.userId == t.userId
    ensures r.createdAt == t.createdAt && r.updatedAt == t.updatedAt
    ensures r.title == u.title.GetOr(t.title) && r.category == u.category.GetOr(t.category)
    ensures r.subtitle == (if u.subtitle.Some? then u.subtitle else t.subtitle)
    ensures r.description == (if u.description.Some? then u.description else t.description)
    ensures r.priority == u.priority.GetOr(t.priority) && r.durationMins == u.durationMins.GetOr(t.durationMins)
    ensures r.iconType == u.iconType.GetOr(t.iconType) && r.status == u.status.GetOr(t.status)
    ensures r.dueDate == (if u.dueDate.Some? then u.dueDate else t.dueDate)
    ensures r.orderIndex == u.orderIndex.GetOr(t.orderIndex)
  {
    t.(title := u.title.GetOr(t.title),
       subtitle := if u.subtitle.Some? then u.subtitle else t.subtitle,
       description := if u.description.Some? then u.description else t.description,
       category := u.category.GetOr(t.category),
       priority := u.priority.GetOr(t.priority),
       durationMins := u.durationMins.GetOr(t.durationMins),
       iconType := u.iconType.GetOr(t.iconType),
       status := u.status.GetOr(t.status),
       dueDate := if u.dueDate.Some? then u.dueDate else t.dueDate,
       orderIndex := u.orderIndex.GetOr(t.orderIndex))
  }

  /** An update with no fields leaves the task as it is; any update applied twice is applied once. */
  lemma ApplyUpdateLaws(t: Task, u: TaskUpdate)
    ensures ApplyUpdate(t, TaskUpdate(None, None, None, None, None, None, None, None, None, None)) == t
    ensures ApplyUpdate(ApplyUpdate(t, u), u) == ApplyUpdate(t, u)
  {
  }

  /**
   * `update_task` does not check the one-high-task rule: raising a second
   * task of a date to high leaves two high tasks on that date.
   */
  lemma UpdateTaskBypassesRule()
    ensures exists rows: Rows, id: string, u: TaskUpdate ::
      id in rows && SingleHigh(rows) && !SingleHigh(rows[id := ApplyUpdate(rows[id], u)])
  {
    var a := NewRow("a", "u", "A", None, Other, High, 25, DefaultIcon, 1, 0, 0);
    var b := NewRow("b", "u", "B", None, Other, Medium, 25, DefaultIcon, 1, 0, 0);
    var rows := map["a" := a, "b" := b];
    var u := TaskUpdate(None, None, None, None, Some(High), None, None, None, None, None);
    forall x, y | x in rows && y in rows && SameHighSlot(rows[x], rows[y]) ensures x == y {
    }
    var after := rows["b" := ApplyUpdate(rows["b"], u)];
    assert SameHighSlot(after["a"], after["b"]);
  }

  // ---------------------------------------------------------------------------
  // Reading a date
  // ---------------------------------------------------------------------------

  /**
   * The `taskpriority` database enum is declared high, medium, low, so
   * `ORDER BY priority` puts high first.
   */
  function PriorityRank(p: Priority): (r: int)
    ensures r == 0 <==> p == High
    ensures 0 <= r <= 2
  {
    match p
    case High => 0
    case Medium => 1
    case Low => 2
  }

  /** `order_by(Task.priority, Task.order_index)`. */
  function PriorityKey(t: Task): Key
  {
    (PriorityRank(t.priority), Num(t.orderIndex))
  }

  /** The filter of `get_tasks_for_date`. */
  predicate Selected(t: Task, user: string, date: int, includeCompleted: bool)
  {
    t.userId == user && t.dueDate == Some(date) && (includeCompleted || t.status != Completed)
  }

  /** The rows the query selects, in the table's scan order `order`. */
  function DayRows(rows: Rows, order: seq<string>, user: string, date: int, includeCompleted: bool): (r: seq<Task>)
    ensures forall t :: t in r <==> exists i :: 0 <= i < |order| && order[i] in rows && rows[order[i]] == t &&
                                      Selected(t, user, date, includeCompleted)
  {
    if order == [] then []
    else
      var rest := DayRows(rows, order[1..], user, date, includeCompleted);
      assert forall i :: 0 < i < |order| ==> order[i] == order[1..][i - 1];
      if order[0] in rows && Selected(rows[order[0]], user, date, includeCompleted) then [rows[order[0]]] + rest
      else rest
  }

  /**
   * `get_tasks_for_date`: the user's tasks of the date (without the
   * completed ones when asked), ordered by priority and then order index;
   * the database's order among equal keys is represented by the scan order.
   */
  function TasksForDate(rows: Rows, order: seq<string>, user: string, date: int, includeCompleted: bool): (r: seq<Task>)
    ensures SortedBy(r, PriorityKey)
    ensures multiset(r) == multiset(DayRows(rows, order, user, date, includeCompleted))
  {
    SortBy(DayRows(rows, order, user, date, includeCompleted), PriorityKey)
  }

  /** With the scan covering the table, the list holds exactly the selected tasks. */
  lemma TasksForDateMembers(rows: Rows, order: seq<string>, user: string, date: int, includeCompleted: bool, t: Task)
    requires forall id :: id in rows <==> id in order
    ensures t in TasksForDate(rows, order, user, date, includeCompleted) <==>
      exists id :: id in rows && rows[id] == t && Selected(t, user, date, includeCompleted)
  {
    var d := DayRows(rows, order, user, date, includeCompleted);
    var r := TasksForDate(rows, order, user, date, includeCompleted);
    assert t in r <==> t in multiset(r);
    assert t in d <==> t in multiset(d);
    if exists id :: id in rows && rows[id] == t && Selected(t, user, date, includeCompleted) {
      var id :| id in rows && rows[id] == t && Selected(t, user, date, includeCompleted);
      var i :| 0 <= i < |order| && order[i] == id;
    }
  }

  /** The position of the first high task. */
  function FirstHighIndex(tasks: seq<Task>): (r: Option<nat>)
    ensures r.None? <==> forall i :: 0 <= i < |tasks| ==> tasks[i].priority != High
    ensures r.Some? ==> r.value < |tasks| && tasks[r.value].priority == High
    ensures r.Some? ==> forall i :: 0 <= i < r.value ==> tasks[i].priority != High
  {
    if tasks == [] then None
    else if tasks[0].priority == High then Some(0)
    else
      var r := FirstHighIndex(tasks[1..]);
      assert forall i :: 0 < i < |tasks| ==> tasks[i] == tasks[1..][i - 1];
      if r.None? then None else Some(r.value + 1)
  }

  /** `priorityTask`: the first high task, if any. */
  function PriorityTask(tasks: seq<Task>): (r: Option<Task>)
  {
    match FirstHighIndex(tasks)
    case None => None
    case Some(k) => Some(tasks[k])
  }

  /** `laterTasks`: every task except the priority task, in list order. */
  function LaterTasks(tasks: seq<Task>): (r: seq<Task>)
  {
    match FirstHighIndex(tasks)
    case None => tasks
    case Some(k) => tasks[..k] + tasks[k + 1..]
  }

  /**
   * The split is a partition: the priority task and the later tasks
   * together are the list, and the priority task is high.
   */
  lemma SplitPartition(tasks: seq<Task>)
    ensures multiset(LaterTasks(tasks)) + (if PriorityTask(tasks).Some? then multiset{PriorityTask(tasks).value} else multiset{})
      == multiset(tasks)
    ensures PriorityTask(tasks).Some? <==> exists i :: 0 <= i < |tasks| && tasks[i].priority == High
    ensures PriorityTask(tasks).Some? ==> PriorityTask(tasks).value.priority == High
    ensures |LaterTasks(tasks)| == |tasks| - (if PriorityTask(tasks).Some? then 1 else 0)
  {
    var k := FirstHighIndex(tasks);
    if k.Some? {
      assert tasks == tasks[..k.value] + [tasks[k.value]] + tasks[k.value + 1..];
    }
  }

  /** With at most one high task in the list, no later task is high. */
  lemma LaterHasNoHigh(tasks: seq<Task>)
    requires forall i, j :: 0 <= i < j < |tasks| ==> !(tasks[i].priority == High && tasks[j].priority == High)
    ensures forall t :: t in LaterTasks(tasks) ==> t.priority != High
  {
    var k := FirstHighIndex(tasks);
    if k.Some? {
      var later := tasks[..k.value] + tasks[k.value + 1..];
      assert LaterTasks(tasks) == later;
      assert tasks[k.value].priority == High;
      forall t | t in later ensures t.priority != High {
        var i :| 0 <= i < |later| && later[i] == t;
        if i < k.value {
          assert t == tasks[i];
        } else {
          assert t == tasks[i + 1] && k.value < i + 1;
        }
      }
    }
  }

  /** In a list sorted by priority, the priority task is the head. */
  lemma PriorityTaskIsHead(tasks: seq<Task>)
    requires SortedBy(tasks, PriorityKey) && PriorityTask(tasks).Some?
    ensures PriorityTask(tasks) == Some(tasks[0])
  {
    var k := FirstHighIndex(tasks).value;
    assert KeyLe(PriorityKey(tasks[0]), PriorityKey(tasks[k]));
  }

  /** The loop of `get_daily_tasks` that splits the date's list. */
  method SplitDaily(tasks: seq<Task>) returns (priority: Option<Task>, later: seq<Task>)
    ensures priority == PriorityTask(tasks) && later == LaterTasks(tasks)
  {
    priority := None;
    later := [];
    ghost var k: nat := 0;
    for i := 0 to |tasks|
      invariant priority.None? ==> later == tasks[..i] && forall j :: 0 <= j < i ==> tasks[j].priority != High
      invariant priority.Some? ==> k < i && FirstHighIndex(tasks) == Some(k) && priority == Some(tasks[k])
      invariant priority.Some? ==> later == tasks[..k] + tasks[k + 1..i]
    {
      if tasks[i].priority == High && priority.None? {
        priority := Some(tasks[i]);
        k := i;
        assert tasks[k + 1..i + 1] == [];
      } else {
        if priority.Some? {
          assert tasks[k + 1..i + 1] == tasks[k + 1..i] + [tasks[i]];
        } else {
          assert tasks[..i + 1] == tasks[..i] + [tasks[i]];
        }
        later := later + [tasks[i]];
      }
    }
    if priority.None? {
      assert tasks[..|tasks|] == tasks;
    } else {
      assert k < |tasks| && FirstHighIndex(tasks) == Some(k);
      assert tasks[k + 1..|tasks|] == tasks[k + 1..];
      assert later == tasks[..k] + tasks[k + 1..];
    }
  }

  /** The tasks of one category, in list order. */
  function OfCategory(tasks: seq<Task>, c: Category): (r: seq<Task>)
    ensures forall t :: t in r <==> t in tasks && t.category == c
    ensures |r| <= |tasks|
  {
    if tasks == [] then []
    else
      var n := |tasks| - 1;
      var init := OfCategory(tasks[..n], c);
      assert tasks == tasks[..n] + [tasks[n]];
      if tasks[n].category == c then init + [tasks[n]] else init
  }

  /** Every task lands in exactly one group: the group sizes add up to the list. */
  lemma {:induction false} GroupSizes(tasks: seq<Task>)
    ensures |OfCategory(tasks, Work)| + |OfCategory(tasks, Personal)| + |OfCategory(tasks, Health)| +
            |OfCategory(tasks, Learning)| + |OfCategory(tasks, Other)| == |tasks|
  {
    if tasks != [] {
      GroupSizes(tasks[..|tasks| - 1]);
    }
  }

  /** One more task extends its own category's group and no other. */
  lemma OfCategoryStep(tasks: seq<Task>, i: nat, c: Category)
    requires i < |tasks|
    ensures OfCategory(tasks[..i + 1], c) == OfCategory(tasks[..i], c) + (if tasks[i].category == c then [tasks[i]] else [])
  {
    assert tasks[..i + 1][..i] == tasks[..i];
  }

  /** Every category is one of the five groups. */
  lemma CategoryListed(c: Category)
    ensures c in AllCategories
  {
    match c
    case Work =>
    case Personal =>
    case Health =>
    case Learning =>
    case Other =>
  }

  /** Adding the next task to its own group keeps every group equal to the tasks seen so far. */
  lemma GroupStep(grouped: map<Category, seq<Task>>, tasks: seq<Task>, i: nat)
    requires i < |tasks|
    requires tasks[i].category in grouped
    requires forall c :: c in grouped ==> grouped[c] == OfCategory(tasks[..i], c)
    ensures var next := grouped[tasks[i].category := grouped[tasks[i].category] + [tasks[i]]];
            forall c :: c in next ==> next[c] == OfCategory(tasks[..i + 1], c)
  {
    var next := grouped[tasks[i].category := grouped[tasks[i].category] + [tasks[i]]];
    forall c | c in next
      ensures next[c] == OfCategory(tasks[..i + 1], c)
    {
      OfCategoryStep(tasks, i, c);
    }
  }

  const AllCategories: set<Category> := {Work, Personal, Health, Learning, Other}

  /** The loop of `get_tasks_by_category`: a list for every category, filled in list order. */
  method GroupByCategory(tasks: seq<Task>) returns (grouped: map<Category, seq<Task>>)
    ensures grouped.Keys == AllCategories
    ensures forall c :: c in grouped ==> grouped[c] == OfCategory(tasks, c)
  {
    grouped := map[Work := [], Personal := [], Health := [], Learning := [], Other := []];
    for i := 0 to |tasks|
      invariant grouped.Keys == AllCategories
      invariant forall c :: c in grouped ==> grouped[c] == OfCategory(tasks[..i], c)
    {
      var c := tasks[i].category;
      CategoryListed(c);
      GroupStep(grouped, tasks, i);
      grouped := grouped[c := grouped[c] + [tasks[i]]];
    }
    assert tasks[..|tasks|] == tasks;
  }

  // ---------------------------------------------------------------------------
  // Day summaries
  // ---------------------------------------------------------------------------

  /** The user's tasks dated `d`. */
  function DayIds(rows: Rows, user: string, d: int): set<string>
  {
    set id | id in rows && rows[id].userId == user && rows[id].dueDate == Some(d)
  }

  /** Those of them that are completed. */
  function DoneIds(rows: Rows, user: string, d: int): set<string>
  {
    set id | id in rows && rows[id].userId == user && rows[id].dueDate == Some(d) && rows[id].status == Completed
  }

  lemma {:induction false} SubsetCard<T>(a: set<T>, b: set<T>)
    requires a <= b
    ensures |a| <= |b|
    ensures |a| == |b| ==> a == b
    decreases |b|
  {
    if b != {} {
      var x :| x in b;
      var b' := b - {x};
      assert b == b' + {x};
      var a' := a - {x};
      if x in a {
        assert a == a' + {x};
      } else {
        assert a' == a;
      }
      SubsetCard(a', b');
    }
  }

  /** The aggregate row of one date: (count, sum of completed). */
  function DateCounts(rows: Rows, user: string, d: int): (r: Counts)
    ensures 0 <= r.completed <= r.total
    ensures r.total == |DayIds(rows, user, d)| && r.completed == |DoneIds(rows, user, d)|
    ensures r.total > 0 && r.completed == r.total <==>
      DayIds(rows, user, d) != {} && forall id :: id in DayIds(rows, user, d) ==> rows[id].status == Completed
  {
    var all := DayIds(rows, user, d);
    var done := DoneIds(rows, user, d);
    SubsetCard(done, all);
    assert (forall id :: id in all ==> rows[id].status == Completed) ==> done == all;
    Counts(|all|, |done|)
  }

  /**
   * `_build_day_summaries`: one summary per date from `ref` back over
   * `numDays` days, each carrying that date's aggregate row.
   */
  function BuildDaySummaries(rows: Rows, user: string, ref: int, numDays: int, today: int): (r: seq<DaySummary>)
    ensures |r| == if numDays > 0 then numDays else 0
    ensures forall i :: 0 <= i < |r| ==> r[i].date == ref - i
    ensures forall i :: 0 <= i < |r| ==> r[i].totalTasks == |DayIds(rows, user, ref - i)|
    ensures forall i :: 0 <= i < |r| ==> r[i].completedTasks == |DoneIds(rows, user, ref - i)|
  {
    DaySummaries(ref, numDays, today, map d | ref - numDays < d <= ref :: DateCounts(rows, user, d))
  }

  /** A day pill is marked completed exactly when the day has tasks and all are completed. */
  lemma DayPillCompleted(rows: Rows, user: string, ref: int, numDays: int, today: int, i: int)
    requires 0 <= i < numDays
    ensures var r := BuildDaySummaries(rows, user, ref, numDays, today);
      i < |r| && (r[i].isCompleted <==>
        DayIds(rows, user, ref - i) != {} && forall id :: id in DayIds(rows, user, ref - i) ==> rows[id].status == Completed)
    ensures var r := BuildDaySummaries(rows, user, ref, numDays, today);
      i < |r| && (r[i].isToday <==> ref - i == today)
  {
    var counts := map d | ref - numDays < d <= ref :: DateCounts(rows, user, d);
    var r := BuildDaySummaries(rows, user, ref, numDays, today);
    assert r[i] == SummaryFor(ref - i, today, CountsOn(counts, ref - i));
    assert CountsOn(counts, ref - i) == DateCounts(rows, user, ref - i);
  }

  /** The payload of `get_daily_tasks`. */
  datatype DailyPayload = DailyPayload(
    date: int, hasTasks: bool, priorityTask: Option<Task>, laterTasks: seq<Task>, daySummaries: seq<DaySummary>)

  // ---------------------------------------------------------------------------
  // Celebration
  // ---------------------------------------------------------------------------

  datatype Celebration = Celebration(message: string, subMessage: string, icon: string, animation: string)

  const CelebrationMessages: seq<Celebration> := [
    Celebration("Beautifully done.", "Take a deep breath.", "star", "confetti"),
    Celebration("You're crushing it!", "Keep the momentum going.", "trophy", "sparkle"),
    Celebration("One step closer.", "Progress over perfection.", "growth", "pulse"),
    Celebration("Well done!", "Your future self thanks you.", "check", "bounce")]

  const AllComplete: Celebration := Celebration("All tasks complete!", "You've conquered the day.", "crown", "fireworks")

  /**
   * `_generate_celebration`: the message cycles with the completed count
   * (Python's `%` by a positive divisor is never negative, like Dafny's),
   * and finishing every task of a non-empty day gives the crown message.
   */
  function GenerateCelebration(completed: int, total: int): (r: Celebration)
    ensures r == AllComplete <==> completed == total && total > 0
    ensures !(completed == total && total > 0) ==> r in CelebrationMessages
  {
    if completed == total && total > 0 then AllComplete
    else CelebrationMessages[(completed - 1) % |CelebrationMessages|]
  }

  /** The cycle has length four; no completions gives the last message, one gives the first. */
  lemma CelebrationCycle(completed: int, total: int, total': int)
    requires !(completed == total && total > 0) && !(completed + 4 == total' && total' > 0)
    ensures GenerateCelebration(completed + 4, total') == GenerateCelebration(completed, total)
    ensures GenerateCelebration(0, total).message == "Well done!"
    ensures total != 1 ==> GenerateCelebration(1, total).message == "Beautifully done."
  {
    assert (completed + 4 - 1) % 4 == (completed - 1) % 4;
  }

  /** What `complete_task` returns: the task, the message and today's counts. */
  datatype Completion = Completion(task: Task, celebration: Celebration, todayCompleted: int, todayTotal: int)

  // ---------------------------------------------------------------------------
  // The service over the task table
  // ---------------------------------------------------------------------------

  /**
   * The checks and merges of `batch_update_tasks`, before the flush: the
   * high-priority count, the lookup of every id on the date, the demotion
   * of the date's high task, then each item's fields in order.
   */
  method StageBatch(rows: Rows, user: string, date: int, items: seq<UpdateItem>) returns (r: Result<Rows, Failure>)
    ensures r == BatchUpdated(rows, user, date, items)
  {
    var n := CountHighUpdates(items);
    if n > 1 {
      return Err(TooManyHigh);
    }
    var missing := FindMissing(rows, user, date, items);
    if missing.Some? {
      return Err(TaskNotFound(items[missing.value].id, date));
    }
    var newHigh := FindFirstHigh(items);
    var staged := rows;
    if newHigh.Some? {
      var existing := HighPriorityTask(rows, user, date);
      if existing.Err? {
        return Err(existing.error);
      }
      DemoteOne(rows, user, date, newHigh.value, existing.value);
      if existing.value != {} {
        var e :| e in existing.value;
        if e != newHigh.value {
          staged := staged[e := staged[e].(priority := Medium)];
        }
      }
    }
    assert staged == Staged(rows, user, date, items);
    var merged := ApplyEach(staged, items);
    return Ok(merged);
  }

  /**
   * What the flush writes for a loaded row: `updated_at` has `onupdate=now()`,
   * so a row whose columns were changed is written with `updated_at` set to
   * the transaction's `now()`; a row assigned its own values is not written.
   */
  function Flushed(before: Task, after: Task, now: int): (r: Task)
    ensures r.(updatedAt := after.updatedAt) == after
    ensures after == before ==> r == before
    ensures after != before ==> r.updatedAt == Some(now)
  {
    if after == before then before else after.(updatedAt := Some(now))
  }

  /** The flush of a whole table: every changed row is stamped, the rest kept. */
  function FlushAll(before: Rows, after: Rows, now: int): (r: Rows)
    ensures r.Keys == after.Keys
    ensures forall id :: id in after && id in before ==> r[id] == Flushed(before[id], after[id], now)
    ensures forall id :: id in after && id !in before ==> r[id] == after[id]
    ensures after == before ==> r == before
  {
    map id | id in after :: if id in before then Flushed(before[id], after[id], now) else after[id]
  }

  /** The flush changes no column but `updated_at`, so it keeps the one-high-task rule. */
  lemma FlushAllKeepsSingleHigh(before: Rows, after: Rows, now: int)
    requires SingleHigh(after)
    ensures SingleHigh(FlushAll(before, after, now))
  {
    var r := FlushAll(before, after, now);
    forall a, b | a in r && b in r && SameHighSlot(r[a], r[b])
      ensures a == b
    {
      assert r[a].(updatedAt := after[a].updatedAt) == after[a];
      assert r[b].(updatedAt := after[b].updatedAt) == after[b];
      assert SameHighSlot(after[a], after[b]);
    }
  }

  class TaskStore {
    var rows: Rows

    constructor()
      ensures rows == map[]
    {
      rows := map[];
    }

    /**
     * `create_task_v2`: the task is dated the request's date or today; a high
     * task is refused when that date already has one, and nothing is added.
     */
    method CreateTaskV2(user: string, req: CreateRequest, today: int, newId: string, now: int) returns (r: Result<Task, Failure>)
      requires newId !in rows
      modifies this
      ensures r.Ok? <==> req.priority != High || HighIds(old(rows), user, req.date.GetOr(today)) == {}
      ensures r.Err? ==> rows == old(rows)
      ensures r.Err? && SingleHigh(old(rows)) ==> r.error == HighPriorityConflict(req.date.GetOr(today))
      ensures r.Ok? ==> rows == old(rows)[newId := r.value]
      ensures r.Ok? ==> r.value == NewRow(newId, user, req.title, req.subtitle, req.category, req.priority,
                                         req.durationMins, req.iconType, req.date.GetOr(today), DefaultOrderIndex, now)
      ensures SingleHigh(old(rows)) ==> SingleHigh(rows)
    {
      var date := if req.date.Some? then req.date.value else today;
      if SingleHigh(rows) {
        HighLookupSucceeds(rows, user, date);
      }
      if req.priority == High {
        var existing := HighPriorityTask(rows, user, date);
        if existing.Err? {
          return Err(existing.error);
        }
        if existing.value != {} {
          return Err(HighPriorityConflict(date));
        }
      }
      var t := NewRow(newId, user, req.title, req.subtitle, req.category, req.priority,
                      req.durationMins, req.iconType, date, DefaultOrderIndex, now);
      if SingleHigh(rows) {
        AddOneKeepsSingleHigh(rows, t);
      }
      rows := rows[newId := t];
      return Ok(t);
    }

    /**
     * `batch_create_tasks`: more than one high item is refused before the
     * table is read; a single high item is refused when the date already
     * has a high task; otherwise every item becomes a pending task of the
     * date, with its position as order index.
     */
    method BatchCreate(user: string, items: seq<BatchItem>, date: int, ids: seq<string>, now: int)
      returns (r: Result<seq<Task>, Failure>)
      requires |ids| == |items| && FreshIds(rows, ids)
      modifies this
      ensures BatchHighCount(items) > 1 ==> r == Err(TooManyHigh)
      ensures r.Ok? <==> BatchHighCount(items) == 0 || (BatchHighCount(items) == 1 && HighIds(old(rows), user, date) == {})
      ensures r.Err? && SingleHigh(old(rows)) && BatchHighCount(items) <= 1 ==> r == Err(HighPriorityConflict(date))
      ensures r.Err? ==> rows == old(rows)
      ensures r.Ok? ==> r.value == BatchRows(ids, user, items, date, now) && rows == AddRows(old(rows), r.value)
      ensures SingleHigh(old(rows)) ==> SingleHigh(rows)
    {
      var err := ValidateBatch(rows, user, items, date);
      if err.Some? {
        return Err(err.value);
      }
      var created := BuildBatch(ids, user, items, date, now);
      if SingleHigh(rows) {
        BatchCreateKeepsSingleHigh(rows, ids, user, items, date, now);
      }
      rows := AddRows(rows, created);
      return Ok(created);
    }

    /**
     * `batch_update_tasks`: the checks run before anything is written; on
     * success the updated rows are returned in item order, read after all
     * merges (a task named twice shows its final state twice).
     */
    method BatchUpdate(user: string, date: int, items: seq<UpdateItem>, now: int) returns (r: Result<seq<Task>, Failure>)
      modifies this
      ensures BatchUpdated(old(rows), user, date, items).Err? ==>
        r == Err(BatchUpdated(old(rows), user, date, items).error) && rows == old(rows)
      ensures BatchUpdated(old(rows), user, date, items).Ok? ==>
        rows == FlushAll(old(rows), BatchUpdated(old(rows), user, date, items).value, now) &&
        r == Ok(Listed(rows, items))
      ensures SingleHigh(old(rows)) ==> SingleHigh(rows)
    {
      var merged := StageBatch(rows, user, date, items);
      if merged.Err? {
        return Err(merged.error);
      }
      if SingleHigh(rows) {
        BatchUpdateFlushKeepsSingleHigh(rows, user, date, items, now);
      }
      rows := FlushAll(rows, merged.value, now);
      assert forall i :: 0 <= i < |items| ==> items[i].id in rows;
      return Ok(Listed(rows, items));
    }

    /**
     * `update_task`: the present fields are written to the stored task, and
     * the flush stamps it when that changed a column.
     */
    method UpdateTask(id: string, u: TaskUpdate, now: int) returns (r: Task)
      requires id in rows
      modifies this
      ensures r == Flushed(old(rows)[id], ApplyUpdate(old(rows)[id], u), now)
      ensures rows == old(rows)[id := r]
    {
      r := Flushed(rows[id], ApplyUpdate(rows[id], u), now);
      rows := rows[id := r];
    }

    /**
     * `complete_task`: the task becomes completed and the celebration is
     * chosen from today's counts, which are read before the change is
     * flushed and are therefore passed in.
     */
    method CompleteTask(id: string, today: Counts, now: int) returns (r: Completion)
      requires id in rows
      modifies this
      ensures rows == old(rows)[id := Flushed(old(rows)[id], old(rows)[id].MarkComplete(), now)]
      ensures r == Completion(rows[id], GenerateCelebration(today.completed, today.total), today.completed, today.total)
    {
      var t := Flushed(rows[id], rows[id].MarkComplete(), now);
      rows := rows[id := t];
      r := Completion(t, GenerateCelebration(today.completed, today.total), today.completed, today.total);
    }

    /** `uncomplete_task`: the task becomes pending, stamped when it was not already. */
    method UncompleteTask(id: string, now: int) returns (r: Task)
      requires id in rows
      modifies this
      ensures r == Flushed(old(rows)[id], old(rows)[id].MarkIncomplete(), now) && rows == old(rows)[id := r]
    {
      r := Flushed(rows[id], rows[id].MarkIncomplete(), now);
      rows := rows[id := r];
    }

    /**
     * `get_daily_tasks`: the date's list split into the priority task and
     * the later tasks, with the summaries of the seven days up to the date.
     */
    method GetDailyTasks(user: string, date: int, today: int, order: seq<string>) returns (p: DailyPayload)
      ensures p.date == date
      ensures p.hasTasks <==> TasksForDate(rows, order, user, date, true) != []
      ensures p.priorityTask == PriorityTask(TasksForDate(rows, order, user, date, true))
      ensures p.laterTasks == LaterTasks(TasksForDate(rows, order, user, date, true))
      ensures p.daySummaries == BuildDaySummaries(rows, user, date, 7, today)
    {
      var tasks := TasksForDate(rows, order, user, date, true);
      var summaries := BuildDaySummaries(rows, user, date, 7, today);
      var priority, later := SplitDaily(tasks);
      p := DailyPayload(date, |tasks| > 0, priority, later, summaries);
    }

    /** `get_tasks_by_category`: the date's list grouped under every category. */
    method GetTasksByCategory(user: string, date: int, includeCompleted: bool, order: seq<string>)
      returns (grouped: map<Category, seq<Task>>)
      ensures grouped.Keys == AllCategories
      ensures forall c :: c in grouped ==> grouped[c] == OfCategory(TasksForDate(rows, order, user, date, includeCompleted), c)
    {
      var tasks := TasksForDate(rows, order, user, date, includeCompleted);
      grouped := GroupByCategory(tasks);
    }
  }
}

=== FILE: text.dfy ===
/**
 * The string operations the services use: ASCII case mapping, substring
 * search, Python's `strip`, `split` and `replace`, and decimal formatting.
 * Case mapping covers the ASCII letters only; Python's Unicode-wide
 * `lower()` is not part of this model.
 */
module Text {

  predicate IsUpper(c: char) { 'A' <= c <= 'Z' }
  predicate IsLower(c: char) { 'a' <= c <= 'z' }
  predicate IsDigit(c: char) { '0' <= c <= '9' }
  predicate IsLetter(c: char) { IsUpper(c) || IsLower(c) }

  /** The characters Python's `str.isspace` accepts. */
  predicate IsSpace(c: char)
  {
    c == ' ' || '\t' <= c <= '\r' || '\U{1C}' <= c <= '\U{1F}' || c == '\U{85}' || c == '\U{A0}' ||
    c == '\U{1680}' || '\U{2000}' <= c <= '\U{200A}' || c == '\U{2028}' || c == '\U{2029}' ||
    c == '\U{202F}' || c == '\U{205F}' || c == '\U{3000}'
  }

  function LowerChar(c: char): (r: char)
    ensures IsUpper(c) ==> IsLower(r) && r as int == c as int + 32
    ensures !IsUpper(c) ==> r == c
  {
    if IsUpper(c) then (c as int + 32) as char else c
  }

  /** `s.lower()` on ASCII letters. */
  function Lower(s: string): (r: string)
    ensures |r| == |s|
    ensures forall i :: 0 <= i < |s| ==> r[i] == LowerChar(s[i])
  {
    if s == [] then [] else [LowerChar(s[0])] + Lower(s[1..])
  }

  /** Lowering twice is lowering once, and leaves no upper-case letter. */
  lemma LowerIdempotent(s: string)
    ensures Lower(Lower(s)) == Lower(s)
    ensures forall i :: 0 <= i < |s| ==> !IsUpper(Lower(s)[i])
  {
    assert forall i :: 0 <= i < |s| ==> Lower(Lower(s))[i] == Lower(s)[i];
  }

  /** A string without upper-case letters is its own lower-case form. */
  lemma LowerOfLower(s: string)
    requires forall i :: 0 <= i < |s| ==> !IsUpper(s[i])
    ensures Lower(s) == s
  {
  }

  predicate StartsWith(s: string, prefix: string)
  {
    |prefix| <= |s| && s[..|prefix|] == prefix
  }

  /** `sub` occurs in `s` starting at index `i`. */
  predicate OccursAt(s: string, sub: string, i: int)
  {
    0 <= i && i + |sub| <= |s| && s[i..i + |sub|] == sub
  }

  /** Python's `sub in s`. */
  predicate Contains(s: string, sub: string)
  {
    exists i | 0 <= i <= |s| - |sub| :: OccursAt(s, sub, i)
  }

  /** A string contains itself inside any surrounding text. */
  lemma ContainsInside(a: string, sub: string, b: string)
    ensures Contains(a + sub + b, sub)
  {
    var s := a + sub + b;
    assert s[|a|..|a| + |sub|] == sub;
    assert OccursAt(s, sub, |a|);
  }

  /** `s.strip()`: the leading and trailing whitespace removed. */
  function Strip(s: string): (r: string)
    ensures |r| <= |s|
    ensures r != [] ==> !IsSpace(r[0]) && !IsSpace(r[|r| - 1])
    ensures exists i, j :: 0 <= i <= j <= |s| && r == s[i..j]
  {
    var l := StripLeft(s);
    var r := StripRight(l);
    var i := |s| - |l|;
    assert r == s[i..i + |r|];
    r
  }

  function StripLeft(s: string): (r: string)
    ensures |r| <= |s| && r == s[|s| - |r|..]
    ensures r != [] ==> !IsSpace(r[0])
    ensures forall k :: 0 <= k < |s| - |r| ==> IsSpace(s[k])
  {
    if s != [] && IsSpace(s[0]) then StripLeft(s[1..]) else s
  }

  function StripRight(s: string): (r: string)
    ensures |r| <= |s| && r == s[..|r|]
    ensures r != [] ==> !IsSpace(r[|r| - 1])
    ensures forall k :: |r| <= k < |s| ==> IsSpace(s[k])
  {
    if s != [] && IsSpace(s[|s| - 1]) then StripRight(s[..|s| - 1]) else s
  }

  /** Occurrences of `c` in `s`. */
  function Count(s: string, c: char): (r: nat)
    ensures r <= |s|
  {
    if s == [] then 0 else (if s[0] == c then 1 else 0) + Count(s[1..], c)
  }

  /** `s.split(sep)` for a one-character separator. */
  function Split(s: string, sep: char): (r: seq<string>)
    ensures |r| >= 1
    ensures forall k :: 0 <= k < |r| ==> sep !in r[k]
  {
    if s == [] then [""]
    else
      var rest := Split(s[1..], sep);
      if s[0] == sep then [""] + rest else [[s[0]] + rest[0]] + rest[1..]
  }

  /** `sep.join(parts)`: pieces free of the separator are split back out of the result. */
  function Join(parts: seq<string>, sep: char): (r: string)
    ensures parts != [] && (forall k :: 0 <= k < |parts| ==> sep !in parts[k]) ==> Split(r, sep) == parts
  {
    if parts == [] then ""
    else if |parts| == 1 then
      assert sep !in parts[0] ==> Split(parts[0], sep) == [parts[0]] by {
        if sep !in parts[0] {
          SplitNoSep(parts[0], sep);
        }
      }
      parts[0]
    else
      var rest := Join(parts[1..], sep);
      assert sep !in parts[0] ==> Split(parts[0] + [sep] + rest, sep) == [parts[0]] + Split(rest, sep) by {
        if sep !in parts[0] {
          SplitAfter(parts[0], rest, sep);
        }
      }
      assert [parts[0]] + parts[1..] == parts;
      parts[0] + [sep] + rest
  }

  /** A string without the separator is one piece. */
  lemma {:induction false} SplitNoSep(a: string, sep: char)
    requires sep !in a
    ensures Split(a, sep) == [a]
  {
    if a != [] {
      assert sep !in a[1..];
      SplitNoSep(a[1..], sep);
      assert a == [a[0]] + a[1..];
    }
  }

  /** A separator after a piece without one ends that piece. */
  lemma {:induction false} SplitAfter(a: string, b: string, sep: char)
    requires sep !in a
    ensures Split(a + [sep] + b, sep) == [a] + Split(b, sep)
  {
    var s := a + [sep] + b;
    if a == [] {
      assert s[0] == sep && s[1..] == b;
    } else {
      assert s[0] == a[0] && s[1..] == a[1..] + [sep] + b;
      assert sep !in a[1..];
      SplitAfter(a[1..], b, sep);
      assert a == [a[0]] + a[1..];
    }
  }

  /** Splitting gives one more piece than there are separators, and joining the pieces restores the string. */
  lemma {:induction false} SplitJoin(s: string, sep: char)
    ensures |Split(s, sep)| == Count(s, sep) + 1
    ensures Join(Split(s, sep), sep) == s
  {
    if s != [] {
      SplitJoin(s[1..], sep);
      var rest := Split(s[1..], sep);
      if s[0] == sep {
        assert Split(s, sep)[1..] == rest;
      } else {
        var r := Split(s, sep);
        assert r[1..] == rest[1..];
        if |rest| == 1 {
          assert Join(r, sep) == [s[0]] + rest[0];
        } else {
          assert Join(r, sep) == [s[0]] + rest[0] + [sep] + Join(rest[1..], sep);
        }
        assert s == [s[0]] + s[1..];
      }
    }
  }

  /**
   * `s.replace(pat, rep)`: every non-overlapping occurrence, left to right.
   * A replacement as long as the pattern keeps the length.
   */
  function ReplaceAll(s: string, pat: string, rep: string): (r: string)
    requires pat != []
    ensures |pat| == |rep| ==> |r| == |s|
    decreases |s|
  {
    if s == [] then []
    else if StartsWith(s, pat) then rep + ReplaceAll(s[|pat|..], pat, rep)
    else [s[0]] + ReplaceAll(s[1..], pat, rep)
  }

  /** Without an occurrence there is nothing to replace. */
  lemma {:induction false} ReplaceAbsent(s: string, pat: string, rep: string)
    requires pat != [] && !Contains(s, pat)
    ensures ReplaceAll(s, pat, rep) == s
    decreases |s|
  {
    if s != [] {
      assert !OccursAt(s, pat, 0);
      ContainsTail(s, pat);
      ReplaceAbsent(s[1..], pat, rep);
    }
  }

  /** An occurrence in the tail is an occurrence in the whole string. */
  lemma ContainsTail(s: string, sub: string)
    requires s != []
    ensures Contains(s[1..], sub) ==> Contains(s, sub)
  {
    if Contains(s[1..], sub) {
      var i :| 0 <= i <= |s[1..]| - |sub| && OccursAt(s[1..], sub, i);
      assert s[1..][i..i + |sub|] == s[i + 1..i + 1 + |sub|];
      assert OccursAt(s, sub, i + 1);
    }
  }

  /** A leading occurrence becomes a leading replacement. */
  lemma ReplaceLeading(s: string, pat: string, rep: string)
    requires pat != [] && StartsWith(s, pat)
    ensures StartsWith(ReplaceAll(s, pat, rep), rep)
  {
  }

  function DigitChar(d: nat): (r: char)
    requires d < 10
    ensures IsDigit(r)
  {
    ('0' as int + d) as char
  }

  /** `str(n)` for a natural number: decimal digits, no leading zero. */
  function NatToString(n: nat): (r: string)
    ensures |r| >= 1
    ensures forall i :: 0 <= i < |r| ==> IsDigit(r[i])
    ensures |r| > 1 ==> r[0] != '0'
    ensures n < 10 ==> |r| == 1
    ensures 10 <= n < 100 ==> |r| == 2
    decreases n
  {
    if n < 10 then [DigitChar(n)] else NatToString(n / 10) + [DigitChar(n % 10)]
  }

  /** The value of a string of decimal digits. */
  function DigitsValue(s: string): nat
    requires forall i :: 0 <= i < |s| ==> IsDigit(s[i])
  {
    if s == [] then 0
    else
      assert IsDigit(s[|s| - 1]);
      10 * DigitsValue(s[..|s| - 1]) + (s[|s| - 1] as int - '0' as int)
  }

  /** Reading back the digits gives the number: formatting is injective. */
  lemma {:induction false} NatToStringRoundTrip(n: nat)
    ensures DigitsValue(NatToString(n)) == n
    decreases n
  {
    if n >= 10 {
      NatToStringRoundTrip(n / 10);
      var s := NatToString(n);
      assert s[..|s| - 1] == NatToString(n / 10);
    }
  }

  /** `str(n)` for an integer: its decimal digits, after a '-' when it is negative. */
  function IntToString(n: int): (r: string)
    ensures |r| >= 1 && (r[0] == '-' <==> n < 0)
    ensures n >= 0 ==> (forall i :: 0 <= i < |r| ==> IsDigit(r[i])) && DigitsValue(r) == n
    ensures n < 0 ==> (forall i :: 1 <= i < |r| ==> IsDigit(r[i])) && DigitsValue(r[1..]) == -n
  {
    if n < 0 then
      NatToStringRoundTrip(-n);
      assert ("-" + NatToString(-n))[1..] == NatToString(-n);
      "-" + NatToString(-n)
    else
      NatToStringRoundTrip(n);
      NatToString(n)
  }

  /** `f"{n:02d}"` for a natural number. */
  function Pad2(n: nat): (r: string)
    ensures forall i :: 0 <= i < |r| ==> IsDigit(r[i])
    ensures n < 100 ==> |r| == 2
  {
    if n < 10 then "0" + NatToString(n) else NatToString(n)
  }

  /** `f"{year}-{month:02d}"`: the month key used for journal limits. */
  function MonthKey(year: nat, month: nat): (r: string)
    requires 1 <= month <= 12
    ensures |r| >= 4 && r[|r| - 3] == '-'
  {
    NatToString(year) + "-" + Pad2(month)
  }

  /** Distinct months have distinct keys. */
  lemma MonthKeyInjective(y1: nat, m1: nat, y2: nat, m2: nat)
    requires 1 <= m1 <= 12 && 1 <= m2 <= 12
    requires MonthKey(y1, m1) == MonthKey(y2, m2)
    ensures y1 == y2 && m1 == m2
  {
    var k := MonthKey(y1, m1);
    var n := |k| - 3;
    assert NatToString(y1) == k[..n] == NatToString(y2);
    NatToStringRoundTrip(y1);
    NatToStringRoundTrip(y2);
    assert Pad2(m1) == k[n + 1..] == Pad2(m2);
    PadValue(m1);
    PadValue(m2);
  }

  /** The two padded digits read back as the month. */
  lemma PadValue(m: nat)
    requires 1 <= m <= 12
    ensures DigitsValue(Pad2(m)) == m
  {
    var p := Pad2(m);
    NatToStringRoundTrip(m);
    if m < 10 {
      assert p[..1] == "0";
    }
  }
}

=== FILE: validators.dfy ===
/**
 * The input validators.  The email pattern's character classes are
 * ASCII; the password's are Python's Unicode ones, given as a parameter;
 * `today` is a day ordinal passed in.
 */
module Validators {
  import opened Wrappers
  import opened Text

  /** The `ValidationError` raised: the field and the message. */
  datatype Invalid = Invalid(field: string, message: string)

  // ---------------------------------------------------------------- password

  const PASSWORD_TOO_SHORT := Invalid("password", "Password must be at least 8 characters long")
  const PASSWORD_NO_UPPER := Invalid("password", "Password must contain at least one uppercase letter")
  const PASSWORD_NO_LOWER := Invalid("password", "Password must contain at least one lowercase letter")
  const PASSWORD_NO_DIGIT := Invalid("password", "Password must contain at least one number")

  /**
   * One character's `str.isupper`, `str.islower` and `str.isdigit`.
   * Python defines them over the whole of Unicode ("Ä" is upper-case, "٣"
   * a digit), so the validator takes them as given.
   */
  datatype CharClasses = CharClasses(isUpper: char -> bool, isLower: char -> bool, isDigit: char -> bool)

  /** No character is in two of the classes, as holds for Python's. */
  predicate Disjoint(cls: CharClasses)
  {
    forall c :: !(cls.isUpper(c) && cls.isLower(c)) && !(cls.isUpper(c) && cls.isDigit(c)) &&
      !(cls.isLower(c) && cls.isDigit(c))
  }

  /** The ASCII part of the classes. */
  const ASCII_CLASSES: CharClasses := CharClasses(c => IsUpper(c), c => IsLower(c), c => IsDigit(c))

  predicate HasUpper(s: string, cls: CharClasses) { exists i | 0 <= i < |s| :: cls.isUpper(s[i]) }
  predicate HasLower(s: string, cls: CharClasses) { exists i | 0 <= i < |s| :: cls.isLower(s[i]) }
  predicate HasDigit(s: string, cls: CharClasses) { exists i | 0 <= i < |s| :: cls.isDigit(s[i]) }

  /** `validate_password`: the checks in order, the first failing one reported. */
  function ValidatePassword(password: string, cls: CharClasses): (r: Result<string, Invalid>)
    ensures r.Ok? <==> |password| >= 8 && HasUpper(password, cls) && HasLower(password, cls) && HasDigit(password, cls)
    ensures r.Ok? ==> r.value == password
    ensures r == Err(PASSWORD_TOO_SHORT) <==> |password| < 8
    ensures r == Err(PASSWORD_NO_UPPER) <==> |password| >= 8 && !HasUpper(password, cls)
    ensures r == Err(PASSWORD_NO_LOWER) <==> |password| >= 8 && HasUpper(password, cls) && !HasLower(password, cls)
    ensures r == Err(PASSWORD_NO_DIGIT) <==>
      |password| >= 8 && HasUpper(password, cls) && HasLower(password, cls) && !HasDigit(password, cls)
  {
    if |password| < 8 then Err(PASSWORD_TOO_SHORT)
    else if !HasUpper(password, cls) then Err(PASSWORD_NO_UPPER)
    else if !HasLower(password, cls) then Err(PASSWORD_NO_LOWER)
    else if !HasDigit(password, cls) then Err(PASSWORD_NO_DIGIT)
    else Ok(password)
  }

  /**
   * With disjoint classes, an accepted password has at least three
   * distinct positions: an upper-case letter, a lower-case letter and a
   * digit.
   */
  lemma AcceptedPasswordMixes(password: string, cls: CharClasses)
    requires Disjoint(cls)
    requires ValidatePassword(password, cls).Ok?
    ensures exists i, j, k ::
      (0 <= i < |password| && 0 <= j < |password| && 0 <= k < |password| &&
       i != j && j != k && i != k && cls.isUpper(password[i]) && cls.isLower(password[j]) && cls.isDigit(password[k]))
  {
    var i :| 0 <= i < |password| && cls.isUpper(password[i]);
    var j :| 0 <= j < |password| && cls.isLower(password[j]);
    var k :| 0 <= k < |password| && cls.isDigit(password[k]);
    assert i != j && j != k && i != k;
  }

  /**
   * The ASCII classes are disjoint, and an upper-case letter outside ASCII
   * is what they miss: "Ébcdefg1" is refused for want of an upper-case
   * letter, which Python's `isupper` finds in its first character.
   */
  lemma AsciiClasses()
    ensures Disjoint(ASCII_CLASSES)
    ensures ValidatePassword("abcdefg1", ASCII_CLASSES) == Err(PASSWORD_NO_UPPER)
    ensures ValidatePassword("Abcdefg1", ASCII_CLASSES) == Ok("Abcdefg1")
    ensures ValidatePassword("\U{C9}bcdefg1", ASCII_CLASSES) == Err(PASSWORD_NO_UPPER)
  {
    var u := "\U{C9}bcdefg1";
    assert forall i | 0 <= i < |u| :: !ASCII_CLASSES.isUpper(u[i]);
    var s := "Abcdefg1";
    assert ASCII_CLASSES.isUpper(s[0]) && ASCII_CLASSES.isLower(s[1]) && ASCII_CLASSES.isDigit(s[7]);
    var t := "abcdefg1";
    assert forall i | 0 <= i < |t| :: !ASCII_CLASSES.isUpper(t[i]);
  }

  // ------------------------------------------------------------- audio files

  const AUDIO_FORMATS: seq<string> := ["mp3", "wav", "m4a", "ogg"]

  const FILENAME_REQUIRED := Invalid("audio_file", "Filename is required")
  const UNSUPPORTED_FORMAT := Invalid("audio_file", "Unsupported audio format. Allowed: mp3, wav, m4a, ogg")

  /** The last piece of `s.split(sep)`: the text after the last separator, or all of `s` without one. */
  lemma {:induction false} SplitLast(s: string, sep: char)
    ensures var r := Split(s, sep); var last := r[|r| - 1];
      |last| <= |s| && last == s[|s| - |last|..] &&
      (sep in s ==> |last| < |s| && s[|s| - |last| - 1] == sep) &&
      (sep !in s ==> last == s)
  {
    if s != [] {
      SplitLast(s[1..], sep);
      var rest := Split(s[1..], sep);
      var r := Split(s, sep);
      if s[0] == sep {
        assert r == [""] + rest;
        assert r[|r| - 1] == rest[|rest| - 1];
      } else {
        assert r == [[s[0]] + rest[0]] + rest[1..];
        if |rest| == 1 {
          assert sep !in s[1..] by {
            SplitJoin(s[1..], sep);
            CountZero(s[1..], sep);
          }
          assert r[|r| - 1] == [s[0]] + s[1..];
        } else {
          assert r[|r| - 1] == rest[|rest| - 1];
          assert sep in s[1..] by {
            SplitJoin(s[1..], sep);
            CountPositive(s[1..], sep);
          }
        }
      }
    }
  }

  lemma {:induction false} CountZero(s: string, c: char)
    requires Count(s, c) == 0
    ensures c !in s
  {
    if s != [] {
      CountZero(s[1..], c);
    }
  }

  lemma {:induction false} CountPositive(s: string, c: char)
    requires Count(s, c) > 0
    ensures c in s
  {
    if s[0] != c {
      CountPositive(s[1..], c);
    }
  }

  /** `filename.split(".")[-1]`. */
  function Extension(filename: string): (r: string)
    ensures '.' !in r && |r| <= |filename| && r == filename[|filename| - |r|..]
    ensures '.' in filename ==> |r| < |filename| && filename[|filename| - |r| - 1] == '.'
    ensures '.' !in filename ==> r == filename
  {
    SplitLast(filename, '.');
    var pieces := Split(filename, '.');
    pieces[|pieces| - 1]
  }

  /** `validate_audio_format`: the lower-cased extension when it is an allowed format. */
  function ValidateAudioFormat(filename: string): (r: Result<string, Invalid>)
    ensures r == Err(FILENAME_REQUIRED) <==> filename == ""
    ensures r.Ok? <==> filename != "" && Lower(Extension(filename)) in AUDIO_FORMATS
    ensures r.Ok? ==> r.value == Lower(Extension(filename)) && r.value in AUDIO_FORMATS
  {
    if filename == "" then Err(FILENAME_REQUIRED)
    else
      var ext := Lower(Extension(filename));
      if ext in AUDIO_FORMATS then Ok(ext) else Err(UNSUPPORTED_FORMAT)
  }

  /** The extension of `prefix.ext` is `ext` whatever the prefix holds, dots included. */
  lemma ExtensionAfterLastDot(prefix: string, ext: string)
    requires '.' !in ext
    ensures Extension(prefix + "." + ext) == ext
  {
    var f := prefix + "." + ext;
    var r := Extension(f);
    assert f[|f| - |ext| - 1] == '.';
    assert forall j :: |f| - |ext| <= j < |f| ==> f[j] == ext[j - (|f| - |ext|)];
    assert ext == f[|f| - |ext|..];
    DotFreeSuffix(f, r);
    DotFreeSuffix(f, ext);
  }

  /** No position inside a dot-free suffix holds a dot. */
  lemma DotFreeSuffix(f: string, t: string)
    requires |t| <= |f| && t == f[|f| - |t|..] && '.' !in t
    ensures forall p :: |f| - |t| <= p < |f| ==> f[p] != '.'
  {
    forall p | |f| - |t| <= p < |f|
      ensures f[p] != '.'
    {
      assert f[p] == t[p - (|f| - |t|)];
    }
  }

  /**
   * A file `prefix.ext` is accepted exactly when `ext` names a format in
   * any letter case, and the format is returned in lower case; a name
   * without a dot is read as a bare extension.
   */
  lemma AudioFormatOfName(prefix: string, ext: string)
    requires '.' !in ext
    ensures ValidateAudioFormat(prefix + "." + ext) ==
      (if Lower(ext) in AUDIO_FORMATS then Ok(Lower(ext)) else Err(UNSUPPORTED_FORMAT))
    ensures ext != "" ==>
      ValidateAudioFormat(ext) == (if Lower(ext) in AUDIO_FORMATS then Ok(Lower(ext)) else Err(UNSUPPORTED_FORMAT))
  {
    ExtensionAfterLastDot(prefix, ext);
  }

  // --------------------------------------------------------------- file size

  /** `validate_file_size`: too large iff strictly over the limit in mebibytes. */
  function ValidateFileSize(sizeBytes: int, maxSizeMb: int, fieldName: string): (r: Result<(), Invalid>)
    ensures r.Err? <==> sizeBytes > maxSizeMb * 1024 * 1024
    ensures r.Err? ==> r.error.field == fieldName
  {
    if sizeBytes > maxSizeMb * 1024 * 1024 then
      Err(Invalid(fieldName, "File too large. Maximum size is " + IntToString(maxSizeMb) + "MB"))
    else Ok(())
  }

  /** The limit itself is accepted, and anything smaller than an accepted size is accepted. */
  lemma FileSizeMonotone(size: int, smaller: int, maxSizeMb: int, fieldName: string)
    requires ValidateFileSize(size, maxSizeMb, fieldName).Ok? && smaller <= size
    ensures ValidateFileSize(smaller, maxSizeMb, fieldName).Ok?
    ensures ValidateFileSize(maxSizeMb * 1048576, maxSizeMb, fieldName).Ok?
    ensures ValidateFileSize(maxSizeMb * 1048576 + 1, maxSizeMb, fieldName).Err?
  {
  }

  // -------------------------------------------------------------------- date

  /** `validate_date_not_future`: rejected iff after today. */
  function ValidateDateNotFuture(date: int, today: int, fieldName: string): (r: Result<(), Invalid>)
    ensures r.Err? <==> date > today
    ensures r.Err? ==> r.error == Invalid(fieldName, "Date cannot be in the future")
  {
    if date > today then Err(Invalid(fieldName, "Date cannot be in the future")) else Ok(())
  }

  // ------------------------------------------------------------------- email

  /** The pattern's three character classes. */
  predicate LocalChar(c: char) { IsLetter(c) || IsDigit(c) || c == '.' || c == '_' || c == '%' || c == '+' || c == '-' }
  predicate DomainChar(c: char) { IsLetter(c) || IsDigit(c) || c == '.' || c == '-' }

  predicate AllLocal(t: string) { forall i :: 0 <= i < |t| ==> LocalChar(t[i]) }
  predicate AllDomain(t: string) { forall i :: 0 <= i < |t| ==> DomainChar(t[i]) }
  predicate AllLetters(t: string) { forall i :: 0 <= i < |t| ==> IsLetter(t[i]) }

  /**
   * The whole string matches `[a-zA-Z0-9._%+-]+@[a-zA-Z0-9.-]+\.[a-zA-Z]{2,}`:
   * a local part, '@' at `a`, a domain, '.' at `d`, and at least two letters.
   */
  ghost predicate EmailShape(s: string)
  {
    exists a, d :: 0 < a && a + 1 < d && d + 3 <= |s| && s[a] == '@' && s[d] == '.' &&
      AllLocal(s[..a]) && AllDomain(s[a + 1..d]) && AllLetters(s[d + 1..])
  }

  /** The first position of `c`. */
  function FirstIndex(s: string, c: char): (r: Option<nat>)
    ensures r.Some? ==> r.value < |s| && s[r.value] == c && forall j :: 0 <= j < r.value ==> s[j] != c
    ensures r.None? ==> c !in s
  {
    if s == [] then None
    else if s[0] == c then Some(0)
    else
      var k := FirstIndex(s[1..], c);
      if k.Some? then Some(k.value + 1) else None
  }

  /** The last position of `c`. */
  function LastIndex(s: string, c: char): (r: Option<nat>)
    ensures r.Some? ==> r.value < |s| && s[r.value] == c && forall j :: r.value < j < |s| ==> s[j] != c
    ensures r.None? ==> c !in s
  {
    if s == [] then None
    else if s[|s| - 1] == c then Some(|s| - 1)
    else LastIndex(s[..|s| - 1], c)
  }

  /** The pattern decided: split at the first '@' and the last '.'; whatever it accepts has the pattern's shape. */
  function MatchesEmail(s: string): (r: bool)
    ensures r ==> EmailShape(s)
  {
    var a := FirstIndex(s, '@');
    var d := LastIndex(s, '.');
    var r := a.Some? && d.Some? && 0 < a.value && a.value + 1 < d.value && d.value + 3 <= |s| &&
      AllLocal(s[..a.value]) && AllDomain(s[a.value + 1..d.value]) && AllLetters(s[d.value + 1..]);
    assert r ==> EmailShape(s) by {
      if r {
        assert s[a.value] == '@' && s[d.value] == '.';
      }
    }
    r
  }

  /** The decision agrees with the pattern: the local part holds no '@' and the top-level domain no '.'. */
  lemma MatchesEmailIff(s: string)
    ensures MatchesEmail(s) <==> EmailShape(s)
  {
    if MatchesEmail(s) {
      var a := FirstIndex(s, '@').value;
      var d := LastIndex(s, '.').value;
      assert 0 < a && a + 1 < d && d + 3 <= |s| && s[a] == '@' && s[d] == '.' &&
        AllLocal(s[..a]) && AllDomain(s[a + 1..d]) && AllLetters(s[d + 1..]);
    }
    if EmailShape(s) {
      var a, d :| 0 < a && a + 1 < d && d + 3 <= |s| && s[a] == '@' && s[d] == '.' &&
        AllLocal(s[..a]) && AllDomain(s[a + 1..d]) && AllLetters(s[d + 1..]);
      FirstIndexAt(s, a);
      LastIndexAt(s, d);
    }
  }

  /** An '@' after a local part is the first '@'. */
  lemma FirstIndexAt(s: string, a: nat)
    requires a < |s| && s[a] == '@' && AllLocal(s[..a])
    ensures FirstIndex(s, '@') == Some(a)
  {
    assert forall j :: 0 <= j < a ==> s[j] == s[..a][j];
    assert s[a] in s;
  }

  /** A '.' before a run of letters is the last '.'. */
  lemma LastIndexAt(s: string, d: nat)
    requires d < |s| && s[d] == '.' && AllLetters(s[d + 1..])
    ensures LastIndex(s, '.') == Some(d)
  {
    assert forall j :: d < j < |s| ==> s[j] == s[d + 1..][j - d - 1];
    assert s[d] in s;
  }

  const INVALID_EMAIL := Invalid("email", "Invalid email format")

  /**
   * `validate_email` as written: `re.match` with a final `$`, which also
   * matches just before a trailing newline.  The email is returned lower-cased.
   */
  function ValidateEmail(email: string): (r: Result<string, Invalid>)
    ensures r.Ok? <==> EmailShape(email) || (email != [] && email[|email| - 1] == '\n' && EmailShape(email[..|email| - 1]))
    ensures r.Ok? ==> r.value == Lower(email)
    ensures r.Err? ==> r.error == INVALID_EMAIL
  {
    MatchesEmailIff(email);
    MatchesEmailIff(if email != [] then email[..|email| - 1] else email);
    if MatchesEmail(email) || (email != [] && email[|email| - 1] == '\n' && MatchesEmail(email[..|email| - 1])) then
      Ok(Lower(email))
    else Err(INVALID_EMAIL)
  }

  /**
   * As written, any valid address followed by a newline is accepted and
   * returned with the newline; the exact check refuses it.
   */
  lemma TrailingNewlineAccepted(email: string)
    requires EmailShape(email)
    ensures ValidateEmail(email + "\n") == Ok(Lower(email + "\n"))
    ensures ValidateEmailExact(email + "\n").Err?
  {
    var s := email + "\n";
    assert s[..|s| - 1] == email;
    forall d | 0 <= d && d + 3 <= |s| && s[d] == '.' && AllLetters(s[d + 1..])
      ensures IsLetter(s[|s| - 1])
    {
      assert s[|s| - 1] == s[d + 1..][|s| - d - 2];
    }
  }

  /** `validate_email` as intended: the whole string must match, so nothing outside the classes is let through. */
  function ValidateEmailExact(email: string): (r: Result<string, Invalid>)
    ensures r.Ok? <==> EmailShape(email)
    ensures r.Ok? ==> r.value == Lower(email)
    ensures r.Err? ==> r.error == INVALID_EMAIL
  {
    MatchesEmailIff(email);
    if MatchesEmail(email) then Ok(Lower(email)) else Err(INVALID_EMAIL)
  }

  /** A string of the pattern's shape holds no newline and no '@' besides the one at `a`. */
  lemma ShapeChars(s: string, a: nat, d: nat)
    requires a < d < |s| && AllLocal(s[..a]) && AllDomain(s[a + 1..d]) && AllLetters(s[d + 1..])
    requires s[a] == '@' && s[d] == '.'
    ensures forall j :: 0 <= j < |s| ==> s[j] != '\n' && (j != a ==> s[j] != '@')
  {
    forall j | 0 <= j < |s|
      ensures s[j] != '\n' && (j != a ==> s[j] != '@')
    {
      if j < a {
        assert s[j] == s[..a][j];
      } else if a < j < d {
        assert s[j] == s[a + 1..d][j - a - 1];
      } else if d < j {
        assert s[j] == s[d + 1..][j - d - 1];
      }
    }
  }

  /** An address accepted by the exact check holds exactly one '@' and no newline, lower-cased or not. */
  lemma ExactEmailClean(email: string)
    requires ValidateEmailExact(email).Ok?
    ensures '\n' !in email && '\n' !in ValidateEmailExact(email).value
    ensures Count(email, '@') == 1
  {
    MatchesEmailIff(email);
    var a := FirstIndex(email, '@').value;
    var d := LastIndex(email, '.').value;
    ShapeChars(email, a, d);
    CountOne(email, '@', a);
  }

  /** A character at exactly one position occurs once. */
  lemma {:induction false} CountOne(s: string, c: char, k: nat)
    requires k < |s| && s[k] == c && forall j :: 0 <= j < |s| && j != k ==> s[j] != c
    ensures Count(s, c) == 1
  {
    if k == 0 {
      CountAbsent(s[1..], c);
    } else {
      CountOne(s[1..], c, k - 1);
    }
  }

  lemma {:induction false} CountAbsent(s: string, c: char)
    requires c !in s
    ensures Count(s, c) == 0
  {
    if s != [] {
      CountAbsent(s[1..], c);
    }
  }
}

=== FILE: wrappers.dfy ===
/** Optional values and results with an error channel, shared by every module. */
module Wrappers {

  datatype Option<T> = None | Some(value: T)
  {
    function GetOr(default: T): (r: T)
      ensures this.Some? ==> r == this.value
      ensures this.None? ==> r == default
    {
      match this
      case Some(v) => v
      case None => default
    }
  }

  datatype Result<T, E> = Ok(value: T) | Err(error: E)
}
